=== FILE: README.md ===
# Vulkit core, modelled in Dafny

Vulkit is a thin C++ layer over Vulkan. It has three parts, and this project models the decision logic of each:

- **The Vulkan loader generator** (`codegen/cpp/vkloader.py`). It compiles the Khronos `vk.xml` registry into a C++ function loader. Its steps are:
  - parse types, commands, features and extensions into a registry;
  - sweep aliases;
  - attach availability guards (API version or extension macros, or-joined and and-joined);
  - classify commands as global, instance-level or device-level;
  - build the per-version timeline of core commands.
- **The C++ emitter** (`codegen/cpp/generator.py`), which the loader generator writes through: indentation, scopes, guard blocks, doc comments and de-duplicated lines.
- **The Vulkit library** (`vulkit/vkit/...`). It covers:
  - the instance and system (extension and layer lookup, the deletion queue, result names);
  - physical-device selection and logical-device creation;
  - queues with timeline counters;
  - swap-chain configuration;
  - images, buffers and host buffers;
  - render passes, graphics pipelines and descriptor set layouts.
- **The build helpers** (`setup/cmake_scanner.py` and `setup/build.py`). They turn the `option(...)` lines of CMake files into command-line flags and turn an ini section of overrides into CMake `-D` definitions.

Vulkan, VMA and the operating system are outside the model. Each call into them becomes a parameter of the method that makes it: the driver's answer, the allocator's result and the handle it returns. The C++ classes whose methods update their fields are Dafny classes with `modifies` frames. The generator's pure passes are functions over datatypes, and each is paired with a lemma that states what the pass guarantees.

Modules:

- `Wrappers`: `Result` and `Option`
- `Text`: the string operations the scripts use (strip, split, prefix and suffix removal, index search, decimal printing)
- `OrderedDict`: Python's insertion-ordered `dict`
- `VkCommon`: the Vulkan result codes, the error type the library returns, and the first-supported-preference search
- `CppGenerator`: `generator.py`
- `VkLoaderRegistry`: `vkloader.py`, the parameter, function and type entries, parameter-declaration parsing, command classification into the global, instance and device tables, and the timeline text
- `VkLoaderGuards`: `vkloader.py`, availability guards and their text, the version-macro rewrite and the API-variant filter
- `VkLoaderPasses`: `vkloader.py`, dispatchable-handle collection, the type and command passes and their alias sweeps
- `VkLoaderAvailability`: `vkloader.py`, the feature pass and the extension pass, which attach versions and guard groups
- `VkSystem`: `vulkan/system.cpp`
- `Instances`: `vulkan/instance.cpp`
- `PhysicalDevices`: `device/physical_device.cpp`
- `LogicalDevices`: `device/logical_device.cpp`
- `VkQueue`: `execution/queue.cpp`
- `SwapChains`: `presentation/swap_chain.cpp`
- `Images`: `resource/image.cpp`
- `Buffers`: `resource/buffer.cpp`
- `HostBuffers`: `resource/host_buffer.cpp`
- `RenderPasses`: `state/render_pass.cpp`
- `GraphicsPipelines`: `state/graphics_pipeline.cpp`
- `DescriptorSetLayouts`: `state/descriptor_set_layout.cpp`
- `CMakeScanner`: `setup/cmake_scanner.py`
- `BuildScript`: `setup/build.py`

A command counts as dispatchable when its first parameter is a dispatchable handle (`vkloader.py`, lines 358-360); later parameters are not looked at.

## Model

| member | source | states |
|---|---|---|
| CppGenerator.Spaces | codegen/cpp/generator.py:23 | `" " * n` has exactly `n` characters for positive `n`, none otherwise, and each is a space |
| CppGenerator.RenderedParts | codegen/cpp/generator.py:23-25 | an emitted line is the indentation spaces, then the ` * ` prefix when in a doc block, then the line, then one newline, each at its position |
| CppGenerator.RenderedContains | codegen/cpp/generator.py:25 | after a line is appended the code contains that line |
| CppGenerator.CommentLines | codegen/cpp/generator.py:37-40 | a comment emits one `// ` line per newline-separated part, in order |
| CppGenerator.Generator.constructor | codegen/cpp/generator.py:14-17 | the code starts empty, at indentation 0, outside any doc block |
| CppGenerator.Generator.Emit | codegen/cpp/generator.py:19-25 | a unique line already in the code is skipped; otherwise the line is appended with the given or the current indentation and the doc prefix; either way the code then contains the line, and the indentation and doc state are unchanged |
| CppGenerator.Generator.Line | codegen/cpp/generator.py:19-25 | a plain call appends exactly one rendered line at the current indentation and doc state, and changes neither |
| CppGenerator.Generator.Disclaimer | codegen/cpp/generator.py:31-32 | the generated-code banner naming the script is in the code afterwards, added only if it was not there before |
| CppGenerator.Generator.Include | codegen/cpp/generator.py:34-35 | the `#include "h"` or `#include <h>` directive is in the code afterwards, added only if it was not there before |
| CppGenerator.Generator.Comment | codegen/cpp/generator.py:37-40 | the appended lines are exactly the `// ` lines of the message's parts, in order |
| CppGenerator.Generator.DocLine | codegen/cpp/generator.py:114-116 | outside a doc block the call fails and appends nothing; inside it appends one ` * ` line |
| CppGenerator.Generator.Brief | codegen/cpp/generator.py:42-45 | in a doc block, appends `@brief msg` and an empty doc line; outside one it fails with the code unchanged |
| CppGenerator.Generator.Param | codegen/cpp/generator.py:47-49 | in a doc block, appends `@param name msg`; outside one it fails with the code unchanged |
| CppGenerator.Generator.TParam | codegen/cpp/generator.py:51-53 | in a doc block, appends `@tparam name msg`; outside one it fails with the code unchanged |
| CppGenerator.Generator.Ret | codegen/cpp/generator.py:55-57 | in a doc block, appends `@return msg`; outside one it fails with the code unchanged |
| CppGenerator.Generator.DocOpen | codegen/cpp/generator.py:60-63 | `/**` is written with the prefix state from before the block, then the doc block starts |
| CppGenerator.Generator.DocClose | codegen/cpp/generator.py:65-67 | the doc block ends first, so ` */` is written without the ` * ` prefix |
| CppGenerator.Generator.Spacing | codegen/cpp/generator.py:69-71 | exactly `n` empty lines are appended (none for `n <= 0`) and the earlier lines are kept |
| CppGenerator.Generator.ScopeOpen | codegen/cpp/generator.py:84-89 | the name and the opener are written at the old indentation when present, then the indentation rises by `indent` |
| CppGenerator.Generator.ScopeClose | codegen/cpp/generator.py:91-94 | the indentation drops by `indent` before the closer is written, so the closer sits at the outer level |
| CppGenerator.GuardIfNeeded | codegen/cpp/vkloader.py:501-513 | an empty guard appends the text alone; a non-empty one wraps it in `#if guard` and `#endif`, both at column zero |
| HostBuffers.Spliced | vulkit/vkit/resource/host_buffer.cpp:22-24 | a copy into the buffer keeps its length, puts the copied bytes at the destination offset and leaves every other byte alone |
| HostBuffers.SplicedSame | vulkit/vkit/resource/host_buffer.cpp:22-24 | copying a range of the buffer onto itself changes nothing |
| HostBuffers.SplicedTwice | vulkit/vkit/resource/host_buffer.cpp:22-24 | a second copy over the same range wipes out the first |
| HostBuffers.WriteFitsMeans | vulkit/vkit/resource/host_buffer.cpp:15-20 | the bound the write assertion intends holds exactly when the resolved copy length is non-negative and ends inside the buffer |
| HostBuffers.WholeSizeOffsetSlipsThrough | vulkit/vkit/resource/host_buffer.cpp:15-20 | with `VK_WHOLE_SIZE`, destination offset 8 and a 4-byte buffer, the wrapped 64-bit assertion passes although the copy does not fit |
| HostBuffers.WriteAssertAgrees | vulkit/vkit/resource/host_buffer.cpp:15-20 | when nothing wraps around, the assertion as written and the intended bound agree |
| HostBuffers.ForwardCopy | vulkit/vkit/resource/host_buffer.cpp:24 | the `n` source bytes land at the destination offset and nothing else in the array changes |
| HostBuffers.SplicedAt | vulkit/vkit/resource/host_buffer.cpp:22-24 | bytes that agree position by position with a copy's result are that result |
| HostBuffers.HostBuffer.constructor | vulkit/vkit/resource/host_buffer.cpp:6-11 | the buffer holds `count * instanceSize` fresh bytes and records both factors |
| HostBuffers.HostBuffer.Write | vulkit/vkit/resource/host_buffer.cpp:13-25 | the buffer afterwards is the old one with the resolved number of source bytes, from the source offset, copied to the destination offset |
| HostBuffers.HostBuffer.WriteFrom | vulkit/vkit/resource/host_buffer.cpp:27-31 | copying out of another buffer takes `VK_WHOLE_SIZE` to mean the rest of that buffer after the source offset, then copies as `Write` does |
| HostBuffers.HostBuffer.WriteAt | vulkit/vkit/resource/host_buffer.cpp:33-40 | instance `index` lies inside the buffer and is overwritten with the first `instanceSize` source bytes; nothing else changes |
| HostBuffers.HostBuffer.Resize | vulkit/vkit/resource/host_buffer.cpp:42-50 | the buffer is a fresh allocation of `count` instances holding the bytes old and new sizes share; the count and size are updated and the instance size is kept |
| HostBuffers.HostBuffer.Destroy | vulkit/vkit/resource/host_buffer.cpp:52-56 | the buffer is released and its sizes are kept |
| HostBuffers.FromBufferLength | vulkit/vkit/resource/host_buffer.cpp:29 | `VK_WHOLE_SIZE` resolves to the bytes left after the source offset; any other size is kept |
| HostBuffers.InstanceInside | vulkit/vkit/resource/host_buffer.cpp:35-39 | an in-bounds instance index addresses bytes inside the buffer |
| HostBuffers.ResizedContents | vulkit/vkit/resource/host_buffer.cpp:42-50 | a resized buffer has the new size, the common prefix of the old bytes, and zeros after the old end |
| HostBuffers.CopyResized | vulkit/vkit/resource/host_buffer.cpp:44-46 | the fresh allocation holds exactly the resized contents |
| HostBuffers.ResizedIsSpliced | vulkit/vkit/resource/host_buffer.cpp:44-46 | copying the shared bytes over zeros gives the resized contents |
| HostBuffers.ResizeCopyFits | vulkit/vkit/resource/host_buffer.cpp:46 | the copy as written (the old size) fits the new allocation exactly when the buffer does not shrink; shrinking 8 bytes to 4 overruns it |
| VkCommon.FirstSupported | vulkit/vkit/presentation/swap_chain.cpp:20-28 | the answer is absent exactly when no requested value is supported; otherwise it is supported and is the earliest requested value that is |
| VkQueue.ToStringDistinct | vulkit/vkit/execution/queue.cpp:6-22 | only the `Count` sentinel prints as "Unknown", and the four real queue types print under four different names |
| VkQueue.Queue.constructor | vulkit/vkit/execution/queue.cpp:24-35 | a new queue keeps the given timeline semaphore and starts with every counter at 0 |
| VkQueue.Queue.Submit | vulkit/vkit/execution/queue.cpp:46-77 | `Submit` and `Submit2`: with the counter not ahead of the submissions the call fails with `BadSynchronization`; a failing driver call returns its code; only a successful submission sets the submissions to the counter, and nothing else changes |
| VkQueue.Queue.UpdateCompletedTimeline | vulkit/vkit/execution/queue.cpp:24-35 | without a timeline semaphore the call fails with `MissingFeature` and writes nothing; otherwise the counter value is stored, and it is returned unless the query failed |
| VkQueue.SubmitTwice | vulkit/vkit/execution/queue.cpp:46-59 | two submissions without a new timeline value in between: if the first succeeds the second fails with `BadSynchronization`, and the submissions counter never decreases |
| DescriptorSetLayouts.NumberedDistinct | vulkit/vkit/state/descriptor_set_layout.cpp:33-34 | bindings numbered by insertion position never share a binding number |
| DescriptorSetLayouts.Builder.constructor | vulkit/vkit/state/descriptor_set_layout.cpp:30-40 | a builder starts with no bindings, numbered trivially |
| DescriptorSetLayouts.Builder.AddBinding | vulkit/vkit/state/descriptor_set_layout.cpp:30-40 | exactly one binding is appended, numbered by the count before it, with the given type, count and stages; the bindings stay numbered 0..n-1 in insertion order |
| DescriptorSetLayouts.Builder.Build | vulkit/vkit/state/descriptor_set_layout.cpp:7-20 | the create-info carries exactly the accumulated bindings and their count; a failing driver call returns its code, a successful one a live layout keeping those numbered bindings |
| DescriptorSetLayouts.DescriptorSetLayout.constructor | vulkit/vkit/state/descriptor_set_layout.cpp:19 | a layout keeps its handle and bindings, nothing destroyed yet |
| DescriptorSetLayouts.DescriptorSetLayout.Destroy | vulkit/vkit/state/descriptor_set_layout.cpp:22-29 | a live handle is destroyed once and nulled; a null handle is left alone, so a second call destroys nothing |
| VkSystem.FirstIndex | vulkit/vkit/vulkan/system.cpp:87-117 | the range-for with `strcmp` and early return: absent exactly when no name matches, otherwise the position of the first matching name |
| VkSystem.System.constructor | vulkit/vkit/vulkan/system.cpp:15-18 | the system starts with the given extension and layer lists and library handle, nothing closed |
| VkSystem.System.IsExtensionSupported | vulkit/vkit/vulkan/system.cpp:103-109 | true exactly when some available extension has the given name |
| VkSystem.System.IsLayerSupported | vulkit/vkit/vulkan/system.cpp:111-117 | true exactly when some available layer has the given name |
| VkSystem.System.GetExtension | vulkit/vkit/vulkan/system.cpp:87-93 | null exactly when the extension is unsupported; otherwise the first available extension with that name |
| VkSystem.System.GetLayer | vulkit/vkit/vulkan/system.cpp:95-101 | null exactly when the layer is unsupported; otherwise the first available layer with that name |
| VkSystem.System.Terminate | vulkit/vkit/vulkan/system.cpp:75-85 | a loaded library is closed once and forgotten; with nothing loaded nothing is closed; the library is null afterwards either way |
| VkSystem.Reverse | vulkit/vkit/vulkan/system.cpp:123-128 | the reversed order: same length, element i is element n-1-i of the input |
| VkSystem.ReverseAppend | vulkit/vkit/vulkan/system.cpp:119-128 | a deleter pushed last is the first one run |
| VkSystem.ReversePrepend | vulkit/vkit/vulkan/system.cpp:119-128 | a deleter pushed first is the last one run |
| VkSystem.ReverseReverse | vulkit/vkit/vulkan/system.cpp:123-128 | the run order reversed is the push order: no deleter is lost, duplicated or reordered other than by reversal |
| VkSystem.DeletionQueue.constructor | vulkit/vkit/vulkan/system.cpp:119-128 | a new deletion queue holds no deleters and has run none |
| VkSystem.DeletionQueue.Push | vulkit/vkit/vulkan/system.cpp:119-122 | the deleter is appended at the end; nothing runs |
| VkSystem.DeletionQueue.Flush | vulkit/vkit/vulkan/system.cpp:123-128 | every pushed deleter runs exactly once, the last pushed first, and the queue is empty afterwards |
| VkSystem.ReverseAppendFront | vulkit/vkit/vulkan/system.cpp:125-126 | one turn of the countdown loop runs the deleter at the next lower index |
| VkSystem.CaseName | vulkit/vkit/vulkan/system.cpp:130-233 | the `switch`: no name exactly when no case has the code; otherwise the name of the first case with that code |
| VkSystem.UnknownCase | vulkit/vkit/vulkan/system.cpp:230-231 | for any case table, the `default` text comes out exactly when the code matches no case |
| VkSystem.UnknownResult | vulkit/vkit/vulkan/system.cpp:130-233 | `VkResultToString` answers "Unknown VkResult" exactly for the codes that are not among the listed cases |
| Instances.MakeVersion | vulkit/vkit/vulkan/instance.cpp:381-388 | `VKIT_MAKE_VERSION` packs variant, major, minor and patch into a 32-bit value |
| Instances.VersionOrder | vulkit/vkit/vulkan/instance.cpp:72 | comparing packed versions (variant 0) is the lexicographic comparison of major, minor and patch |
| Instances.ApiVersion | vulkit/vkit/vulkan/instance.cpp:61-90 | a failing version query fails `Build` with its code; a loader below the required version is an incompatible driver; a loader at or above the required version always succeeds, with the requested version when the loader reaches it and the loader's own version when it lies between required and requested |
| Instances.PrefixTrans | vulkit/vkit/vulkan/instance.cpp:102-155 | names are only ever appended: a start of a start is a start |
| Instances.AddUnique | vulkit/vkit/vulkan/instance.cpp:103-105 | the `contains` check before `Append`: the list gains exactly the new name, keeps its order and stays free of duplicates |
| Instances.AddAll | vulkit/vkit/vulkan/instance.cpp:103-105 | adding several names in turn: the result holds exactly the old and the new names, without duplicates, the old list first |
| Instances.Supported | vulkit/vkit/vulkan/instance.cpp:107-113 | the requested names that pass the support check: exactly those requested and supported |
| Instances.AddAllNext | vulkit/vkit/vulkan/instance.cpp:103-105 | one more turn of the loop adds one more name with the `contains` check |
| Instances.SupportedNext | vulkit/vkit/vulkan/instance.cpp:107-113 | one more turn of the loop keeps the next requested name exactly when it is supported |
| Instances.AppendUnique | vulkit/vkit/vulkan/instance.cpp:102-105 | the loop over required names builds exactly the duplicate-free list `AddAll` describes |
| Instances.AppendSupported | vulkit/vkit/vulkan/instance.cpp:107-126 | the loop over requested names appends exactly the supported ones not yet listed |
| Instances.AllSupported | vulkit/vkit/vulkan/instance.cpp:92-100 | the loop over required names answers true exactly when every one of them is supported |
| Instances.EnabledNames | vulkit/vkit/vulkan/instance.cpp:102-126 | an enabled list has no duplicates, holds exactly the required names and the supported requested ones, starts with the required names, and holds only supported names when the required ones are supported |
| Instances.AddIf | vulkit/vkit/vulkan/instance.cpp:139-155 | a conditional append: the name is added, once, exactly when the condition holds |
| Instances.ExtensionList | vulkit/vkit/vulkan/instance.cpp:102-155 | the instance extensions are duplicate-free and start with the required ones; a name is in the list exactly when it is required, or requested and supported, or is debug utils, properties2 or portability enumeration with that feature on; with the required ones supported every listed name is supported |
| Instances.WithSurface | vulkit/vkit/vulkan/instance.cpp:158-198 | the windowing step adds the surface extension and the platform's one, each once, after the existing names |
| Instances.Builder.constructor | vulkit/vkit/vulkan/instance.cpp:59-90 | a new builder requests and requires version 1.0, no names, no validation layers, not headless |
| Instances.Builder.SetApplicationName | vulkit/vkit/vulkan/instance.cpp:361-365 | sets the application name and nothing else |
| Instances.Builder.SetEngineName | vulkit/vkit/vulkan/instance.cpp:366-370 | sets the engine name and nothing else |
| Instances.Builder.SetApplicationVersion | vulkit/vkit/vulkan/instance.cpp:371-375 | sets the application version and nothing else |
| Instances.Builder.SetEngineVersion | vulkit/vkit/vulkan/instance.cpp:376-380 | sets the engine version and nothing else |
| Instances.Builder.RequireApiVersion | vulkit/vkit/vulkan/instance.cpp:389-395 | sets the required version and raises the requested one to it when lower, so the required version never exceeds the requested one |
| Instances.Builder.RequestApiVersion | vulkit/vkit/vulkan/instance.cpp:400-406 | sets the requested version and lowers the required one to it when higher, keeping the same order |
| Instances.Builder.RequireExtensions | vulkit/vkit/vulkan/instance.cpp:411-420 | appends the names to the required extensions, in order |
| Instances.Builder.RequestExtensions | vulkit/vkit/vulkan/instance.cpp:421-430 | appends the names to the requested extensions, in order |
| Instances.Builder.RequireLayers | vulkit/vkit/vulkan/instance.cpp:431-440 | appends the names to the required layers, in order |
| Instances.Builder.RequestLayers | vulkit/vkit/vulkan/instance.cpp:441-450 | appends the names to the requested layers, in order |
| Instances.Builder.RequireValidationLayers | vulkit/vkit/vulkan/instance.cpp:451-456 | requiring validation layers also requests them |
| Instances.Builder.RequestValidationLayers | vulkit/vkit/vulkan/instance.cpp:457-461 | requests validation layers, leaving the requirement as it was |
| Instances.Builder.SetHeadless | vulkit/vkit/vulkan/instance.cpp:467-471 | sets the headless flag and nothing else |
| Instances.Builder.Core | vulkit/vkit/vulkan/instance.cpp:92-155 | an unsupported required extension fails with extension-not-present, and with the extensions present an unsupported required layer or unavailable required validation fails with layer-not-present; success happens exactly when none of these applies; on success each list is duplicate-free, starts with the required names and holds a name exactly when it is required, or requested and available, or is added by validation, properties2 or portability; validation is on exactly when requested and both debug utils and the validation layer are available; properties2 is on exactly below version 1.1 with the extension available; portability exactly when available |
| Instances.Builder.AssembleCore | vulkit/vkit/vulkan/instance.cpp:92-155 | the loops and early returns of `Build` compute exactly `Core` |
| Instances.Builder.Decide | vulkit/vkit/vulkan/instance.cpp:59-198 | the version failure propagates; on success the plan is `Core`'s plan with only extensions appended, all supported and duplicate-free, and a non-headless instance carries the surface extension and the first supported platform surface extension |
| Instances.Builder.Windowing | vulkit/vkit/vulkan/instance.cpp:158-198 | a headless instance keeps its plan; otherwise the step succeeds exactly when the surface extension and some platform surface extension are supported, fails with `VK_ERROR_EXTENSION_NOT_PRESENT` otherwise, and on success only appends supported extensions, duplicate-free, including the surface one and the first supported platform one |
| Instances.Builder.Build | vulkit/vkit/vulkan/instance.cpp:59-298 | every failure before creation creates nothing; a failing `vkCreateInstance` returns its code; a failure to load or create the debug messenger destroys the new instance and reports incompatible-driver or the messenger's code; success yields a live instance whose info is the decided plan |
| Instances.Builder.Info | vulkit/vkit/vulkan/instance.cpp:276-292 | the info carries the plan's version and lists; the headless, validation and properties2 flags are set exactly when each holds; a messenger exists exactly with validation layers |
| Instances.Instance.constructor | vulkit/vkit/vulkan/instance.cpp:300-302 | an instance keeps its handle and info; nothing destroyed yet |
| Instances.Instance.IsExtensionEnabled | vulkit/vkit/vulkan/instance.cpp:304-307 | true exactly when the extension is among those the instance was created with |
| Instances.Instance.IsLayerEnabled | vulkit/vkit/vulkan/instance.cpp:308-311 | true exactly when the layer is among those the instance was created with |
| Instances.Instance.Destroy | vulkit/vkit/vulkan/instance.cpp:313-327 | the debug messenger is destroyed first when validation layers are on and one exists, then the instance, whose handle is nulled |
| PhysicalDevices.NoFeatures | vulkit/vkit/device/physical_device.cpp:612 | a zero-initialised feature bundle has every member table's length and no member set |
| PhysicalDevices.CoversTrans | vulkit/vkit/device/physical_device.cpp:227-235 | feature coverage is transitive |
| PhysicalDevices.CompareFeatureStructs | vulkit/vkit/device/physical_device.cpp:227-235 | the member loop answers true exactly when every requested member is supported |
| PhysicalDevices.Join | vulkit/vkit/device/physical_device.cpp:205-210 | the or-ed structure covers both inputs and sets no member neither sets |
| PhysicalDevices.JoinCovered | vulkit/vkit/device/physical_device.cpp:205-210 | or-ing in members that are already set changes nothing |
| PhysicalDevices.JoinBounded | vulkit/vkit/device/physical_device.cpp:846-853 | whatever covers both parts covers their join |
| PhysicalDevices.OrFeatureStruct | vulkit/vkit/device/physical_device.cpp:205-210 | the member loop computes exactly the or of the two structures |
| PhysicalDevices.JoinFeatures | vulkit/vkit/device/physical_device.cpp:212-225 | the or of two bundles covers both, structure by structure |
| PhysicalDevices.CompareFeatures | vulkit/vkit/device/physical_device.cpp:237-256 | the structures compared in order: true exactly when every structure covers its counterpart |
| PhysicalDevices.OrFeatures | vulkit/vkit/device/physical_device.cpp:212-225 | or-s every structure of the bundle, computing exactly the join |
| PhysicalDevices.JoinFeaturesBounded | vulkit/vkit/device/physical_device.cpp:846-853 | enabling supported features on top of supported features keeps the enabled set supported |
| PhysicalDevices.Chain | vulkit/vkit/device/physical_device.cpp:300-329 | the chain is a prefix of 1.1, 1.2, 1.3, 1.4 and never holds the core structure; 1.1 and 1.2 are linked from version 1.2, 1.3 from 1.3, 1.4 from 1.4 |
| PhysicalDevices.Fetched | vulkit/vkit/device/physical_device.cpp:612-670 | the driver fills the core structure and exactly the chained ones; the others stay zero |
| PhysicalDevices.UnchainedFeatureMissing | vulkit/vkit/device/physical_device.cpp:630-692 | a required feature of a structure the device's version leaves out of the chain always fails the feature check |
| PhysicalDevices.AvailableWeaken | vulkit/vkit/device/physical_device.cpp:447-468 | forbidding fewer capabilities can only find more families |
| PhysicalDevices.FirstOffering | vulkit/vkit/device/physical_device.cpp:440-455 | the first family with queues, the wanted capabilities and none of the forbidden ones; the all-ones sentinel exactly when there is none |
| PhysicalDevices.LastOffering | vulkit/vkit/device/physical_device.cpp:456-468 | the last family offering the wanted capabilities without the forbidden ones; the sentinel exactly when there is none |
| PhysicalDevices.SeparateIndex | vulkit/vkit/device/physical_device.cpp:456-468 | among non-graphics families with the wanted capabilities: the first one also free of the forbidden ones, else the last such family; the sentinel exactly when there is no non-graphics family at all |
| PhysicalDevices.QueueIndex | vulkit/vkit/device/physical_device.cpp:440-455 | the search loop returns exactly the first offering family or the sentinel |
| PhysicalDevices.SeparatedQueueIndex | vulkit/vkit/device/physical_device.cpp:456-468 | the loop with its early return and remembered index computes exactly `SeparateIndex`, and so everything proved about it |
| PhysicalDevices.LastOfferingNext | vulkit/vkit/device/physical_device.cpp:456-468 | one more family moves the last offering to it exactly when it offers |
| PhysicalDevices.FirstOfferingIs | vulkit/vkit/device/physical_device.cpp:440-455 | an offering family with none offering before it is the first offering |
| PhysicalDevices.PresentIndex | vulkit/vkit/device/physical_device.cpp:471-483 | the sentinel without a surface or without the query function; otherwise the first family whose query succeeded and said yes, the sentinel exactly when none did |
| PhysicalDevices.PresentQueueIndex | vulkit/vkit/device/physical_device.cpp:471-483 | the loop computes exactly `PresentIndex`, and so everything proved about it |
| PhysicalDevices.ChooseRole | vulkit/vkit/device/physical_device.cpp:492-553 | the role gets no queue exactly when no family offers its capability; a separate or dedicated one exactly when a non-graphics family offers it; dedicated exactly when one also lacks the other role's capability; the chosen family offers what the level promises |
| PhysicalDevices.ChooseQueues | vulkit/vkit/device/physical_device.cpp:491-553 | graphics is the first graphics family, compute and transfer are chosen by their roles, and the device flags are exactly the ones the chosen levels and indices raise |
| PhysicalDevices.RaisedFlags | vulkit/vkit/device/physical_device.cpp:512-553 | a flag is raised exactly when the index or level behind it is present |
| PhysicalDevices.RaisedMeaning | vulkit/vkit/device/physical_device.cpp:512-553 | each raised queue flag stands for a found index or a level at least as strong as its name |
| PhysicalDevices.RoleOffers | vulkit/vkit/device/physical_device.cpp:517-553 | the family a role names offers what its level promises: the capability, without graphics when separate, without the other role's capability too when dedicated |
| PhysicalDevices.QueueFlagsMeaning | vulkit/vkit/device/physical_device.cpp:512-553 | every queue flag the judgement raises names a family that really offers what the flag says |
| PhysicalDevices.Effective | vulkit/vkit/device/physical_device.cpp:486-489 | a dedicated or separate compute (transfer) requirement adds the plain compute (transfer) requirement, and nothing else is added |
| PhysicalDevices.ScanHeaps | vulkit/vkit/device/physical_device.cpp:708-725 | despite stopping early, the heap loop answers exactly whether there is device-local memory and a device-local heap of the requested and of the required size |
| PhysicalDevices.MemoryPrefix | vulkit/vkit/device/physical_device.cpp:712-725 | what a prefix of the heaps offers the whole list offers |
| PhysicalDevices.QuerySwapChainSupport | vulkit/vkit/device/physical_device.cpp:259-296 | a failing count query fails with its code; zero formats or modes is an initialisation failure; a success carries the capabilities, formats and modes the driver reported, with at least one format and one mode |
| PhysicalDevices.AppendAvailable | vulkit/vkit/device/physical_device.cpp:413-421 | the requested-extension loop appends exactly the available ones, in order, and reports whether none was missing |
| PhysicalDevices.Info | vulkit/vkit/device/physical_device.cpp:756-771 | the device record carries the queue choice's flags and indices, the extension lists and feature bundles it is given, and the optimal flag exactly when asked to |
| PhysicalDevices.Keep | vulkit/vkit/device/physical_device.cpp:832-834 | the judged devices of one optimality, in order: exactly those of the input with that optimality |
| PhysicalDevices.KeepSplits | vulkit/vkit/device/physical_device.cpp:832-834 | the two groups together hold every judged device exactly once |
| PhysicalDevices.PartitionPermutes | vulkit/vkit/device/physical_device.cpp:832-834 | the stable partition is a permutation of the judged devices |
| PhysicalDevices.PartitionOrdered | vulkit/vkit/device/physical_device.cpp:832-834 | after the partition no non-optimal device precedes an optimal one |
| PhysicalDevices.PartitionFirst | vulkit/vkit/device/physical_device.cpp:832-834 | when any device is optimal, the first device of the partition is optimal |
| PhysicalDevices.StablePartition | vulkit/vkit/device/physical_device.cpp:832-834 | the one-pass partition computes exactly the optimal devices followed by the others, each group in its original order |
| PhysicalDevices.Selector.constructor | vulkit/vkit/device/physical_device.cpp:774-789 | a selector for an instance that is not headless requires a present queue; everything else starts empty, version 1.0, discrete preferred |
| PhysicalDevices.Selector.SetName | vulkit/vkit/device/physical_device.cpp:881-885 | sets the name and nothing else |
| PhysicalDevices.Selector.PreferType | vulkit/vkit/device/physical_device.cpp:886-890 | sets the preferred type and nothing else |
| PhysicalDevices.Selector.RequireApiVersion | vulkit/vkit/device/physical_device.cpp:891-897 | sets the required version and raises the requested one to it when lower |
| PhysicalDevices.Selector.RequestApiVersion | vulkit/vkit/device/physical_device.cpp:902-908 | sets the requested version and lowers the required one to it when higher |
| PhysicalDevices.Selector.RequireExtensions | vulkit/vkit/device/physical_device.cpp:913-922 | appends to the required extensions, in order |
| PhysicalDevices.Selector.RequestExtensions | vulkit/vkit/device/physical_device.cpp:923-932 | appends to the requested extensions, in order |
| PhysicalDevices.Selector.RequireMemory | vulkit/vkit/device/physical_device.cpp:933-939 | sets the required memory and raises the requested memory to it when lower |
| PhysicalDevices.Selector.RequestMemory | vulkit/vkit/device/physical_device.cpp:940-946 | sets the requested memory and lowers the required memory to it when higher |
| PhysicalDevices.Selector.RequireFeatures | vulkit/vkit/device/physical_device.cpp:947-953 | replaces the required features |
| PhysicalDevices.Selector.SetFlags | vulkit/vkit/device/physical_device.cpp:954-958 | replaces the flags |
| PhysicalDevices.Selector.AddFlags | vulkit/vkit/device/physical_device.cpp:959-963 | adds the flags to those set |
| PhysicalDevices.Selector.RemoveFlags | vulkit/vkit/device/physical_device.cpp:964-968 | removes the flags from those set |
| PhysicalDevices.Selector.SetSurface | vulkit/vkit/device/physical_device.cpp:969-973 | sets the surface and nothing else |
| PhysicalDevices.Selector.Screen | vulkit/vkit/device/physical_device.cpp:370-430 | a name mismatch or a version below the required one is an incompatible driver; a failed enumeration returns its code; a missing required extension fails; otherwise the enabled list starts with the required extensions, holds every available requested one, adds portability subset when flagged and available and the swap chain extension when a present queue is required, and the device is fully suitable so far exactly when it meets the requested version and every requested extension |
| PhysicalDevices.Selector.Queues | vulkit/vkit/device/physical_device.cpp:486-596 | a required queue the device lacks fails with device-lost; with a present queue required the surface support query must succeed; success yields the queue choice |
| PhysicalDevices.Selector.FeatureCheck | vulkit/vkit/device/physical_device.cpp:672-692 | fails with feature-not-present exactly when the fetched features do not cover the required ones |
| PhysicalDevices.Selector.Placement | vulkit/vkit/device/physical_device.cpp:693-737 | a device of another type fails unless any type is allowed; no device-local memory or too little fails with out-of-device-memory; the answer is whether the device also is of the preferred type and has the requested memory |
| PhysicalDevices.Selector.Judge | vulkit/vkit/device/physical_device.cpp:358-772 | a passing device has the required version, every required extension available and enabled, every required queue, the required features among its available ones and enough device-local memory; it is flagged optimal exactly when it also meets every request |
| PhysicalDevices.Selector.JudgedQueues | vulkit/vkit/device/physical_device.cpp:560-584 | each required queue of a passing device names a family that offers it (present: one whose surface query said yes) |
| PhysicalDevices.Selector.ScreenDevice | vulkit/vkit/device/physical_device.cpp:370-430 | the checks and loops compute exactly `Screen`, and so everything proved about it |
| PhysicalDevices.Selector.PickQueues | vulkit/vkit/device/physical_device.cpp:440-596 | the searches, flag raising and checks compute exactly `Queues`, and so everything proved about it |
| PhysicalDevices.Selector.CheckPlacement | vulkit/vkit/device/physical_device.cpp:693-737 | the type check and heap scan compute exactly `Placement`, and so everything proved about it |
| PhysicalDevices.Selector.JudgeDevice | vulkit/vkit/device/physical_device.cpp:358-772 | the judgement as the source runs it computes exactly `Judge`, and so everything proved about it |
| PhysicalDevices.Selector.JudgeAll | vulkit/vkit/device/physical_device.cpp:825-830 | one judgement per enumerated device, in order |
| PhysicalDevices.Selector.Enumerated | vulkit/vkit/device/physical_device.cpp:791-836 | a required present queue without a surface is an initialisation failure; a failed enumeration returns its code; no device is device-lost; otherwise every device is judged, the result is a permutation of the judgements with all optimal devices first, each group in enumeration order |
| PhysicalDevices.Selector.Enumerate | vulkit/vkit/device/physical_device.cpp:791-836 | the enumeration as the source runs it computes exactly `Enumerated`, and so everything proved about it |
| PhysicalDevices.Selector.Select | vulkit/vkit/device/physical_device.cpp:349-356 | the first enumerated device, or the enumeration's failure; it is optimal whenever any device is |
| PhysicalDevices.PhysicalDevice.constructor | vulkit/vkit/device/physical_device.cpp:771 | a selected device keeps its handle and record, its enabled features supported |
| PhysicalDevices.PhysicalDevice.AreFeaturesSupported | vulkit/vkit/device/physical_device.cpp:838-841 | true exactly when the available features cover the given ones |
| PhysicalDevices.PhysicalDevice.AreFeaturesEnabled | vulkit/vkit/device/physical_device.cpp:842-845 | true exactly when the enabled features cover the given ones |
| PhysicalDevices.PhysicalDevice.EnableFeatures | vulkit/vkit/device/physical_device.cpp:846-853 | unsupported features are refused and nothing changes; supported ones are or-ed into the enabled set, which then covers both the old set and the new features and stays supported |
| PhysicalDevices.PhysicalDevice.EnableExtension | vulkit/vkit/device/physical_device.cpp:863-871 | an enabled extension answers true without change; an unsupported one answers false without change; otherwise it is appended to the enabled list |
| LogicalDevices.FamilyIndices | vulkit/vkit/device/logical_device.cpp:6-13 | each queue type's family is the one the physical device chose for it |
| LogicalDevices.PlanQueues | vulkit/vkit/device/logical_device.cpp:43-86 | the family loop either rejects the device or yields one queue count per type |
| LogicalDevices.PlanRejects | vulkit/vkit/device/logical_device.cpp:48-54 | the family loop rejects the device exactly when some family is required for more queues than it has |
| LogicalDevices.PlanCounts | vulkit/vkit/device/logical_device.cpp:64-78 | each queue type is created with `min(queueCount, required + requested)` queues of the family it lives on, or none when that family was not asked for any |
| LogicalDevices.PlanInfos | vulkit/vkit/device/logical_device.cpp:56-85 | the queue create-infos name exactly the families asked for a queue, in increasing order, each once, with the required priorities followed by the requested ones and the clamped count |
| LogicalDevices.AddCount | vulkit/vkit/device/logical_device.cpp:74-77 | a family's count is added to exactly the queue types living on that family |
| LogicalDevices.Link | vulkit/vkit/device/logical_device.cpp:92-121 | the enabled features go through a features2 chain exactly from version 1.1 or with the instance's properties2 extension, and that chain links the structures the device's version allows |
| LogicalDevices.CreateQueue | vulkit/vkit/device/logical_device.cpp:145-152 | a queue some type already holds at the same index and family is reused; otherwise exactly one new queue object for that family and index is created |
| LogicalDevices.CreateQueues | vulkit/vkit/device/logical_device.cpp:154-164 | every type gets its count of queues; each slot holds an object fetched from the type's family at the slot's index, every object sits in some slot, and no hardware queue gets two objects |
| LogicalDevices.NewQueueIsFresh | vulkit/vkit/device/logical_device.cpp:146-151 | a hardware queue no slot holds was never fetched before, so a new object does not duplicate one |
| LogicalDevices.AppendKeepsConsistent | vulkit/vkit/device/logical_device.cpp:160-162 | appending what `createQueue` returns keeps slots and objects consistent |
| LogicalDevices.SharedFamilyShares | vulkit/vkit/device/logical_device.cpp:145-164 | two queue types on the same family share the queue object at every index both have |
| LogicalDevices.Builder.constructor | vulkit/vkit/device/logical_device.cpp:28-36 | one empty priority entry per queue family of the physical device |
| LogicalDevices.Builder.RequireQueue | vulkit/vkit/device/logical_device.cpp:15-20 | the family's required priorities gain `count` copies of the priority; nothing else changes |
| LogicalDevices.Builder.RequestQueue | vulkit/vkit/device/logical_device.cpp:21-26 | the family's requested priorities gain `count` copies of the priority; nothing else changes |
| LogicalDevices.Builder.RequireQueueOfType | vulkit/vkit/device/logical_device.cpp:6-9 | `RequireQueue` on the family the physical device chose for the type |
| LogicalDevices.Builder.RequestQueueOfType | vulkit/vkit/device/logical_device.cpp:10-13 | `RequestQueue` on the family the physical device chose for the type |
| LogicalDevices.Builder.Build | vulkit/vkit/device/logical_device.cpp:28-167 | a rejected family loop submits nothing; otherwise the create-info carries the planned queues, the physical device's extensions and features and the instance's layers; a failing `vkCreateDevice` returns its code; success yields a live device with the planned number of queues per type, consistently shared |
| LogicalDevices.RunFamilyLoop | vulkit/vkit/device/logical_device.cpp:43-86 | the loop with its early return computes exactly `PlanQueues` over all families |
| LogicalDevices.LogicalDevice.constructor | vulkit/vkit/device/logical_device.cpp:166 | a new device keeps its handle, every queue slot set, nothing deleted or destroyed |
| LogicalDevices.LogicalDevice.Destroy | vulkit/vkit/device/logical_device.cpp:169-184 | a destroyed device is left alone; otherwise every slot is nulled, every queue object some slot held is deleted exactly once, and the device is destroyed and its handle nulled |
| LogicalDevices.ClearRow | vulkit/vkit/device/logical_device.cpp:174-180 | one type's slots are all nulled, and exactly the objects they held are added to the deleted ones, none twice |
| LogicalDevices.SharedQueueDeletedTwice | vulkit/vkit/device/logical_device.cpp:169-184 | as written, a device whose graphics and compute queues share a family deletes their first queue object at least twice |
| LogicalDevices.FirstSupportedFormat | vulkit/vkit/device/logical_device.cpp:205-222 | no-format-supported exactly when no candidate's features for the tiling contain the wanted ones; otherwise the first candidate that suits |
| LogicalDevices.FindSupportedFormat | vulkit/vkit/device/logical_device.cpp:205-222 | the candidate loop with its early returns computes exactly `FirstSupportedFormat` |
| SwapChains.SelectFirst | vulkit/vkit/presentation/swap_chain.cpp:10-28 | the nested loops return the first requested value that some supported value equals, and no-format-supported exactly when none is supported |
| SwapChains.SelectFormat | vulkit/vkit/presentation/swap_chain.cpp:10-18 | the first requested surface format (format and colour space) the surface supports; no-format-supported exactly when none is |
| SwapChains.SelectPresentMode | vulkit/vkit/presentation/swap_chain.cpp:20-28 | the first requested present mode the surface supports; no-format-supported exactly when none is |
| SwapChains.ImageCount | vulkit/vkit/presentation/swap_chain.cpp:60-88 | an allowed requested count is kept; otherwise, with no requirement, the minimum plus one, or the maximum when a non-zero maximum is below that; otherwise the required count itself, and bad-image-count exactly when it too is outside the limits; any count chosen lies within well-ordered limits |
| SwapChains.Clamp | vulkit/vkit/presentation/swap_chain.cpp:105-108 | `std::clamp`: the value when in range, otherwise the nearer bound |
| SwapChains.ChooseExtent | vulkit/vkit/presentation/swap_chain.cpp:99-109 | the surface's current extent when it is fixed; otherwise the requested extent pulled into the surface's bounds, unchanged in each dimension that already fits |
| SwapChains.SharingFor | vulkit/vkit/presentation/swap_chain.cpp:114-135 | exclusive exactly when graphics and presentation share a family; otherwise concurrent between the two distinct families |
| SwapChains.Builder.constructor | vulkit/vkit/presentation/swap_chain.cpp:30-53 | a new builder asks for no formats or modes, no image count, a 512 by 512 extent, one layer, colour-attachment usage, opaque alpha |
| SwapChains.Builder.RequestSurfaceFormat | vulkit/vkit/presentation/swap_chain.cpp:230-234 | the format goes in front of every other |
| SwapChains.Builder.AllowSurfaceFormat | vulkit/vkit/presentation/swap_chain.cpp:235-239 | the format goes after every other |
| SwapChains.Builder.RequestPresentMode | vulkit/vkit/presentation/swap_chain.cpp:240-244 | the mode goes in front of every other |
| SwapChains.Builder.AllowPresentMode | vulkit/vkit/presentation/swap_chain.cpp:245-249 | the mode goes after every other |
| SwapChains.Builder.RequestImageCount | vulkit/vkit/presentation/swap_chain.cpp:250-256 | sets the requested count and lowers the required one to it when higher |
| SwapChains.Builder.RequireImageCount | vulkit/vkit/presentation/swap_chain.cpp:257-263 | sets the required count and raises the requested one to it when lower |
| SwapChains.Builder.RequestExtent | vulkit/vkit/presentation/swap_chain.cpp:264-274 | sets the requested extent |
| SwapChains.Builder.SetFlags | vulkit/vkit/presentation/swap_chain.cpp:275-279 | replaces the builder flags |
| SwapChains.Builder.AddFlags | vulkit/vkit/presentation/swap_chain.cpp:280-284 | adds to the builder flags |
| SwapChains.Builder.RemoveFlags | vulkit/vkit/presentation/swap_chain.cpp:285-289 | removes from the builder flags |
| SwapChains.Builder.SetImageArrayLayers | vulkit/vkit/presentation/swap_chain.cpp:290-294 | sets the layer count |
| SwapChains.Builder.SetCreateFlags | vulkit/vkit/presentation/swap_chain.cpp:295-299 | replaces the create flags |
| SwapChains.Builder.AddCreateFlags | vulkit/vkit/presentation/swap_chain.cpp:300-304 | adds to the create flags |
| SwapChains.Builder.RemoveCreateFlags | vulkit/vkit/presentation/swap_chain.cpp:305-309 | removes from the create flags |
| SwapChains.Builder.SetImageUsageFlags | vulkit/vkit/presentation/swap_chain.cpp:310-314 | replaces the image usage |
| SwapChains.Builder.AddImageUsageFlags | vulkit/vkit/presentation/swap_chain.cpp:315-319 | adds to the image usage |
| SwapChains.Builder.RemoveImageUsageFlags | vulkit/vkit/presentation/swap_chain.cpp:320-324 | removes from the image usage |
| SwapChains.Builder.SetTransformBit | vulkit/vkit/presentation/swap_chain.cpp:325-329 | sets the transform |
| SwapChains.Builder.SetCompositeAlphaBit | vulkit/vkit/presentation/swap_chain.cpp:330-334 | sets the composite alpha |
| SwapChains.Builder.SetOldSwapChain | vulkit/vkit/presentation/swap_chain.cpp:335-339 | sets the swap chain to replace |
| SwapChains.Builder.Formats | vulkit/vkit/presentation/swap_chain.cpp:45-48 | the builder's formats, or the sRGB BGRA default when it has none; never empty |
| SwapChains.Builder.Modes | vulkit/vkit/presentation/swap_chain.cpp:46-53 | the builder's present modes, or mailbox then FIFO when it has none; never empty |
| SwapChains.Builder.Plan | vulkit/vkit/presentation/swap_chain.cpp:39-141 | a missing graphics or present family fails first, then a failed support query, then the image count's own error, then no-format-supported when no requested format or no requested present mode is supported; the plan succeeds exactly when none of these applies; on success the create-info holds the first supported format and mode, the chosen image count, the chosen extent, the sharing mode for the two families, the builder's transform or the surface's current one, the clipped flag, and the builder's layer count, image usage, composite alpha, old swap chain and create flags |
| SwapChains.Builder.PlanInfo | vulkit/vkit/presentation/swap_chain.cpp:39-141 | the checks, the image-count choice and the format and present-mode loops before creation compute exactly `Plan`, and so everything proved about it |
| SwapChains.Builder.Build | vulkit/vkit/presentation/swap_chain.cpp:30-215 | failures before the swap chain exists release nothing; a failing creation returns its code; a failing image-count or image query returns its code and destroys only the swap chain; the first failing view returns its code and destroys the swap chain and exactly the views before it; it succeeds exactly when creation, both queries and every requested view succeed, and success yields a live chain holding the planned create-info and one image per driver image, each with the swap chain image info and its view when views are created |
| SwapChains.WrapImages | vulkit/vkit/presentation/swap_chain.cpp:182-212 | each image is wrapped with the image info and, when views are created, its view; the first failing view stops the loop and is reported with every earlier view succeeded |
| SwapChains.Views | vulkit/vkit/presentation/swap_chain.cpp:217-222 | the views a list of images holds, in order, and no other |
| SwapChains.ViewsAppend | vulkit/vkit/presentation/swap_chain.cpp:219-220 | one more image adds its view, if any, at the end |
| SwapChains.SwapChain.constructor | vulkit/vkit/presentation/swap_chain.cpp:214 | a new swap chain is live with its images and create-info, nothing destroyed |
| SwapChains.SwapChain.Destroy | vulkit/vkit/presentation/swap_chain.cpp:217-229 | every image's view is destroyed, in order, the images are dropped, and the swap chain is destroyed once and nulled; a second call destroys no swap chain |
| Images.ViewTypeOf | vulkit/vkit/resource/image.cpp:8-22 | the 1D, 2D and 3D image types map to their view types, and the max-enum view type is returned exactly for any other image type |
| Images.ViewTypeInjective | vulkit/vkit/resource/image.cpp:8-22 | two known image types with the same view type are the same image type |
| Images.DeduceAspectMask | vulkit/vkit/resource/image.cpp:23-36 | a colour attachment gets only the colour aspect; otherwise the depth aspect is present exactly when the depth flag is, and likewise for stencil |
| Images.DeduceAspectMaskNone | vulkit/vkit/resource/image.cpp:23-36 | the no-aspect fallback is taken exactly when the flags name no colour, depth or stencil attachment |
| Images.InitialUsage | vulkit/vkit/resource/image.cpp:82-90 | colour-attachment usage exactly for the colour flag, depth-stencil usage exactly for depth or stencil without colour, input-attachment and sampled usage exactly for their flags, and no other usage |
| Images.CreateRange | vulkit/vkit/resource/image.cpp:37-47 | the range starts at level and layer 0, spans all the image's levels and layers, and has the aspect deduced from the flags |
| Images.FromSwapChain | vulkit/vkit/resource/image.cpp:96-107 | an image info with no allocation, depth 1, and the given format, size and flags |
| Images.ImageBuilder.constructor | vulkit/vkit/resource/image.cpp:67-94 | a single-level, single-layer, optimally tiled, single-sample, exclusive 2D image with an undefined initial layout, the usage its flags call for, and a 2D view over the whole image with an undefined format, so no view is created yet |
| Images.ImageBuilder.Flat | vulkit/vkit/resource/image.cpp:48-53 | the 2D-extent overload: the same builder with a depth of one |
| Images.ImageBuilder.SetImageType | vulkit/vkit/resource/image.cpp:450-454 | only the image type changes; the view type stays as the constructor chose it |
| Images.ImageBuilder.SetDepth | vulkit/vkit/resource/image.cpp:456-460 | only the depth changes |
| Images.ImageBuilder.SetMipLevels | vulkit/vkit/resource/image.cpp:462-467 | the image's level count and the view's level count both change, so they still agree |
| Images.ImageBuilder.SetArrayLayers | vulkit/vkit/resource/image.cpp:469-474 | the image's layer count and the view's layer count both change, so they still agree |
| Images.ImageBuilder.SetTiling | vulkit/vkit/resource/image.cpp:476-480 | only the tiling changes |
| Images.ImageBuilder.SetInitialLayout | vulkit/vkit/resource/image.cpp:482-486 | only the initial layout changes |
| Images.ImageBuilder.SetSamples | vulkit/vkit/resource/image.cpp:488-492 | only the sample count changes |
| Images.ImageBuilder.SetSharingMode | vulkit/vkit/resource/image.cpp:494-498 | only the sharing mode changes |
| Images.ImageBuilder.SetFlags | vulkit/vkit/resource/image.cpp:500-504 | only the create flags change |
| Images.ImageBuilder.SetUsage | vulkit/vkit/resource/image.cpp:506-510 | only the usage changes |
| Images.ImageBuilder.SetImageCreateInfo | vulkit/vkit/resource/image.cpp:511-515 | the whole image create info is replaced and the view info is not adjusted |
| Images.ImageBuilder.WithImageView | vulkit/vkit/resource/image.cpp:517-521 | the view takes the image's format and so will be created |
| Images.ImageBuilder.WithViewInfo | vulkit/vkit/resource/image.cpp:522-528 | the view info is replaced; its image must still be unset |
| Images.ImageBuilder.WithViewRange | vulkit/vkit/resource/image.cpp:529-534 | the view takes the image's format and the given range |
| Images.ImageBuilder.Build | vulkit/vkit/resource/image.cpp:109-145 | a failed allocation returns its code; a failed view returns the view's code; it succeeds exactly when both succeed or no view was asked for, and then the new image owns its memory, starts in the initial layout, records the create info's format, extent and flags, and holds a view exactly when one was asked for |
| Images.Image.constructor | vulkit/vkit/resource/image.cpp:134 | the image holds the given handle, layout, info and view, nothing destroyed |
| Images.Image.CreateImageView | vulkit/vkit/resource/image.cpp:147-154 | success stores and returns the new view; failure returns the code and leaves the view |
| Images.Image.TransitionLayout | vulkit/vkit/resource/image.cpp:156-177 | no barrier when the image is already in the target layout; otherwise one barrier from the current layout to the target, with the aspect deduced from the image's flags when the range names none; the image ends in the target layout |
| Images.Image.Destroy | vulkit/vkit/resource/image.cpp:436-449 | the view, if any, is destroyed and nulled; the image is freed exactly when it owns its memory; the info is cleared and the layout is undefined |
| Images.Image.GetSize | vulkit/vkit/resource/image.cpp:424-434 | the copy size of the image's own extent and texel size under the given strides |
| Images.TransitionTwice | vulkit/vkit/resource/image.cpp:156-177 | transitioning twice to one layout records at most one barrier, and the first call records one exactly when the image was elsewhere |
| Images.DestroyTwice | vulkit/vkit/resource/image.cpp:436-449 | destroying twice frees the image and destroys the view at most once |
| Images.GroupSize | vulkit/vkit/resource/image.cpp:311-422 | a size table answers 0 exactly when no group lists the format, and otherwise the size of the first group that lists it |
| Images.GroupSizeIsListed | vulkit/vkit/resource/image.cpp:311-422 | a size table answers only with one of the listed texel sizes |
| Images.BytesPerPixelSizes | vulkit/vkit/resource/image.cpp:311-422 | `GetBytesPerPixel` answers 0 (unknown format) or a texel size of 1, 2, 3, 4, 5, 6, 8, 12 or 16 bytes |
| Images.CopySizeIsLastTexelEnd | vulkit/vkit/resource/image.cpp:424-434 | the size is exactly one past the last byte of the last texel under the row and slice strides |
| Images.TexelInside | vulkit/vkit/resource/image.cpp:424-434 | every texel of the image lies wholly inside that size |
| Images.TightCopySize | vulkit/vkit/resource/image.cpp:424-434 | with zero row length and image height the size is width times height times depth texels |
| Images.DefaultExtent | vulkit/vkit/resource/image.cpp:224-226 | a full extent is the `u32` dimension minus the `i32` offset taken modulo 2^32: it reaches the image's edge from an offset inside the image and wraps around to a large value from an offset past the edge; any other extent is kept |
| VkCommon.U32Wrap | vulkit/vkit/resource/image.cpp:224-226 | unsigned 32-bit arithmetic: the result is a `u32` congruent to the exact value modulo 2^32, and a value already in range is kept |
| Images.DefaultCopyExtent | vulkit/vkit/resource/image.cpp:190-196 | a full extent is the smaller of the source's and the destination's wrapped default extents from their offsets; any other extent is kept |
| Images.DefaultCopyExtentLargest | vulkit/vkit/resource/image.cpp:190-205 | no extent within both images' default extents exceeds the full copy extent |
| Buffers.FlagClosureSpec | vulkit/vkit/resource/buffer.cpp:28-41 | the constructor's flag updates keep every flag given and add only host-visible, source and destination, each exactly when a flag that implies it is present: host-visible when host mapping, random access, staging or host-visible itself is given; source when staging or source is given; destination when device-local or destination is given |
| Buffers.ClosureFixed | vulkit/vkit/resource/buffer.cpp:28-41 | flags that already satisfy those implications are left as they are |
| Buffers.FlagClosureIdempotent | vulkit/vkit/resource/buffer.cpp:28-41 | applying the flag updates twice gives what applying them once does |
| Buffers.UsageOfSpec | vulkit/vkit/resource/buffer.cpp:52-61 | each of source, destination, vertex, index and storage yields exactly its own usage bit |
| Buffers.AllocationForClosed | vulkit/vkit/resource/buffer.cpp:36-51 | after the flag updates a host-mapped buffer is allocated mapped and host visible, a staging buffer is host visible, a host-visible allocation takes exactly one of random and sequential access, and any other takes no access flag |
| Buffers.DivUnique | vulkit/vkit/resource/buffer.cpp:10-13 | a quotient and a remainder in range are the only ones |
| Buffers.AlignedSizeSpec | vulkit/vkit/resource/buffer.cpp:10-13 | `alignedSize` with a power-of-two alignment is the smallest multiple of the alignment that is at least the size, and leaves an aligned size unchanged |
| Buffers.RoundUp | vulkit/vkit/resource/buffer.cpp:10-13 | the same for rounding up to any positive multiple |
| Buffers.CloseFlags | vulkit/vkit/resource/buffer.cpp:28-41 | the constructor's flag updates compute exactly the flag closure, and so everything proved about it |
| Buffers.AllocationSettings | vulkit/vkit/resource/buffer.cpp:18-51 | the constructor's allocation updates compute exactly the allocation settings of the closed flags |
| Buffers.UsageBits | vulkit/vkit/resource/buffer.cpp:52-61 | the constructor's usage updates compute exactly the usage of the closed flags |
| Buffers.BufferBuilder.constructor | vulkit/vkit/resource/buffer.cpp:15-63 | the builder holds the closed flags, their usage and their allocation settings, no instances, an alignment of one and no family indices |
| Buffers.BufferBuilder.SetSize | vulkit/vkit/resource/buffer.cpp:108-113 | that many one-byte instances; nothing else changes |
| Buffers.BufferBuilder.SetInstances | vulkit/vkit/resource/buffer.cpp:114-119 | the instance count and size; nothing else changes |
| Buffers.BufferBuilder.SetUsage | vulkit/vkit/resource/buffer.cpp:120-124 | replaces the derived usage; nothing else changes |
| Buffers.BufferBuilder.SetAllocationCreateInfo | vulkit/vkit/resource/buffer.cpp:130-134 | replaces the derived allocation settings; nothing else changes |
| Buffers.BufferBuilder.SetPerInstanceMinimumAlignment | vulkit/vkit/resource/buffer.cpp:135-139 | sets the alignment; nothing else changes |
| Buffers.BufferBuilder.AddFamilyIndex | vulkit/vkit/resource/buffer.cpp:140-144 | appends one queue family; nothing else changes |
| Buffers.BufferBuilder.Build | vulkit/vkit/resource/buffer.cpp:65-106 | fails exactly when creation fails, with its code; otherwise each instance is padded to the smallest multiple of the alignment that holds it, the buffer holds the padded size times the count, so at least every instance's bytes, and it starts mapped exactly when the allocation asks for mapping |
| Buffers.MulMono | vulkit/vkit/resource/buffer.cpp:75-76 | multiplying by the same count keeps the order of two sizes |
| Buffers.AlignedInstanceInside | vulkit/vkit/resource/buffer.cpp:190-197 | instance `index` of `count`, placed at `index` padded sizes, ends inside the buffer |
| Buffers.Buffer.constructor | vulkit/vkit/resource/buffer.cpp:105 | a new buffer with the built layout, mapped as the allocation said, and memory of the buffer's size |
| Buffers.Buffer.Map | vulkit/vkit/resource/buffer.cpp:160-168 | the buffer is mapped exactly when mapping succeeds, and a failure returns its code |
| Buffers.Buffer.Unmap | vulkit/vkit/resource/buffer.cpp:170-175 | the buffer is no longer mapped |
| Buffers.Buffer.Write | vulkit/vkit/resource/buffer.cpp:177-188 | the source bytes from the source offset, as many as the copy size (or up to the end of the buffer for the whole size), replace the buffer's bytes at the destination offset and nothing else changes |
| Buffers.Buffer.WriteAt | vulkit/vkit/resource/buffer.cpp:190-197 | instance `index`'s bytes lie inside the buffer and are replaced by the instance; nothing else changes |
| Buffers.Buffer.Destroy | vulkit/vkit/resource/buffer.cpp:151-158 | a live buffer is handed to the allocator's destroy call exactly once and its handle nulled; a second call releases nothing |
| RenderPasses.DefaultDescription | vulkit/vkit/state/render_pass.cpp:138-172 | one sample, no flags, undefined format and layouts; colour is cleared and stored, depth is cleared and not stored and wins over colour, anything else does not care; the stencil load is cleared exactly for a stencil attachment and the stencil store never cares |
| RenderPasses.Candidates | vulkit/vkit/state/render_pass.cpp:20-34 | the attachment's own formats when it has any; otherwise at most the one default of its kind |
| RenderPasses.DefaultFormatMatchesAspects | vulkit/vkit/state/render_pass.cpp:23-34 | the default format has exactly the aspects the image wrapper deduces from the same flags, and there is none when it deduces no aspect |
| RenderPasses.FeaturesMatchUsage | vulkit/vkit/state/render_pass.cpp:35-40 | the format feature checked is colour attachment exactly when the image wrapper gives the same flags colour-attachment usage, depth-stencil exactly when it gives depth-stencil usage, and at most one is checked |
| RenderPasses.RequestedFormatWins | vulkit/vkit/state/render_pass.cpp:202-206 | a requested format the driver supports optimally with the needed feature is the one built, whatever else is a candidate |
| RenderPasses.AllowedFormatFallback | vulkit/vkit/state/render_pass.cpp:207-211 | an allowed format is built when no earlier candidate is supported and it is |
| RenderPasses.Resolve | vulkit/vkit/state/render_pass.cpp:42-46 | a built attachment differs from its builder's only in the format, which is the chosen format; it fails, with no-format-supported, exactly when no format can be chosen |
| RenderPasses.ResolveAll | vulkit/vkit/state/render_pass.cpp:18-50 | the attachment loop builds one attachment per builder, or fails with no-format-supported |
| RenderPasses.ResolveAllContents | vulkit/vkit/state/render_pass.cpp:18-50 | the loop's i-th attachment is the i-th builder's attachment built on its own |
| RenderPasses.Descriptions | vulkit/vkit/state/render_pass.cpp:49 | the descriptions handed to the driver are the attachments' descriptions, in order |
| RenderPasses.AttachmentBuilder.constructor | vulkit/vkit/state/render_pass.cpp:138-172 | an attachment with some type flag, not colour together with depth or stencil, starts from its default description and no formats |
| RenderPasses.AttachmentBuilder.SetLoadOperation | vulkit/vkit/state/render_pass.cpp:174-181 | sets the load operation, and the stencil one unless it is the max-enum value |
| RenderPasses.AttachmentBuilder.SetStoreOperation | vulkit/vkit/state/render_pass.cpp:182-189 | sets the store operation, and the stencil one unless it is the max-enum value |
| RenderPasses.AttachmentBuilder.SetStencilLoadOperation | vulkit/vkit/state/render_pass.cpp:190-195 | sets only the stencil load operation |
| RenderPasses.AttachmentBuilder.SetStencilStoreOperation | vulkit/vkit/state/render_pass.cpp:196-201 | sets only the stencil store operation |
| RenderPasses.AttachmentBuilder.RequestFormat | vulkit/vkit/state/render_pass.cpp:202-206 | the format goes in front of every candidate so far |
| RenderPasses.AttachmentBuilder.AllowFormat | vulkit/vkit/state/render_pass.cpp:207-211 | the format goes behind every candidate so far |
| RenderPasses.AttachmentBuilder.SetLayouts | vulkit/vkit/state/render_pass.cpp:212-218 | sets both layouts and nothing else |
| RenderPasses.AttachmentBuilder.SetInitialLayout | vulkit/vkit/state/render_pass.cpp:219-223 | sets only the initial layout |
| RenderPasses.AttachmentBuilder.SetFinalLayout | vulkit/vkit/state/render_pass.cpp:224-228 | sets only the final layout |
| RenderPasses.AttachmentBuilder.SetSampleCount | vulkit/vkit/state/render_pass.cpp:229-233 | sets only the sample count |
| RenderPasses.AttachmentBuilder.SetFlags | vulkit/vkit/state/render_pass.cpp:234-238 | sets only the description flags |
| RenderPasses.Pointer | vulkit/vkit/state/render_pass.cpp:294-299 | an array pointer is null exactly when the array is empty, and otherwise points at its contents |
| RenderPasses.SubpassBuilder.constructor | vulkit/vkit/state/render_pass.cpp:244-249 | only the bind point is set, every array is empty and there is no depth-stencil attachment |
| RenderPasses.SubpassBuilder.AddColorAttachment | vulkit/vkit/state/render_pass.cpp:251-263 | appends the colour reference, and the resolve reference with the same layout unless the resolve index is the max value, keeping the two arrays the same length |
| RenderPasses.SubpassBuilder.AddResolvedColorAttachment | vulkit/vkit/state/render_pass.cpp:264-268 | the same with the colour-attachment-optimal layout |
| RenderPasses.SubpassBuilder.AddInputAttachment | vulkit/vkit/state/render_pass.cpp:269-274 | appends the input reference |
| RenderPasses.SubpassBuilder.AddPreserveAttachment | vulkit/vkit/state/render_pass.cpp:275-279 | appends the preserved index |
| RenderPasses.SubpassBuilder.SetDepthStencilAttachment | vulkit/vkit/state/render_pass.cpp:280-285 | sets the depth-stencil reference |
| RenderPasses.SubpassBuilder.SetFlags | vulkit/vkit/state/render_pass.cpp:286-290 | sets only the description flags |
| RenderPasses.SubpassBuilder.EndSubpass | vulkit/vkit/state/render_pass.cpp:291-304 | the description's counts become the array sizes, each array pointer is null exactly when its array is empty, and the depth-stencil pointer is null exactly when no depth-stencil attachment was set; flags and bind point are kept |
| RenderPasses.DependencyBuilder.constructor | vulkit/vkit/state/render_pass.cpp:306-312 | a dependency between the two subpasses with every mask and flag zero |
| RenderPasses.DependencyBuilder.SetStageMask | vulkit/vkit/state/render_pass.cpp:314-320 | sets both stage masks and nothing else |
| RenderPasses.DependencyBuilder.SetAccessMask | vulkit/vkit/state/render_pass.cpp:321-327 | sets both access masks and nothing else |
| RenderPasses.DependencyBuilder.SetFlags | vulkit/vkit/state/render_pass.cpp:328-332 | sets only the dependency flags |
| RenderPasses.Builder.constructor | vulkit/vkit/state/render_pass.hpp:112-137 | a builder for the image count with no allocator, no flags and no attachments, subpasses or dependencies |
| RenderPasses.Builder.States | vulkit/vkit/state/render_pass.cpp:18-22 | what each attachment builder holds, in order |
| RenderPasses.Builder.SubpassDescriptions | vulkit/vkit/state/render_pass.cpp:52-55 | each subpass builder's description, in order |
| RenderPasses.Builder.Dependencies | vulkit/vkit/state/render_pass.cpp:57-60 | each dependency builder's dependency, in order |
| RenderPasses.Builder.BeginAttachment | vulkit/vkit/state/render_pass.cpp:104-107 | appends a new attachment builder with its default description |
| RenderPasses.Builder.BeginSubpass | vulkit/vkit/state/render_pass.cpp:108-111 | appends a new subpass builder for the bind point |
| RenderPasses.Builder.BeginDependency | vulkit/vkit/state/render_pass.cpp:112-116 | appends a new dependency builder between the two subpasses |
| RenderPasses.Builder.SetFlags | vulkit/vkit/state/render_pass.cpp:122-126 | replaces the create flags |
| RenderPasses.Builder.AddFlags | vulkit/vkit/state/render_pass.cpp:127-131 | adds to the create flags |
| RenderPasses.Builder.RemoveFlags | vulkit/vkit/state/render_pass.cpp:132-136 | removes from the create flags |
| RenderPasses.Builder.SetAllocator | vulkit/vkit/state/render_pass.cpp:117-121 | sets the allocator |
| RenderPasses.Builder.Build | vulkit/vkit/state/render_pass.cpp:7-83 | with at least one subpass: a failed format choice fails with no-format-supported before anything reaches the driver; otherwise the driver gets every built attachment's description, every subpass description, every dependency and the flags; a failed creation returns its code; success yields a live render pass with the built attachments, the image count and the allocator |
| RenderPasses.ResolveAttachments | vulkit/vkit/state/render_pass.cpp:18-50 | the attachment loop computes exactly `ResolveAll`, and so everything proved about it |
| RenderPasses.ResolveAllFails | vulkit/vkit/state/render_pass.cpp:42-43 | a failure among the first attachments fails the whole loop |
| RenderPasses.RenderPass.constructor | vulkit/vkit/state/render_pass.hpp:171-174 | a live render pass with its attachments, image count and allocator |
| RenderPasses.RenderPass.Destroy | vulkit/vkit/state/render_pass.cpp:85-92 | a live render pass is destroyed once and nulled; a second call does nothing |
| GraphicsPipelines.Pointer | vulkit/vkit/state/graphics_pipeline.cpp:131-146 | a structure's array pointer is null exactly when the array is empty, and otherwise points at its contents |
| GraphicsPipelines.Builder.constructor | vulkit/vkit/state/graphics_pipeline.cpp:7-12 | a builder for a render pass and subpass starts from the initial state, which is valid and baked |
| GraphicsPipelines.Builder.ForRendering | vulkit/vkit/state/graphics_pipeline.cpp:13-18 | a dynamic-rendering builder has no render pass and keeps the rendering info; it starts from the same initial state |
| GraphicsPipelines.Builder.InitializeStates | vulkit/vkit/state/graphics_pipeline.cpp:20-78 | every fixed-function structure holds its default: triangle lists without restart, no static viewports, filled polygons of width one with no culling, counter-clockwise front faces and no bias, one sample, logic copy disabled with zero blend constants and no attachments, less-than depth compare with bounds 0 to 1 and every test off, and no dynamic state or vertex input |
| GraphicsPipelines.Builder.Initialize | vulkit/vkit/state/graphics_pipeline.cpp:20-78 | the whole builder is in its initial state: those defaults and every array empty |
| GraphicsPipelines.Builder.InitializeLists | vulkit/vkit/state/graphics_pipeline.cpp:20-78 | every array is empty and no base pipeline, base index or cache is named |
| GraphicsPipelines.Builder.Bake | vulkit/vkit/state/graphics_pipeline.cpp:131-146 | the colour blend, dynamic state and vertex input structures get their arrays' sizes as counts and point at them, or at nothing when empty; the rest of the colour blend state is kept |
| GraphicsPipelines.Builder.CreatePipelineInfo | vulkit/vkit/state/graphics_pipeline.cpp:148-172 | the create-info names the rendering info exactly when there is no render pass, carries one entry per shader stage and a null stage pointer for none, and keeps the layout, render pass and subpass |
| GraphicsPipelines.Builder.Build | vulkit/vkit/state/graphics_pipeline.cpp:80-90 | the driver gets the builder's create-info; a failure returns its code; success yields a live pipeline |
| GraphicsPipelines.Builder.SetBasePipeline | vulkit/vkit/state/graphics_pipeline.cpp:174-178 | sets the base pipeline |
| GraphicsPipelines.Builder.SetBasePipelineIndex | vulkit/vkit/state/graphics_pipeline.cpp:179-183 | sets the base pipeline index |
| GraphicsPipelines.Builder.SetCache | vulkit/vkit/state/graphics_pipeline.cpp:184-188 | sets the cache |
| GraphicsPipelines.Builder.SetTopology | vulkit/vkit/state/graphics_pipeline.cpp:191-195 | sets only the topology |
| GraphicsPipelines.Builder.SetPrimitiveRestart | vulkit/vkit/state/graphics_pipeline.cpp:196-205 | enables or disables only primitive restart |
| GraphicsPipelines.Builder.AddViewport | vulkit/vkit/state/graphics_pipeline.cpp:208-212 | appends the viewport and scissor pair |
| GraphicsPipelines.Builder.SetViewportCount | vulkit/vkit/state/graphics_pipeline.cpp:213-220 | as many viewports as scissors, neither given statically |
| GraphicsPipelines.Builder.SetRasterizerDiscard | vulkit/vkit/state/graphics_pipeline.cpp:223-237 | enables or disables only rasterizer discard |
| GraphicsPipelines.Builder.SetDepthClamp | vulkit/vkit/state/graphics_pipeline.cpp:228-242 | enables or disables only depth clamping |
| GraphicsPipelines.Builder.SetDepthBiasEnable | vulkit/vkit/state/graphics_pipeline.cpp:243-272 | enables or disables only the depth bias |
| GraphicsPipelines.Builder.SetPolygonMode | vulkit/vkit/state/graphics_pipeline.cpp:248-252 | sets only the polygon mode |
| GraphicsPipelines.Builder.SetLineWidth | vulkit/vkit/state/graphics_pipeline.cpp:253-257 | sets only the line width |
| GraphicsPipelines.Builder.SetCullMode | vulkit/vkit/state/graphics_pipeline.cpp:258-262 | sets only the cull mode |
| GraphicsPipelines.Builder.SetFrontFace | vulkit/vkit/state/graphics_pipeline.cpp:263-267 | sets only the front face |
| GraphicsPipelines.Builder.SetDepthBias | vulkit/vkit/state/graphics_pipeline.cpp:273-280 | sets only the three bias factors |
| GraphicsPipelines.Builder.SetSampleShading | vulkit/vkit/state/graphics_pipeline.cpp:283-292 | enables or disables only sample shading |
| GraphicsPipelines.Builder.SetAlphaToCoverage | vulkit/vkit/state/graphics_pipeline.cpp:308-322 | enables or disables only alpha-to-coverage |
| GraphicsPipelines.Builder.SetAlphaToOne | vulkit/vkit/state/graphics_pipeline.cpp:313-327 | enables or disables only alpha-to-one |
| GraphicsPipelines.Builder.SetSampleCount | vulkit/vkit/state/graphics_pipeline.cpp:293-297 | sets only the sample count |
| GraphicsPipelines.Builder.SetMinSampleShading | vulkit/vkit/state/graphics_pipeline.cpp:298-302 | sets only the minimum sample shading |
| GraphicsPipelines.Builder.SetSampleMask | vulkit/vkit/state/graphics_pipeline.cpp:303-307 | sets only the sample mask pointer |
| GraphicsPipelines.Builder.SetLogicOperationEnable | vulkit/vkit/state/graphics_pipeline.cpp:330-339 | enables or disables only the logic operation |
| GraphicsPipelines.Builder.SetLogicOperation | vulkit/vkit/state/graphics_pipeline.cpp:340-344 | sets only the logic operation |
| GraphicsPipelines.Builder.SetBlendConstants | vulkit/vkit/state/graphics_pipeline.cpp:345-361 | the four blend constants become the first four values given |
| GraphicsPipelines.Builder.SetBlendConstant | vulkit/vkit/state/graphics_pipeline.cpp:362-366 | sets one of the four blend constants |
| GraphicsPipelines.Builder.AddDefaultColorAttachment | vulkit/vkit/state/graphics_pipeline.cpp:367-372 | appends a new colour attachment builder and, at once, its default blend state |
| GraphicsPipelines.Builder.BeginColorAttachment | vulkit/vkit/state/graphics_pipeline.cpp:373-376 | appends a new colour attachment builder with the default blend state; the blend array is unchanged until it ends |
| GraphicsPipelines.Builder.SetDepthTest | vulkit/vkit/state/graphics_pipeline.cpp:379-403 | enables or disables only the depth test |
| GraphicsPipelines.Builder.SetDepthWrite | vulkit/vkit/state/graphics_pipeline.cpp:384-408 | enables or disables only depth writes |
| GraphicsPipelines.Builder.SetDepthBoundsTest | vulkit/vkit/state/graphics_pipeline.cpp:389-413 | enables or disables only the depth bounds test |
| GraphicsPipelines.Builder.SetStencilTest | vulkit/vkit/state/graphics_pipeline.cpp:394-418 | enables or disables only the stencil test |
| GraphicsPipelines.Builder.SetDepthCompareOperation | vulkit/vkit/state/graphics_pipeline.cpp:419-423 | sets only the depth compare operation |
| GraphicsPipelines.Builder.SetDepthBounds | vulkit/vkit/state/graphics_pipeline.cpp:424-429 | sets only the two depth bounds |
| GraphicsPipelines.Builder.SetStencil | vulkit/vkit/state/graphics_pipeline.cpp:430-492 | a stencil field changes on the front face exactly when the front flag is given and on the back face exactly when the back flag is; nothing else changes |
| GraphicsPipelines.Builder.SetStencilFailOperation | vulkit/vkit/state/graphics_pipeline.cpp:430-438 | the fail operation, on the faces named |
| GraphicsPipelines.Builder.SetStencilPassOperation | vulkit/vkit/state/graphics_pipeline.cpp:439-447 | the pass operation, on the faces named |
| GraphicsPipelines.Builder.SetStencilDepthFailOperation | vulkit/vkit/state/graphics_pipeline.cpp:448-456 | the depth-fail operation, on the faces named |
| GraphicsPipelines.Builder.SetStencilCompareOperation | vulkit/vkit/state/graphics_pipeline.cpp:457-465 | the compare operation, on the faces named |
| GraphicsPipelines.Builder.SetStencilCompareMask | vulkit/vkit/state/graphics_pipeline.cpp:466-474 | the compare mask, on the faces named |
| GraphicsPipelines.Builder.SetStencilWriteMask | vulkit/vkit/state/graphics_pipeline.cpp:475-483 | the write mask, on the faces named |
| GraphicsPipelines.Builder.SetStencilReference | vulkit/vkit/state/graphics_pipeline.cpp:484-492 | the reference, on the faces named |
| GraphicsPipelines.Builder.AddBindingDescription | vulkit/vkit/state/graphics_pipeline.cpp:495-504 | appends a binding numbered by how many came before it, so bindings stay numbered 0, 1, 2, ... |
| GraphicsPipelines.Builder.AddAttributeDescription | vulkit/vkit/state/graphics_pipeline.cpp:505-515 | appends an attribute whose location is how many came before it, so locations stay 0, 1, 2, ... |
| GraphicsPipelines.Builder.AddShaderStage | vulkit/vkit/state/graphics_pipeline.cpp:518-533 | appends the shader stage |
| GraphicsPipelines.Builder.AddDynamicState | vulkit/vkit/state/graphics_pipeline.cpp:536-540 | appends the dynamic state |
| GraphicsPipelines.InitialIsValid | vulkit/vkit/state/graphics_pipeline.cpp:20-78 | an initialised builder keeps its invariant and is already baked |
| GraphicsPipelines.BakedInfoAgrees | vulkit/vkit/state/graphics_pipeline.cpp:131-172 | after baking, the create-info's colour attachment, dynamic state, binding and attribute counts are the array sizes, and each pointer is null exactly for an empty array |
| GraphicsPipelines.BakedBindingsNumbered | vulkit/vkit/state/graphics_pipeline.cpp:495-515 | the bindings and attributes a baked builder hands over are numbered 0, 1, 2, ... |
| GraphicsPipelines.ColorAttachmentBuilder.constructor | vulkit/vkit/state/graphics_pipeline.cpp:542-553 | blending off, all four components written, source-alpha colour factors, one and one-minus-source-alpha alpha factors, add operations |
| GraphicsPipelines.ColorAttachmentBuilder.SetBlending | vulkit/vkit/state/graphics_pipeline.cpp:555-564 | enables or disables only blending |
| GraphicsPipelines.ColorAttachmentBuilder.SetColorWriteMask | vulkit/vkit/state/graphics_pipeline.cpp:565-570 | sets only the write mask |
| GraphicsPipelines.ColorAttachmentBuilder.SetColorBlendFactors | vulkit/vkit/state/graphics_pipeline.cpp:571-577 | sets only the two colour factors |
| GraphicsPipelines.ColorAttachmentBuilder.SetColorBlendOperation | vulkit/vkit/state/graphics_pipeline.cpp:578-583 | sets only the colour operation |
| GraphicsPipelines.ColorAttachmentBuilder.SetAlphaBlendFactors | vulkit/vkit/state/graphics_pipeline.cpp:584-590 | sets only the two alpha factors |
| GraphicsPipelines.ColorAttachmentBuilder.SetAlphaBlendOperation | vulkit/vkit/state/graphics_pipeline.cpp:591-596 | sets only the alpha operation |
| GraphicsPipelines.ColorAttachmentBuilder.EndColorAttachment | vulkit/vkit/state/graphics_pipeline.cpp:597-601 | the attachment's blend state is appended to its builder's blend array |
| GraphicsPipelines.GraphicsPipeline.constructor | vulkit/vkit/state/graphics_pipeline.cpp:89 | a live pipeline with the handle |
| GraphicsPipelines.GraphicsPipeline.Destroy | vulkit/vkit/state/graphics_pipeline.cpp:118-125 | a live pipeline is destroyed once and nulled; a second call does nothing |
| GraphicsPipelines.CreateAll | vulkit/vkit/state/graphics_pipeline.cpp:92-116 | one create-info per builder, in order; a failure returns its code; success gives pipeline i the i-th handle |
| VkLoaderGuards.AndGuards | codegen/cpp/vkloader.py:80-84 | `and_guards` appends exactly one group after the existing ones, with one condition per token; each condition is its stripped token wrapped in `defined(...)` unless it holds a space, and so reads back as that stripped token, and a well-formed guard stays well-formed |
| VkLoaderGuards.WellFormedAppend | codegen/cpp/vkloader.py:80-84 | appending a non-empty group of clean conditions keeps a well-formed guard well-formed |
| VkLoaderGuards.DefinedTokenRoundTrip | codegen/cpp/vkloader.py:84 | wrapping a stripped token in `defined(...)` (unless it holds a space) is undone by reading it back, and the result has no surrounding white space |
| VkLoaderGuards.JoinClean | codegen/cpp/vkloader.py:92-94 | a join of clean conditions starts with the first one's first character and ends with the last one's last character, so stripping it changes nothing |
| VkLoaderGuards.JoinAppend | codegen/cpp/vkloader.py:92-94 | joining a list with one more piece appends the separator and that piece |
| VkLoaderGuards.ConjunctsAppend | codegen/cpp/vkloader.py:90-94 | the conjuncts of groups with one more group are the old conjuncts followed by the new group's |
| VkLoaderGuards.ConjunctsClean | codegen/cpp/vkloader.py:90-94 | a well-formed guard yields one clean conjunct per group |
| VkLoaderGuards.OrRenderClean | codegen/cpp/vkloader.py:92-94 | the or-join of a non-empty group of clean conditions is clean, parenthesised or not |
| VkLoaderGuards.ParseGuards | codegen/cpp/vkloader.py:86-94 | `GuardGroup.parse_guards` gives a condition with no surrounding white space, and the empty condition for a group list with no groups |
| VkLoaderGuards.ParseGuardsJoin | codegen/cpp/vkloader.py:86-94 | for a well-formed guard `parse_guards` is the plain ` && `-join of its conjuncts (the strip is a no-op), and it is empty exactly when there are no groups |
| VkLoaderGuards.ParseGuardsAppend | codegen/cpp/vkloader.py:86-94 | adding a well-formed group to a guard appends ` && ` and that group's conjunct to the rendered condition, or gives the conjunct alone when the guard was empty |
| VkLoaderGuards.AndGuardsAddsConjunct | codegen/cpp/vkloader.py:80-94 | after `and_guards` with at least one token, `parse_guards` is the old condition ANDed with the new group's disjunction, parenthesised when it has several alternatives |
| VkLoaderGuards.MacroNoPartial | codegen/cpp/vkloader.py:256-260 | no suffix of `VKIT_API_VERSION` can begin a name that starts with `VK_`, so a replacement never completes a prefix with the text that follows it |
| VkLoaderGuards.MacroNoInner | codegen/cpp/vkloader.py:256-260 | no proper suffix of a version prefix can begin `VKIT_API_VERSION`, so a replacement never completes a prefix with the text before it |
| VkLoaderGuards.MacroCannotOverlap | codegen/cpp/vkloader.py:257 | each of the four version prefixes overlaps `VKIT_API_VERSION` on neither side |
| VkLoaderGuards.FixVersionMacroRemovesPrefixes | codegen/cpp/vkloader.py:256-260 | after `fix_version_macro` none of `VK_VERSION`, `VK_BASE_VERSION`, `VK_COMPUTE_VERSION`, `VK_GRAPHICS_VERSION` occurs anywhere in the text |
| VkLoaderGuards.FixVersionMacroIdempotent | codegen/cpp/vkloader.py:256-260 | applying `fix_version_macro` twice gives the same text as applying it once |
| VkLoaderGuards.NoGroupsNoGuard | codegen/cpp/vkloader.py:127-149 | a type with no guard groups has the empty guard, and so does a function that is not in `broken_functions` |
| VkLoaderGuards.DisjunctsClean | codegen/cpp/vkloader.py:127-129 | every disjunct of an entry's guard is non-empty and has no surrounding white space, because each group's render is already stripped |
| VkLoaderGuards.DisjunctsAppend | codegen/cpp/vkloader.py:127-129 | the disjuncts of an entry with one more guard group are the old disjuncts followed by the new group's |
| VkLoaderGuards.EntryJoinTrimmed | codegen/cpp/vkloader.py:127-129 | the or-join of an entry's disjuncts has no surrounding white space, so the `strip` in `Type.parse_guards` changes nothing |
| VkLoaderGuards.FixVersionMacroTrimmed | codegen/cpp/vkloader.py:256-260 | `fix_version_macro` keeps a condition free of surrounding white space, and empty exactly when it was empty |
| VkLoaderGuards.FixVersionMacroAround | codegen/cpp/vkloader.py:256-260 | `fix_version_macro` of two conditions or-joined is the join of each one's rewrite: no version prefix can reach across the separator |
| VkLoaderGuards.TypeGuardAppend | codegen/cpp/vkloader.py:127-129 | adding a guard group to a type adds one disjunct to `Type.parse_guards`: nothing when the group renders empty, the group's rewritten disjunct alone when the old guard was empty, and the old guard or-joined with that disjunct otherwise; the disjunct is parenthesised when it holds `&&` |
| VkLoaderGuards.FunctionGuardOfTypeGuard | codegen/cpp/vkloader.py:127-149 | `Function.parse_guards` equals `Type.parse_guards` of the same groups for a function not in `broken_functions`; a listed function gets `VK_HEADER_VERSION >= n` alone when that guard is empty, and that test ANDed with the parenthesised guard otherwise |
| VkLoaderGuards.CheckApiFromMeaning | codegen/cpp/vkloader.py:245-253 | the `check_api` loop from the i-th attribute on passes exactly when the check is not strict and every later present list names the API variant |
| VkLoaderGuards.CheckApiMeaning | codegen/cpp/vkloader.py:244-253 | `check_api` passes exactly when it is not strict and each present `api`, `supported` and `export` list names the variant, so a strict check never passes |
| VkLoaderRegistry.SplitParameter | codegen/cpp/vkloader.py:340-351 | splitting a `<param>` text keeps the element's name as the parameter's name |
| VkLoaderRegistry.ParseParameter | codegen/cpp/vkloader.py:340-351 | splitting fails exactly when the name is empty (the error `rsplit` raises on an empty separator), and otherwise keeps the name |
| VkLoaderRegistry.IndexOfChar | codegen/cpp/vkloader.py:344-345 | the first index of a one-character needle is the first position holding that character |
| VkLoaderRegistry.NoLaterName | codegen/cpp/vkloader.py:342 | in a declaration `type name[bounds]` whose bounds do not repeat the name, the name does not occur again after its own position |
| VkLoaderRegistry.LastOccurrenceOfName | codegen/cpp/vkloader.py:342 | in `type name[bounds]` the last occurrence of the name is the one right after the space, so `rsplit` cuts there |
| VkLoaderRegistry.StripSpaceAfter | codegen/cpp/vkloader.py:342 | stripping a clean type followed by a space gives the type back |
| VkLoaderRegistry.OpenBracketOf | codegen/cpp/vkloader.py:344 | in a bracket-free declaration followed by `[...]`, the first `[` is where the bounds start |
| VkLoaderRegistry.CloseBracketOf | codegen/cpp/vkloader.py:345 | in a bracket-free declaration followed by `[...]`, the first `]` is the last character |
| VkLoaderRegistry.NoBounds | codegen/cpp/vkloader.py:344-350 | a declaration with no brackets has no bounds |
| VkLoaderRegistry.BoundsOfDeclaration | codegen/cpp/vkloader.py:344-350 | the bounds of a bracket-free declaration followed by `[...]` are exactly that suffix |
| VkLoaderRegistry.BracketsOf | codegen/cpp/vkloader.py:344-350 | the bounds of such a declaration are the stripped text from the `[` to the end |
| VkLoaderRegistry.ArraySuffixToEnd | codegen/cpp/vkloader.py:344-350 | when the first `]` is the last character, the bounds run from the first `[` to the end |
| VkLoaderRegistry.SliceToEnd | codegen/cpp/vkloader.py:350 | the slice up to `idx2 + 1` with `idx2` the last index is the slice to the end |
| VkLoaderRegistry.ArraySuffixAt | codegen/cpp/vkloader.py:344-350 | the bounds are the stripped slice from the first `[` through the first `]` when the latter does not precede the former |
| VkLoaderRegistry.ParseParameterText | codegen/cpp/vkloader.py:109-118 | a declaration written by `Parameter.as_string` from a clean type, a clean name and a bracketed suffix that does not repeat the name splits back into the same parameter (the round trip of lines 340-351) |
| VkLoaderRegistry.TypePartOf | codegen/cpp/vkloader.py:342 | the stripped text before the name in `type name[bounds]` is the type |
| VkLoaderRegistry.BoundsPartOf | codegen/cpp/vkloader.py:344-350 | the bounds of `type name[bounds]` are the bracketed suffix when there is one, and none otherwise |
| VkLoaderRegistry.SplitDeclaration | codegen/cpp/vkloader.py:341-351 | a stripped declaration whose name last occurs at `k` splits into the stripped text before `k` and its bounds |
| VkLoaderRegistry.DeclarationIsStripped | codegen/cpp/vkloader.py:341 | a declaration built from clean parts has no surrounding white space, so the strip changes nothing |
| VkLoaderRegistry.InstanceNotDevice | codegen/cpp/vkloader.py:187-208 | `is_instance_function` and `is_device_function` never both hold, and every dispatchable function other than `vkGetInstanceProcAddr` and `vkCreateInstance` satisfies one of them |
| VkLoaderRegistry.TableOf | codegen/cpp/vkloader.py:187-208 | a function goes to the instance table exactly when `is_instance_function` holds, to the device table exactly when `is_device_function` holds, and to the global section exactly when neither does |
| VkLoaderRegistry.Section | codegen/cpp/vkloader.py:536-568 | each emitted section lists at most as many names as there are functions |
| VkLoaderRegistry.SectionsPartition | codegen/cpp/vkloader.py:536-568 | the global section, the instance table and the device table together emit every function exactly once: their name multisets add up to the functions' names |
| VkLoaderRegistry.TimelineRoundTrip | codegen/cpp/vkloader.py:734-747 | a timeline line names its entry and its guard unambiguously: reading it back gives the name and the guard, with `- No requirements` for the empty guard |
| VkLoaderRegistry.FunctionsIn | codegen/cpp/vkloader.py:735 | the functions listed in dictionary order are, position by position, the values stored under the ordered keys |
| VkLoaderRegistry.Registry.constructor | codegen/cpp/vkloader.py:366-367 | the type and alias dictionaries, like the function dictionary of line 296, start empty with an empty insertion order |
| VkLoaderRegistry.Registry.FunctionList | codegen/cpp/vkloader.py:735 | `functions.values()` yields one function per key in insertion order, each safe to ask for its first parameter's type |
| VkLoaderRegistry.Registry.SetFunction | codegen/cpp/vkloader.py:354-362 | `functions[fname] = fn` stores the function; a new key joins the end of the insertion order, an old one keeps its place, and the other dictionaries are unchanged |
| VkLoaderRegistry.Registry.SetType | codegen/cpp/vkloader.py:394-398 | `types[tname] = t` stores the type with the same ordering rule and leaves the other dictionaries unchanged |
| VkLoaderRegistry.Registry.SetAvailability | codegen/cpp/vkloader.py:426-437 | replacing what is recorded about a present function or type changes only that entry's availability: keys, orders, aliases and every other entry are unchanged |
| VkLoaderPasses.CollectDispatchables | codegen/cpp/vkloader.py:286-294 | a name is collected exactly when some handle element passing `check_api` has that name and its text holds `VK_DEFINE_HANDLE` |
| VkLoaderPasses.ParseTypes | codegen/cpp/vkloader.py:370-399 | the declaring pass gives every non-alias type element of the selected API a fresh entry with no availability; every other entry is an old one unchanged, and functions and aliases are untouched |
| VkLoaderPasses.AliasCopyGrows | codegen/cpp/vkloader.py:377-389 | a type that is a renamed copy of the type it aliases stays one while entries are only added and alias lists only grow |
| VkLoaderPasses.SweepTypeAlias | codegen/cpp/vkloader.py:377-389 | one sweep step leaves known types unchanged; a new entry is the element's renamed copy of the aliased type and is listed among that type's aliases; the step fails exactly when the aliased type is unknown |
| VkLoaderPasses.SweepTypeAliases | codegen/cpp/vkloader.py:370-389 | after the type alias sweep every new entry is a renamed copy of the type some alias element names and is recorded among its aliases; old entries are unchanged; success means every alias element has an entry, failure that some alias names an unknown type (the `KeyError`) |
| VkLoaderPasses.KeptParams | codegen/cpp/vkloader.py:336-338 | the parameters kept for the selected API are no more than the parameters given |
| VkLoaderPasses.ParseParametersFails | codegen/cpp/vkloader.py:336-352 | parsing a command's parameters fails exactly when a kept parameter has an empty name |
| VkLoaderPasses.ParseParametersNames | codegen/cpp/vkloader.py:336-352 | a successful parse gives one parameter per kept element, with that element's name, in order |
| VkLoaderPasses.AfterAppend | codegen/cpp/vkloader.py:352 | appending one parsed parameter and then the rest is the same as appending the longer prefix and then the rest |
| VkLoaderPasses.ParseCommandParameters | codegen/cpp/vkloader.py:335-352 | the parameter loop returns the specification of the whole parse: the split of every kept parameter in order, or the first split error |
| VkLoaderPasses.CommandEntry | codegen/cpp/vkloader.py:354-362 | the entry of a declared command keeps its name, return type and parameters, has no availability yet, and is dispatchable exactly when its first parameter's type is a dispatchable handle |
| VkLoaderPasses.ParseCommands | codegen/cpp/vkloader.py:299-363 | the declaring pass gives each non-alias command of the selected API an entry built from its parsed parameters that obeys the dispatch rule; other entries and the type dictionaries are unchanged; it fails exactly when some declared command's parameters cannot be parsed |
| VkLoaderPasses.RetypeParameter | codegen/cpp/vkloader.py:316-324 | a parameter of an alias command keeps its name and bounds; when its cleaned type name (without `const`, `*`, `struct`) has aliases it is replaced by one of them, otherwise the type is unchanged |
| VkLoaderPasses.RetypedAppend | codegen/cpp/vkloader.py:316-324 | retyping the next parameter keeps every earlier parameter retyped |
| VkLoaderPasses.NonEmptyHasMember | codegen/cpp/vkloader.py:323 | a non-empty alias list has a member for the closest match to pick |
| VkLoaderPasses.RetypedWith | codegen/cpp/vkloader.py:322-324 | replacing the cleaned type name by a member of its alias list retypes the parameter |
| VkLoaderPasses.RetypeParameters | codegen/cpp/vkloader.py:316-324 | the parameter loop of the alias sweep retypes every parameter, position by position, and keeps their number |
| VkLoaderPasses.CommandCopyGrows | codegen/cpp/vkloader.py:305-326 | a function that is a renamed, retyped copy of the command it aliases stays one while functions are only added |
| VkLoaderPasses.SweepCommandAlias | codegen/cpp/vkloader.py:305-326 | one sweep step leaves known functions unchanged; a new entry has the aliased command's return type, dispatchability, availability and retyped parameters; the step fails exactly when the aliased command is unknown |
| VkLoaderPasses.SweepCommandAliases | codegen/cpp/vkloader.py:299-329 | after the command alias sweep every new function is a renamed, retyped copy of the command some alias element names; old entries and the type dictionaries are unchanged; success means every alias command has an entry, failure that some alias names an unknown command |
| VkLoaderAvailability.AdmittedRefs | codegen/cpp/vkloader.py:422-446 | the `<command>` or `<type>` children a require block registers are those passing `check_api`, no more than are listed |
| VkLoaderAvailability.Tagged | codegen/cpp/vkloader.py:432-433 | each entry a feature lists is registered with that feature's version, one registration per entry, in order |
| VkLoaderAvailability.TaggedPrefix | codegen/cpp/vkloader.py:422-437 | registering the next listed entry extends the registrations made so far by exactly that entry with the same version |
| VkLoaderAvailability.FeatureRegistrationsPrefix | codegen/cpp/vkloader.py:414-461 | the registrations of the first features are a prefix of those of all features |
| VkLoaderAvailability.StuckIsInadmissible | codegen/cpp/vkloader.py:426-430 | a registration that finds its entry missing or already carrying a version makes every list containing it unregistrable |
| VkLoaderAvailability.RegisterStep | codegen/cpp/vkloader.py:426-437 | registering an entry that exists and has no version yet keeps the registrations admissible and marks exactly that entry |
| VkLoaderAvailability.RegisterEntry | codegen/cpp/vkloader.py:425-440 | one registration: a missing entry is the `KeyError`, an entry already carrying a version is the fatal error of lines 427-430, and otherwise the entry gets the version as `available_since` and as one more guard group |
| VkLoaderAvailability.RegisterFeature | codegen/cpp/vkloader.py:417-461 | one feature's loop marks each admitted command and type of its admitted require blocks with the rewritten version name (the repeated `fix_version_macro` is idempotent), or fails exactly when the registrations cannot all be made |
| VkLoaderAvailability.FeaturePass | codegen/cpp/vkloader.py:414-461 | the feature pass succeeds exactly when every listed entry exists, has no version yet and is listed once; then each listed entry carries its feature's version as `available_since` and as one more guard group, and every other entry is unchanged |
| VkLoaderAvailability.DependsGroup | codegen/cpp/vkloader.py:479-482 | each `+`-separated part of `depends` appends one group after the existing ones |
| VkLoaderAvailability.DependsGroupNext | codegen/cpp/vkloader.py:481-482 | handling the next dependency part is one `and_guards` with its `,`-separated alternatives |
| VkLoaderAvailability.BaseGroupShape | codegen/cpp/vkloader.py:475-482 | without `--guard-extension` a block starts from the empty guard; with it, the extension's `defined(...)` is the first group and each dependency part adds one more |
| VkLoaderAvailability.GroupAfter | codegen/cpp/vkloader.py:484-488 | the group shared by a block's commands only grows: the block's starting groups stay in front |
| VkLoaderAvailability.GroupAfterGrows | codegen/cpp/vkloader.py:484-488 | a condition added for one command stays in the group handed to every later command and type of the same block |
| VkLoaderAvailability.SpecConditionAdded | codegen/cpp/vkloader.py:486-487 | with `--guard-version`, a command listed in `spec_version_req` adds the group `EXT_SPEC_VERSION >= n` as the last group |
| VkLoaderAvailability.CommandAttachments | codegen/cpp/vkloader.py:484-488 | a block attaches one group per command, each the shared group as it stands after that command |
| VkLoaderAvailability.CommandAttachmentsStep | codegen/cpp/vkloader.py:484-488 | the group attached to the next command is the shared group after that command's spec-version step |
| VkLoaderAvailability.TypeAttachments | codegen/cpp/vkloader.py:493-495 | a block attaches one group per type, each the shared group as the commands left it |
| VkLoaderAvailability.RequiresAttachmentsPrefix | codegen/cpp/vkloader.py:474-498 | the attachments of an extension's first require blocks are a prefix of those of all its blocks |
| VkLoaderAvailability.RequiresAttachmentsNext | codegen/cpp/vkloader.py:474-498 | the next require block adds its own attachments after those of the earlier blocks |
| VkLoaderAvailability.ExtensionAttachmentsPrefix | codegen/cpp/vkloader.py:472-498 | the attachments of the first extensions are a prefix of those of all extensions |
| VkLoaderAvailability.GroupsForAppend | codegen/cpp/vkloader.py:488-495 | the groups attached to an entry by two runs of attachments are those of the first run followed by those of the second |
| VkLoaderAvailability.AllAttachedStep | codegen/cpp/vkloader.py:488-495 | attaching to one more existing entry keeps every attached entry existing |
| VkLoaderAvailability.NotAllAttachedPrefix | codegen/cpp/vkloader.py:488-495 | once an attachment names a missing entry, no continuation of it can succeed |
| VkLoaderAvailability.AllAttachedThen | codegen/cpp/vkloader.py:488-495 | since the pass adds and removes no entry, entries present after earlier attachments were present before them |
| VkLoaderAvailability.BlockStuck | codegen/cpp/vkloader.py:488-495 | a require block that finds an entry missing makes the whole extension pass fail |
| VkLoaderAvailability.ExtendedNothing | codegen/cpp/vkloader.py:472-498 | before any attachment every entry is as it was |
| VkLoaderAvailability.ExtendedStep | codegen/cpp/vkloader.py:488-495 | appending one group to one existing entry extends the record of attachments by that group and changes no other entry |
| VkLoaderAvailability.ExtendedThen | codegen/cpp/vkloader.py:472-498 | two runs of attachments one after the other extend each entry by the groups of both runs, in order |
| VkLoaderAvailability.BaseGuards | codegen/cpp/vkloader.py:475-482 | the loop that starts a block's group builds the specified group: the extension's name, then one group per dependency part, only with `--guard-extension` |
| VkLoaderAvailability.AttachEntry | codegen/cpp/vkloader.py:488-495 | appending a copy of the group to an entry succeeds exactly when the entry exists (a `KeyError` otherwise), and then that entry alone gains the group |
| VkLoaderAvailability.PrefixNext | codegen/cpp/vkloader.py:472-498 | the first k+1 elements are the first k followed by the k-th |
| VkLoaderAvailability.NotAllAttached | codegen/cpp/vkloader.py:488-495 | an attachment naming a missing entry means not every attached entry exists |
| VkLoaderAvailability.AttachCommands | codegen/cpp/vkloader.py:484-491 | the command loop of a block returns the shared group as the specification builds it, succeeds exactly when every listed command exists, and then each has gained its group |
| VkLoaderAvailability.AttachTypes | codegen/cpp/vkloader.py:493-498 | the type loop of a block succeeds exactly when every listed type exists, and then each has gained a copy of the final group |
| VkLoaderAvailability.AttachRequire | codegen/cpp/vkloader.py:474-498 | one require block succeeds exactly when every command and type it lists exists, and then each has gained its group and nothing else has changed |
| VkLoaderAvailability.AttachBlock | codegen/cpp/vkloader.py:474-498 | within the pass, one more require block keeps what earlier blocks attached, and a failure means the whole pass fails |
| VkLoaderAvailability.AttachExtension | codegen/cpp/vkloader.py:473-498 | one extension's require blocks succeed exactly when every entry they list exists, and then each entry has gained, in order, the groups attached to it |
| VkLoaderAvailability.AttachExtensionAt | codegen/cpp/vkloader.py:472-498 | within the pass, one more extension keeps what earlier extensions attached, and a failure means the whole pass fails |
| VkLoaderAvailability.ExtensionPass | codegen/cpp/vkloader.py:472-498 | the extension pass, with no API filtering, succeeds exactly when every required entry exists; then each entry keeps its version and has gained, in document order, the groups attached to it, and no entry appears or vanishes |
| BuildScript.TryConvertBool | setup/build.py:9-14 | `True` and `False` are read as the corresponding flags, in both directions, and any other text is kept as it is |
| BuildScript.IniRoundTrip | setup/build.py:31-40 | a `name: value` entry of build.ini, with no colon in the name or a text value and no text value spelling a Python boolean, splits back into that name and value, and the value converts back to the default it came from |
| BuildScript.Names | setup/build.py:33 | the section's keys are listed in section order |
| BuildScript.ParsedKeys | setup/build.py:35 | the keys of `parsed` after the first i items are exactly those items' CMake names |
| BuildScript.ParsedStep | setup/build.py:40 | storing the next well-formed item under a fresh key extends what has been parsed by that item |
| BuildScript.ParsedAll | setup/build.py:42 | once every item is stored, the result has the section's order and one parsed entry per item |
| BuildScript.ParseSection | setup/build.py:31-43 | `parse_section` as written fails exactly when an item does not split into two fields or its derived name equals the CMake key of an earlier item; otherwise every item is stored, in order, under its key as its derived name and converted value |
| BuildScript.UnrefusedDistinct | setup/build.py:35-38 | items that no checked test refuses derive pairwise distinct names |
| BuildScript.ParseSectionChecked | setup/build.py:31-43 | the intended `parse_section` compares derived names with derived names: it fails exactly when an item does not split or repeats an earlier derived name, and a successful parse has pairwise distinct derived names |
| BuildScript.DuplicateNamesSlipThrough | setup/build.py:35 | two keys `a` and `b` that both derive the name `x` pass the duplicate check as written, while the checked parse refuses the second |
| BuildScript.ArgKeysStep | setup/build.py:95 | storing the next option under its destination makes the map keyed by the destinations of one more option |
| BuildScript.ArgKeyReplacesHyphens | setup/build.py:95 | the argparse destination of an option has the same length as its name, keeps every character but `-`, and holds no `-` |
| BuildScript.ArgEntriesStep | setup/build.py:95 | after storing the next option, the last option with each destination is the one stored under it |
| BuildScript.BuildArgMap | setup/build.py:71-96 | `arg_map` is keyed exactly by the options' destinations (hyphens made underscores), and each destination holds the CMake name and default of the last option with that destination |
| BuildScript.SelectedValue | setup/build.py:112-126 | a text option selects its text; a switch fails when its `no_` twin is missing or when both it and its twin are set, and otherwise selects `True` exactly when `--x` is given, or neither is given and the default is truthy |
| BuildScript.ApplySection | setup/build.py:132-140 | an override section fails exactly when it names an unknown option; otherwise the keys and CMake names stay and options it does not name are unchanged |
| BuildScript.ApplySectionLastWins | setup/build.py:132-140 | each named option's default becomes the converted text of the last override that names it, as a later dict assignment wins |
| BuildScript.ApplySectionItems | setup/build.py:132-140 | the loop over one override section's items returns exactly what ApplySection specifies: the error for the first unknown option, or the updated map |
| BuildScript.OverrideStep | setup/build.py:108-140 | one turn of the first loop of `main` keeps the keys and CMake names of `arg_map` |
| BuildScript.Overrides | setup/build.py:108-140 | the first loop of `main` keeps the keys and CMake names of `arg_map`; only defaults change |
| BuildScript.OverridesErrStays | setup/build.py:108-140 | once the first loop has raised, its outcome is that first error |
| BuildScript.BothFlagsFatal | setup/build.py:116-120 | giving both `--x` and `--no-x` for a known switch makes the first loop of `main` fail |
| BuildScript.ApplyOverrides | setup/build.py:107-140 | the nested loops of `main` compute the specified override outcome: the selected sections applied in destination order, or the first error |
| BuildScript.ApplyOverride | setup/build.py:108-140 | one turn of the loop for one destination returns exactly the specified step: unchanged when the destination names no option or its section is absent, the selection error, or the section applied |
| BuildScript.CMakeSetting | setup/build.py:147-159 | a text option passes its text with every double quote left out and every other character kept, in order; a switch fails exactly when its `no_` twin is missing, and is `ON` exactly when `--x` is given, or neither is given and its (possibly overridden) default is truthy, and `OFF` otherwise |
| BuildScript.SettingAgreesWithSelection | setup/build.py:112-159 | whenever a switch selects a value in the first loop, the second loop accepts it and sets it `ON` exactly when it selected `True` |
| BuildScript.CMakeAssignments | setup/build.py:142-160 | the second loop fails exactly when a known switch lacks its `no_` twin; otherwise it yields an insertion-ordered map whose every key is the `-D` flag of a known option |
| BuildScript.CMakeAssignmentsValue | setup/build.py:142-160 | the value stored under an option's `-D` flag is that option's own setting unless a later option maps to the same flag |
| BuildScript.CMakeErrStays | setup/build.py:142-160 | once the second loop has raised, its outcome is that first error |
| BuildScript.CMakeStep | setup/build.py:143-159 | one turn of the second loop skips an unknown destination, stores the option's setting under its `-D` flag, or fails with that setting's error |
| BuildScript.Render | setup/build.py:161 | `cmake_args` has one `flag=value` string per stored flag |
| BuildScript.BuildCMakeArgs | setup/build.py:142-161 | the second loop of `main` and the rendering compute the specified CMake arguments: `flag=value` for each assignment in insertion order, or the same error |
| CMakeScanner.StripPrefixes | setup/cmake_scanner.py:79-82 | stripping the prefixes in list order leaves a suffix of the name, never a longer text |
| CMakeScanner.StripPrefixesAppend | setup/cmake_scanner.py:80-82 | the prefix loop is a left fold: the last prefix is tried on what the earlier ones left |
| CMakeScanner.StripPrefixesUnmatched | setup/cmake_scanner.py:80-82 | a name that starts with none of the prefixes is left alone |
| CMakeScanner.StripPrefixesShort | setup/cmake_scanner.py:80-82 | a name shorter than every prefix is left alone |
| CMakeScanner.TwinsUnprefixed | setup/cmake_scanner.py:38-50 | none of the default prefixes is stripped from `A_B` or `A-B` |
| CMakeScanner.MangleChar | setup/cmake_scanner.py:83-86 | with lowercasing on no character is an upper-case letter, with the hyphen switch on none is `_`, and with both off the character is unchanged |
| CMakeScanner.Mangled | setup/cmake_scanner.py:83-86 | the case and separator switches map a name character by character and keep its length |
| CMakeScanner.Stem | setup/cmake_scanner.py:79-82 | the stem is a suffix of the CMake name, and is the whole name when stripping is off or disabled for this call |
| CMakeScanner.ProcessOgVarName | setup/cmake_scanner.py:77-87 | `process_ogvarname` is the stem mapped character by character; it is no longer than the CMake name, has no `_` with the hyphen switch and no upper-case letter with lowercasing |
| CMakeScanner.PipelineIsMangled | setup/cmake_scanner.py:83-87 | lowercasing and then replacing underscores by hyphens is the character-by-character mapping |
| CMakeScanner.LogFileUnmatched | setup/cmake_scanner.py:41-49 | `LOG_FILE` starts with none of the default prefixes that follow `VULKIT_ENABLE_` |
| CMakeScanner.DefaultStem | setup/cmake_scanner.py:41-49 | with the default prefixes `VULKIT_ENABLE_LOG_FILE` loses `VULKIT_ENABLE_` and nothing more, so the longer prefixes listed first win |
| CMakeScanner.ParseDefault | setup/cmake_scanner.py:95-98 | `ON` and `OFF` are read as the corresponding flags, in both directions, and any other default is kept as text |
| CMakeScanner.ProcessOption | setup/cmake_scanner.py:89-100 | `process_option` succeeds exactly when the line has two words, and then returns the CMake name, its derived name and its converted default |
| CMakeScanner.OptionWords | setup/cmake_scanner.py:110 | splitting the text between `hint(` and `)` on spaces gives at least one word |
| CMakeScanner.OptionWordsOfLine | setup/cmake_scanner.py:110 | a line `hint(NAME VALUE)` whose name and value hold no space yields exactly the name and the value |
| CMakeScanner.ScanLines | setup/cmake_scanner.py:108-114 | scanning a file succeeds exactly when every line that starts with the hint has two words, and yields no more options than lines |
| CMakeScanner.OptionLines | setup/cmake_scanner.py:110-113 | one option line per name and default |
| CMakeScanner.Expectations | setup/cmake_scanner.py:89-100 | one expected option per name and default |
| CMakeScanner.ScanWellFormed | setup/cmake_scanner.py:108-114 | a file made of well-formed option lines yields exactly one option per line, in order, with its derived name and converted default |
| CMakeScanner.Contents | setup/cmake_scanner.py:119 | the detected options are keyed by CMake name, and the keys are exactly the CMake names detected |
| CMakeScanner.HasClashShares | setup/cmake_scanner.py:123-126 | two options deriving the same name exist exactly when some option shares its derived name with another |
| CMakeScanner.Resolution | setup/cmake_scanner.py:122-143 | the clash loop's outcome keeps the keys, their order and every default; without prefix stripping a clash is fatal |
| CMakeScanner.ResolutionNoClash | setup/cmake_scanner.py:123-126 | options whose derived names are distinct come through the clash loop unchanged |
| CMakeScanner.ResolutionUnstrippedDistinct | setup/cmake_scanner.py:130-133 | without prefix stripping, a successful resolution changes nothing and the derived names were distinct |
| CMakeScanner.ExpectedFresh | setup/cmake_scanner.py:124-126 | visiting an option whose derived name is new changes no entry |
| CMakeScanner.ExpectedClash | setup/cmake_scanner.py:134-142 | visiting an option that clashes with an earlier one re-derives both names with stripping disabled and changes nothing else |
| CMakeScanner.HasClashPrefix | setup/cmake_scanner.py:123-133 | a clash among the first options is a clash of all of them |
| CMakeScanner.FirstSeenFresh | setup/cmake_scanner.py:124-125 | recording a new derived name keeps `unique_varnames` pointing each name at an option that derives it |
| CMakeScanner.FirstSeenClash | setup/cmake_scanner.py:124-126 | visiting a clashing option leaves `unique_varnames` valid |
| CMakeScanner.NoClashFresh | setup/cmake_scanner.py:124-126 | adding an option whose derived name is new to a clash-free list keeps it clash-free |
| CMakeScanner.EntriesFresh | setup/cmake_scanner.py:124-126 | after visiting an option with a new derived name every entry is still the expected one |
| CMakeScanner.EntriesClash | setup/cmake_scanner.py:134-142 | after re-deriving both clashing options every entry is the expected one |
| CMakeScanner.VisitFresh | setup/cmake_scanner.py:123-126 | visiting an option with a new derived name records it and keeps the loop state |
| CMakeScanner.VisitClash | setup/cmake_scanner.py:127-143 | visiting a clashing option with stripping on re-derives it and the option first seen with that name, and keeps the loop state |
| CMakeScanner.VisitedNext | setup/cmake_scanner.py:123 | with stripping on, the loop state holds for one more option once its bookkeeping does |
| CMakeScanner.ClashStep | setup/cmake_scanner.py:134-142 | the clash step keeps `unique_varnames` valid and every entry as expected |
| CMakeScanner.FreshInPrefix | setup/cmake_scanner.py:123 | a key of the dictionary does not occur before its own position |
| CMakeScanner.PrefixKeys | setup/cmake_scanner.py:123 | every key in the dictionary's order has a value |
| CMakeScanner.VisitFatal | setup/cmake_scanner.py:130-133 | without stripping, a clash with an earlier option is a clash of the whole list |
| CMakeScanner.VisitedAll | setup/cmake_scanner.py:122-143 | once every option has been visited, the loop state is the resolution |
| CMakeScanner.ExpectedMap | setup/cmake_scanner.py:122-143 | the entries the loop leaves are the expected ones, key for key |
| CMakeScanner.ResolveClashes | setup/cmake_scanner.py:120-143 | the clash loop, visiting options in insertion order and remembering the first option per derived name, computes the specified resolution: the same keys, order and defaults, with every clashing option re-derived without stripping, or the fatal error when stripping is off |
| CMakeScanner.TwinsRestored | setup/cmake_scanner.py:77-87 | re-deriving `A_B` and `A-B` with stripping disabled, case kept and hyphens on, still gives `A-B` for both |
| CMakeScanner.SeparatorTwinsDerived | setup/cmake_scanner.py:77-87 | with `--keep-case` alone (default prefixes, hyphens on), `A_B` and `A-B` both derive `A-B`, with or without stripping |
| CMakeScanner.ResolutionKeepsClash | setup/cmake_scanner.py:127-143 | as written, the clash between `A_B` and `A-B` is reported as resolved while both options still derive `A-B` |
| CMakeScanner.ResolutionChecked | setup/cmake_scanner.py:122-143 | the intended resolution fails when the restored names still clash, so any success agrees with the loop and has distinct derived names |
| CMakeScanner.ResolutionCheckedNoClash | setup/cmake_scanner.py:123-126 | options with distinct derived names pass the corrected resolution unchanged |
| CMakeScanner.ResolutionCheckedRejects | setup/cmake_scanner.py:127-143 | the corrected resolution rejects the separator twins |
| OrderedDict.Dict.Put | setup/build.py:40 | `d[k] = v` stores the value; a new key joins the end of the insertion order, an existing key keeps its place |
| OrderedDict.FromPairs | setup/cmake_scanner.py:119 | the dict comprehension's keys are exactly the keys of the pairs, each listed once |
| OrderedDict.FromPairsLast | setup/cmake_scanner.py:119 | a key repeated in the comprehension ends with the value of its last occurrence |
| OrderedDict.FromPairsFirst | setup/cmake_scanner.py:119 | keys are listed in the order of their first occurrence |
| Text.TrimLeft | codegen/cpp/vkloader.py:83 | the left part of `strip` removes exactly the leading white space and leaves a suffix |
| Text.TrimRight | codegen/cpp/vkloader.py:83 | the right part of `strip` removes exactly the trailing white space and leaves a prefix |
| Text.RemovePrefix | setup/cmake_scanner.py:82 | `removeprefix` drops the prefix when the text starts with it and otherwise changes nothing |
| Text.RemoveSuffix | setup/cmake_scanner.py:110 | `removesuffix` drops the suffix when the text ends with it and otherwise changes nothing |
| Text.IndexOf | codegen/cpp/vkloader.py:344-345 | `find` answers the first position where the needle occurs, or nothing when it occurs nowhere |
| Text.LastIndexOf | codegen/cpp/vkloader.py:342 | the cut of `rsplit(name, 1)` is the last position where the name occurs, or nothing when it occurs nowhere |
| Text.StripIsTrimmed | codegen/cpp/vkloader.py:94 | `strip` leaves no white space at either end |
| Text.ReplaceTrimmed | codegen/cpp/vkloader.py:256-260 | replacing a pattern by a text with no surrounding white space keeps a string free of surrounding white space, and empty exactly when it was |
| Text.ReplaceAround | codegen/cpp/vkloader.py:256-260 | `replace` works separately on each side of a character the pattern does not hold: no occurrence can straddle it |
| Text.ReplaceAroundBars | codegen/cpp/vkloader.py:256-260 | a pattern of three or more characters with no space is replaced on each side of the or-separator separately |
| Text.CaseIdempotent | setup/build.py:149 | lowering or raising a name a second time changes nothing |
| Text.Split | setup/build.py:34 | splitting on a non-empty separator gives at least one piece |
| Text.SplitJoin | setup/build.py:34 | joining the pieces of a split with the separator gives back the text |
| Text.SplitPiecesClean | setup/build.py:34 | no piece of a split holds the separator |
| Text.BeforeFirst | setup/build.py:34 | the text before the first separator holds no separator, so the first piece is free of it |
| Text.AroundFirst | setup/build.py:34 | the text is the part before the first separator, the separator and the part after it |
| Text.SplitWhole | setup/build.py:34 | a text that lacks the separator's first character splits into itself alone |
| Text.SplitPair | setup/build.py:34 | splitting `a + sep + b` gives back `a` and `b` when neither holds the separator's first character |
| Text.NatToString | codegen/cpp/vkloader.py:148 | the decimal text of a header version is a non-empty string of digits, without a leading zero unless the number is zero, whose decimal value is the number |
| Text.NatToStringInjective | codegen/cpp/vkloader.py:148 | different header versions print differently |
| Text.Without | setup/build.py:149 | the text with a character left out holds none of it and is no longer than the original |
| Text.WithoutCounts | setup/build.py:149 | leaving a character out keeps every other character exactly as often as it occurred and drops every occurrence of that one |
| Text.WithoutAbsent | setup/build.py:149 | a text that lacks the character is left as it is |
| Text.ReplaceDeletes | setup/build.py:149 | `replace` of a one-character pattern by the empty text leaves out exactly that character, keeping the others in order |


## Left out

- Calls into Vulkan, VMA and the operating system are not modelled. Each call's answer (its result code, the handle it returns, the enumerated properties) is a parameter of the method that makes it.
- `Wrappers.Result` carries the library's error as a value. The driver's own error strings and the logging done on failure are not modelled.
- VkQueue.Queue.Submit: `Submit2` is modelled by the same method, because both share the timeline bookkeeping and differ only in the Vulkan structure passed. `WaitIdle` and `DestroyTimeline` only call Vulkan and are not modelled.
- VkSystem: `Initialize` opens the Vulkan library with `dlopen` and loads the function table, so it is not modelled. The beta-only `VK_ERROR_INVALID_VIDEO_STD_PARAMETERS_KHR` case of `VkResultToString` is compiled only under `VK_ENABLE_BETA_EXTENSIONS` and is not in the case table.
- Instances: the debug-messenger callback, `SubmitForDeletion`, `CreateProxy` and the plain getters are not modelled. The platform's surface extension is a parameter. The capacities of the fixed-size `StaticArray` name lists are not modelled.
- Instances.AddUnique: the C++ `contains` compares `const char*` pointers, and the model compares names by content. The two differ only when the same name arrives through two different pointers.
- PhysicalDevices: the swap-chain extension is appended to the required extensions without a duplicate check, as in the code. Required extensions are not de-duplicated either.
- PhysicalDevices: the `VkPhysicalDeviceProperties2` chain, the `VKIT_CHECK_*` table macros, the device properties and the capacities of the fixed-size arrays are not modelled.
- PhysicalDevices.Selector.Enumerate: the two-call extension enumeration (count, then fill) is one answer, a parameter.
- PhysicalDevices.Selector.RequireFeatures: the `pNext` chain of the feature structures is not modelled.
- PhysicalDevices.QueueIndex: the compatible and the dedicated search are one function with a mode argument.
- PhysicalDevices.PhysicalDevice: `IsExtensionSupported` and `IsExtensionEnabled` are plain membership predicates.
- LogicalDevices: the header's `Info` struct and the one the .cpp fills differ. The model follows the .cpp. `WaitIdle`, `CreateProxy` and `QuerySwapChainSupport` on the logical device only forward to Vulkan and are not modelled. Neither is the log warning printed when a requested queue is not available. The model assumes headers that declare `VK_KHR_get_physical_device_properties2`. So it leaves out the build-time branch that returns a missing-extension error when that macro is absent (logical_device.cpp:98-102). It also leaves out the path for headers that declare neither that macro nor API version 1.1, which always passes the core features (logical_device.cpp:118-121).
- LogicalDevices.Builder.Build: queue priorities are floats and are modelled as opaque values that are only copied.
- SwapChains: the number of swap-chain images is capped at 8 (`MaxImages`), the capacity of the fixed-size array that holds them. The model keeps that bound as a requires and in the swap chain's invariant.
- SwapChains.Builder.Build: when no present mode is supported, the code reports `NoFormatSupported`, and so does the model. A failing `CreateImageView` leaves that view as it was. The `VKIT_CHECK_TABLE_FUNCTION` macros are not modelled.
- Images: the view type of an image's view stays 2D, as in the code.
- HostBuffers: the allocation alignment `m_Alignment` (which host_buffer.cpp never sets) is not modelled. A host buffer's memory is a sequence of bytes.
- Images.Image.GetSize: the height and depth are required to be at least 1, which Vulkan demands of every image extent. With a zero height the code's unsigned `Height - 1` would wrap, and the model does not capture that.
- Images.Image.TransitionLayout: the barrier record keeps only the old and new layouts and the aspect mask. Its access masks, pipeline stages and queue-family indices are passed through from the caller untouched, and the model does not record them.
- Images.ImageBuilder.Build: when the view cannot be created, the image and its allocation are not destroyed, as in the code.
- Images: the `CopyFromImage` and `CopyFromBuffer` command recordings are not modelled. Only the extent and size arithmetic they use is.
- Buffers.AlignedSizeSpec: the code rounds with `& ~(a - 1)`, which agrees with rounding up to a multiple of `a` only when `a` is a power of two. The model states the rounding and makes a power-of-two alignment a requirement of `Build`.
- Buffers: `SetSharingMode`, `CopyFromBuffer`, `CopyFromImage`, `UploadFromHost`, `Flush`, `FlushAt`, `Invalidate`, `InvalidateAt`, `BindAsVertexBuffer`, `GetDescriptorInfo` and `GetBufferInfo` record commands or only forward to VMA or Vulkan, and are not modelled.
- HostBuffers.HostBuffer.Resize: the new allocation's uninitialised tail is modelled as zero bytes.
- HostBuffers.HostBuffer.constructor: the size `count * instanceSize` is an unbounded product. The constructor and `Resize` multiply in 64-bit `VkDeviceSize`, which wraps around; that wrap is not modelled.
- HostBuffers.HostBuffer.WriteFrom: the bytes are read from a snapshot of the other buffer taken before the copy. A buffer written from itself with overlapping ranges therefore behaves like `memmove` in the model, while the source's forward copy (host_buffer.cpp:24, 27-31) can read bytes it has already overwritten.
- RenderPasses: the C++ descriptions point into the attachment arrays, and the model takes a snapshot of them. `CreateResources` and `Resources::Destroy` (render_pass.cpp lines 93-103) are not modelled. Nor is the chaining of `EndAttachment`, `EndSubpass` and `EndDependency` back to the builder. The image flags a render pass uses come from `Images.ImageFlag`.
- DescriptorSetLayouts.Builder.AddBinding: the capacity of 16 bindings of the fixed-size array is a requires.
- GraphicsPipelines.Builder.AddViewport: the code stores viewports that no later step uses, and the model stores them too.
- GraphicsPipelines: the header and the .cpp give `AddBindingDescription` its parameters in different orders; the model follows the .cpp. `AddViewports`, `SetViewports`, `AddDynamicStates` and `SetDynamicStates` are declared in the header but never defined, so they are not modelled.
- GraphicsPipelines.Builder.ForRendering: the second constructor leaves the subpass index uninitialised, and the model promises nothing about it.
- GraphicsPipelines: `Bind` only records a command and is not modelled. Floating-point settings are opaque values. The stencil faces a setter touches are a set of faces.
- VkLoaderPasses.RetypeParameter: the code picks the alias with `difflib.get_close_matches`. The model takes that choice as a parameter that must be a member of the alias list.
- VkLoaderRegistry.IsInstanceFunction: the code reads the module-level loop variable `fn` for the name instead of `self`. The model takes that name as a separate argument. At every call site it is the function's own name.
- VkLoaderRegistry: reading `vk.xml`, walking the XML tree, the argument parser and the C++ text of the generated header and source bodies are not modelled. The registry's name order is kept duplicate-free.
- VkLoaderAvailability.AttachExtension: the extension pass shares one guard group among all the entries of a `require` block, and the spec-version condition added for one entry stays for the later ones. The model keeps that behaviour as written.
- CppGenerator: writing the file and running `clang-format` are not modelled.
- BuildScript: the argument parser, `subprocess` calls and file I/O are not modelled.
- BuildScript.CMakeAssignments: a string option's `-D` value is the parsed argument, so an ini override of its default never reaches CMake. This is as in the code, which reads overrides only for boolean options.
- CMakeScanner: the recursive `rglob` search for CMake files and the writing of the ini file are not modelled. The scanner works on the lines of the files it is given.
- Text.Lower: only the ASCII letters `A`-`Z` change case, and `Text.Upper` likewise only `a`-`z`. Python's `str.lower` and `str.upper` are Unicode-aware; the scanner lowers option names and the loader upper-cases extension names.
- Text.Strip: only the six ASCII whitespace characters are stripped (space, tab, newline, carriage return, vertical tab, form feed). Python's `str.strip` also strips `\x1c`-`\x1f` and Unicode spaces.

## Findings

| source | as written | input that shows it | evidently intended | confidence | as-written member | corrected member |
|---|---|---|---|---|---|---|
| setup/build.py:31-43 | the duplicate check looks the derived variable name up among keys that are CMake option names | two options "a" with "x: 1" and "b" with "x: 2": both derive `x`, and neither is refused | refuse an option whose derived name was already taken | not executed | BuildScript.DuplicateNamesSlipThrough | BuildScript.ParseSectionChecked |
| setup/cmake_scanner.py:122-143 | a clash that prefix stripping did not cause is reported as resolved while stripping is on, and the names still clash | options `A_B` and `A-B` with `--keep-case` and otherwise default settings | refuse a clash that survives restoring the prefixes | not executed | CMakeScanner.ResolutionKeepsClash | CMakeScanner.ResolutionChecked |
| vulkit/vkit/resource/host_buffer.cpp:42-50 | `Resize` copies the old size in bytes into the new allocation, which overruns it when the buffer shrinks | an 8-byte buffer resized to 4 bytes | copy the smaller of the old and the new size | not executed | HostBuffers.ResizeCopyFits | HostBuffers.HostBuffer.Resize |
| vulkit/vkit/resource/host_buffer.cpp:15-20 | with `VK_WHOLE_SIZE`, a destination offset past the end makes the unsigned 64-bit size wrap, and the assertion passes | a 4-byte buffer, whole size, destination offset 8 | reject a destination offset past the end of the buffer | not executed | HostBuffers.WholeSizeOffsetSlipsThrough | HostBuffers.HostBuffer.Write |
| vulkit/vkit/device/logical_device.cpp:169-184 | `Destroy` deletes the queue object in every slot, and `CreateQueue` (lines 145-152) hands out the same object for the same family and index | graphics and compute queues on the same family | delete each queue object once | not executed | LogicalDevices.SharedQueueDeletedTwice | LogicalDevices.LogicalDevice.Destroy |

=== FILE: buffer.dfy ===
/**
 * Device buffers (vulkit/vkit/resource/buffer.cpp): the builder that turns
 * the wrapper's buffer flags into Vulkan usage bits and allocation
 * settings, the aligned per-instance size, and host writes into mapped
 * memory.
 */
module Buffers {
  import opened Wrappers
  import opened VkCommon
  import opened HostBuffers

  /** `BufferFlagBits`; a `BufferFlags` word is the set of its bits. */
  datatype BufferFlag =
    | DeviceLocal | HostVisible | Source | Destination | Staging
    | Vertex | Index | Storage | HostMapped | HostRandomAccess

  /** `VkBufferUsageFlagBits` the builder sets. */
  datatype Usage = TransferSrc | TransferDst | VertexBuffer | IndexBuffer | StorageBuffer

  /** `VkMemoryPropertyFlagBits` the builder requires. */
  datatype MemoryProperty = MemoryDeviceLocal | MemoryHostVisible

  /** `VmaAllocationCreateFlagBits` the builder sets. */
  datatype AllocationFlag = Mapped | HostAccessSequentialWrite | HostAccessRandom

  /** `VmaMemoryUsage` values the builder picks. */
  datatype MemoryUsage = Auto | AutoPreferDevice

  /**
   * The flag closure of the builder's constructor: host mapping or random
   * access needs host visibility, a staging buffer is a host-visible
   * transfer source, a device-local buffer is a transfer destination.
   */
  function FlagClosure(p: set<BufferFlag>): (r: set<BufferFlag>)
  {
    CloseDeviceLocal(CloseStaging(CloseHostAccess(p)))
  }

  function CloseHostAccess(p: set<BufferFlag>): set<BufferFlag>
  {
    if HostMapped in p || HostRandomAccess in p then p + {HostVisible} else p
  }

  function CloseStaging(p: set<BufferFlag>): set<BufferFlag>
  {
    if Staging in p then p + {HostVisible, Source} else p
  }

  function CloseDeviceLocal(p: set<BufferFlag>): set<BufferFlag>
  {
    if DeviceLocal in p then p + {Destination} else p
  }

  /**
   * The closure keeps every flag given, adds only HostVisible, Source and
   * Destination, and adds each of them exactly when one of its triggers
   * is among the flags given.
   */
  lemma {:induction false} FlagClosureSpec(p: set<BufferFlag>)
    ensures p <= FlagClosure(p) <= p + {HostVisible, Source, Destination}
    ensures HostVisible in FlagClosure(p) <==>
              HostVisible in p || HostMapped in p || HostRandomAccess in p || Staging in p
    ensures Source in FlagClosure(p) <==> Source in p || Staging in p
    ensures Destination in FlagClosure(p) <==> Destination in p || DeviceLocal in p
  {
    var a := CloseHostAccess(p);
    var b := CloseStaging(a);
    assert p <= a <= p + {HostVisible};
    assert a <= b <= a + {HostVisible, Source};
    assert Staging in a <==> Staging in p;
    assert DeviceLocal in b <==> DeviceLocal in p;
  }

  /** Flags that already satisfy every implication are their own closure. */
  lemma ClosureFixed(q: set<BufferFlag>)
    requires HostMapped in q || HostRandomAccess in q ==> HostVisible in q
    requires Staging in q ==> HostVisible in q && Source in q
    requires DeviceLocal in q ==> Destination in q
    ensures FlagClosure(q) == q
  {
    assert CloseHostAccess(q) == q;
    assert CloseStaging(q) == q;
  }

  /** Closing the flags twice changes nothing more. */
  lemma {:induction false} FlagClosureIdempotent(p: set<BufferFlag>)
    ensures FlagClosure(FlagClosure(p)) == FlagClosure(p)
  {
    FlagClosureSpec(p);
    ClosureFixed(FlagClosure(p));
  }

  /** The `VkBufferUsageFlags` the flags ask for. */
  function UsageOf(flags: set<BufferFlag>): (r: set<Usage>)
  {
    (if Source in flags then {TransferSrc} else {}) +
    (if Destination in flags then {TransferDst} else {}) +
    (if Vertex in flags then {VertexBuffer} else {}) +
    (if Index in flags then {IndexBuffer} else {}) +
    (if Storage in flags then {StorageBuffer} else {})
  }

  /** Each usage flag contributes exactly its own usage bit. */
  lemma UsageOfSpec(flags: set<BufferFlag>)
    ensures TransferSrc in UsageOf(flags) <==> Source in flags
    ensures TransferDst in UsageOf(flags) <==> Destination in flags
    ensures VertexBuffer in UsageOf(flags) <==> Vertex in flags
    ensures IndexBuffer in UsageOf(flags) <==> Index in flags
    ensures StorageBuffer in UsageOf(flags) <==> Storage in flags
  {
  }

  /** `VmaAllocationCreateInfo`, without the fields the builder never sets. */
  datatype AllocationInfo =
    AllocationInfo(usage: MemoryUsage, requiredFlags: set<MemoryProperty>, flags: set<AllocationFlag>)

  /** The allocation settings the constructor derives from the closed flags. */
  function AllocationFor(flags: set<BufferFlag>): (r: AllocationInfo)
  {
    var usage := if DeviceLocal in flags then AutoPreferDevice else Auto;
    var required := (if DeviceLocal in flags then {MemoryDeviceLocal} else {}) +
                    (if HostVisible in flags then {MemoryHostVisible} else {});
    var access := if HostVisible !in flags then {}
                  else (if HostRandomAccess in flags then {HostAccessRandom} else {HostAccessSequentialWrite}) +
                       (if HostMapped in flags then {Mapped} else {});
    AllocationInfo(usage, required, access)
  }

  /**
   * After the closure, a host-mapped buffer is allocated mapped and host
   * visible, a staging buffer is host visible, and every host-visible
   * allocation picks exactly one of random or sequential access.
   */
  lemma AllocationForClosed(p: set<BufferFlag>)
    ensures HostMapped in p ==>
              Mapped in AllocationFor(FlagClosure(p)).flags &&
              MemoryHostVisible in AllocationFor(FlagClosure(p)).requiredFlags
    ensures Staging in p ==> MemoryHostVisible in AllocationFor(FlagClosure(p)).requiredFlags
    ensures HostVisible in FlagClosure(p) ==>
              (HostAccessRandom in AllocationFor(FlagClosure(p)).flags <==>
               HostAccessSequentialWrite !in AllocationFor(FlagClosure(p)).flags)
    ensures HostVisible !in FlagClosure(p) ==> AllocationFor(FlagClosure(p)).flags == {}
  {
    FlagClosureSpec(p);
  }

  /** A power of two, the only alignment Vulkan reports. */
  predicate IsPow2(a: nat)
    decreases a
  {
    a == 1 || (a >= 2 && a % 2 == 0 && IsPow2(a / 2))
  }

  /**
   * `alignedSize`: for a power-of-two alignment, clearing the low bits of
   * `size + alignment - 1` rounds it down to a multiple of the alignment.
   */
  function AlignedSize(size: nat, alignment: nat): (r: nat)
    requires IsPow2(alignment)
  {
    (size + alignment - 1) / alignment * alignment
  }

  /** Quotient and remainder are the only ones with a remainder in range. */
  lemma DivUnique(y: int, a: int, q: int, rem: int)
    requires a > 0 && 0 <= rem < a && y == q * a + rem
    ensures y / a == q && y % a == rem
  {
    var d := q - y / a;
    assert y == (y / a) * a + y % a;
    assert d * a == y % a - rem by {
      assert q * a - (y / a) * a == d * a;
    }
    MulAwayFromZero(d, a);
  }

  /** A non-zero multiple of `a` is at least `a` away from zero. */
  lemma MulAwayFromZero(d: int, a: nat)
    ensures d >= 1 ==> d * a >= a
    ensures d <= -1 ==> d * a + a <= 0
  {
    if d >= 1 {
      MulMono(1, d, a);
    }
    if d <= -1 {
      MulMono(1, -d, a);
    }
  }

  /** The smallest multiple of the alignment that is at least `size`. */
  lemma AlignedSizeSpec(size: nat, alignment: nat)
    requires IsPow2(alignment)
    ensures AlignedSize(size, alignment) % alignment == 0
    ensures size <= AlignedSize(size, alignment) < size + alignment
    ensures size % alignment == 0 ==> AlignedSize(size, alignment) == size
  {
    RoundUp(size, alignment);
  }

  /** Rounding up to a multiple of any positive `a`. */
  lemma RoundUp(size: nat, a: nat)
    requires a > 0
    ensures (size + a - 1) / a * a % a == 0
    ensures size <= (size + a - 1) / a * a < size + a
    ensures size % a == 0 ==> (size + a - 1) / a * a == size
  {
    var y := size + a - 1;
    var q := y / a;
    var m := q * a;
    assert y == m + y % a;
    DivUnique(m, a, q, 0);
    if size % a == 0 {
      var s := size / a;
      assert size == s * a + size % a;
      DivUnique(y, a, s, a - 1);
    }
  }

  /** The per-instance layout `Build` records. */
  datatype BufferInfo = BufferInfo(instanceSize: nat, instanceCount: nat, instanceAlignedSize: nat,
                                   size: nat, flags: set<BufferFlag>, mapped: bool,
                                   familyIndices: seq<nat>, usage: set<Usage>)

  /** The flag updates at the head of the builder's constructor. */
  method CloseFlags(p: set<BufferFlag>) returns (f: set<BufferFlag>)
    ensures f == FlagClosure(p)
  {
    f := p;
    if HostMapped in f || HostRandomAccess in f {
      f := f + {HostVisible};
    }
    if Staging in f {
      f := f + {HostVisible};
      f := f + {Source};
    }
    if DeviceLocal in f {
      f := f + {Destination};
    }
  }

  /** The allocation updates of the builder's constructor, on the closed flags. */
  method AllocationSettings(f: set<BufferFlag>) returns (alloc: AllocationInfo)
    ensures alloc == AllocationFor(f)
  {
    alloc := AllocationInfo(Auto, {}, {});
    if DeviceLocal in f {
      alloc := alloc.(usage := AutoPreferDevice, requiredFlags := alloc.requiredFlags + {MemoryDeviceLocal});
    }
    if HostVisible in f {
      alloc := alloc.(requiredFlags := alloc.requiredFlags + {MemoryHostVisible});
      if HostRandomAccess in f {
        alloc := alloc.(flags := alloc.flags + {HostAccessRandom});
      } else {
        alloc := alloc.(flags := alloc.flags + {HostAccessSequentialWrite});
      }
      if HostMapped in f {
        alloc := alloc.(flags := alloc.flags + {Mapped});
      }
    }
  }

  /** The usage updates of the builder's constructor, on the closed flags. */
  method UsageBits(f: set<BufferFlag>) returns (use: set<Usage>)
    ensures use == UsageOf(f)
  {
    use := {};
    if Source in f { use := use + {TransferSrc}; }
    if Destination in f { use := use + {TransferDst}; }
    if Vertex in f { use := use + {VertexBuffer}; }
    if Index in f { use := use + {IndexBuffer}; }
    if Storage in f { use := use + {StorageBuffer}; }
  }

  class BufferBuilder {
    var flags: set<BufferFlag>
    var usage: set<Usage>
    var allocation: AllocationInfo
    var instanceCount: nat
    var instanceSize: nat
    var perInstanceMinimumAlignment: nat
    var familyIndices: seq<nat>

    /** `Builder(device, allocator, flags)`: closes the flags and derives the settings from them. */
    constructor (p: set<BufferFlag>)
      ensures flags == FlagClosure(p)
      ensures usage == UsageOf(flags) && allocation == AllocationFor(flags)
      ensures instanceCount == 0 && instanceSize == 0 && perInstanceMinimumAlignment == 1
      ensures familyIndices == []
    {
      var f := CloseFlags(p);
      var alloc := AllocationSettings(f);
      var use := UsageBits(f);
      flags := f;
      usage := use;
      allocation := alloc;
      instanceCount := 0;
      instanceSize := 0;
      perInstanceMinimumAlignment := 1;
      familyIndices := [];
    }

    /** `SetSize(size)`: `size` instances of one byte. */
    method SetSize(size: nat)
      modifies this
      ensures instanceCount == size && instanceSize == 1
      ensures flags == old(flags) && usage == old(usage) && allocation == old(allocation)
      ensures perInstanceMinimumAlignment == old(perInstanceMinimumAlignment) && familyIndices == old(familyIndices)
    {
      instanceCount := size;
      instanceSize := 1;
    }

    /** `SetSize(count, instanceSize)`. */
    method SetInstances(count: nat, size: nat)
      modifies this
      ensures instanceCount == count && instanceSize == size
      ensures flags == old(flags) && usage == old(usage) && allocation == old(allocation)
      ensures perInstanceMinimumAlignment == old(perInstanceMinimumAlignment) && familyIndices == old(familyIndices)
    {
      instanceCount := count;
      instanceSize := size;
    }

    /** `SetUsage`: replaces the usage bits the flags derived. */
    method SetUsage(u: set<Usage>)
      modifies this
      ensures usage == u
      ensures flags == old(flags) && allocation == old(allocation) && instanceCount == old(instanceCount)
      ensures instanceSize == old(instanceSize) && perInstanceMinimumAlignment == old(perInstanceMinimumAlignment)
      ensures familyIndices == old(familyIndices)
    {
      usage := u;
    }

    /** `SetAllocationCreateInfo`: replaces the derived allocation settings. */
    method SetAllocationCreateInfo(a: AllocationInfo)
      modifies this
      ensures allocation == a
      ensures flags == old(flags) && usage == old(usage) && instanceCount == old(instanceCount)
      ensures instanceSize == old(instanceSize) && perInstanceMinimumAlignment == old(perInstanceMinimumAlignment)
      ensures familyIndices == old(familyIndices)
    {
      allocation := a;
    }

    method SetPerInstanceMinimumAlignment(a: nat)
      modifies this
      ensures perInstanceMinimumAlignment == a
      ensures flags == old(flags) && usage == old(usage) && allocation == old(allocation)
      ensures instanceCount == old(instanceCount) && instanceSize == old(instanceSize)
      ensures familyIndices == old(familyIndices)
    {
      perInstanceMinimumAlignment := a;
    }

    /** `AddFamilyIndex`: appends a queue family sharing the buffer. */
    method AddFamilyIndex(i: nat)
      modifies this
      ensures familyIndices == old(familyIndices) + [i]
      ensures flags == old(flags) && usage == old(usage) && allocation == old(allocation)
      ensures instanceCount == old(instanceCount) && instanceSize == old(instanceSize)
      ensures perInstanceMinimumAlignment == old(perInstanceMinimumAlignment)
    {
      familyIndices := familyIndices + [i];
    }

    /**
     * `Build`: `created` is what `vmaCreateBuffer` returns. The buffer
     * holds `instanceCount` instances, each padded to the alignment, and
     * starts mapped exactly when the allocation asks to be mapped.
     */
    function Build(created: int): (r: Result<BufferInfo, Error>)
      requires IsPow2(perInstanceMinimumAlignment)
      reads this
      ensures r.Err? <==> created != VkSuccess
      ensures r.Err? ==> r.error == Vulkan(created)
      ensures r.Ok? ==> r.value.instanceAlignedSize % perInstanceMinimumAlignment == 0
      ensures r.Ok? ==> instanceSize <= r.value.instanceAlignedSize < instanceSize + perInstanceMinimumAlignment
      ensures r.Ok? ==> r.value.size == r.value.instanceAlignedSize * instanceCount
      ensures r.Ok? ==> instanceSize * instanceCount <= r.value.size
      ensures r.Ok? ==> (r.value.mapped <==> Mapped in allocation.flags)
      ensures r.Ok? ==> r.value.familyIndices == familyIndices && r.value.flags == flags
    {
      var aligned := AlignedSize(instanceSize, perInstanceMinimumAlignment);
      AlignedSizeSpec(instanceSize, perInstanceMinimumAlignment);
      MulMono(instanceSize, aligned, instanceCount);
      if created != VkSuccess then Err(Vulkan(created))
      else Ok(BufferInfo(instanceSize, instanceCount, aligned, aligned * instanceCount, flags,
                         Mapped in allocation.flags, familyIndices, usage))
    }
  }

  lemma MulMono(a: nat, b: nat, c: nat)
    requires a <= b
    ensures a * c <= b * c
  {
  }

  /** Instance `index` of a buffer, padded to `aligned` bytes each, lies inside it. */
  lemma AlignedInstanceInside(index: nat, count: nat, instSize: nat, aligned: nat)
    requires index < count && instSize <= aligned
    ensures aligned * index + instSize <= aligned * count
  {
    assert aligned * index + aligned == aligned * (index + 1);
    MulMono(index + 1, count, aligned);
  }

  /** A created buffer: its layout, whether host memory is mapped, and that memory. */
  class Buffer {
    var handle: Option<nat>
    var info: BufferInfo
    var mapped: bool
    var memory: array<byte>
    /** The buffers handed to `vmaDestroyBuffer`, in order. */
    var destroyed: seq<nat>

    predicate Valid()
      reads this
    {
      memory.Length == info.size &&
      info.instanceSize <= info.instanceAlignedSize &&
      info.size == info.instanceAlignedSize * info.instanceCount
    }

    function Contents(): seq<byte>
      reads this, memory
    {
      memory[..]
    }

    constructor (h: nat, i: BufferInfo)
      requires i.instanceSize <= i.instanceAlignedSize && i.size == i.instanceAlignedSize * i.instanceCount
      ensures Valid() && handle == Some(h) && info == i && mapped == i.mapped && fresh(memory)
      ensures destroyed == []
    {
      handle := Some(h);
      destroyed := [];
      info := i;
      mapped := i.mapped;
      memory := new byte[i.size];
    }

    /** `Map`: `result` is what `vmaMapMemory` returns. */
    method Map(result: int) returns (r: Result<(), Error>)
      requires !mapped
      modifies this
      ensures mapped <==> result == VkSuccess
      ensures r.Ok? <==> result == VkSuccess
      ensures r.Err? ==> r.error == Vulkan(result)
      ensures handle == old(handle) && info == old(info) && memory == old(memory) && destroyed == old(destroyed)
    {
      if result != VkSuccess {
        return Err(Vulkan(result));
      }
      mapped := true;
      r := Ok(());
    }

    /** `Unmap`. */
    method Unmap()
      requires mapped
      modifies this
      ensures !mapped
      ensures handle == old(handle) && info == old(info) && memory == old(memory) && destroyed == old(destroyed)
    {
      mapped := false;
    }

    /** `Write`: copies into the mapped memory, as `HostBuffer::Write` does. */
    method Write(src: seq<byte>, copy: BufferCopy)
      requires Valid() && mapped
      requires WriteFits(info.size, copy)
      requires copy.srcOffset + CopyLength(info.size, copy) <= |src|
      modifies memory
      ensures Contents() == Spliced(old(Contents()), copy.dstOffset,
                                    src[copy.srcOffset..copy.srcOffset + CopyLength(info.size, copy)])
    {
      var n := if copy.size == WholeSize then info.size - copy.dstOffset else copy.size;
      ForwardCopy(memory, copy.dstOffset, src, copy.srcOffset, n);
    }

    /** `WriteAt`: instance `index` starts at `index` times the aligned instance size. */
    method WriteAt(index: nat, src: seq<byte>)
      requires Valid() && mapped
      requires index < info.instanceCount && info.instanceSize <= |src|
      modifies memory
      ensures info.instanceAlignedSize * index + info.instanceSize <= |old(Contents())|
      ensures Contents() == Spliced(old(Contents()), info.instanceAlignedSize * index, src[..info.instanceSize])
    {
      var offset := info.instanceAlignedSize * index;
      AlignedInstanceInside(index, info.instanceCount, info.instanceSize, info.instanceAlignedSize);
      ForwardCopy(memory, offset, src, 0, info.instanceSize);
    }

    /**
     * `Destroy`: a live buffer and its allocation go to `vmaDestroyBuffer`
     * once and the handle is nulled; a destroyed one stays destroyed.
     */
    method Destroy()
      modifies this`handle, this`destroyed
      ensures handle.None?
      ensures old(handle).Some? ==> destroyed == old(destroyed) + [old(handle).value]
      ensures old(handle).None? ==> destroyed == old(destroyed)
    {
      if handle.Some? {
        destroyed := destroyed + [handle.value];
        handle := None;
      }
    }
  }
}

=== FILE: build_script.dfy ===
/**
 * The build driver: it reads the defaults the scanner wrote to build.ini,
 * applies the override sections selected by the chosen values, and turns
 * every option into a `-DNAME=VALUE` CMake argument.
 */
module BuildScript {
  import opened Wrappers
  import opened Text
  import opened OrderedDict
  import opened CMakeScanner

  /** `try_convert_bool`: the spellings of Python's booleans become flags. */
  function TryConvertBool(val: string): (r: Value)
    ensures r == Flag(true) <==> val == "True"
    ensures r == Flag(false) <==> val == "False"
    ensures r.Str? ==> r.text == val
  {
    if val == "True" then Flag(true)
    else if val == "False" then Flag(false)
    else Str(val)
  }

  /**
   * An entry the scanner writes is read back as the name and default it
   * came from, provided neither holds a colon and a text default does not
   * spell a Python boolean.
   */
  lemma IniRoundTrip(n: Named)
    requires forall i :: 0 <= i < |n.varname| ==> n.varname[i] != ':'
    requires n.val.Str? ==> forall i :: 0 <= i < |n.val.text| ==> n.val.text[i] != ':'
    requires n.val.Str? ==> n.val.text != "True" && n.val.text != "False"
    ensures Split(IniEntry(n), ": ") == [n.varname, IniText(n.val)]
    ensures TryConvertBool(IniText(n.val)) == n.val
  {
    var t := IniText(n.val);
    assert forall i :: 0 <= i < |t| ==> t[i] != ':' by {
      if n.val.Flag? {
        assert t == "True" || t == "False";
      }
    }
    SplitPair(n.varname, ": ", t);
  }

  // ---------------------------------------------------------------------
  // Reading the default-values section.

  /** The two fields of a `varname: value` entry, if it has exactly two. */
  function Fields(kv: string): seq<string>
  {
    Split(kv, ": ")
  }

  /** The entry an item parses to when it has two fields. */
  function ParsedEntry(kv: string): Named
    requires |Fields(kv)| == 2
  {
    Named(Fields(kv)[0], TryConvertBool(Fields(kv)[1]))
  }

  /**
   * As written, item `i` is refused when it does not split into two fields
   * or when its derived name equals the CMake name of an earlier item.
   */
  predicate RefusedAsWritten(items: seq<(string, string)>, i: nat)
    requires i < |items|
  {
    |Fields(items[i].1)| != 2 ||
    exists j :: 0 <= j < i && items[j].0 == Fields(items[i].1)[0]
  }

  /** Item `i` is refused when it does not split into two fields or repeats an earlier derived name. */
  predicate RefusedChecked(items: seq<(string, string)>, i: nat)
    requires i < |items|
  {
    |Fields(items[i].1)| != 2 ||
    exists j :: 0 <= j < i && Fields(items[j].1)[0] == Fields(items[i].1)[0]
  }

  /** The CMake names of the items, in order. */
  function Names(items: seq<(string, string)>): (r: seq<string>)
    ensures |r| == |items| && forall i :: 0 <= i < |items| ==> r[i] == items[i].0
  {
    seq(|items|, i requires 0 <= i < |items| => items[i].0)
  }

  /** The section's keys are distinct, as ConfigParser guarantees. */
  predicate DistinctNames(items: seq<(string, string)>)
  {
    forall i, j :: 0 <= i < j < |items| ==> items[i].0 != items[j].0
  }

  /** `parsed` holds exactly the first `i` items, parsed, in section order. */
  ghost predicate ParsedUpTo(items: seq<(string, string)>, i: nat, parsed: Dict<Named>)
  {
    i <= |items| && parsed.Valid() && |parsed.order| == i &&
    forall j :: 0 <= j < i ==>
      parsed.order[j] == items[j].0 && |Fields(items[j].1)| == 2 &&
      parsed.values[items[j].0] == ParsedEntry(items[j].1)
  }

  /** The keys parsed so far are the CMake names of the first `i` items. */
  lemma ParsedKeys(items: seq<(string, string)>, i: nat, parsed: Dict<Named>, v: string)
    requires ParsedUpTo(items, i, parsed)
    ensures v in parsed.values <==> exists j :: 0 <= j < i && items[j].0 == v
  {
    if v in parsed.values {
      var j :| 0 <= j < |parsed.order| && parsed.order[j] == v;
    }
  }

  /** Storing the next well-formed item extends what has been parsed. */
  lemma ParsedStep(items: seq<(string, string)>, i: nat, parsed: Dict<Named>)
    requires DistinctNames(items) && i < |items| && ParsedUpTo(items, i, parsed)
    requires |Fields(items[i].1)| == 2
    ensures items[i].0 !in parsed.values
    ensures ParsedUpTo(items, i + 1, parsed.Put(items[i].0, ParsedEntry(items[i].1)))
  {
    ParsedKeys(items, i, parsed, items[i].0);
  }

  /** Once every item is stored, the outcome has the section's order and entries. */
  lemma ParsedAll(items: seq<(string, string)>, parsed: Dict<Named>)
    requires ParsedUpTo(items, |items|, parsed)
    ensures parsed.Valid() && parsed.order == Names(items)
    ensures forall i :: 0 <= i < |items| ==>
              |Fields(items[i].1)| == 2 && parsed.values[items[i].0] == ParsedEntry(items[i].1)
  {
  }

  /**
   * `parse_section` as written: fills `parsed` in section order and checks
   * each derived name against the keys of `parsed`, which are CMake names.
   */
  method ParseSection(items: seq<(string, string)>) returns (r: Result<Dict<Named>, string>)
    requires DistinctNames(items)
    ensures r.Err? <==> exists i :: 0 <= i < |items| && RefusedAsWritten(items, i)
    ensures r.Ok? ==> r.value.Valid() && r.value.order == Names(items)
    ensures r.Ok? ==> forall i :: 0 <= i < |items| ==>
                        |Fields(items[i].1)| == 2 && r.value.values[items[i].0] == ParsedEntry(items[i].1)
  {
    var parsed: Dict<Named> := Dict([], map[]);
    var i := 0;
    while i < |items|
      invariant ParsedUpTo(items, i, parsed)
      invariant forall j :: 0 <= j < i ==> !RefusedAsWritten(items, j)
    {
      var fields := Fields(items[i].1);
      if |fields| != 2 {
        assert RefusedAsWritten(items, i);
        return Err("ValueError: not enough values to unpack");
      }
      var varname := fields[0];
      ParsedKeys(items, i, parsed, varname);
      if varname in parsed.values {
        assert RefusedAsWritten(items, i);
        return Err("ValueError: name mismatch");
      }
      ParsedStep(items, i, parsed);
      parsed := parsed.Put(items[i].0, Named(varname, TryConvertBool(fields[1])));
      i := i + 1;
    }
    ParsedAll(items, parsed);
    r := Ok(parsed);
  }

  /** Items no check refuses derive distinct names. */
  lemma UnrefusedDistinct(items: seq<(string, string)>)
    requires forall i :: 0 <= i < |items| ==> !RefusedChecked(items, i)
    ensures forall i, j :: 0 <= i < j < |items| ==> Fields(items[i].1)[0] != Fields(items[j].1)[0]
  {
    forall i, j | 0 <= i < j < |items| ensures Fields(items[i].1)[0] != Fields(items[j].1)[0] {
      assert !RefusedChecked(items, j);
    }
  }

  /** `seen` holds exactly the derived names of the first `i` items. */
  ghost predicate SeenUpTo(items: seq<(string, string)>, i: nat, seen: set<string>)
  {
    i <= |items| &&
    (forall j :: 0 <= j < i ==> Fields(items[j].1)[0] in seen) &&
    forall v :: v in seen ==> exists j :: 0 <= j < i && Fields(items[j].1)[0] == v
  }

  /** The checked parse refuses the next item exactly when it is malformed or its name was seen. */
  lemma SeenStep(items: seq<(string, string)>, i: nat, seen: set<string>)
    requires i < |items| && SeenUpTo(items, i, seen)
    ensures RefusedChecked(items, i) <==> |Fields(items[i].1)| != 2 || Fields(items[i].1)[0] in seen
    ensures SeenUpTo(items, i + 1, seen + {Fields(items[i].1)[0]})
  {
    var v := Fields(items[i].1)[0];
    if v in seen {
      var j :| 0 <= j < i && Fields(items[j].1)[0] == v;
    }
  }

  /**
   * `parse_section` checking each derived name against the derived names
   * parsed so far: a successful parse has distinct derived names.
   */
  method ParseSectionChecked(items: seq<(string, string)>) returns (r: Result<Dict<Named>, string>)
    requires DistinctNames(items)
    ensures r.Err? <==> exists i :: 0 <= i < |items| && RefusedChecked(items, i)
    ensures r.Ok? ==> r.value.Valid() && r.value.order == Names(items)
    ensures r.Ok? ==> forall i :: 0 <= i < |items| ==>
                        |Fields(items[i].1)| == 2 && r.value.values[items[i].0] == ParsedEntry(items[i].1)
    ensures r.Ok? ==> forall i, j :: 0 <= i < j < |items| ==>
                        r.value.values[items[i].0].varname != r.value.values[items[j].0].varname
  {
    var parsed: Dict<Named> := Dict([], map[]);
    var seen: set<string> := {};
    var i := 0;
    while i < |items|
      invariant ParsedUpTo(items, i, parsed)
      invariant forall j :: 0 <= j < i ==> !RefusedChecked(items, j)
      invariant SeenUpTo(items, i, seen)
    {
      var fields := Fields(items[i].1);
      SeenStep(items, i, seen);
      if |fields| != 2 {
        assert RefusedChecked(items, i);
        return Err("ValueError: not enough values to unpack");
      }
      var varname := fields[0];
      if varname in seen {
        assert RefusedChecked(items, i);
        return Err("ValueError: name mismatch");
      }
      ParsedStep(items, i, parsed);
      parsed := parsed.Put(items[i].0, Named(varname, TryConvertBool(fields[1])));
      seen := seen + {varname};
      i := i + 1;
    }
    ParsedAll(items, parsed);
    UnrefusedDistinct(items);
    r := Ok(parsed);
  }

  /** Two entries that derive the same name from different CMake names. */
  const DuplicateNames: seq<(string, string)> := [("a", "x: 1"), ("b", "x: 2")]

  /**
   * As written, the duplicate derived name `x` goes unnoticed: no item of
   * `DuplicateNames` is refused, so `ParseSection` succeeds; the checked
   * parse refuses the second item.
   */
  lemma DuplicateNamesSlipThrough()
    ensures DistinctNames(DuplicateNames)
    ensures forall i :: 0 <= i < |DuplicateNames| ==> !RefusedAsWritten(DuplicateNames, i)
    ensures RefusedChecked(DuplicateNames, 1)
  {
    assert DuplicateNames[0].1 == "x" + ": " + "1";
    assert DuplicateNames[1].1 == "x" + ": " + "2";
    SplitPair("x", ": ", "1");
    SplitPair("x", ": ", "2");
    assert Fields(DuplicateNames[0].1) == ["x", "1"];
    assert Fields(DuplicateNames[1].1) == ["x", "2"];
  }

  // ---------------------------------------------------------------------
  // The argument map.

  /** What `arg_map` holds for an option: its CMake name and its current default. */
  datatype Entry = Entry(og: string, defaultValue: Value)

  /** The argparse destination of `--varname`: hyphens become underscores. */
  function ArgKey(varname: string): string
  {
    Replace(varname, "-", "_")
  }

  /** A destination has the option's length, keeps every character but `-` and holds no `-`. */
  lemma ArgKeyReplacesHyphens(varname: string)
    ensures |ArgKey(varname)| == |varname|
    ensures forall i :: 0 <= i < |varname| ==>
              ArgKey(varname)[i] != '-' && (varname[i] != '-' ==> ArgKey(varname)[i] == varname[i])
  {
    ReplaceChar(varname, '-', '_');
  }

  /** Python truthiness of a default. */
  predicate Truthy(v: Value)
  {
    match v
    case Flag(b) => b
    case Str(t) => t != ""
  }

  /** The destination of the `i`-th parsed option. */
  function KeyAt(parsed: Dict<Named>, i: nat): string
    requires parsed.Valid() && i < |parsed.order|
  {
    ArgKey(parsed.values[parsed.order[i]].varname)
  }

  /** No option among the first `n` after the `i`-th has the same destination. */
  predicate LastWithKey(parsed: Dict<Named>, i: nat, n: nat)
    requires parsed.Valid() && i < n <= |parsed.order|
  {
    forall j :: i < j < n ==> KeyAt(parsed, j) != KeyAt(parsed, i)
  }

  /** `argMap` is keyed by the destinations of the first `n` options. */
  ghost predicate ArgKeysUpTo(parsed: Dict<Named>, n: nat, argMap: map<string, Entry>)
    requires parsed.Valid() && n <= |parsed.order|
  {
    forall v :: v in argMap <==> exists j :: 0 <= j < n && KeyAt(parsed, j) == v
  }

  /** Among the first `n` options, the last one with each destination is the one stored. */
  ghost predicate ArgEntriesUpTo(parsed: Dict<Named>, n: nat, argMap: map<string, Entry>)
    requires parsed.Valid() && n <= |parsed.order|
    requires ArgKeysUpTo(parsed, n, argMap)
  {
    forall j :: 0 <= j < n && LastWithKey(parsed, j, n) ==>
      argMap[KeyAt(parsed, j)] == Entry(parsed.order[j], parsed.values[parsed.order[j]].val)
  }

  lemma ArgKeysStep(parsed: Dict<Named>, n: nat, argMap: map<string, Entry>, e: Entry)
    requires parsed.Valid() && n < |parsed.order| && ArgKeysUpTo(parsed, n, argMap)
    ensures ArgKeysUpTo(parsed, n + 1, argMap[KeyAt(parsed, n) := e])
  {
  }

  lemma ArgEntriesStep(parsed: Dict<Named>, n: nat, argMap: map<string, Entry>)
    requires parsed.Valid() && n < |parsed.order|
    requires ArgKeysUpTo(parsed, n, argMap) && ArgEntriesUpTo(parsed, n, argMap)
    ensures ArgKeysUpTo(parsed, n + 1, argMap[KeyAt(parsed, n) :=
                                            Entry(parsed.order[n], parsed.values[parsed.order[n]].val)])
    ensures ArgEntriesUpTo(parsed, n + 1, argMap[KeyAt(parsed, n) :=
                                            Entry(parsed.order[n], parsed.values[parsed.order[n]].val)])
  {
    ArgKeysStep(parsed, n, argMap, Entry(parsed.order[n], parsed.values[parsed.order[n]].val));
    forall j | 0 <= j < n && LastWithKey(parsed, j, n + 1) ensures LastWithKey(parsed, j, n) {
    }
  }

  /**
   * `arg_map` as `parse_arguments` fills it: every parsed option under its
   * destination name, a later option overwriting an earlier one with the
   * same destination.
   */
  method BuildArgMap(parsed: Dict<Named>) returns (argMap: map<string, Entry>)
    requires parsed.Valid()
    ensures forall v :: v in argMap <==> exists i :: 0 <= i < |parsed.order| && KeyAt(parsed, i) == v
    ensures forall i :: 0 <= i < |parsed.order| && LastWithKey(parsed, i, |parsed.order|) ==>
              argMap[KeyAt(parsed, i)] == Entry(parsed.order[i], parsed.values[parsed.order[i]].val)
  {
    argMap := map[];
    var i := 0;
    while i < |parsed.order|
      invariant 0 <= i <= |parsed.order|
      invariant ArgKeysUpTo(parsed, i, argMap) && ArgEntriesUpTo(parsed, i, argMap)
    {
      var og := parsed.order[i];
      ArgEntriesStep(parsed, i, argMap);
      argMap := argMap[KeyAt(parsed, i) := Entry(og, parsed.values[og].val)];
      i := i + 1;
    }
  }

  // ---------------------------------------------------------------------
  // Override sections.

  /**
   * The value a command-line option selects, as `main` spells it to name an
   * override section: the text of a text option; for a switch `True` if
   * `--x` is given, `False` if `--no-x` is, else the default's truthiness.
   * Giving both, or a switch without its `--no-` twin, fails.
   */
  function SelectedValue(v: Value, nv: Option<Value>, defaultValue: Value): (r: Result<string, string>)
    ensures v.Str? ==> r == Ok(v.text)
    ensures v.Flag? ==> (r.Err? <==> nv.None? || (v.on && Truthy(nv.value)))
    ensures v.Flag? && r.Ok? ==> r.value == "True" || r.value == "False"
    ensures v.Flag? && r.Ok? ==>
              (r.value == "True" <==> v.on || (!Truthy(nv.value) && Truthy(defaultValue)))
  {
    match v
    case Str(t) => Ok(t)
    case Flag(on) =>
      match nv
      case None => Err("KeyError: no_ twin missing")
      case Some(n) =>
        if on && Truthy(n) then Err("ValueError: both the option and its negation are set")
        else if on then Ok("True")
        else if Truthy(n) then Ok("False")
        else Ok(if Truthy(defaultValue) then "True" else "False")
  }

  /** The section that overrides defaults when option `og` takes `value`. */
  function OverrideSection(og: string, value: string): string
  {
    Lower(Replace(og, "_", "-")) + "." + value
  }

  /**
   * One override section applied in order: each named option, hyphens
   * turned into underscores, gets the converted text as its new default;
   * naming an unknown option fails.
   */
  function ApplySection(argMap: map<string, Entry>, items: seq<(string, string)>): (r: Result<map<string, Entry>, string>)
    ensures r.Err? <==> exists i :: 0 <= i < |items| && ArgKey(items[i].0) !in argMap
    ensures r.Ok? ==> r.value.Keys == argMap.Keys
    ensures r.Ok? ==> forall k :: k in argMap ==> r.value[k].og == argMap[k].og
    ensures r.Ok? ==> forall k :: k in argMap && (forall i :: 0 <= i < |items| ==> ArgKey(items[i].0) != k) ==>
                        r.value[k] == argMap[k]
    decreases |items|
  {
    if items == [] then Ok(argMap)
    else
      var key := ArgKey(items[0].0);
      assert forall i :: 1 <= i < |items| ==> items[1..][i - 1] == items[i];
      if key !in argMap then Err("ValueError: override names an unknown option")
      else ApplySection(argMap[key := Entry(argMap[key].og, TryConvertBool(items[0].1))], items[1..])
  }

  /** The last override naming an option sets its default, as a later dict assignment wins. */
  lemma {:induction false} ApplySectionLastWins(argMap: map<string, Entry>, items: seq<(string, string)>)
    ensures ApplySection(argMap, items).Ok? ==>
              forall i :: 0 <= i < |items| && LastNaming(items, i) ==>
                ApplySection(argMap, items).value[ArgKey(items[i].0)].defaultValue == TryConvertBool(items[i].1)
    decreases |items|
  {
    if items != [] && ArgKey(items[0].0) in argMap {
      var key := ArgKey(items[0].0);
      var next := argMap[key := Entry(argMap[key].og, TryConvertBool(items[0].1))];
      assert ApplySection(argMap, items) == ApplySection(next, items[1..]);
      ApplySectionLastWins(next, items[1..]);
      if ApplySection(next, items[1..]).Ok? {
        var m := ApplySection(next, items[1..]).value;
        forall i | 0 <= i < |items| && LastNaming(items, i)
          ensures m[ArgKey(items[i].0)].defaultValue == TryConvertBool(items[i].1)
        {
          if i == 0 {
            LastNamingHead(items);
          } else {
            LastNamingTail(items, i);
          }
        }
      }
    }
  }

  /** The first item, when last to name its option, is followed by no item naming it. */
  lemma LastNamingHead(items: seq<(string, string)>)
    requires |items| > 0 && LastNaming(items, 0)
    ensures forall j :: 0 <= j < |items[1..]| ==> ArgKey(items[1..][j].0) != ArgKey(items[0].0)
  {
    forall j | 0 <= j < |items[1..]| ensures ArgKey(items[1..][j].0) != ArgKey(items[0].0) {
      assert items[1..][j] == items[j + 1];
    }
  }

  /** A later item that is last to name its option stays so in the rest of the section. */
  lemma LastNamingTail(items: seq<(string, string)>, i: nat)
    requires 1 <= i < |items| && LastNaming(items, i)
    ensures items[1..][i - 1] == items[i] && LastNaming(items[1..], i - 1)
  {
    forall j | i - 1 < j < |items[1..]| ensures ArgKey(items[1..][j].0) != ArgKey(items[1..][i - 1].0) {
      assert items[1..][j] == items[j + 1];
    }
  }

  /** No later item of the section names the option item `i` names. */
  predicate LastNaming(items: seq<(string, string)>, i: nat)
    requires i < |items|
  {
    forall j :: i < j < |items| ==> ArgKey(items[j].0) != ArgKey(items[i].0)
  }

  /** The `--no-` twin of a switch, if argparse has it. */
  function NoTwin(argDict: Dict<Value>, k: string): Option<Value>
  {
    if "no_" + k in argDict.values then Some(argDict.values["no_" + k]) else None
  }

  /** The first loop of `main` for one command-line destination `k`. */
  function OverrideStep(argDict: Dict<Value>, cfg: map<string, seq<(string, string)>>,
                        argMap: map<string, Entry>, k: string): (r: Result<map<string, Entry>, string>)
    requires k in argDict.values
    ensures r.Ok? ==> r.value.Keys == argMap.Keys
    ensures r.Ok? ==> forall key :: key in argMap ==> r.value[key].og == argMap[key].og
  {
    if k !in argMap then Ok(argMap)
    else
      match SelectedValue(argDict.values[k], NoTwin(argDict, k), argMap[k].defaultValue)
      case Err(e) => Err(e)
      case Ok(value) =>
        var section := OverrideSection(argMap[k].og, value);
        if section !in cfg then Ok(argMap) else ApplySection(argMap, cfg[section])
  }

  /** The first loop of `main` over the destinations `ks`, in order. */
  function Overrides(argDict: Dict<Value>, cfg: map<string, seq<(string, string)>>,
                     argMap: map<string, Entry>, ks: seq<string>): (r: Result<map<string, Entry>, string>)
    requires forall k :: k in ks ==> k in argDict.values
    ensures r.Ok? ==> r.value.Keys == argMap.Keys
    ensures r.Ok? ==> forall key :: key in argMap ==> r.value[key].og == argMap[key].og
    decreases |ks|
  {
    if ks == [] then Ok(argMap)
    else
      var init := ks[..|ks| - 1];
      assert forall k :: k in init ==> k in ks;
      match Overrides(argDict, cfg, argMap, init)
      case Err(e) => Err(e)
      case Ok(m) => OverrideStep(argDict, cfg, m, ks[|ks| - 1])
  }

  /** Once the loop has failed, it keeps its first error. */
  lemma {:induction false} OverridesErrStays(argDict: Dict<Value>, cfg: map<string, seq<(string, string)>>,
                                             argMap: map<string, Entry>, ks: seq<string>, n: nat)
    requires forall k :: k in ks ==> k in argDict.values
    requires n <= |ks|
    requires forall k :: k in ks[..n] ==> k in argDict.values
    requires Overrides(argDict, cfg, argMap, ks[..n]).Err?
    ensures Overrides(argDict, cfg, argMap, ks) == Overrides(argDict, cfg, argMap, ks[..n])
    decreases |ks|
  {
    if n < |ks| {
      var init := ks[..|ks| - 1];
      assert init[..n] == ks[..n];
      assert forall k :: k in init ==> k in ks;
      OverridesErrStays(argDict, cfg, argMap, init, n);
    } else {
      assert ks[..n] == ks;
    }
  }

  /** Giving both `--x` and `--no-x` for a known switch makes the loop fail. */
  lemma {:induction false} BothFlagsFatal(argDict: Dict<Value>, cfg: map<string, seq<(string, string)>>,
                                          argMap: map<string, Entry>, ks: seq<string>, k: string)
    requires forall k' :: k' in ks ==> k' in argDict.values
    requires k in ks && k in argMap
    requires argDict.values[k] == Flag(true)
    requires NoTwin(argDict, k).Some? && Truthy(NoTwin(argDict, k).value)
    ensures Overrides(argDict, cfg, argMap, ks).Err?
    decreases |ks|
  {
    var init := ks[..|ks| - 1];
    assert forall k' :: k' in init ==> k' in ks;
    if ks[|ks| - 1] != k {
      assert k in init by {
        var p :| 0 <= p < |ks| && ks[p] == k;
        assert init[p] == k;
      }
      BothFlagsFatal(argDict, cfg, argMap, init, k);
    } else if Overrides(argDict, cfg, argMap, init).Ok? {
      assert k in Overrides(argDict, cfg, argMap, init).value;
    }
  }

  /** The inner loop of `main` over one override section's items. */
  method ApplySectionItems(argMap: map<string, Entry>, items: seq<(string, string)>)
      returns (r: Result<map<string, Entry>, string>)
    ensures r == ApplySection(argMap, items)
  {
    var j := 0;
    var next := argMap;
    while j < |items|
      invariant 0 <= j <= |items|
      invariant ApplySection(argMap, items) == ApplySection(next, items[j..])
    {
      var key := ArgKey(items[j].0);
      assert items[j..][1..] == items[j + 1..];
      if key !in next {
        return Err("ValueError: override names an unknown option");
      }
      next := next[key := Entry(next[key].og, TryConvertBool(items[j].1))];
      j := j + 1;
    }
    assert items[j..] == [];
    r := Ok(next);
  }

  /**
   * The first loop of `main`: for every destination that names an option,
   * select its value, and apply the override section that value names.
   */
  method ApplyOverrides(argDict: Dict<Value>, cfg: map<string, seq<(string, string)>>,
                        argMap: map<string, Entry>) returns (r: Result<map<string, Entry>, string>)
    requires argDict.Valid()
    ensures r == Overrides(argDict, cfg, argMap, argDict.order)
  {
    var cur := argMap;
    var i := 0;
    assert argDict.order[..0] == [];
    while i < |argDict.order|
      invariant 0 <= i <= |argDict.order|
      invariant Overrides(argDict, cfg, argMap, argDict.order[..i]) == Ok(cur)
    {
      var step := ApplyOverride(argDict, cfg, cur, argDict.order[i]);
      OverridesAdvance(argDict, cfg, argMap, argDict.order, i, cur);
      if step.Err? {
        return step;
      }
      cur := step.value;
      i := i + 1;
    }
    assert argDict.order[..i] == argDict.order;
    r := Ok(cur);
  }

  /** One round of the first loop of `main`, for the destination `k`. */
  method ApplyOverride(argDict: Dict<Value>, cfg: map<string, seq<(string, string)>>,
                       cur: map<string, Entry>, k: string) returns (r: Result<map<string, Entry>, string>)
    requires k in argDict.values
    ensures r == OverrideStep(argDict, cfg, cur, k)
  {
    r := Ok(cur);
    if k in cur {
      var selected := SelectedValue(argDict.values[k], NoTwin(argDict, k), cur[k].defaultValue);
      if selected.Err? {
        return Err(selected.error);
      }
      var section := OverrideSection(cur[k].og, selected.value);
      if section in cfg {
        r := ApplySectionItems(cur, cfg[section]);
      }
    }
  }

  /** One more round of the loop: its outcome, and a failure that is final. */
  lemma OverridesAdvance(argDict: Dict<Value>, cfg: map<string, seq<(string, string)>>,
                         argMap: map<string, Entry>, ks: seq<string>, i: nat, cur: map<string, Entry>)
    requires forall k :: k in ks ==> k in argDict.values
    requires i < |ks|
    requires forall k :: k in ks[..i] ==> k in argDict.values
    requires Overrides(argDict, cfg, argMap, ks[..i]) == Ok(cur)
    ensures forall k :: k in ks[..i + 1] ==> k in argDict.values
    ensures Overrides(argDict, cfg, argMap, ks[..i + 1]) == OverrideStep(argDict, cfg, cur, ks[i])
    ensures OverrideStep(argDict, cfg, cur, ks[i]).Err? ==>
              Overrides(argDict, cfg, argMap, ks) == OverrideStep(argDict, cfg, cur, ks[i])
  {
    OverridesSnoc(argDict, cfg, argMap, ks, i);
    if OverrideStep(argDict, cfg, cur, ks[i]).Err? {
      OverridesErrStays(argDict, cfg, argMap, ks, i + 1);
    }
  }

  /** The loop over the first `i + 1` destinations is one more step after the first `i`. */
  lemma OverridesSnoc(argDict: Dict<Value>, cfg: map<string, seq<(string, string)>>,
                      argMap: map<string, Entry>, ks: seq<string>, i: nat)
    requires forall k :: k in ks ==> k in argDict.values
    requires i < |ks|
    ensures forall k :: k in ks[..i] ==> k in argDict.values
    ensures forall k :: k in ks[..i + 1] ==> k in argDict.values
    ensures Overrides(argDict, cfg, argMap, ks[..i + 1]) ==
              match Overrides(argDict, cfg, argMap, ks[..i])
              case Err(e) => Err(e)
              case Ok(m) => OverrideStep(argDict, cfg, m, ks[i])
  {
    assert ks[..i + 1][..i] == ks[..i];
  }

  // ---------------------------------------------------------------------
  // CMake arguments.

  /**
   * The CMake value of one option: a text option passes its text without
   * double quotes; a switch is ON for `--x`, OFF for `--no-x`, else ON
   * exactly when its default is truthy.
   */
  function CMakeSetting(v: Value, nv: Option<Value>, defaultValue: Value): (r: Result<string, string>)
    ensures v.Str? ==> r == Ok(Without(v.text, '"'))
    ensures v.Str? ==> r.Ok? && forall i :: 0 <= i < |r.value| ==> r.value[i] != '"'
    ensures v.Flag? ==> (r.Err? <==> nv.None?)
    ensures v.Flag? && r.Ok? ==> r.value == "ON" || r.value == "OFF"
    ensures v.Flag? && r.Ok? ==>
              (r.value == "ON" <==> v.on || (!Truthy(nv.value) && Truthy(defaultValue)))
  {
    match v
    case Str(t) =>
      ReplaceDeletes(t, '"');
      Ok(Replace(t, "\"", ""))
    case Flag(on) =>
      match nv
      case None => Err("KeyError: no_ twin missing")
      case Some(n) =>
        if on then Ok("ON")
        else if Truthy(n) then Ok("OFF")
        else Ok(if Truthy(defaultValue) then "ON" else "OFF")
  }

  /**
   * The value that selects the override section and the CMake value agree:
   * whenever both loops accept a switch, it is ON exactly when it selected
   * `True`.
   */
  lemma SettingAgreesWithSelection(v: Value, nv: Option<Value>, defaultValue: Value)
    requires v.Flag? && SelectedValue(v, nv, defaultValue).Ok?
    ensures CMakeSetting(v, nv, defaultValue).Ok?
    ensures CMakeSetting(v, nv, defaultValue).value == "ON" <==>
            SelectedValue(v, nv, defaultValue).value == "True"
  {
  }

  /** The CMake flag of an option: `-D` and its CMake name in upper case. */
  function CMakeFlag(og: string): string
  {
    "-D" + Upper(og)
  }

  /** The CMake value of destination `k` against the current argument map. */
  function SettingOf(argDict: Dict<Value>, argMap: map<string, Entry>, k: string): Result<string, string>
    requires k in argDict.values && k in argMap
  {
    CMakeSetting(argDict.values[k], NoTwin(argDict, k), argMap[k].defaultValue)
  }

  /** The second loop of `main` over the destinations `ks`, in order. */
  function CMakeAssignments(argDict: Dict<Value>, argMap: map<string, Entry>, ks: seq<string>): (r: Result<Dict<string>, string>)
    requires forall k :: k in ks ==> k in argDict.values
    ensures r.Ok? ==> r.value.Valid()
    ensures r.Err? <==> exists k :: k in ks && k in argMap && argDict.values[k].Flag? && NoTwin(argDict, k).None?
    ensures r.Ok? ==> forall f :: f in r.value.values ==>
                        exists k :: k in ks && k in argMap && CMakeFlag(argMap[k].og) == f
    decreases |ks|
  {
    if ks == [] then Ok(Dict([], map[]))
    else
      var init := ks[..|ks| - 1];
      var k := ks[|ks| - 1];
      assert forall k' :: k' in ks <==> k' in init || k' == k;
      match CMakeAssignments(argDict, argMap, init)
      case Err(e) => Err(e)
      case Ok(d) =>
        if k !in argMap then Ok(d)
        else
          match SettingOf(argDict, argMap, k)
          case Err(e) => Err(e)
          case Ok(value) => Ok(d.Put(CMakeFlag(argMap[k].og), value))
  }

  /**
   * The CMake value stored for an option is its own setting unless a later
   * destination maps to the same CMake flag.
   */
  lemma {:induction false} CMakeAssignmentsValue(argDict: Dict<Value>, argMap: map<string, Entry>,
                                                 ks: seq<string>, i: nat)
    requires forall k :: k in ks ==> k in argDict.values
    requires i < |ks| && ks[i] in argMap && CMakeAssignments(argDict, argMap, ks).Ok?
    requires forall j :: i < j < |ks| && ks[j] in argMap ==>
               CMakeFlag(argMap[ks[j]].og) != CMakeFlag(argMap[ks[i]].og)
    ensures SettingOf(argDict, argMap, ks[i]).Ok?
    ensures CMakeFlag(argMap[ks[i]].og) in CMakeAssignments(argDict, argMap, ks).value.values
    ensures CMakeAssignments(argDict, argMap, ks).value.values[CMakeFlag(argMap[ks[i]].og)]
            == SettingOf(argDict, argMap, ks[i]).value
    decreases |ks|
  {
    var init := ks[..|ks| - 1];
    assert forall k' :: k' in init ==> k' in ks;
    if i < |ks| - 1 {
      assert init[i] == ks[i];
      forall j | i < j < |init| && init[j] in argMap
        ensures CMakeFlag(argMap[init[j]].og) != CMakeFlag(argMap[init[i]].og)
      {
        assert init[j] == ks[j];
      }
      CMakeAssignmentsValue(argDict, argMap, init, i);
    }
  }

  /** Once the second loop has failed, it keeps its first error. */
  lemma {:induction false} CMakeErrStays(argDict: Dict<Value>, argMap: map<string, Entry>, ks: seq<string>, n: nat)
    requires forall k :: k in ks ==> k in argDict.values
    requires n <= |ks|
    requires forall k :: k in ks[..n] ==> k in argDict.values
    requires CMakeAssignments(argDict, argMap, ks[..n]).Err?
    ensures CMakeAssignments(argDict, argMap, ks) == CMakeAssignments(argDict, argMap, ks[..n])
    decreases |ks|
  {
    if n < |ks| {
      var init := ks[..|ks| - 1];
      assert init[..n] == ks[..n];
      assert forall k :: k in init ==> k in ks;
      CMakeErrStays(argDict, argMap, init, n);
    } else {
      assert ks[..n] == ks;
    }
  }

  /** One turn of the second loop of `main`. */
  lemma CMakeStep(argDict: Dict<Value>, argMap: map<string, Entry>, ks: seq<string>, i: nat, cmake: Dict<string>)
    requires forall k :: k in ks ==> k in argDict.values
    requires i < |ks| && CMakeAssignments(argDict, argMap, ks[..i]) == Ok(cmake)
    ensures ks[i] !in argMap ==> CMakeAssignments(argDict, argMap, ks[..i + 1]) == Ok(cmake)
    ensures ks[i] in argMap && SettingOf(argDict, argMap, ks[i]).Ok? ==>
              CMakeAssignments(argDict, argMap, ks[..i + 1])
              == Ok(cmake.Put(CMakeFlag(argMap[ks[i]].og), SettingOf(argDict, argMap, ks[i]).value))
    ensures ks[i] in argMap && SettingOf(argDict, argMap, ks[i]).Err? ==>
              CMakeAssignments(argDict, argMap, ks[..i + 1]).Err?
  {
    assert ks[..i + 1][..i] == ks[..i];
    assert ks[..i + 1][i] == ks[i];
  }

  /** `f"{k}={v}"` for every entry, in insertion order. */
  function Render(d: Dict<string>): (r: seq<string>)
    requires d.Valid()
    ensures |r| == |d.order|
  {
    seq(|d.order|, i requires 0 <= i < |d.order| => d.order[i] + "=" + d.values[d.order[i]])
  }

  /** The second loop of `main`, followed by the rendering of `cmake_args`. */
  method BuildCMakeArgs(argDict: Dict<Value>, argMap: map<string, Entry>) returns (r: Result<seq<string>, string>)
    requires argDict.Valid()
    ensures r.Err? <==> CMakeAssignments(argDict, argMap, argDict.order).Err?
    ensures r.Ok? ==> r.value == Render(CMakeAssignments(argDict, argMap, argDict.order).value)
  {
    var cmake: Dict<string> := Dict([], map[]);
    var i := 0;
    assert argDict.order[..0] == [];
    while i < |argDict.order|
      invariant 0 <= i <= |argDict.order|
      invariant CMakeAssignments(argDict, argMap, argDict.order[..i]) == Ok(cmake)
    {
      var k := argDict.order[i];
      CMakeStep(argDict, argMap, argDict.order, i, cmake);
      if k in argMap {
        var v := argDict.values[k];
        var og := argMap[k].og;
        if v.Str? {
          cmake := cmake.Put(CMakeFlag(og), Replace(v.text, "\"", ""));
        } else {
          if "no_" + k !in argDict.values {
            CMakeErrStays(argDict, argMap, argDict.order, i + 1);
            return Err("KeyError: no_ twin missing");
          }
          var nv := argDict.values["no_" + k];
          var value := if v.on then "ON"
                       else if Truthy(nv) then "OFF"
                       else if Truthy(argMap[k].defaultValue) then "ON"
                       else "OFF";
          cmake := cmake.Put(CMakeFlag(og), value);
        }
      }
      i := i + 1;
    }
    assert argDict.order[..i] == argDict.order;
    r := Ok(Render(cmake));
  }
}

=== FILE: cmake_scanner.dfy ===
/**
 * The CMake option scanner: it picks the option lines out of CMakeLists.txt
 * text, derives a command-line name for every CMake option, and resolves
 * clashes between derived names by restoring the stripped prefixes.
 */
module CMakeScanner {
  import opened Wrappers
  import opened Text
  import opened OrderedDict

  /** The scanner's settings, after `main` has negated its `--keep-*` switches. */
  datatype ScannerOptions = ScannerOptions(
    hint: string,
    stripPrefix: bool,
    prefixes: seq<string>,
    lowerCase: bool,
    hyphenSeparator: bool)

  /** The prefixes stripped unless others are given, longest variants first. */
  const DefaultPrefixes: seq<string> :=
    ["CMAKE_", "TOOLKIT_ENABLE_", "VULKIT_ENABLE_", "ONYX_ENABLE_", "TOOLKIT_", "VULKIT_", "ONYX_"]

  /** The settings with no switch given. */
  const Defaults := ScannerOptions("define_option", true, DefaultPrefixes, true, true)

  /** A default value: CMake's ON and OFF become booleans, anything else stays text. */
  datatype Value = Flag(on: bool) | Str(text: string)

  /** The derived name and the default of one CMake option. */
  datatype Named = Named(varname: string, val: Value)

  /** One detected option line: the CMake name, the derived name and the default. */
  datatype Detected = Detected(ogvarname: string, varname: string, val: Value)

  // ---------------------------------------------------------------------
  // Name derivation.

  /** Removes, in list order, each prefix that the name starts with at that point. */
  function StripPrefixes(name: string, prefixes: seq<string>): (r: string)
    ensures |r| <= |name| && r == name[|name| - |r|..]
    decreases |prefixes|
  {
    if prefixes == [] then name
    else StripPrefixes(RemovePrefix(name, prefixes[0]), prefixes[1..])
  }

  /** Stripping is a left fold: the last prefix is tried on what the others left. */
  lemma {:induction false} StripPrefixesAppend(name: string, prefixes: seq<string>, p: string)
    ensures StripPrefixes(name, prefixes + [p]) == RemovePrefix(StripPrefixes(name, prefixes), p)
    decreases |prefixes|
  {
    var all := prefixes + [p];
    if prefixes == [] {
      assert all == [p] && all[1..] == [];
      assert StripPrefixes(name, all) == StripPrefixes(RemovePrefix(name, p), []);
    } else {
      assert all[0] == prefixes[0] && all[1..] == prefixes[1..] + [p];
      StripPrefixesAppend(RemovePrefix(name, prefixes[0]), prefixes[1..], p);
      assert StripPrefixes(name, all) == StripPrefixes(RemovePrefix(name, prefixes[0]), all[1..]);
    }
  }

  /** A name that starts with none of the prefixes is left alone. */
  lemma {:induction false} StripPrefixesUnmatched(name: string, prefixes: seq<string>)
    requires forall i :: 0 <= i < |prefixes| ==> !StartsWith(name, prefixes[i])
    ensures StripPrefixes(name, prefixes) == name
    decreases |prefixes|
  {
    if prefixes != [] {
      assert !StartsWith(name, prefixes[0]);
      StripPrefixesUnmatched(name, prefixes[1..]);
    }
  }

  /** A name shorter than every prefix is left alone. */
  lemma StripPrefixesShort(name: string, prefixes: seq<string>)
    requires forall i :: 0 <= i < |prefixes| ==> |name| < |prefixes[i]|
    ensures StripPrefixes(name, prefixes) == name
  {
    StripPrefixesUnmatched(name, prefixes);
  }

  /** What the case and separator switches do to one character. */
  function MangleChar(c: char, opts: ScannerOptions): (r: char)
    ensures opts.lowerCase ==> !('A' <= r <= 'Z')
    ensures opts.hyphenSeparator ==> r != '_'
    ensures !opts.lowerCase && !opts.hyphenSeparator ==> r == c
  {
    var l := if opts.lowerCase then LowerChar(c) else c;
    if opts.hyphenSeparator && l == '_' then '-' else l
  }

  /** The case and separator switches applied to a whole name. */
  function Mangled(s: string, opts: ScannerOptions): (r: string)
    ensures |r| == |s|
    ensures forall i :: 0 <= i < |s| ==> r[i] == MangleChar(s[i], opts)
  {
    seq(|s|, i requires 0 <= i < |s| => MangleChar(s[i], opts))
  }

  /** The part of the CMake name that survives prefix stripping. */
  function Stem(og: string, opts: ScannerOptions, overrideDisableStrip: bool): (r: string)
    ensures |r| <= |og| && r == og[|og| - |r|..]
    ensures !opts.stripPrefix || overrideDisableStrip ==> r == og
  {
    if opts.stripPrefix && !overrideDisableStrip then StripPrefixes(og, opts.prefixes) else og
  }

  /**
   * `process_ogvarname`: strip the prefixes (unless disabled), lowercase,
   * then turn underscores into hyphens. The result is the stem mapped
   * character by character.
   */
  function ProcessOgVarName(og: string, opts: ScannerOptions, overrideDisableStrip: bool): (r: string)
    ensures r == Mangled(Stem(og, opts, overrideDisableStrip), opts)
    ensures |r| <= |og|
    ensures opts.hyphenSeparator ==> forall i :: 0 <= i < |r| ==> r[i] != '_'
    ensures opts.lowerCase ==> forall i :: 0 <= i < |r| ==> !('A' <= r[i] <= 'Z')
  {
    var stem := Stem(og, opts, overrideDisableStrip);
    var cased := if opts.lowerCase then Lower(stem) else stem;
    PipelineIsMangled(stem, opts);
    if opts.hyphenSeparator then Replace(cased, "_", "-") else cased
  }

  /** Lowercasing, then replacing underscores, maps the name character by character. */
  lemma PipelineIsMangled(stem: string, opts: ScannerOptions)
    ensures var cased := if opts.lowerCase then Lower(stem) else stem;
      (if opts.hyphenSeparator then Replace(cased, "_", "-") else cased) == Mangled(stem, opts)
  {
    var cased := if opts.lowerCase then Lower(stem) else stem;
    var m := Mangled(stem, opts);
    if opts.hyphenSeparator {
      ReplaceChar(cased, '_', '-');
      var r := Replace(cased, "_", "-");
      assert forall i :: 0 <= i < |stem| ==> r[i] == m[i];
    } else {
      assert forall i :: 0 <= i < |stem| ==> cased[i] == m[i];
    }
  }

  /** "LOG_FILE" starts with none of the prefixes after the enable-prefixed ones. */
  lemma LogFileUnmatched()
    ensures StripPrefixes("LOG_FILE", DefaultPrefixes[3..]) == "LOG_FILE"
  {
    var rest := "LOG_FILE";
    var later := DefaultPrefixes[3..];
    assert later == ["ONYX_ENABLE_", "TOOLKIT_", "VULKIT_", "ONYX_"];
    assert !StartsWith(rest, later[0]);
    assert !StartsWith(rest, later[1]) by {
      assert rest[..8][0] != later[1][0];
    }
    assert !StartsWith(rest, later[2]) by {
      assert rest[..7][0] != later[2][0];
    }
    assert !StartsWith(rest, later[3]) by {
      assert rest[..5][0] != later[3][0];
    }
    StripPrefixesUnmatched(rest, later);
  }

  /** The default prefixes strip "VULKIT_ENABLE_" and nothing after it. */
  lemma DefaultStem()
    ensures Stem("VULKIT_ENABLE_LOG_FILE", Defaults, false) == "LOG_FILE"
  {
    var og := "VULKIT_ENABLE_LOG_FILE";
    assert !StartsWith(og, "CMAKE_") by {
      assert og[..6][0] != "CMAKE_"[0];
    }
    assert !StartsWith(og, "TOOLKIT_ENABLE_") by {
      assert og[..15][0] != "TOOLKIT_ENABLE_"[0];
    }
    assert og[..14] == "VULKIT_ENABLE_";
    var rest := og[14..];
    assert rest == "LOG_FILE";
    assert StripPrefixes(og, DefaultPrefixes) == StripPrefixes(rest, DefaultPrefixes[3..]) by {
      assert DefaultPrefixes[1..][1..][1..] == DefaultPrefixes[3..];
      assert RemovePrefix(og, DefaultPrefixes[0]) == og;
      assert RemovePrefix(og, DefaultPrefixes[1]) == og;
      assert RemovePrefix(og, DefaultPrefixes[2]) == rest;
    }
    LogFileUnmatched();
  }

  // ---------------------------------------------------------------------
  // Option lines.

  /** CMake's ON and OFF become booleans; every other default stays text. */
  function ParseDefault(val: string): (r: Value)
    ensures r == Flag(true) <==> val == "ON"
    ensures r == Flag(false) <==> val == "OFF"
    ensures r.Str? ==> r.text == val
  {
    if val == "ON" then Flag(true)
    else if val == "OFF" then Flag(false)
    else Str(val)
  }

  /**
   * `process_option`: the words of an option line must be exactly a name
   * and a default; anything else fails to unpack.
   */
  function ProcessOption(content: seq<string>, opts: ScannerOptions): (r: Result<Detected, string>)
    ensures r.Ok? <==> |content| == 2
    ensures r.Ok? ==> r.value.ogvarname == content[0]
    ensures r.Ok? ==> r.value.varname == ProcessOgVarName(content[0], opts, false)
    ensures r.Ok? ==> r.value.val == ParseDefault(content[1])
  {
    if |content| != 2 then Err("ValueError: expected a name and a default value")
    else Ok(Detected(content[0], ProcessOgVarName(content[0], opts, false), ParseDefault(content[1])))
  }

  /** The words between `hint(` and `)` of an option line, split on single spaces. */
  function OptionWords(line: string, hint: string): (r: seq<string>)
    ensures |r| >= 1
  {
    Split(RemoveSuffix(RemovePrefix(line, hint + "("), ")"), " ")
  }

  /** The text of an option line with the given name and default. */
  function OptionLine(hint: string, og: string, val: string): string
  {
    hint + "(" + og + " " + val + ")"
  }

  /** A line `hint(NAME VALUE)` yields exactly its name and its value. */
  lemma OptionWordsOfLine(hint: string, og: string, val: string)
    requires forall i :: 0 <= i < |og| ==> og[i] != ' '
    requires forall i :: 0 <= i < |val| ==> val[i] != ' '
    ensures OptionWords(OptionLine(hint, og, val), hint) == [og, val]
  {
    var line := hint + "(" + og + " " + val + ")";
    assert StartsWith(line, hint + "(") && line[|hint + "("|..] == og + " " + val + ")";
    var inner := og + " " + val + ")";
    assert EndsWith(inner, ")") && inner[..|inner| - 1] == og + " " + val;
    SplitPair(og, " ", val);
  }

  /**
   * The list comprehension over one file's lines: every line starting with
   * the hint is an option line, in file order; the first malformed one fails.
   */
  function ScanLines(lines: seq<string>, opts: ScannerOptions): (r: Result<seq<Detected>, string>)
    ensures r.Ok? <==> forall i :: 0 <= i < |lines| && StartsWith(lines[i], opts.hint) ==>
                          |OptionWords(lines[i], opts.hint)| == 2
    ensures r.Ok? ==> |r.value| <= |lines|
    decreases |lines|
  {
    if lines == [] then Ok([])
    else
      var rest := ScanLines(lines[1..], opts);
      assert forall i :: 1 <= i < |lines| ==> lines[1..][i - 1] == lines[i];
      if !StartsWith(lines[0], opts.hint) then rest
      else
        match ProcessOption(OptionWords(lines[0], opts.hint), opts)
        case Err(e) => Err(e)
        case Ok(d) => if rest.Err? then rest else Ok([d] + rest.value)
  }

  /** Option lines for a list of names and defaults, in order. */
  function OptionLines(hint: string, names: seq<(string, string)>): (r: seq<string>)
    ensures |r| == |names|
  {
    if names == [] then [] else [OptionLine(hint, names[0].0, names[0].1)] + OptionLines(hint, names[1..])
  }

  /** What the scanner should report for a list of names and defaults. */
  function Expectations(names: seq<(string, string)>, opts: ScannerOptions): (r: seq<Detected>)
    ensures |r| == |names|
  {
    if names == [] then []
    else [Detected(names[0].0, ProcessOgVarName(names[0].0, opts, false), ParseDefault(names[0].1))]
         + Expectations(names[1..], opts)
  }

  /** A file of well-formed option lines yields one option per line, in order. */
  lemma {:induction false} ScanWellFormed(names: seq<(string, string)>, opts: ScannerOptions)
    requires forall k :: 0 <= k < |names| ==>
               (forall i :: 0 <= i < |names[k].0| ==> names[k].0[i] != ' ') &&
               (forall i :: 0 <= i < |names[k].1| ==> names[k].1[i] != ' ')
    ensures ScanLines(OptionLines(opts.hint, names), opts) == Ok(Expectations(names, opts))
    decreases |names|
  {
    if names != [] {
      var lines := OptionLines(opts.hint, names);
      ScanWellFormed(names[1..], opts);
      assert lines[1..] == OptionLines(opts.hint, names[1..]);
      assert StartsWith(lines[0], opts.hint) by {
        assert lines[0][..|opts.hint|] == opts.hint;
      }
      OptionWordsOfLine(opts.hint, names[0].0, names[0].1);
    }
  }

  /**
   * `{og: (varname, val) for ...}`: the detected options keyed by CMake
   * name; a name seen twice keeps its first place and its last value.
   */
  function Contents(detected: seq<Detected>): (r: Dict<Named>)
    ensures r.Valid()
    ensures forall k :: k in r.values <==> exists i :: 0 <= i < |detected| && detected[i].ogvarname == k
  {
    var pairs := seq(|detected|, i requires 0 <= i < |detected| =>
                     (detected[i].ogvarname, Named(detected[i].varname, detected[i].val)));
    assert forall i :: 0 <= i < |detected| ==> pairs[i].0 == detected[i].ogvarname;
    FromPairs(pairs)
  }

  // ---------------------------------------------------------------------
  // The build.ini entry.

  /** Python `str(val)` of a default: `True`, `False` or the text itself. */
  function IniText(v: Value): string
  {
    match v
    case Flag(b) => if b then "True" else "False"
    case Str(t) => t
  }

  /** The text stored under an option's CMake name: `varname: value`. */
  function IniEntry(n: Named): string
  {
    n.varname + ": " + IniText(n.val)
  }

  // ---------------------------------------------------------------------
  // Clash resolution.

  /** Two listed options derive the same name. */
  predicate HasClash(ks: seq<string>, c: map<string, Named>)
    requires forall k :: k in ks ==> k in c
  {
    exists i, j :: 0 <= i < j < |ks| && c[ks[i]].varname == c[ks[j]].varname
  }

  /** Another listed option derives the same name as `k`. */
  predicate Shares(k: string, ks: seq<string>, c: map<string, Named>)
    requires k in c && forall k' :: k' in ks ==> k' in c
  {
    exists k' :: k' in ks && k' != k && c[k'].varname == c[k].varname
  }

  /** A clash is exactly an option that shares its derived name. */
  lemma HasClashShares(ks: seq<string>, c: map<string, Named>)
    requires forall k :: k in ks ==> k in c
    requires forall i, j :: 0 <= i < j < |ks| ==> ks[i] != ks[j]
    ensures HasClash(ks, c) <==> exists k :: k in ks && Shares(k, ks, c)
  {
    if HasClash(ks, c) {
      var i, j :| 0 <= i < j < |ks| && c[ks[i]].varname == c[ks[j]].varname;
      assert ks[i] in ks && Shares(ks[i], ks, c);
    }
    if k :| k in ks && Shares(k, ks, c) {
      var k' :| k' in ks && k' != k && c[k'].varname == c[k].varname;
      var i :| 0 <= i < |ks| && ks[i] == k;
      var j :| 0 <= j < |ks| && ks[j] == k';
      if i < j {
        assert c[ks[i]].varname == c[ks[j]].varname;
      } else {
        assert c[ks[j]].varname == c[ks[i]].varname;
      }
    }
  }

  /** The entry of `k` once the options in `ks` have been visited. */
  function Expected(k: string, ks: seq<string>, c: map<string, Named>, opts: ScannerOptions): Named
    requires k in c && forall k' :: k' in ks ==> k' in c
  {
    if k in ks && Shares(k, ks, c) then Named(ProcessOgVarName(k, opts, true), c[k].val) else c[k]
  }

  /**
   * The outcome of the clash loop: without prefix stripping any clash is
   * fatal; with it every option that shares its derived name is re-derived
   * with stripping disabled. Keys, their order and the defaults are kept.
   */
  function Resolution(d: Dict<Named>, opts: ScannerOptions): (r: Result<Dict<Named>, string>)
    requires d.Valid()
    ensures r.Ok? ==> r.value.Valid() && r.value.order == d.order && r.value.values.Keys == d.values.Keys
    ensures r.Ok? ==> forall k :: k in d.values ==> r.value.values[k].val == d.values[k].val
  {
    if !opts.stripPrefix && HasClash(d.order, d.values) then
      Err("ValueError: name clash not caused by prefix stripping")
    else
      Ok(Dict(d.order, map k | k in d.values :: Expected(k, d.order, d.values, opts)))
  }

  /** Options with distinct derived names come through resolution untouched. */
  lemma ResolutionNoClash(d: Dict<Named>, opts: ScannerOptions)
    requires d.Valid() && !HasClash(d.order, d.values)
    ensures Resolution(d, opts) == Ok(d)
  {
    HasClashShares(d.order, d.values);
    var m := map k | k in d.values :: Expected(k, d.order, d.values, opts);
    assert m == d.values;
  }

  /** Without prefix stripping, a successful resolution has distinct derived names. */
  lemma ResolutionUnstrippedDistinct(d: Dict<Named>, opts: ScannerOptions)
    requires d.Valid() && !opts.stripPrefix && Resolution(d, opts).Ok?
    ensures Resolution(d, opts).value == d
    ensures !HasClash(d.order, d.values)
  {
    ResolutionNoClash(d, opts);
  }

  /** Visiting an option whose derived name is new changes no expected entry. */
  lemma ExpectedFresh(ks: seq<string>, x: string, c: map<string, Named>, opts: ScannerOptions)
    requires x in c && x !in ks && forall k :: k in ks ==> k in c
    requires forall k :: k in ks ==> c[k].varname != c[x].varname
    ensures forall k :: k in c ==> Expected(k, ks + [x], c, opts) == Expected(k, ks, c, opts)
  {
    forall k | k in c ensures Expected(k, ks + [x], c, opts) == Expected(k, ks, c, opts) {
      assert forall k' :: k' in ks + [x] ==> k' in ks || k' == x;
    }
  }

  /** Visiting an option that clashes with `o` re-derives both and changes nothing else. */
  lemma ExpectedClash(ks: seq<string>, x: string, o: string, c: map<string, Named>, opts: ScannerOptions)
    requires x in c && x !in ks && o in ks && forall k :: k in ks ==> k in c
    requires c[o].varname == c[x].varname
    ensures Expected(o, ks + [x], c, opts) == Named(ProcessOgVarName(o, opts, true), c[o].val)
    ensures Expected(x, ks + [x], c, opts) == Named(ProcessOgVarName(x, opts, true), c[x].val)
    ensures forall k :: k in c && k != o && k != x ==>
              Expected(k, ks + [x], c, opts) == Expected(k, ks, c, opts)
  {
    assert x in ks + [x] && o in ks + [x];
    assert Shares(o, ks + [x], c);
    assert Shares(x, ks + [x], c);
    forall k | k in c && k != o && k != x
      ensures Expected(k, ks + [x], c, opts) == Expected(k, ks, c, opts)
    {
      if k in ks && Shares(k, ks + [x], c) {
        var k' :| k' in ks + [x] && k' != k && c[k'].varname == c[k].varname;
        if k' == x {
          assert o in ks && o != k && c[o].varname == c[k].varname;
        }
      }
    }
  }

  /** A clash within a prefix of the keys is a clash of all of them. */
  lemma HasClashPrefix(ks: seq<string>, n: nat, c: map<string, Named>)
    requires n <= |ks| && forall k :: k in ks ==> k in c
    requires HasClash(ks[..n], c)
    ensures HasClash(ks, c)
  {
    var i, j :| 0 <= i < j < n && c[ks[..n][i]].varname == c[ks[..n][j]].varname;
    assert ks[..n][i] == ks[i] && ks[..n][j] == ks[j];
  }

  /** `unique` maps each derived name of `ks` to an option of `ks` deriving it. */
  ghost predicate FirstSeen(ks: seq<string>, c: map<string, Named>, unique: map<string, string>)
    requires forall k :: k in ks ==> k in c
  {
    (forall k :: k in ks ==> c[k].varname in unique) &&
    (forall v :: v in unique ==> unique[v] in ks && c[unique[v]].varname == v)
  }

  /** `cur` holds the expected entry of every option once `ks` has been visited. */
  ghost predicate EntriesAfter(ks: seq<string>, c: map<string, Named>, opts: ScannerOptions,
                               cur: map<string, Named>)
    requires forall k :: k in ks ==> k in c
  {
    cur.Keys == c.Keys &&
    forall k :: k in cur ==> cur[k] == Expected(k, ks, c, opts)
  }

  /** The state of the clash loop after visiting the first `i` options. */
  ghost predicate Visited(d: Dict<Named>, opts: ScannerOptions, i: nat,
                          cur: map<string, Named>, unique: map<string, string>)
    requires d.Valid()
  {
    i <= |d.order| &&
    FirstSeen(d.order[..i], d.values, unique) &&
    (!opts.stripPrefix ==> !HasClash(d.order[..i], d.values)) &&
    EntriesAfter(d.order[..i], d.values, opts, cur)
  }

  lemma FirstSeenFresh(ks: seq<string>, x: string, c: map<string, Named>, unique: map<string, string>)
    requires x in c && forall k :: k in ks ==> k in c
    requires FirstSeen(ks, c, unique) && c[x].varname !in unique
    ensures FirstSeen(ks + [x], c, unique[c[x].varname := x])
  {
    assert forall k :: k in ks + [x] ==> k in ks || k == x;
  }

  lemma FirstSeenClash(ks: seq<string>, x: string, c: map<string, Named>, unique: map<string, string>)
    requires x in c && forall k :: k in ks ==> k in c
    requires FirstSeen(ks, c, unique) && c[x].varname in unique
    ensures FirstSeen(ks + [x], c, unique)
  {
    assert forall k :: k in ks + [x] ==> k in ks || k == x;
  }

  lemma NoClashFresh(ks: seq<string>, x: string, c: map<string, Named>)
    requires x in c && forall k :: k in ks ==> k in c
    requires !HasClash(ks, c) && forall k :: k in ks ==> c[k].varname != c[x].varname
    ensures !HasClash(ks + [x], c)
  {
    var ks' := ks + [x];
    forall p, q | 0 <= p < q < |ks'| ensures c[ks'[p]].varname != c[ks'[q]].varname {
      assert ks'[p] == ks[p] && ks[p] in ks;
    }
  }

  lemma EntriesFresh(ks: seq<string>, x: string, c: map<string, Named>, opts: ScannerOptions,
                     cur: map<string, Named>)
    requires x in c && x !in ks && forall k :: k in ks ==> k in c
    requires forall k :: k in ks ==> c[k].varname != c[x].varname
    requires EntriesAfter(ks, c, opts, cur)
    ensures EntriesAfter(ks + [x], c, opts, cur)
  {
    ExpectedFresh(ks, x, c, opts);
  }

  lemma EntriesClash(ks: seq<string>, x: string, o: string, c: map<string, Named>, opts: ScannerOptions,
                     cur: map<string, Named>)
    requires x in c && x !in ks && o in ks && forall k :: k in ks ==> k in c
    requires c[o].varname == c[x].varname && EntriesAfter(ks, c, opts, cur)
    ensures EntriesAfter(ks + [x], c, opts,
                         cur[o := Named(ProcessOgVarName(o, opts, true), cur[o].val)]
                            [x := Named(ProcessOgVarName(x, opts, true), cur[x].val)])
  {
    ExpectedClash(ks, x, o, c, opts);
  }

  /** Visiting an option with a new derived name records it and changes no entry. */
  lemma VisitFresh(d: Dict<Named>, opts: ScannerOptions, i: nat,
                   cur: map<string, Named>, unique: map<string, string>)
    requires d.Valid() && i < |d.order| && Visited(d, opts, i, cur, unique)
    requires d.values[d.order[i]].varname !in unique
    ensures Visited(d, opts, i + 1, cur, unique[d.values[d.order[i]].varname := d.order[i]])
  {
    var x := d.order[i];
    var ks := d.order[..i];
    assert d.order[..i + 1] == ks + [x];
    assert x !in ks;
    assert forall k :: k in ks ==> d.values[k].varname != d.values[x].varname;
    FirstSeenFresh(ks, x, d.values, unique);
    if !opts.stripPrefix {
      NoClashFresh(ks, x, d.values);
    }
    EntriesFresh(ks, x, d.values, opts, cur);
  }

  /** Visiting an option that clashes with an earlier one re-derives both names. */
  lemma VisitClash(d: Dict<Named>, opts: ScannerOptions, i: nat,
                   cur: map<string, Named>, unique: map<string, string>, o: string)
    requires d.Valid() && i < |d.order| && Visited(d, opts, i, cur, unique)
    requires d.values[d.order[i]].varname in unique && opts.stripPrefix
    requires o == unique[d.values[d.order[i]].varname]
    ensures o in cur && d.order[i] in cur
    ensures Visited(d, opts, i + 1, cur[o := Named(ProcessOgVarName(o, opts, true), cur[o].val)]
                                       [d.order[i] := Named(ProcessOgVarName(d.order[i], opts, true), cur[d.order[i]].val)],
                    unique)
  {
    var x := d.order[i];
    var ks := d.order[..i];
    FreshInPrefix(d, i);
    PrefixKeys(d, i);
    ClashStep(ks, x, o, d.values, opts, cur, unique);
    VisitedNext(d, opts, i, cur[o := Named(ProcessOgVarName(o, opts, true), cur[o].val)]
                              [x := Named(ProcessOgVarName(x, opts, true), cur[x].val)], unique);
  }

  /** With prefix stripping on, the first `i + 1` keys are visited once their bookkeeping holds. */
  lemma VisitedNext(d: Dict<Named>, opts: ScannerOptions, i: nat, cur: map<string, Named>, unique: map<string, string>)
    requires d.Valid() && i < |d.order| && opts.stripPrefix
    requires forall k :: k in d.order[..i] + [d.order[i]] ==> k in d.values
    requires FirstSeen(d.order[..i] + [d.order[i]], d.values, unique)
    requires EntriesAfter(d.order[..i] + [d.order[i]], d.values, opts, cur)
    ensures Visited(d, opts, i + 1, cur, unique)
  {
    assert d.order[..i + 1] == d.order[..i] + [d.order[i]];
  }

  /** The clash step on the visited keys `ks` and the next key `x`. */
  lemma ClashStep(ks: seq<string>, x: string, o: string, c: map<string, Named>, opts: ScannerOptions,
                  cur: map<string, Named>, unique: map<string, string>)
    requires x in c && x !in ks && forall k :: k in ks ==> k in c
    requires FirstSeen(ks, c, unique) && EntriesAfter(ks, c, opts, cur)
    requires c[x].varname in unique && o == unique[c[x].varname]
    ensures o in cur && x in cur
    ensures FirstSeen(ks + [x], c, unique)
    ensures EntriesAfter(ks + [x], c, opts,
                         cur[o := Named(ProcessOgVarName(o, opts, true), cur[o].val)]
                            [x := Named(ProcessOgVarName(x, opts, true), cur[x].val)])
  {
    assert o in ks && c[o].varname == c[x].varname;
    FirstSeenClash(ks, x, c, unique);
    EntriesClash(ks, x, o, c, opts, cur);
  }

  /** A key of a valid dictionary does not occur before its own position. */
  lemma FreshInPrefix<V>(d: Dict<V>, i: nat)
    requires d.Valid() && i < |d.order|
    ensures d.order[i] !in d.order[..i]
  {
  }

  /** Every key of a valid dictionary's order, and so of a prefix of it, has a value. */
  lemma PrefixKeys<V>(d: Dict<V>, i: nat)
    requires d.Valid() && i < |d.order|
    ensures d.order[i] in d.values
    ensures forall k :: k in d.order[..i] ==> k in d.values
  {
  }

  /** Without stripping, a clash with an earlier option is a clash of the whole list. */
  lemma VisitFatal(d: Dict<Named>, opts: ScannerOptions, i: nat,
                   cur: map<string, Named>, unique: map<string, string>)
    requires d.Valid() && i < |d.order| && Visited(d, opts, i, cur, unique)
    requires d.values[d.order[i]].varname in unique
    ensures HasClash(d.order, d.values)
  {
    var o := unique[d.values[d.order[i]].varname];
    var p :| 0 <= p < i && d.order[..i][p] == o;
    assert d.order[p] == o;
  }

  /** Once every option has been visited, the loop state is the resolution. */
  lemma VisitedAll(d: Dict<Named>, opts: ScannerOptions, cur: map<string, Named>)
    requires d.Valid() && EntriesAfter(d.order, d.values, opts, cur)
    requires !opts.stripPrefix ==> !HasClash(d.order, d.values)
    ensures Resolution(d, opts) == Ok(Dict(d.order, cur))
  {
    ExpectedMap(d.order, d.values, opts, cur);
  }

  /** The entries the visit left behind are the expected ones, key for key. */
  lemma ExpectedMap(ks: seq<string>, c: map<string, Named>, opts: ScannerOptions, cur: map<string, Named>)
    requires forall k :: k in ks ==> k in c
    requires EntriesAfter(ks, c, opts, cur)
    ensures (map k | k in c :: Expected(k, ks, c, opts)) == cur
  {
    var m := map k | k in c :: Expected(k, ks, c, opts);
    assert m.Keys == cur.Keys;
    assert forall k :: k in m ==> m[k] == cur[k];
  }

  /**
   * The clash loop of the scanner, visiting the options in insertion order
   * and remembering the first option that derived each name.
   */
  method ResolveClashes(d: Dict<Named>, opts: ScannerOptions) returns (r: Result<Dict<Named>, string>)
    requires d.Valid()
    ensures r == Resolution(d, opts)
  {
    var cur := d.values;
    var unique: map<string, string> := map[];
    assert d.order[..0] == [];
    var i := 0;
    while i < |d.order|
      invariant Visited(d, opts, i, cur, unique)
    {
      var x := d.order[i];
      var v := cur[x].varname;
      assert v == d.values[x].varname by {
        assert x !in d.order[..i];
      }
      if v !in unique {
        VisitFresh(d, opts, i, cur, unique);
        unique := unique[v := x];
      } else {
        if !opts.stripPrefix {
          VisitFatal(d, opts, i, cur, unique);
          return Err("ValueError: name clash not caused by prefix stripping");
        }
        var o := unique[v];
        VisitClash(d, opts, i, cur, unique, o);
        cur := cur[o := Named(ProcessOgVarName(o, opts, true), cur[o].val)]
                  [x := Named(ProcessOgVarName(x, opts, true), cur[x].val)];
      }
      i := i + 1;
    }
    assert d.order[..i] == d.order;
    VisitedAll(d, opts, cur);
    r := Ok(Dict(d.order, cur));
  }

  // ---------------------------------------------------------------------
  // A clash that restoring prefixes cannot resolve.

  /** `--keep-case`: the default prefixes, case kept, underscores turned into hyphens. */
  const KeepCase := ScannerOptions("define_option", true, DefaultPrefixes, false, true)

  /** Two CMake options that differ only in their separator. */
  const SeparatorTwins: Dict<Named> :=
    Dict(["A_B", "A-B"], map["A_B" := Named("A-B", Flag(true)), "A-B" := Named("A-B", Flag(false))])

  /** Every default prefix is longer than the twins' names, so none of them is stripped. */
  lemma TwinsUnprefixed()
    ensures StripPrefixes("A_B", DefaultPrefixes) == "A_B"
    ensures StripPrefixes("A-B", DefaultPrefixes) == "A-B"
  {
    var ps := DefaultPrefixes;
    assert |ps[0]| == 6 && |ps[1]| == 15 && |ps[2]| == 14 && |ps[3]| == 12 && |ps[4]| == 8 && |ps[5]| == 7 && |ps[6]| == 5;
    StripPrefixesShort("A_B", ps);
    StripPrefixesShort("A-B", ps);
  }

  /** Re-deriving the twins with stripping disabled still gives both `A-B`. */
  lemma TwinsRestored()
    ensures SeparatorTwins.Valid()
    ensures ProcessOgVarName("A_B", KeepCase, true) == "A-B"
    ensures ProcessOgVarName("A-B", KeepCase, true) == "A-B"
  {
    assert Mangled("A_B", KeepCase) == "A-B";
    assert Mangled("A-B", KeepCase) == "A-B";
  }

  lemma SeparatorTwinsDerived()
    ensures SeparatorTwins.Valid()
    ensures ProcessOgVarName("A_B", KeepCase, false) == "A-B"
    ensures ProcessOgVarName("A-B", KeepCase, false) == "A-B"
    ensures ProcessOgVarName("A_B", KeepCase, true) == "A-B"
    ensures ProcessOgVarName("A-B", KeepCase, true) == "A-B"
  {
    TwinsRestored();
    TwinsUnprefixed();
    assert Stem("A_B", KeepCase, false) == "A_B" && Stem("A-B", KeepCase, false) == "A-B";
  }

  /**
   * As written, a clash that prefix stripping did not cause is reported as
   * resolved while prefix stripping is on, and both options keep one name.
   */
  lemma ResolutionKeepsClash()
    ensures SeparatorTwins.Valid()
    ensures Resolution(SeparatorTwins, KeepCase).Ok?
    ensures HasClash(Resolution(SeparatorTwins, KeepCase).value.order,
                     Resolution(SeparatorTwins, KeepCase).value.values)
  {
    TwinsRestored();
    var d := SeparatorTwins;
    var r := Resolution(d, KeepCase).value;
    assert r.order[0] == "A_B" && r.order[1] == "A-B";
    assert r.values["A_B"].varname == "A-B" && r.values["A-B"].varname == "A-B";
  }

  /**
   * Resolution that fails instead of reporting success when the restored
   * names still clash: a successful outcome has distinct derived names.
   */
  function ResolutionChecked(d: Dict<Named>, opts: ScannerOptions): (r: Result<Dict<Named>, string>)
    requires d.Valid()
    ensures r.Ok? ==> r == Resolution(d, opts)
    ensures r.Ok? ==> r.value.Valid() && !HasClash(r.value.order, r.value.values)
  {
    match Resolution(d, opts)
    case Err(e) => Err(e)
    case Ok(x) =>
      if HasClash(x.order, x.values) then Err("ValueError: name clash survives restoring prefixes")
      else Ok(x)
  }

  /** Options with distinct derived names pass the corrected resolution untouched. */
  lemma ResolutionCheckedNoClash(d: Dict<Named>, opts: ScannerOptions)
    requires d.Valid() && !HasClash(d.order, d.values)
    ensures ResolutionChecked(d, opts) == Ok(d)
  {
    ResolutionNoClash(d, opts);
  }

  /** The corrected resolution rejects the separator twins. */
  lemma ResolutionCheckedRejects()
    ensures SeparatorTwins.Valid()
    ensures ResolutionChecked(SeparatorTwins, KeepCase).Err?
  {
    ResolutionKeepsClash();
  }
}

=== FILE: cpp_generator.dfy ===
/**
 * The indentation-tracking C++ text builder of the code generators
 * (codegen/cpp/generator.py): every line is appended with the current
 * indentation, and with a ` * ` prefix inside a documentation block;
 * scopes raise and restore the indentation.
 */
module CppGenerator {
  import opened Wrappers
  import opened Text

  /** Python `" " * n`: no spaces for a count that is not positive. */
  function Spaces(n: int): (r: string)
    ensures |r| == (if n <= 0 then 0 else n)
    ensures forall i :: 0 <= i < |r| ==> r[i] == ' '
    decreases if n <= 0 then 0 else n
  {
    if n <= 0 then "" else [' '] + Spaces(n - 1)
  }

  function DocPrefix(doc: bool): string
  {
    if doc then " * " else ""
  }

  /** The text one call appends. */
  function Rendered(indent: int, doc: bool, line: string): string
  {
    Spaces(indent) + DocPrefix(doc) + line + "\n"
  }

  /** A rendered line is the indentation, the prefix, the line itself and a newline, in that order. */
  lemma RenderedParts(indent: int, doc: bool, line: string)
    ensures var r := Rendered(indent, doc, line);
      var k := |Spaces(indent)| + |DocPrefix(doc)|;
      |r| == k + |line| + 1
      && (forall i :: 0 <= i < |Spaces(indent)| ==> r[i] == ' ')
      && r[|Spaces(indent)|..k] == DocPrefix(doc)
      && r[k..k + |line|] == line
      && r[|r| - 1] == '\n'
  {
    var r := Rendered(indent, doc, line);
    var k := |Spaces(indent)| + |DocPrefix(doc)|;
    assert r == Spaces(indent) + DocPrefix(doc) + line + "\n";
    assert r[k..k + |line|] == line;
  }

  /** The rendered text holds the line itself. */
  lemma RenderedContains(before: string, indent: int, doc: bool, line: string)
    ensures Contains(before + Rendered(indent, doc, line), line)
  {
    var r := Rendered(indent, doc, line);
    var k := |Spaces(indent)| + |DocPrefix(doc)|;
    RenderedParts(indent, doc, line);
    assert (before + r)[|before| + k..|before| + k + |line|] == r[k..k + |line|];
    ContainsAt(before + r, line, |before| + k);
  }

  function Concat(lines: seq<string>): string
  {
    if lines == [] then "" else Concat(lines[..|lines| - 1]) + lines[|lines| - 1]
  }

  lemma ConcatAppend(lines: seq<string>, x: string)
    ensures Concat(lines + [x]) == Concat(lines) + x
  {
    assert (lines + [x])[..|lines|] == lines;
  }

  /** The texts the calls of a comment append: one `// ` line per newline-separated part. */
  function CommentLines(indent: int, doc: bool, parts: seq<string>): (r: seq<string>)
    ensures |r| == |parts|
    ensures forall i :: 0 <= i < |parts| ==> r[i] == Rendered(indent, doc, "// " + parts[i])
  {
    seq(|parts|, i requires 0 <= i < |parts| => Rendered(indent, doc, "// " + parts[i]))
  }

  /** Python `msg.split("\n")`. */
  function MessageLines(msg: string): seq<string>
  {
    Split(msg, "\n")
  }

  lemma CommentLinesStep(indent: int, doc: bool, parts: seq<string>, k: nat)
    requires k < |parts|
    ensures CommentLines(indent, doc, parts[..k + 1]) == CommentLines(indent, doc, parts[..k]) + [Rendered(indent, doc, "// " + parts[k])]
  {
  }

  class Generator {
    var code: string
    var indents: int
    var doc: bool
    /** The texts appended so far, one per emitted line. */
    ghost var lines: seq<string>

    ghost predicate Valid()
      reads this
    {
      code == Concat(lines)
    }

    constructor()
      ensures Valid() && code == "" && indents == 0 && !doc && lines == []
    {
      code, indents, doc := "", 0, false;
      lines := [];
    }

    /**
     * `__call__`: appends the line at the given or the current indentation;
     * a unique line already present anywhere in the code is skipped. Either
     * way the line is in the code afterwards.
     */
    method Emit(line: string, indent: Option<int>, uniqueLine: bool)
      requires Valid()
      modifies this
      ensures Valid() && indents == old(indents) && doc == old(doc)
      ensures uniqueLine && Contains(old(code), line) ==> code == old(code) && lines == old(lines)
      ensures !(uniqueLine && Contains(old(code), line)) ==>
        var text := Rendered(if indent.Some? then indent.value else indents, doc, line);
        code == old(code) + text && lines == old(lines) + [text]
      ensures Contains(code, line)
    {
      if uniqueLine && Contains(code, line) {
        return;
      }
      var tabs := Spaces(if indent.Some? then indent.value else indents);
      var pfix := DocPrefix(doc);
      RenderedContains(code, if indent.Some? then indent.value else indents, doc, line);
      ConcatAppend(lines, tabs + pfix + line + "\n");
      code := code + (tabs + pfix + line + "\n");
      lines := lines + [tabs + pfix + line + "\n"];
    }

    /** A line at the current indentation. */
    method Line(line: string)
      requires Valid()
      modifies this
      ensures Valid() && indents == old(indents) && doc == old(doc)
      ensures code == old(code) + Rendered(indents, doc, line) && lines == old(lines) + [Rendered(indents, doc, line)]
    {
      Emit(line, None, false);
    }

    /** The generated-code banner, emitted once however often it is requested. */
    method Disclaimer(ffile: string)
      requires Valid()
      modifies this
      ensures Valid() && indents == old(indents) && doc == old(doc)
      ensures var banner := "// Generated by Convoy's code generation script: '" + ffile + "'";
        Contains(code, banner)
        && (Contains(old(code), banner) ==> code == old(code))
        && (!Contains(old(code), banner) ==> code == old(code) + Rendered(indents, doc, banner))
    {
      Emit("// Generated by Convoy's code generation script: '" + ffile + "'", None, true);
    }

    /** An `#include` directive, with quotes or angle brackets, emitted once. */
    method Include(header: string, quotes: bool)
      requires Valid()
      modifies this
      ensures Valid() && indents == old(indents) && doc == old(doc)
      ensures var directive := if quotes then "#include \"" + header + "\"" else "#include <" + header + ">";
        Contains(code, directive)
        && (Contains(old(code), directive) ==> code == old(code))
        && (!Contains(old(code), directive) ==> code == old(code) + Rendered(indents, doc, directive))
    {
      Emit(if quotes then "#include \"" + header + "\"" else "#include <" + header + ">", None, true);
    }

    /** One `// ` line per line of the message. */
    method Comment(msg: string)
      requires Valid()
      modifies this
      ensures Valid() && indents == old(indents) && doc == old(doc)
      ensures lines == old(lines) + CommentLines(indents, doc, MessageLines(msg))
    {
      var msgs := MessageLines(msg);
      for k := 0 to |msgs|
        invariant Valid() && indents == old(indents) && doc == old(doc)
        invariant lines == old(lines) + CommentLines(indents, doc, msgs[..k])
      {
        CommentLinesStep(indents, doc, msgs, k);
        Line("// " + msgs[k]);
      }
      assert msgs[..|msgs|] == msgs;
    }

    /** `__assert_doc` followed by one documentation line; outside a doc block it is fatal and emits nothing. */
    method DocLine(line: string) returns (r: Result<(), string>)
      requires Valid()
      modifies this
      ensures Valid() && indents == old(indents) && doc == old(doc)
      ensures r.Err? <==> !doc
      ensures r.Err? ==> code == old(code)
      ensures r.Ok? ==> code == old(code) + Rendered(indents, true, line)
    {
      if !doc {
        return Err("Cannot call documentation methods when not in a doc() block.");
      }
      Line(line);
      r := Ok(());
    }

    /** `@brief` and an empty documentation line. */
    method Brief(msg: string) returns (r: Result<(), string>)
      requires Valid()
      modifies this
      ensures Valid() && indents == old(indents) && doc == old(doc)
      ensures r.Err? <==> !doc
      ensures r.Err? ==> code == old(code)
      ensures r.Ok? ==> code == old(code) + Rendered(indents, true, "@brief " + msg) + Rendered(indents, true, "")
    {
      r := DocLine("@brief " + msg);
      if r.Ok? {
        Line("");
      }
    }

    method Param(param: string, msg: string) returns (r: Result<(), string>)
      requires Valid()
      modifies this
      ensures Valid() && indents == old(indents) && doc == old(doc)
      ensures r.Err? <==> !doc
      ensures r.Err? ==> code == old(code)
      ensures r.Ok? ==> code == old(code) + Rendered(indents, true, "@param " + param + " " + msg)
    {
      r := DocLine("@param " + param + " " + msg);
    }

    method TParam(param: string, msg: string) returns (r: Result<(), string>)
      requires Valid()
      modifies this
      ensures Valid() && indents == old(indents) && doc == old(doc)
      ensures r.Err? <==> !doc
      ensures r.Err? ==> code == old(code)
      ensures r.Ok? ==> code == old(code) + Rendered(indents, true, "@tparam " + param + " " + msg)
    {
      r := DocLine("@tparam " + param + " " + msg);
    }

    method Ret(msg: string) returns (r: Result<(), string>)
      requires Valid()
      modifies this
      ensures Valid() && indents == old(indents) && doc == old(doc)
      ensures r.Err? <==> !doc
      ensures r.Err? ==> code == old(code)
      ensures r.Ok? ==> code == old(code) + Rendered(indents, true, "@return " + msg)
    {
      r := DocLine("@return " + msg);
    }

    /** Entering `doc()`: the opener is written outside the block, then the block starts. */
    method DocOpen()
      requires Valid()
      modifies this
      ensures Valid() && indents == old(indents) && doc
      ensures code == old(code) + Rendered(indents, old(doc), "/**")
    {
      Line("/**");
      doc := true;
    }

    /** Leaving `doc()`, normally or by an exception: the block ends, then the closer is written outside it. */
    method DocClose()
      requires Valid()
      modifies this
      ensures Valid() && indents == old(indents) && !doc
      ensures code == old(code) + Rendered(indents, false, " */")
    {
      doc := false;
      Line(" */");
    }

    /** `n` empty lines; none for a count that is not positive. */
    method Spacing(n: int)
      requires Valid()
      modifies this
      ensures Valid() && indents == old(indents) && doc == old(doc)
      ensures |lines| == |old(lines)| + (if n <= 0 then 0 else n) && lines[..|old(lines)|] == old(lines)
      ensures forall i :: |old(lines)| <= i < |lines| ==> lines[i] == Rendered(indents, doc, "")
    {
      var count := if n <= 0 then 0 else n;
      for k := 0 to count
        invariant Valid() && indents == old(indents) && doc == old(doc)
        invariant |lines| == |old(lines)| + k && lines[..|old(lines)|] == old(lines)
        invariant forall i :: |old(lines)| <= i < |lines| ==> lines[i] == Rendered(indents, doc, "")
      {
        Line("");
      }
    }

    /** Entering `scope()`: the name and the opener, then the indentation rises by `indent`. */
    method ScopeOpen(name: Option<string>, opener: string, delimiters: bool, indent: int)
      requires Valid()
      modifies this
      ensures Valid() && doc == old(doc) && indents == old(indents) + indent
      ensures lines == old(lines)
        + (if name.Some? then [Rendered(old(indents), doc, name.value)] else [])
        + (if delimiters && opener != "" then [Rendered(old(indents), doc, opener)] else [])
    {
      if name.Some? {
        Line(name.value);
      }
      if delimiters && opener != "" {
        Line(opener);
      }
      indents := indents + indent;
    }

    /**
     * Leaving `scope()`, normally or by an exception: the indentation drops
     * back by `indent`, then the closer is written at that level.
     */
    method ScopeClose(closer: string, delimiters: bool, indent: int)
      requires Valid()
      modifies this
      ensures Valid() && doc == old(doc) && indents == old(indents) - indent
      ensures lines == old(lines) + (if delimiters && closer != "" then [Rendered(indents, doc, closer)] else [])
    {
      indents := indents - indent;
      if delimiters && closer != "" {
        Line(closer);
      }
    }
  }

  /**
   * `guard_if_needed` of the loader generator (codegen/cpp/vkloader.py) for
   * a text body: a non-empty guard wraps the text in `#if` / `#endif` at
   * column zero.
   */
  method GuardIfNeeded(gen: Generator, text: string, guards: string)
    requires gen.Valid()
    modifies gen
    ensures gen.Valid() && gen.indents == old(gen.indents) && gen.doc == old(gen.doc)
    ensures guards == "" ==> gen.lines == old(gen.lines) + [Rendered(gen.indents, gen.doc, text)]
    ensures guards != "" ==> gen.lines == old(gen.lines) + [Rendered(0, gen.doc, "#if " + guards),
      Rendered(gen.indents, gen.doc, text), Rendered(0, gen.doc, "#endif")]
  {
    if guards != "" {
      gen.Emit("#if " + guards, Some(0), false);
      gen.Line(text);
      gen.Emit("#endif", Some(0), false);
    } else {
      gen.Line(text);
    }
  }
}

=== FILE: descriptor_set_layout.dfy ===
/**
 * Descriptor set layouts: the builder numbers bindings in the order they
 * are added, and the layout object keeps them next to its handle.
 * Descriptor types and stage flags keep their Vulkan numbering.
 */
module DescriptorSetLayouts {
  import opened Wrappers
  import opened VkCommon

  /** The builder's bindings live in a fixed array of sixteen. */
  const BindingCapacity: nat := 16

  /** `VkDescriptorSetLayoutBinding` (no immutable samplers). */
  datatype Binding = Binding(binding: nat, descriptorType: nat, count: nat, stageFlags: nat)

  /** Binding numbers are the positions: 0, 1, 2, ... in insertion order. */
  predicate Numbered(bindings: seq<Binding>)
  {
    forall i :: 0 <= i < |bindings| ==> bindings[i].binding == i
  }

  /** Numbered bindings never reuse a binding number. */
  lemma NumberedDistinct(bindings: seq<Binding>)
    requires Numbered(bindings)
    ensures forall i, j :: 0 <= i < j < |bindings| ==> bindings[i].binding != bindings[j].binding
  {
  }

  /** The `VkDescriptorSetLayoutCreateInfo` handed to the driver. */
  datatype LayoutCreateInfo = LayoutCreateInfo(bindingCount: nat, bindings: seq<Binding>)

  /** `DescriptorSetLayout::Builder`. */
  class Builder {
    var bindings: seq<Binding>

    ghost predicate Valid()
      reads this
    {
      Numbered(bindings) && |bindings| <= BindingCapacity
    }

    constructor()
      ensures Valid() && bindings == []
    {
      bindings := [];
    }

    /** `AddBinding`: one more binding, numbered by how many came before it. */
    method AddBinding(descriptorType: nat, stageFlags: nat, count: nat)
      requires Valid() && |bindings| < BindingCapacity
      modifies this
      ensures Valid()
      ensures bindings == old(bindings) + [Binding(|old(bindings)|, descriptorType, count, stageFlags)]
    {
      bindings := bindings + [Binding(|bindings|, descriptorType, count, stageFlags)];
    }

    /**
     * `Build`: the accumulated bindings and their count go to
     * `vkCreateDescriptorSetLayout`, which answers `createResult` with
     * `handle`; `submitted` is the create-info.
     */
    method Build(createResult: int, handle: nat) returns (r: Result<DescriptorSetLayout, Error>, submitted: LayoutCreateInfo)
      requires Valid()
      ensures submitted == LayoutCreateInfo(|bindings|, bindings)
      ensures createResult != VkSuccess ==> r == Err(Vulkan(createResult))
      ensures createResult == VkSuccess ==> (r.Ok? && fresh(r.value) &&
        r.value.layout == Some(handle) && r.value.bindings == bindings && r.value.destroyed == [])
      ensures r.Ok? ==> Numbered(r.value.bindings)
    {
      submitted := LayoutCreateInfo(|bindings|, bindings);
      if createResult != VkSuccess {
        return Err(Vulkan(createResult)), submitted;
      }
      var layout := new DescriptorSetLayout(handle, bindings);
      r := Ok(layout);
    }
  }

  /** `DescriptorSetLayout`: the handle (`None` once destroyed) and its bindings. */
  class DescriptorSetLayout {
    var layout: Option<nat>
    const bindings: seq<Binding>
    var destroyed: seq<nat>

    constructor(handle: nat, bindings: seq<Binding>)
      ensures layout == Some(handle) && this.bindings == bindings && destroyed == []
    {
      layout := Some(handle);
      this.bindings := bindings;
      destroyed := [];
    }

    /** Destroys a live layout once and nulls the handle; a null handle is left alone. */
    method Destroy()
      modifies this`layout, this`destroyed
      ensures layout.None?
      ensures old(layout).Some? ==> destroyed == old(destroyed) + [old(layout).value]
      ensures old(layout).None? ==> destroyed == old(destroyed)
    {
      if layout.Some? {
        destroyed := destroyed + [layout.value];
        layout := None;
      }
    }
  }
}

=== FILE: graphics_pipeline.dfy ===
/**
 * Graphics pipelines: the builder that holds every fixed-function state
 * structure, the arrays those structures point into once baked, the
 * colour attachment builders, the create-info the builder hands to the
 * driver, and the pipeline object.
 *
 * Enumerations keep their Vulkan numbering; floating-point state (line
 * width, depth bias, sample shading, depth bounds, blend constants) is
 * carried as opaque `real` values; an array a structure points at is kept
 * as its contents (`None` for a null pointer).
 */
module GraphicsPipelines {
  import opened Wrappers
  import opened VkCommon

  // Capacities of the builder's fixed arrays.
  const DynamicStateCapacity: nat := 128
  const BindingCapacity: nat := 16
  const AttributeCapacity: nat := 16
  const ColorAttachmentCapacity: nat := 8
  const ShaderStageCapacity: nat := 4
  const ViewportCapacity: nat := 4

  // Vulkan numbering of the defaults.
  const TopologyTriangleList: nat := 3
  const PolygonModeFill: nat := 0
  const CullModeNone: nat := 0
  const FrontFaceCounterClockwise: nat := 0
  const SampleCount1: nat := 1
  const LogicOpCopy: nat := 3
  const CompareOpLess: nat := 1
  const ColorComponentsRGBA: nat := 0xF
  const BlendFactorOne: nat := 1
  const BlendFactorSrcAlpha: nat := 6
  const BlendFactorOneMinusSrcAlpha: nat := 7
  const BlendOpAdd: nat := 0

  /** Where a structure points at an array: null exactly when the array is empty. */
  function Pointer<T>(xs: seq<T>): (r: Option<seq<T>>)
    ensures r.None? <==> xs == []
    ensures r.Some? ==> r.value == xs
  {
    if xs == [] then None else Some(xs)
  }

  datatype InputAssemblyInfo = InputAssemblyInfo(topology: nat, primitiveRestart: bool)

  datatype Viewport = Viewport(x: real, y: real, width: real, height: real, minDepth: real, maxDepth: real)
  datatype Rect = Rect(x: int, y: int, width: nat, height: nat)

  datatype ViewportInfo = ViewportInfo(
    viewportCount: nat, viewports: Option<seq<Viewport>>,
    scissorCount: nat, scissors: Option<seq<Rect>>)

  datatype RasterizationInfo = RasterizationInfo(
    depthClamp: bool,
    rasterizerDiscard: bool,
    polygonMode: nat,
    lineWidth: real,
    cullMode: nat,
    frontFace: nat,
    depthBias: bool,
    depthBiasConstant: real,
    depthBiasClamp: real,
    depthBiasSlope: real)

  /** `pSampleMask` is a caller's pointer, kept as an opaque address. */
  datatype MultisampleInfo = MultisampleInfo(
    sampleShading: bool,
    samples: nat,
    minSampleShading: real,
    sampleMask: Option<nat>,
    alphaToCoverage: bool,
    alphaToOne: bool)

  datatype ColorBlendAttachment = ColorBlendAttachment(
    blendEnable: bool,
    writeMask: nat,
    srcColorFactor: nat,
    dstColorFactor: nat,
    colorOp: nat,
    srcAlphaFactor: nat,
    dstAlphaFactor: nat,
    alphaOp: nat)

  datatype ColorBlendInfo = ColorBlendInfo(
    logicOpEnable: bool,
    logicOp: nat,
    blendConstants: seq<real>,
    attachmentCount: nat,
    attachments: Option<seq<ColorBlendAttachment>>)

  datatype StencilOpState = StencilOpState(
    failOp: nat, passOp: nat, depthFailOp: nat, compareOp: nat,
    compareMask: nat, writeMask: nat, reference: nat)

  datatype DepthStencilInfo = DepthStencilInfo(
    depthTest: bool,
    depthWrite: bool,
    depthCompareOp: nat,
    depthBoundsTest: bool,
    minDepthBounds: real,
    maxDepthBounds: real,
    stencilTest: bool,
    front: StencilOpState,
    back: StencilOpState)

  datatype VertexBinding = VertexBinding(binding: nat, stride: nat, inputRate: nat)
  datatype VertexAttribute = VertexAttribute(location: nat, binding: nat, format: nat, offset: nat)

  datatype VertexInputInfo = VertexInputInfo(
    bindingCount: nat, bindings: Option<seq<VertexBinding>>,
    attributeCount: nat, attributes: Option<seq<VertexAttribute>>)

  datatype DynamicStateInfo = DynamicStateInfo(count: nat, states: Option<seq<nat>>)

  /** The specialisation info is a caller's pointer, kept as an opaque address. */
  datatype ShaderStage = ShaderStage(shaderModule: nat, stage: nat, flags: nat, specialization: Option<nat>, entryPoint: string)

  /** `VkPipelineRenderingCreateInfoKHR`, for dynamic rendering. */
  datatype RenderingInfo = RenderingInfo(viewMask: nat, colorFormats: seq<nat>, depthFormat: nat, stencilFormat: nat)

  /** `VkGraphicsPipelineCreateInfo`; `next` is its `pNext`. */
  datatype PipelineCreateInfo = PipelineCreateInfo(
    stageCount: nat,
    stages: Option<seq<ShaderStage>>,
    vertexInput: VertexInputInfo,
    inputAssembly: InputAssemblyInfo,
    viewport: ViewportInfo,
    rasterization: RasterizationInfo,
    multisample: MultisampleInfo,
    colorBlend: ColorBlendInfo,
    depthStencil: DepthStencilInfo,
    dynamicState: DynamicStateInfo,
    layout: nat,
    renderPass: Option<nat>,
    subpass: nat,
    basePipeline: Option<nat>,
    basePipelineIndex: int,
    next: Option<RenderingInfo>)

  /** The faces a stencil setter acts on (`StencilOperationFlag_Front`, `_Back`). */
  datatype StencilFace = Front | Back

  /** One stencil field and its new value. */
  datatype StencilSetting =
    | FailOp(op: nat)
    | PassOp(op: nat)
    | DepthFailOp(op: nat)
    | CompareOp(op: nat)
    | CompareMask(mask: nat)
    | WriteMask(mask: nat)
    | Reference(reference: nat)

  /** A face's stencil state with one field set. */
  function Apply(s: StencilOpState, setting: StencilSetting): StencilOpState
  {
    match setting
    case FailOp(op) => s.(failOp := op)
    case PassOp(op) => s.(passOp := op)
    case DepthFailOp(op) => s.(depthFailOp := op)
    case CompareOp(op) => s.(compareOp := op)
    case CompareMask(mask) => s.(compareMask := mask)
    case WriteMask(mask) => s.(writeMask := mask)
    case Reference(reference) => s.(reference := reference)
  }

  /** The colour blend state a new colour attachment starts with: blending off, RGBA written, src-alpha blending ready. */
  const DefaultColorBlend := ColorBlendAttachment(false, ColorComponentsRGBA, BlendFactorSrcAlpha, BlendFactorOneMinusSrcAlpha,
                                                  BlendOpAdd, BlendFactorOne, BlendFactorOneMinusSrcAlpha, BlendOpAdd)

  const DefaultStencil := StencilOpState(0, 0, 0, 0, 0, 0, 0)

  // The fixed-function state `initialize` starts from.
  const DefaultInputAssembly := InputAssemblyInfo(TopologyTriangleList, false)
  const DefaultViewport := ViewportInfo(0, None, 0, None)
  const DefaultRasterization := RasterizationInfo(false, false, PolygonModeFill, 1.0, CullModeNone,
                                                  FrontFaceCounterClockwise, false, 0.0, 0.0, 0.0)
  const DefaultMultisample := MultisampleInfo(false, SampleCount1, 1.0, None, false, false)
  const DefaultColorBlendInfo := ColorBlendInfo(false, LogicOpCopy, [0.0, 0.0, 0.0, 0.0], 0, None)
  const DefaultDepthStencil := DepthStencilInfo(false, false, CompareOpLess, false, 0.0, 1.0, false,
                                                DefaultStencil, DefaultStencil)

  /** `GraphicsPipeline::Builder`. */
  class Builder {
    const layout: nat
    const renderPass: Option<nat>
    const renderingInfo: RenderingInfo
    const subpass: nat

    var inputAssembly: InputAssemblyInfo
    var viewportInfo: ViewportInfo
    var rasterization: RasterizationInfo
    var multisample: MultisampleInfo
    var colorBlend: ColorBlendInfo
    var depthStencil: DepthStencilInfo
    var vertexInput: VertexInputInfo
    var dynamicState: DynamicStateInfo

    var basePipeline: Option<nat>
    var cache: Option<nat>
    var basePipelineIndex: int

    var dynamicStates: seq<nat>
    var bindings: seq<VertexBinding>
    var attributes: seq<VertexAttribute>
    var colorAttachmentBuilders: seq<ColorAttachmentBuilder>
    var colorAttachments: seq<ColorBlendAttachment>
    var shaderStages: seq<ShaderStage>
    var viewports: seq<(Viewport, Rect)>

    /**
     * Bindings and attributes are numbered by position, four blend
     * constants, and the arrays within their capacities.
     */
    predicate Valid()
      reads this
    {
      (forall i :: 0 <= i < |bindings| ==> bindings[i].binding == i) &&
      (forall i :: 0 <= i < |attributes| ==> attributes[i].location == i) &&
      |colorBlend.blendConstants| == 4 &&
      |dynamicStates| <= DynamicStateCapacity && |bindings| <= BindingCapacity &&
      |attributes| <= AttributeCapacity && |colorAttachmentBuilders| <= ColorAttachmentCapacity &&
      |colorAttachments| <= ColorAttachmentCapacity && |shaderStages| <= ShaderStageCapacity &&
      |viewports| <= ViewportCapacity
    }

    /** The counts and pointers `Bake` writes agree with the arrays. */
    predicate Baked()
      reads this
    {
      colorBlend.attachmentCount == |colorAttachments| && colorBlend.attachments == Pointer(colorAttachments) &&
      dynamicState == DynamicStateInfo(|dynamicStates|, Pointer(dynamicStates)) &&
      vertexInput == VertexInputInfo(|bindings|, Pointer(bindings), |attributes|, Pointer(attributes))
    }

    /** The state `initialize` sets up; every array empty. */
    predicate Initial()
      reads this
    {
      StatesInitial() && ListsInitial()
    }

    /** The arrays are empty and nothing names a base pipeline or a cache. */
    predicate ListsInitial()
      reads this`basePipeline, this`cache, this`basePipelineIndex, this`dynamicStates, this`bindings,
            this`attributes, this`colorAttachmentBuilders, this`colorAttachments, this`shaderStages, this`viewports
    {
      basePipeline == None && cache == None && basePipelineIndex == -1 &&
      dynamicStates == [] && bindings == [] && attributes == [] && colorAttachmentBuilders == [] &&
      colorAttachments == [] && shaderStages == [] && viewports == []
    }

    /** The state structures hold their defaults. */
    predicate StatesInitial()
      reads this`inputAssembly, this`viewportInfo, this`rasterization, this`multisample, this`colorBlend,
            this`depthStencil, this`dynamicState, this`vertexInput
    {
      inputAssembly == DefaultInputAssembly && viewportInfo == DefaultViewport &&
      rasterization == DefaultRasterization && multisample == DefaultMultisample &&
      colorBlend == DefaultColorBlendInfo && depthStencil == DefaultDepthStencil &&
      vertexInput == VertexInputInfo(0, None, 0, None) && dynamicState == DynamicStateInfo(0, None)
    }

    /** A builder for a render pass and one of its subpasses. */
    constructor(layout: nat, renderPass: Option<nat>, subpass: nat)
      ensures this.layout == layout && this.renderPass == renderPass && this.subpass == subpass
      ensures this.renderingInfo == RenderingInfo(0, [], 0, 0)
      ensures Initial() && Valid() && Baked()
    {
      this.layout := layout;
      this.renderPass := renderPass;
      this.subpass := subpass;
      this.renderingInfo := RenderingInfo(0, [], 0, 0);
      new;
      Initialize();
      InitialIsValid(this);
    }

    /**
     * A builder for dynamic rendering: no render pass. The subpass is left
     * uninitialised, so nothing is promised about it.
     */
    constructor ForRendering(layout: nat, renderingInfo: RenderingInfo)
      ensures this.layout == layout && this.renderPass == None && this.renderingInfo == renderingInfo
      ensures Initial() && Valid() && Baked()
    {
      this.layout := layout;
      this.renderPass := None;
      this.renderingInfo := renderingInfo;
      new;
      Initialize();
      InitialIsValid(this);
    }

    /** The fixed-function half of `initialize`. */
    method InitializeStates()
      modifies this`inputAssembly, this`viewportInfo, this`rasterization, this`multisample, this`colorBlend,
               this`depthStencil, this`dynamicState, this`vertexInput
      ensures StatesInitial()
    {
      inputAssembly := DefaultInputAssembly;
      viewportInfo := DefaultViewport;
      rasterization := DefaultRasterization;
      multisample := DefaultMultisample;
      colorBlend := DefaultColorBlendInfo;
      depthStencil := DefaultDepthStencil;
      dynamicState := DynamicStateInfo(0, None);
      vertexInput := VertexInputInfo(0, None, 0, None);
    }

    /** `initialize`, together with the members' declared defaults. */
    method Initialize()
      modifies this
      ensures Initial()
    {
      InitializeStates();
      InitializeLists();
    }

    /** The members `initialize` leaves to their declared defaults. */
    method InitializeLists()
      modifies this`basePipeline, this`cache, this`basePipelineIndex, this`dynamicStates, this`bindings,
               this`attributes, this`colorAttachmentBuilders, this`colorAttachments, this`shaderStages, this`viewports
      ensures ListsInitial()
    {
      basePipeline, cache, basePipelineIndex := None, None, -1;
      dynamicStates, bindings, attributes := [], [], [];
      colorAttachmentBuilders, colorAttachments, shaderStages, viewports := [], [], [], [];
    }

    /**
     * `Bake`: the colour blend, dynamic state and vertex input structures
     * get their arrays' sizes as counts and point at them, or at nothing
     * when they are empty.
     */
    method Bake()
      modifies this`colorBlend, this`dynamicState, this`vertexInput
      ensures Baked()
      ensures colorBlend == old(colorBlend).(attachmentCount := colorBlend.attachmentCount, attachments := colorBlend.attachments)
    {
      colorBlend := colorBlend.(attachmentCount := |colorAttachments|,
                                attachments := if colorAttachments == [] then None else Some(colorAttachments));
      dynamicState := DynamicStateInfo(|dynamicStates|, if dynamicStates == [] then None else Some(dynamicStates));
      vertexInput := VertexInputInfo(|bindings|, if bindings == [] then None else Some(bindings),
                                     |attributes|, if attributes == [] then None else Some(attributes));
    }

    /**
     * `CreatePipelineInfo`: every state structure as it stands, the shader
     * stages, and a `pNext` that names the rendering info exactly when
     * there is no render pass.
     */
    function CreatePipelineInfo(): (r: PipelineCreateInfo)
      reads this
      ensures r.next.None? <==> renderPass.Some?
      ensures r.next.Some? ==> r.next.value == renderingInfo
      ensures r.stageCount == |shaderStages| && r.stages == Pointer(shaderStages)
      ensures r.renderPass == renderPass && r.layout == layout && r.subpass == subpass
    {
      PipelineCreateInfo(
        |shaderStages|, if shaderStages == [] then None else Some(shaderStages),
        vertexInput, inputAssembly, viewportInfo, rasterization, multisample, colorBlend, depthStencil, dynamicState,
        layout, renderPass, subpass, basePipeline, basePipelineIndex,
        if renderPass.Some? then None else Some(renderingInfo))
    }

    /**
     * `Build`: the create-info goes to `vkCreateGraphicsPipelines`, which
     * answers `createResult` with `handle`.
     */
    method Build(createResult: int, handle: nat) returns (r: Result<GraphicsPipeline, Error>, submitted: PipelineCreateInfo)
      ensures submitted == CreatePipelineInfo()
      ensures createResult != VkSuccess ==> r == Err(Vulkan(createResult))
      ensures createResult == VkSuccess ==> (r.Ok? && fresh(r.value) && r.value.pipeline == Some(handle) && r.value.destroyed == [])
    {
      submitted := CreatePipelineInfo();
      if createResult != VkSuccess {
        return Err(Vulkan(createResult)), submitted;
      }
      var pipeline := new GraphicsPipeline(handle);
      r := Ok(pipeline);
    }

    method SetBasePipeline(pipeline: Option<nat>)
      modifies this`basePipeline
      ensures basePipeline == pipeline
    {
      basePipeline := pipeline;
    }

    method SetBasePipelineIndex(index: int)
      modifies this`basePipelineIndex
      ensures basePipelineIndex == index
    {
      basePipelineIndex := index;
    }

    method SetCache(cache: Option<nat>)
      modifies this`cache
      ensures this.cache == cache
    {
      this.cache := cache;
    }

    // Input assembly

    method SetTopology(topology: nat)
      modifies this`inputAssembly
      ensures inputAssembly == old(inputAssembly).(topology := topology)
    {
      inputAssembly := inputAssembly.(topology := topology);
    }

    /** `EnablePrimitiveRestart` (`enable`) and `DisablePrimitiveRestart`. */
    method SetPrimitiveRestart(enable: bool)
      modifies this`inputAssembly
      ensures inputAssembly == old(inputAssembly).(primitiveRestart := enable)
    {
      inputAssembly := inputAssembly.(primitiveRestart := enable);
    }

    // Viewport and scissor

    /** `AddViewport`: recorded in the builder's array, which no create-info refers to. */
    method AddViewport(viewport: Viewport, scissor: Rect)
      requires Valid() && |viewports| < ViewportCapacity
      modifies this`viewports
      ensures Valid() && viewports == old(viewports) + [(viewport, scissor)]
    {
      viewports := viewports + [(viewport, scissor)];
    }

    /** `SetViewportCount`: as many viewports as scissors, both supplied dynamically. */
    method SetViewportCount(count: nat)
      modifies this`viewportInfo
      ensures viewportInfo == ViewportInfo(count, None, count, None)
    {
      viewportInfo := ViewportInfo(count, None, count, None);
    }

    // Rasterisation

    /** `EnableRasterizerDiscard` / `DisableRasterizerDiscard`. */
    method SetRasterizerDiscard(enable: bool)
      modifies this`rasterization
      ensures rasterization == old(rasterization).(rasterizerDiscard := enable)
    {
      rasterization := rasterization.(rasterizerDiscard := enable);
    }

    /** `EnableDepthClamp` / `DisableDepthClamp`. */
    method SetDepthClamp(enable: bool)
      modifies this`rasterization
      ensures rasterization == old(rasterization).(depthClamp := enable)
    {
      rasterization := rasterization.(depthClamp := enable);
    }

    /** `EnableDepthBias` / `DisableDepthBias`. */
    method SetDepthBiasEnable(enable: bool)
      modifies this`rasterization
      ensures rasterization == old(rasterization).(depthBias := enable)
    {
      rasterization := rasterization.(depthBias := enable);
    }

    method SetPolygonMode(mode: nat)
      modifies this`rasterization
      ensures rasterization == old(rasterization).(polygonMode := mode)
    {
      rasterization := rasterization.(polygonMode := mode);
    }

    method SetLineWidth(width: real)
      modifies this`rasterization
      ensures rasterization == old(rasterization).(lineWidth := width)
    {
      rasterization := rasterization.(lineWidth := width);
    }

    method SetCullMode(mode: nat)
      modifies this`rasterization
      ensures rasterization == old(rasterization).(cullMode := mode)
    {
      rasterization := rasterization.(cullMode := mode);
    }

    method SetFrontFace(face: nat)
      modifies this`rasterization
      ensures rasterization == old(rasterization).(frontFace := face)
    {
      rasterization := rasterization.(frontFace := face);
    }

    method SetDepthBias(constantFactor: real, clamp: real, slopeFactor: real)
      modifies this`rasterization
      ensures rasterization == old(rasterization).(depthBiasConstant := constantFactor, depthBiasClamp := clamp,
                                                   depthBiasSlope := slopeFactor)
    {
      rasterization := rasterization.(depthBiasConstant := constantFactor, depthBiasClamp := clamp,
                                      depthBiasSlope := slopeFactor);
    }

    // Multisampling

    /** `EnableSampleShading` / `DisableSampleShading`. */
    method SetSampleShading(enable: bool)
      modifies this`multisample
      ensures multisample == old(multisample).(sampleShading := enable)
    {
      multisample := multisample.(sampleShading := enable);
    }

    /** `EnableAlphaToCoverage` / `DisableAlphaToCoverage`. */
    method SetAlphaToCoverage(enable: bool)
      modifies this`multisample
      ensures multisample == old(multisample).(alphaToCoverage := enable)
    {
      multisample := multisample.(alphaToCoverage := enable);
    }

    /** `EnableAlphaToOne` / `DisableAlphaToOne`. */
    method SetAlphaToOne(enable: bool)
      modifies this`multisample
      ensures multisample == old(multisample).(alphaToOne := enable)
    {
      multisample := multisample.(alphaToOne := enable);
    }

    method SetSampleCount(samples: nat)
      modifies this`multisample
      ensures multisample == old(multisample).(samples := samples)
    {
      multisample := multisample.(samples := samples);
    }

    method SetMinSampleShading(minSampleShading: real)
      modifies this`multisample
      ensures multisample == old(multisample).(minSampleShading := minSampleShading)
    {
      multisample := multisample.(minSampleShading := minSampleShading);
    }

    method SetSampleMask(mask: Option<nat>)
      modifies this`multisample
      ensures multisample == old(multisample).(sampleMask := mask)
    {
      multisample := multisample.(sampleMask := mask);
    }

    // Colour blending

    /** `EnableLogicOperation` / `DisableLogicOperation`. */
    method SetLogicOperationEnable(enable: bool)
      modifies this`colorBlend
      ensures colorBlend == old(colorBlend).(logicOpEnable := enable)
    {
      colorBlend := colorBlend.(logicOpEnable := enable);
    }

    method SetLogicOperation(operation: nat)
      modifies this`colorBlend
      ensures colorBlend == old(colorBlend).(logicOp := operation)
    {
      colorBlend := colorBlend.(logicOp := operation);
    }

    /** `SetBlendConstants` from an array of four, or four values. */
    method SetBlendConstants(constants: seq<real>)
      requires Valid() && |constants| >= 4
      modifies this`colorBlend
      ensures Valid()
      ensures colorBlend == old(colorBlend).(blendConstants := constants[..4])
    {
      colorBlend := colorBlend.(blendConstants := constants[..4]);
    }

    method SetBlendConstant(index: nat, value: real)
      requires Valid() && index < 4
      modifies this`colorBlend
      ensures Valid()
      ensures colorBlend == old(colorBlend).(blendConstants := old(colorBlend).blendConstants[index := value])
    {
      colorBlend := colorBlend.(blendConstants := colorBlend.blendConstants[index := value]);
    }

    /** A colour attachment with the default blend state, ended at once. */
    method AddDefaultColorAttachment() returns (c: ColorAttachmentBuilder)
      requires Valid() && |colorAttachmentBuilders| < ColorAttachmentCapacity && |colorAttachments| < ColorAttachmentCapacity
      modifies this`colorAttachmentBuilders, this`colorAttachments
      ensures Valid()
      ensures fresh(c) && c.owner == this && c.blend == DefaultColorBlend
      ensures colorAttachmentBuilders == old(colorAttachmentBuilders) + [c]
      ensures colorAttachments == old(colorAttachments) + [DefaultColorBlend]
    {
      c := new ColorAttachmentBuilder(this);
      colorAttachmentBuilders := colorAttachmentBuilders + [c];
      colorAttachments := colorAttachments + [c.blend];
    }

    /** A colour attachment to configure; it joins the blend state when it is ended. */
    method BeginColorAttachment() returns (c: ColorAttachmentBuilder)
      requires Valid() && |colorAttachmentBuilders| < ColorAttachmentCapacity
      modifies this`colorAttachmentBuilders
      ensures Valid()
      ensures fresh(c) && c.owner == this && c.blend == DefaultColorBlend
      ensures colorAttachmentBuilders == old(colorAttachmentBuilders) + [c]
    {
      c := new ColorAttachmentBuilder(this);
      colorAttachmentBuilders := colorAttachmentBuilders + [c];
    }

    // Depth and stencil

    /** `EnableDepthTest` / `DisableDepthTest`. */
    method SetDepthTest(enable: bool)
      modifies this`depthStencil
      ensures depthStencil == old(depthStencil).(depthTest := enable)
    {
      depthStencil := depthStencil.(depthTest := enable);
    }

    /** `EnableDepthWrite` / `DisableDepthWrite`. */
    method SetDepthWrite(enable: bool)
      modifies this`depthStencil
      ensures depthStencil == old(depthStencil).(depthWrite := enable)
    {
      depthStencil := depthStencil.(depthWrite := enable);
    }

    /** `EnableDepthBoundsTest` / `DisableDepthBoundsTest`. */
    method SetDepthBoundsTest(enable: bool)
      modifies this`depthStencil
      ensures depthStencil == old(depthStencil).(depthBoundsTest := enable)
    {
      depthStencil := depthStencil.(depthBoundsTest := enable);
    }

    /** `EnableStencilTest` / `DisableStencilTest`. */
    method SetStencilTest(enable: bool)
      modifies this`depthStencil
      ensures depthStencil == old(depthStencil).(stencilTest := enable)
    {
      depthStencil := depthStencil.(stencilTest := enable);
    }

    method SetDepthCompareOperation(op: nat)
      modifies this`depthStencil
      ensures depthStencil == old(depthStencil).(depthCompareOp := op)
    {
      depthStencil := depthStencil.(depthCompareOp := op);
    }

    method SetDepthBounds(min: real, max: real)
      modifies this`depthStencil
      ensures depthStencil == old(depthStencil).(minDepthBounds := min, maxDepthBounds := max)
    {
      depthStencil := depthStencil.(minDepthBounds := min, maxDepthBounds := max);
    }

    /**
     * The shape of every stencil setter: the front face changes exactly when
     * `Front` is among the faces, the back face exactly when `Back` is.
     */
    method SetStencil(setting: StencilSetting, faces: set<StencilFace>)
      modifies this`depthStencil
      ensures depthStencil == old(depthStencil).(
        front := if Front in faces then Apply(old(depthStencil).front, setting) else old(depthStencil).front,
        back := if Back in faces then Apply(old(depthStencil).back, setting) else old(depthStencil).back)
    {
      if Front in faces {
        depthStencil := depthStencil.(front := Apply(depthStencil.front, setting));
      }
      if Back in faces {
        depthStencil := depthStencil.(back := Apply(depthStencil.back, setting));
      }
    }

    method SetStencilFailOperation(op: nat, faces: set<StencilFace>)
      modifies this`depthStencil
      ensures depthStencil.front == if Front in faces then old(depthStencil).front.(failOp := op) else old(depthStencil).front
      ensures depthStencil.back == if Back in faces then old(depthStencil).back.(failOp := op) else old(depthStencil).back
      ensures depthStencil == old(depthStencil).(front := depthStencil.front, back := depthStencil.back)
    {
      SetStencil(FailOp(op), faces);
    }

    method SetStencilPassOperation(op: nat, faces: set<StencilFace>)
      modifies this`depthStencil
      ensures depthStencil.front == if Front in faces then old(depthStencil).front.(passOp := op) else old(depthStencil).front
      ensures depthStencil.back == if Back in faces then old(depthStencil).back.(passOp := op) else old(depthStencil).back
      ensures depthStencil == old(depthStencil).(front := depthStencil.front, back := depthStencil.back)
    {
      SetStencil(PassOp(op), faces);
    }

    method SetStencilDepthFailOperation(op: nat, faces: set<StencilFace>)
      modifies this`depthStencil
      ensures depthStencil.front == if Front in faces then old(depthStencil).front.(depthFailOp := op) else old(depthStencil).front
      ensures depthStencil.back == if Back in faces then old(depthStencil).back.(depthFailOp := op) else old(depthStencil).back
      ensures depthStencil == old(depthStencil).(front := depthStencil.front, back := depthStencil.back)
    {
      SetStencil(DepthFailOp(op), faces);
    }

    method SetStencilCompareOperation(op: nat, faces: set<StencilFace>)
      modifies this`depthStencil
      ensures depthStencil.front == if Front in faces then old(depthStencil).front.(compareOp := op) else old(depthStencil).front
      ensures depthStencil.back == if Back in faces then old(depthStencil).back.(compareOp := op) else old(depthStencil).back
      ensures depthStencil == old(depthStencil).(front := depthStencil.front, back := depthStencil.back)
    {
      SetStencil(CompareOp(op), faces);
    }

    method SetStencilCompareMask(mask: nat, faces: set<StencilFace>)
      modifies this`depthStencil
      ensures depthStencil.front == if Front in faces then old(depthStencil).front.(compareMask := mask) else old(depthStencil).front
      ensures depthStencil.back == if Back in faces then old(depthStencil).back.(compareMask := mask) else old(depthStencil).back
      ensures depthStencil == old(depthStencil).(front := depthStencil.front, back := depthStencil.back)
    {
      SetStencil(CompareMask(mask), faces);
    }

    method SetStencilWriteMask(mask: nat, faces: set<StencilFace>)
      modifies this`depthStencil
      ensures depthStencil.front == if Front in faces then old(depthStencil).front.(writeMask := mask) else old(depthStencil).front
      ensures depthStencil.back == if Back in faces then old(depthStencil).back.(writeMask := mask) else old(depthStencil).back
      ensures depthStencil == old(depthStencil).(front := depthStencil.front, back := depthStencil.back)
    {
      SetStencil(WriteMask(mask), faces);
    }

    method SetStencilReference(reference: nat, faces: set<StencilFace>)
      modifies this`depthStencil
      ensures depthStencil.front == if Front in faces then old(depthStencil).front.(reference := reference) else old(depthStencil).front
      ensures depthStencil.back == if Back in faces then old(depthStencil).back.(reference := reference) else old(depthStencil).back
      ensures depthStencil == old(depthStencil).(front := depthStencil.front, back := depthStencil.back)
    {
      SetStencil(Reference(reference), faces);
    }

    // Vertex input

    /** `AddBindingDescription`: the new binding is numbered by how many came before it. */
    method AddBindingDescription(stride: nat, inputRate: nat)
      requires Valid() && |bindings| < BindingCapacity
      modifies this`bindings
      ensures Valid()
      ensures bindings == old(bindings) + [VertexBinding(|old(bindings)|, stride, inputRate)]
    {
      bindings := bindings + [VertexBinding(|bindings|, stride, inputRate)];
    }

    /** `AddAttributeDescription`: the new attribute's location is how many came before it. */
    method AddAttributeDescription(binding: nat, format: nat, offset: nat)
      requires Valid() && |attributes| < AttributeCapacity
      modifies this`attributes
      ensures Valid()
      ensures attributes == old(attributes) + [VertexAttribute(|old(attributes)|, binding, format, offset)]
    {
      attributes := attributes + [VertexAttribute(|attributes|, binding, format, offset)];
    }

    // Shader stages and dynamic state

    method AddShaderStage(shaderModule: nat, stage: nat, flags: nat, specialization: Option<nat>, entryPoint: string)
      requires Valid() && |shaderStages| < ShaderStageCapacity
      modifies this`shaderStages
      ensures Valid()
      ensures shaderStages == old(shaderStages) + [ShaderStage(shaderModule, stage, flags, specialization, entryPoint)]
    {
      shaderStages := shaderStages + [ShaderStage(shaderModule, stage, flags, specialization, entryPoint)];
    }

    method AddDynamicState(state: nat)
      requires Valid() && |dynamicStates| < DynamicStateCapacity
      modifies this`dynamicStates
      ensures Valid()
      ensures dynamicStates == old(dynamicStates) + [state]
    {
      dynamicStates := dynamicStates + [state];
    }
  }

  /** A freshly initialised builder is valid, and baked: every array is empty and every count zero. */
  lemma InitialIsValid(b: Builder)
    requires b.Initial()
    ensures b.Valid() && b.Baked()
  {
  }

  /**
   * Once baked, the create-info hands the driver exactly the builder's
   * arrays: every count is its array's size, and a pointer is null only
   * for an empty array.
   */
  lemma BakedInfoAgrees(b: Builder)
    requires b.Baked()
    ensures var info := b.CreatePipelineInfo();
      info.colorBlend.attachmentCount == |b.colorAttachments| &&
      (info.colorBlend.attachments.None? <==> b.colorAttachments == []) &&
      (info.colorBlend.attachments.Some? ==> info.colorBlend.attachments.value == b.colorAttachments) &&
      info.dynamicState.count == |b.dynamicStates| &&
      (info.dynamicState.states.None? <==> b.dynamicStates == []) &&
      info.vertexInput.bindingCount == |b.bindings| && info.vertexInput.attributeCount == |b.attributes| &&
      (info.vertexInput.bindings.None? <==> b.bindings == []) &&
      (info.vertexInput.attributes.None? <==> b.attributes == [])
  {
  }

  /** The vertex bindings a baked builder hands over are numbered 0, 1, 2, ... */
  lemma BakedBindingsNumbered(b: Builder)
    requires b.Valid() && b.Baked()
    ensures var vi := b.CreatePipelineInfo().vertexInput;
      vi.bindings.Some? ==> forall i :: 0 <= i < vi.bindingCount ==> vi.bindings.value[i].binding == i
    ensures var vi := b.CreatePipelineInfo().vertexInput;
      vi.attributes.Some? ==> forall i :: 0 <= i < vi.attributeCount ==> vi.attributes.value[i].location == i
  {
  }

  /** `ColorAttachmentBuilder`: one blend attachment state, appended to its builder when ended. */
  class ColorAttachmentBuilder {
    const owner: Builder
    var blend: ColorBlendAttachment

    constructor(owner: Builder)
      ensures this.owner == owner && blend == DefaultColorBlend
    {
      this.owner := owner;
      blend := DefaultColorBlend;
    }

    /** `EnableBlending` / `DisableBlending`. */
    method SetBlending(enable: bool)
      modifies this`blend
      ensures blend == old(blend).(blendEnable := enable)
    {
      blend := blend.(blendEnable := enable);
    }

    method SetColorWriteMask(mask: nat)
      modifies this`blend
      ensures blend == old(blend).(writeMask := mask)
    {
      blend := blend.(writeMask := mask);
    }

    method SetColorBlendFactors(src: nat, dst: nat)
      modifies this`blend
      ensures blend == old(blend).(srcColorFactor := src, dstColorFactor := dst)
    {
      blend := blend.(srcColorFactor := src, dstColorFactor := dst);
    }

    method SetColorBlendOperation(op: nat)
      modifies this`blend
      ensures blend == old(blend).(colorOp := op)
    {
      blend := blend.(colorOp := op);
    }

    method SetAlphaBlendFactors(src: nat, dst: nat)
      modifies this`blend
      ensures blend == old(blend).(srcAlphaFactor := src, dstAlphaFactor := dst)
    {
      blend := blend.(srcAlphaFactor := src, dstAlphaFactor := dst);
    }

    method SetAlphaBlendOperation(op: nat)
      modifies this`blend
      ensures blend == old(blend).(alphaOp := op)
    {
      blend := blend.(alphaOp := op);
    }

    /** `EndColorAttachment`: this attachment's blend state joins the builder's array. */
    method EndColorAttachment()
      requires owner.Valid() && |owner.colorAttachments| < ColorAttachmentCapacity
      modifies owner`colorAttachments
      ensures owner.Valid()
      ensures owner.colorAttachments == old(owner.colorAttachments) + [blend]
    {
      owner.colorAttachments := owner.colorAttachments + [blend];
    }
  }

  /** `GraphicsPipeline`: the handle, `None` once destroyed. */
  class GraphicsPipeline {
    var pipeline: Option<nat>
    var destroyed: seq<nat>

    constructor(handle: nat)
      ensures pipeline == Some(handle) && destroyed == []
    {
      pipeline := Some(handle);
      destroyed := [];
    }

    /** Destroys a live pipeline once and nulls its handle; a null handle is left alone. */
    method Destroy()
      modifies this`pipeline, this`destroyed
      ensures pipeline.None?
      ensures old(pipeline).Some? ==> destroyed == old(destroyed) + [old(pipeline).value]
      ensures old(pipeline).None? ==> destroyed == old(destroyed)
    {
      if pipeline.Some? {
        destroyed := destroyed + [pipeline.value];
        pipeline := None;
      }
    }
  }

  /**
   * `GraphicsPipeline::Create`: one `vkCreateGraphicsPipelines` call for
   * several builders; on success pipeline `i` gets `handles[i]`.
   * `submitted` are the create-infos, in builder order.
   */
  method CreateAll(builders: seq<Builder>, createResult: int, handles: seq<nat>)
    returns (r: Result<seq<GraphicsPipeline>, Error>, submitted: seq<PipelineCreateInfo>)
    requires builders != [] && |handles| == |builders|
    ensures |submitted| == |builders| && forall i :: 0 <= i < |builders| ==> submitted[i] == builders[i].CreatePipelineInfo()
    ensures createResult != VkSuccess ==> r == Err(Vulkan(createResult))
    ensures createResult == VkSuccess ==> (r.Ok? && |r.value| == |builders| &&
      forall i :: 0 <= i < |builders| ==> fresh(r.value[i]) && r.value[i].pipeline == Some(handles[i]))
  {
    submitted := [];
    var i := 0;
    while i < |builders|
      invariant 0 <= i <= |builders|
      invariant |submitted| == i && forall j :: 0 <= j < i ==> submitted[j] == builders[j].CreatePipelineInfo()
    {
      submitted := submitted + [builders[i].CreatePipelineInfo()];
      i := i + 1;
    }
    if createResult != VkSuccess {
      return Err(Vulkan(createResult)), submitted;
    }
    var pipelines: seq<GraphicsPipeline> := [];
    i := 0;
    while i < |handles|
      invariant 0 <= i <= |handles| && |pipelines| == i
      invariant forall j :: 0 <= j < i ==> fresh(pipelines[j]) && pipelines[j].pipeline == Some(handles[j])
    {
      var p := new GraphicsPipeline(handles[i]);
      pipelines := pipelines + [p];
      i := i + 1;
    }
    r := Ok(pipelines);
  }
}

=== FILE: host_buffer.dfy ===
/**
 * A host-side byte buffer holding `instanceCount` instances of
 * `instanceSize` bytes each (vulkit/vkit/resource/host_buffer.cpp).
 */
module HostBuffers {

  type byte = bv8

  /** `VK_WHOLE_SIZE`, the 64-bit all-ones marker for "up to the end". */
  const WholeSize: int := 0xFFFF_FFFF_FFFF_FFFF

  /** `2^64`: `VkDeviceSize` arithmetic wraps around modulo this. */
  const U64Modulus: int := 0x1_0000_0000_0000_0000

  /** `BufferCopy`: how many bytes, from where in the source, to where in the buffer. */
  datatype BufferCopy = BufferCopy(size: nat, srcOffset: nat, dstOffset: nat)

  /** The default `BufferCopy{}`: everything, from offset 0 to offset 0. */
  const WholeCopy := BufferCopy(WholeSize, 0, 0)

  /** `s` with the bytes from `off` on replaced by `t`. */
  function Spliced(s: seq<byte>, off: nat, t: seq<byte>): (r: seq<byte>)
    requires off + |t| <= |s|
    ensures |r| == |s|
    ensures r[off..off + |t|] == t
    ensures forall i :: 0 <= i < |s| && !(off <= i < off + |t|) ==> r[i] == s[i]
  {
    s[..off] + t + s[off + |t|..]
  }

  /** Writing the bytes that are already there changes nothing. */
  lemma SplicedSame(s: seq<byte>, off: nat, n: nat)
    requires off + n <= |s|
    ensures Spliced(s, off, s[off..off + n]) == s
  {
    assert s[..off] + s[off..off + n] + s[off + n..] == s;
  }

  /** A later write over the same range undoes an earlier one. */
  lemma SplicedTwice(s: seq<byte>, off: nat, t: seq<byte>, u: seq<byte>)
    requires off + |t| <= |s| && |u| == |t|
    ensures Spliced(Spliced(s, off, t), off, u) == Spliced(s, off, u)
  {
    var a := Spliced(Spliced(s, off, t), off, u);
    var b := Spliced(s, off, u);
    assert forall i :: 0 <= i < |s| ==> a[i] == b[i] by {
      forall i | 0 <= i < |s| ensures a[i] == b[i] {
        if off <= i < off + |u| {
          assert a[i] == a[off..off + |u|][i - off] == u[i - off];
          assert b[i] == b[off..off + |u|][i - off] == u[i - off];
        }
      }
    }
  }

  /** The number of bytes a `Write` copies, once `VK_WHOLE_SIZE` is resolved. */
  function CopyLength(bufferSize: nat, info: BufferCopy): int
  {
    if info.size == WholeSize then bufferSize - info.dstOffset else info.size
  }

  /** The bound the debug assertion of `Write` intends: the copy ends inside the buffer. */
  predicate WriteFits(bufferSize: nat, info: BufferCopy)
  {
    if info.size == WholeSize then info.dstOffset <= bufferSize else info.size + info.dstOffset <= bufferSize
  }

  /** The fitting condition means exactly a non-negative copy that ends in the buffer. */
  lemma WriteFitsMeans(bufferSize: nat, info: BufferCopy)
    ensures WriteFits(bufferSize, info) <==>
            0 <= CopyLength(bufferSize, info) && info.dstOffset + CopyLength(bufferSize, info) <= bufferSize
  {
  }

  /**
   * The debug assertion of `Write` as the 64-bit code evaluates it: both the
   * subtraction resolving `VK_WHOLE_SIZE` and the sum it checks wrap around.
   */
  predicate WriteAssertAsWritten(bufferSize: nat, info: BufferCopy)
  {
    var size := if info.size == WholeSize then (bufferSize - info.dstOffset) % U64Modulus else info.size;
    bufferSize >= (size + info.dstOffset) % U64Modulus
  }

  /**
   * With `VK_WHOLE_SIZE`, a destination offset past the end of a 4-byte
   * buffer passes the assertion: the wrapped size plus the offset wraps
   * back to the buffer size.
   */
  lemma WholeSizeOffsetSlipsThrough()
    ensures WriteAssertAsWritten(4, BufferCopy(WholeSize, 0, 8))
    ensures !WriteFits(4, BufferCopy(WholeSize, 0, 8))
  {
    assert (4 - 8) % U64Modulus == U64Modulus - 4;
    assert (U64Modulus - 4 + 8) % U64Modulus == 4;
  }

  /** Without wrap-around, the assertion as written and the intended bound agree. */
  lemma WriteAssertAgrees(bufferSize: nat, info: BufferCopy)
    requires bufferSize < U64Modulus && info.dstOffset <= bufferSize
    requires info.size != WholeSize ==> info.size + info.dstOffset < U64Modulus
    ensures WriteAssertAsWritten(bufferSize, info) <==> WriteFits(bufferSize, info)
  {
    if info.size == WholeSize {
      assert (bufferSize - info.dstOffset) % U64Modulus == bufferSize - info.dstOffset;
      assert (bufferSize - info.dstOffset + info.dstOffset) % U64Modulus == bufferSize;
    } else {
      assert (info.size + info.dstOffset) % U64Modulus == info.size + info.dstOffset;
    }
  }

  /** `TKit::Memory::ForwardCopy` of `n` bytes from `src[srcOff..]` into `dst[dstOff..]`. */
  method ForwardCopy(dst: array<byte>, dstOff: nat, src: seq<byte>, srcOff: nat, n: nat)
    requires dstOff + n <= dst.Length && srcOff + n <= |src|
    modifies dst
    ensures dst[..] == Spliced(old(dst[..]), dstOff, src[srcOff..srcOff + n])
  {
    ghost var before := dst[..];
    var i := 0;
    while i < n
      invariant 0 <= i <= n
      invariant forall k :: 0 <= k < dst.Length ==>
        dst[k] == (if dstOff <= k < dstOff + i then src[srcOff + (k - dstOff)] else before[k])
    {
      dst[dstOff + i] := src[srcOff + i];
      i := i + 1;
    }
    SplicedAt(before, dstOff, src[srcOff..srcOff + n], dst[..]);
  }

  /** A sequence that agrees with `Spliced` at every position is that splice. */
  lemma SplicedAt(s: seq<byte>, off: nat, t: seq<byte>, r: seq<byte>)
    requires off + |t| <= |s| && |r| == |s|
    requires forall k :: 0 <= k < |s| ==> r[k] == (if off <= k < off + |t| then t[k - off] else s[k])
    ensures r == Spliced(s, off, t)
  {
    var want := Spliced(s, off, t);
    forall k | 0 <= k < |s| ensures r[k] == want[k] {
      if off <= k < off + |t| {
        assert want[k] == want[off..off + |t|][k - off];
      }
    }
  }


  class HostBuffer {
    /** `m_Data`: the allocation, meaningful while `live`. */
    var data: array<byte>
    /** `m_Data != nullptr`. */
    var live: bool
    var instanceCount: nat
    var instanceSize: nat
    var size: nat

    /** The allocation is exactly `size` bytes, `instanceCount` instances. */
    predicate Valid()
      reads this
    {
      size == instanceCount * instanceSize && data.Length == size
    }

    /** The buffer's bytes. */
    function Contents(): seq<byte>
      reads this, data
    {
      data[..]
    }

    /** `HostBuffer(count, instanceSize, alignment)`: `count * instanceSize` fresh bytes. */
    constructor (count: nat, instSize: nat)
      ensures Valid() && live && fresh(data)
      ensures instanceCount == count && instanceSize == instSize && size == count * instSize
    {
      instanceCount := count;
      instanceSize := instSize;
      size := count * instSize;
      live := true;
      data := new byte[count * instSize];
    }

    /**
     * `Write(const void *, BufferCopy)`: copies `CopyLength` bytes from
     * `src` at the source offset into the buffer at the destination offset.
     */
    method Write(src: seq<byte>, info: BufferCopy)
      requires Valid() && live
      requires WriteFits(size, info)
      requires info.srcOffset + CopyLength(size, info) <= |src|
      modifies data
      ensures Contents() == Spliced(old(Contents()), info.dstOffset,
                                    src[info.srcOffset..info.srcOffset + CopyLength(size, info)])
    {
      var n := if info.size == WholeSize then size - info.dstOffset else info.size;
      ForwardCopy(data, info.dstOffset, src, info.srcOffset, n);
    }

    /**
     * `Write(const HostBuffer &, BufferCopy)`: the same copy out of another
     * buffer, where `VK_WHOLE_SIZE` means the rest of that buffer after the
     * source offset.
     */
    method WriteFrom(other: HostBuffer, info: BufferCopy)
      requires Valid() && live && other.Valid() && other.live
      requires other.size < WholeSize
      requires info.size == WholeSize ==> info.srcOffset <= other.size
      requires info.srcOffset + FromBufferLength(other.size, info) <= other.size
      requires info.dstOffset + FromBufferLength(other.size, info) <= size
      modifies data
      ensures Contents() == Spliced(old(Contents()), info.dstOffset,
                                    old(other.Contents())[info.srcOffset..info.srcOffset + FromBufferLength(other.size, info)])
    {
      var n := if info.size == WholeSize then other.size - info.srcOffset else info.size;
      assert n == FromBufferLength(other.size, info) && n != WholeSize;
      Write(other.data[..], BufferCopy(n, info.srcOffset, info.dstOffset));
    }

    /**
     * `WriteAt(index, src)`: overwrites instance `index` with the first
     * `instanceSize` bytes of `src`.
     */
    method WriteAt(index: nat, src: seq<byte>)
      requires Valid() && live
      requires index < instanceCount && instanceSize <= |src|
      modifies data
      ensures instanceSize * index + instanceSize <= |old(Contents())|
      ensures Contents() == Spliced(old(Contents()), instanceSize * index, src[..instanceSize])
    {
      var offset := instanceSize * index;
      InstanceInside(index, instanceCount, instanceSize);
      assert offset + instanceSize <= size;
      ForwardCopy(data, offset, src, 0, instanceSize);
    }

    /**
     * `Resize(count)`: a new allocation of `count` instances holding the
     * bytes the old one and the new one have in common; the bytes past the
     * old size are left zero.
     */
    method Resize(count: nat)
      requires Valid() && live
      modifies this`data, this`size, this`instanceCount
      ensures Valid() && live && fresh(data)
      ensures instanceCount == count && instanceSize == old(instanceSize) && size == count * instanceSize
      ensures Contents() == ResizedContents(old(Contents()), count * instanceSize)
    {
      var newSize := count * instanceSize;
      var buf := CopyResized(data[..], newSize);
      data := buf;
      size := newSize;
      instanceCount := count;
    }

    /** `Destroy`: releases the allocation. */
    method Destroy()
      modifies this
      ensures !live
      ensures data == old(data) && size == old(size) && instanceCount == old(instanceCount)
      ensures instanceSize == old(instanceSize)
    {
      live := false;
    }
  }

  /** The size of a copy out of a buffer of `otherSize` bytes. */
  function FromBufferLength(otherSize: nat, info: BufferCopy): (r: nat)
    requires info.size == WholeSize ==> info.srcOffset <= otherSize
    ensures info.size == WholeSize ==> info.srcOffset + r == otherSize
    ensures info.size != WholeSize ==> r == info.size
  {
    if info.size == WholeSize then otherSize - info.srcOffset else info.size
  }

  /** Instance `index` lies inside a buffer of `count` instances. */
  lemma InstanceInside(index: nat, count: nat, instSize: nat)
    requires index < count
    ensures instSize * index + instSize <= count * instSize
  {
    assert instSize * index + instSize == instSize * (index + 1);
    assert index + 1 <= count;
  }

  /** What a resize keeps: the common prefix, then zeros. */
  function ResizedContents(old_: seq<byte>, newSize: nat): (r: seq<byte>)
    ensures |r| == newSize
    ensures forall i :: 0 <= i < newSize && i < |old_| ==> r[i] == old_[i]
    ensures forall i :: |old_| <= i < newSize ==> r[i] == 0
  {
    seq(newSize, i requires 0 <= i < newSize => if i < |old_| then old_[i] else 0)
  }

  /** A fresh allocation of `newSize` zeroed bytes with the bytes `src` shares with it copied in. */
  method CopyResized(src: seq<byte>, newSize: nat) returns (buf: array<byte>)
    ensures fresh(buf) && buf[..] == ResizedContents(src, newSize)
  {
    buf := new byte[newSize](_ => 0);
    var keep := if |src| < newSize then |src| else newSize;
    ghost var zeros := buf[..];
    ForwardCopy(buf, 0, src, 0, keep);
    ResizedIsSpliced(src, newSize, zeros);
  }

  /** Resizing copies the bytes both sizes share over zeros. */
  lemma ResizedIsSpliced(old_: seq<byte>, newSize: nat, zeros: seq<byte>)
    requires |zeros| == newSize && forall k :: 0 <= k < newSize ==> zeros[k] == 0
    ensures var keep := if |old_| < newSize then |old_| else newSize;
      Spliced(zeros, 0, old_[0..keep]) == ResizedContents(old_, newSize)
  {
    var keep := if |old_| < newSize then |old_| else newSize;
    var r := Spliced(zeros, 0, old_[0..keep]);
    var want := ResizedContents(old_, newSize);
    forall k | 0 <= k < newSize ensures r[k] == want[k] {
      if k < keep {
        assert r[k] == r[0..keep][k];
      }
    }
  }

  /** The number of bytes `Resize` copies as written: the old size, whatever the new one. */
  function ResizeCopyAsWritten(oldSize: nat, newSize: nat): nat
  {
    oldSize
  }

  /**
   * The copy as written stays inside the new allocation exactly when the
   * buffer does not shrink: shrinking 8 bytes to 4 copies 8 bytes into 4.
   */
  lemma ResizeCopyFits(oldSize: nat, newSize: nat)
    ensures ResizeCopyAsWritten(oldSize, newSize) <= newSize <==> oldSize <= newSize
    ensures ResizeCopyAsWritten(8, 4) > 4
  {
  }
}

=== FILE: image.dfy ===
/**
 * Images: the builder that fills in the create infos of an image and its
 * view, the image object that tracks its current layout, and the pure
 * arithmetic behind copies into it (default extents, the number of bytes a
 * buffer must hold, the size of a texel for each format).
 *
 * Formats are named without their `VK_FORMAT_` prefix; layouts, tilings,
 * sample counts and sharing modes keep their Vulkan numbering.
 */
module Images {
  import opened Wrappers
  import opened VkCommon
  import Buffers

  /** The wrapper's own image flags (`Image::Flag_*`). */
  datatype ImageFlag =
    | ColorAttachment
    | DepthAttachment
    | StencilAttachment
    | InputAttachment
    | Sampled
    | ForceHostVisible

  /** The aspect bits the wrapper uses; the empty set is `VK_IMAGE_ASPECT_NONE`. */
  datatype Aspect = AspectColor | AspectDepth | AspectStencil

  /** The image usage bits. */
  datatype ImageUsage =
    | TransferSrcUsage
    | TransferDstUsage
    | SampledUsage
    | StorageUsage
    | ColorAttachmentUsage
    | DepthStencilAttachmentUsage
    | TransientAttachmentUsage
    | InputAttachmentUsage

  datatype ImageType = Image1D | Image2D | Image3D | OtherImageType(code: int)

  datatype ImageViewType =
    | View1D | View2D | View3D | ViewCube | View1DArray | View2DArray | ViewCubeArray
    | ViewMaxEnum

  type Format = string

  const Undefined: Format := "UNDEFINED"

  // Vulkan numbering of the enumerations kept as integers.
  const LayoutUndefined: nat := 0
  const TilingOptimal: nat := 0
  const SampleCount1: nat := 1
  const SharingExclusive: nat := 0

  /** `getImageViewType`: the view type matching an image type. */
  function ViewTypeOf(t: ImageType): (r: ImageViewType)
    ensures r == ViewMaxEnum <==> t.OtherImageType?
  {
    match t
    case Image1D => View1D
    case Image2D => View2D
    case Image3D => View3D
    case OtherImageType(_) => ViewMaxEnum
  }

  /** No two image types share a view type, other than the unknown ones. */
  lemma ViewTypeInjective(s: ImageType, t: ImageType)
    requires !s.OtherImageType? && ViewTypeOf(s) == ViewTypeOf(t)
    ensures s == t
  {
  }

  /**
   * `Detail::DeduceAspectMask`: colour wins; otherwise the depth and stencil
   * aspects follow their flags; an image with none of the three gets no aspect.
   */
  function DeduceAspectMask(flags: set<ImageFlag>): (r: set<Aspect>)
    ensures ColorAttachment in flags ==> r == {AspectColor}
    ensures ColorAttachment !in flags ==>
              AspectColor !in r &&
              (AspectDepth in r <==> DepthAttachment in flags) &&
              (AspectStencil in r <==> StencilAttachment in flags)
  {
    if ColorAttachment in flags then {AspectColor}
    else if DepthAttachment in flags && StencilAttachment in flags then {AspectDepth, AspectStencil}
    else if DepthAttachment in flags then {AspectDepth}
    else if StencilAttachment in flags then {AspectStencil}
    else {}
  }

  /** The mask is empty exactly when the image is no attachment of any aspect. */
  lemma DeduceAspectMaskNone(flags: set<ImageFlag>)
    ensures DeduceAspectMask(flags) == {} <==>
              ColorAttachment !in flags && DepthAttachment !in flags && StencilAttachment !in flags
  {
    if ColorAttachment !in flags && DepthAttachment in flags {
      assert AspectDepth in DeduceAspectMask(flags);
    }
    if ColorAttachment !in flags && StencilAttachment in flags {
      assert AspectStencil in DeduceAspectMask(flags);
    }
  }

  /**
   * The usage the builder starts from: a colour attachment, else a
   * depth-stencil attachment when either of those flags is set, plus input
   * attachment and sampled usage on request.
   */
  function InitialUsage(flags: set<ImageFlag>): (r: set<ImageUsage>)
    ensures ColorAttachmentUsage in r <==> ColorAttachment in flags
    ensures DepthStencilAttachmentUsage in r <==>
              ColorAttachment !in flags && (DepthAttachment in flags || StencilAttachment in flags)
    ensures InputAttachmentUsage in r <==> InputAttachment in flags
    ensures SampledUsage in r <==> Sampled in flags
    ensures r <= {ColorAttachmentUsage, DepthStencilAttachmentUsage, InputAttachmentUsage, SampledUsage}
  {
    var attachment :=
      if ColorAttachment in flags then {ColorAttachmentUsage}
      else if DepthAttachment in flags || StencilAttachment in flags then {DepthStencilAttachmentUsage}
      else {};
    attachment
    + (if InputAttachment in flags then {InputAttachmentUsage} else {})
    + (if Sampled in flags then {SampledUsage} else {})
  }

  datatype Extent3 = Extent3(width: nat, height: nat, depth: nat)

  datatype SubresourceRange =
    SubresourceRange(aspectMask: set<Aspect>, baseMipLevel: nat, levelCount: nat,
                     baseArrayLayer: nat, layerCount: nat)

  datatype ImageCreateInfo = ImageCreateInfo(
    imageType: ImageType,
    extent: Extent3,
    mipLevels: nat,
    arrayLayers: nat,
    format: Format,
    tiling: nat,
    initialLayout: nat,
    samples: nat,
    sharingMode: nat,
    flags: nat,
    usage: set<ImageUsage>)

  /** `image` is the handle the view is created for, `None` before the image exists. */
  datatype ViewCreateInfo =
    ViewCreateInfo(image: Option<nat>, viewType: ImageViewType, format: Format, range: SubresourceRange)

  /** `createRange`: the whole image, with the aspect its flags suggest. */
  function CreateRange(info: ImageCreateInfo, flags: set<ImageFlag>): (r: SubresourceRange)
    ensures r.baseMipLevel == 0 && r.baseArrayLayer == 0
    ensures r.levelCount == info.mipLevels && r.layerCount == info.arrayLayers
    ensures r.aspectMask == DeduceAspectMask(flags)
  {
    SubresourceRange(DeduceAspectMask(flags), 0, info.mipLevels, 0, info.arrayLayers)
  }

  /** What an image remembers about itself (`Image::Info`). */
  datatype ImageInfo =
    ImageInfo(ownsMemory: bool, format: Format, width: nat, height: nat, depth: nat, flags: set<ImageFlag>)

  /** A value-initialised `Image::Info`. */
  const EmptyInfo := ImageInfo(false, Undefined, 0, 0, 0, {})

  /**
   * `Image::FromSwapChain`: the info of an image the swap chain owns. It has
   * no allocation of its own, so destroying it frees nothing.
   */
  function FromSwapChain(format: Format, width: nat, height: nat, flags: set<ImageFlag>): (r: ImageInfo)
    ensures !r.ownsMemory && r.depth == 1
    ensures r.format == format && r.width == width && r.height == height && r.flags == flags
  {
    ImageInfo(false, format, width, height, 1, flags)
  }

  class ImageBuilder {
    var imageInfo: ImageCreateInfo
    var viewInfo: ViewCreateInfo
    var flags: set<ImageFlag>

    /** The view covers exactly the mip levels and layers the image has. */
    predicate ViewCountsAgree()
      reads this
    {
      viewInfo.range.levelCount == imageInfo.mipLevels &&
      viewInfo.range.layerCount == imageInfo.arrayLayers
    }

    /**
     * A single-level, single-layer, optimally tiled 2D image with one sample,
     * exclusive sharing and the usage its flags call for; its view is 2D,
     * covers the whole image and is not created until a format is given.
     */
    constructor (extent: Extent3, format: Format, flags: set<ImageFlag>)
      ensures imageInfo.imageType == Image2D && imageInfo.extent == extent
      ensures imageInfo.mipLevels == 1 && imageInfo.arrayLayers == 1
      ensures imageInfo.format == format && imageInfo.tiling == TilingOptimal
      ensures imageInfo.initialLayout == LayoutUndefined && imageInfo.samples == SampleCount1
      ensures imageInfo.sharingMode == SharingExclusive && imageInfo.flags == 0
      ensures imageInfo.usage == InitialUsage(flags)
      ensures viewInfo == ViewCreateInfo(None, View2D, Undefined, CreateRange(imageInfo, flags))
      ensures this.flags == flags
      ensures ViewCountsAgree()
    {
      var info := ImageCreateInfo(Image2D, extent, 1, 1, format, TilingOptimal, LayoutUndefined,
                                  SampleCount1, SharingExclusive, 0, InitialUsage(flags));
      imageInfo := info;
      viewInfo := ViewCreateInfo(None, ViewTypeOf(info.imageType), Undefined, CreateRange(info, flags));
      this.flags := flags;
    }

    /** The overload taking a 2D extent: a depth of one. */
    constructor Flat(width: nat, height: nat, format: Format, flags: set<ImageFlag>)
      ensures imageInfo.extent == Extent3(width, height, 1)
      ensures imageInfo.imageType == Image2D && imageInfo.format == format
      ensures imageInfo.mipLevels == 1 && imageInfo.arrayLayers == 1
      ensures imageInfo.usage == InitialUsage(flags)
      ensures viewInfo == ViewCreateInfo(None, View2D, Undefined, CreateRange(imageInfo, flags))
      ensures this.flags == flags
      ensures ViewCountsAgree()
    {
      var info := ImageCreateInfo(Image2D, Extent3(width, height, 1), 1, 1, format, TilingOptimal,
                                  LayoutUndefined, SampleCount1, SharingExclusive, 0, InitialUsage(flags));
      imageInfo := info;
      viewInfo := ViewCreateInfo(None, ViewTypeOf(info.imageType), Undefined, CreateRange(info, flags));
      this.flags := flags;
    }

    /** The view type was fixed by the constructor and is left alone. */
    method SetImageType(t: ImageType)
      modifies this
      ensures imageInfo == old(imageInfo).(imageType := t)
      ensures viewInfo == old(viewInfo) && flags == old(flags)
    {
      imageInfo := imageInfo.(imageType := t);
    }

    method SetDepth(depth: nat)
      modifies this
      ensures imageInfo == old(imageInfo).(extent := old(imageInfo).extent.(depth := depth))
      ensures viewInfo == old(viewInfo) && flags == old(flags)
      ensures old(ViewCountsAgree()) ==> ViewCountsAgree()
    {
      imageInfo := imageInfo.(extent := imageInfo.extent.(depth := depth));
    }

    /** The view follows the new level count. */
    method SetMipLevels(levels: nat)
      modifies this
      ensures imageInfo == old(imageInfo).(mipLevels := levels)
      ensures viewInfo == old(viewInfo).(range := old(viewInfo).range.(levelCount := levels))
      ensures flags == old(flags)
      ensures old(ViewCountsAgree()) ==> ViewCountsAgree()
    {
      imageInfo := imageInfo.(mipLevels := levels);
      viewInfo := viewInfo.(range := viewInfo.range.(levelCount := levels));
    }

    /** The view follows the new layer count. */
    method SetArrayLayers(layers: nat)
      modifies this
      ensures imageInfo == old(imageInfo).(arrayLayers := layers)
      ensures viewInfo == old(viewInfo).(range := old(viewInfo).range.(layerCount := layers))
      ensures flags == old(flags)
      ensures old(ViewCountsAgree()) ==> ViewCountsAgree()
    {
      imageInfo := imageInfo.(arrayLayers := layers);
      viewInfo := viewInfo.(range := viewInfo.range.(layerCount := layers));
    }

    method SetTiling(tiling: nat)
      modifies this
      ensures imageInfo == old(imageInfo).(tiling := tiling)
      ensures viewInfo == old(viewInfo) && flags == old(flags)
    {
      imageInfo := imageInfo.(tiling := tiling);
    }

    method SetInitialLayout(layout: nat)
      modifies this
      ensures imageInfo == old(imageInfo).(initialLayout := layout)
      ensures viewInfo == old(viewInfo) && flags == old(flags)
    {
      imageInfo := imageInfo.(initialLayout := layout);
    }

    method SetSamples(samples: nat)
      modifies this
      ensures imageInfo == old(imageInfo).(samples := samples)
      ensures viewInfo == old(viewInfo) && flags == old(flags)
    {
      imageInfo := imageInfo.(samples := samples);
    }

    method SetSharingMode(mode: nat)
      modifies this
      ensures imageInfo == old(imageInfo).(sharingMode := mode)
      ensures viewInfo == old(viewInfo) && flags == old(flags)
    {
      imageInfo := imageInfo.(sharingMode := mode);
    }

    method SetFlags(createFlags: nat)
      modifies this
      ensures imageInfo == old(imageInfo).(flags := createFlags)
      ensures viewInfo == old(viewInfo) && flags == old(flags)
    {
      imageInfo := imageInfo.(flags := createFlags);
    }

    /** Replaces the usage the constructor derived from the flags. */
    method SetUsage(usage: set<ImageUsage>)
      modifies this
      ensures imageInfo == old(imageInfo).(usage := usage)
      ensures viewInfo == old(viewInfo) && flags == old(flags)
    {
      imageInfo := imageInfo.(usage := usage);
    }

    /** Replaces the whole image create info; the view is not adjusted. */
    method SetImageCreateInfo(info: ImageCreateInfo)
      modifies this
      ensures imageInfo == info
      ensures viewInfo == old(viewInfo) && flags == old(flags)
    {
      imageInfo := info;
    }

    /** Asks for a view in the image's own format. */
    method WithImageView()
      modifies this
      ensures viewInfo == old(viewInfo).(format := imageInfo.format)
      ensures imageInfo == old(imageInfo) && flags == old(flags)
      ensures old(ViewCountsAgree()) ==> ViewCountsAgree()
    {
      viewInfo := viewInfo.(format := imageInfo.format);
    }

    /** Asks for a view described in full; its image must still be unset. */
    method WithViewInfo(info: ViewCreateInfo)
      requires info.image.None?
      modifies this
      ensures viewInfo == info
      ensures imageInfo == old(imageInfo) && flags == old(flags)
    {
      viewInfo := info;
    }

    /** Asks for a view in the image's own format over the given range. */
    method WithViewRange(range: SubresourceRange)
      modifies this
      ensures viewInfo == old(viewInfo).(format := imageInfo.format, range := range)
      ensures imageInfo == old(imageInfo) && flags == old(flags)
    {
      viewInfo := viewInfo.(format := imageInfo.format, range := range);
    }

    /**
     * `Build`: `created` is what the allocator answered and `image` the
     * handle it produced; `viewResult` and `view` are the same for the view,
     * which is only created when a view format was chosen.
     */
    method Build(created: int, image: nat, viewResult: int, view: nat) returns (r: Result<Image, Error>)
      ensures created != VkSuccess ==> r == Err(Vulkan(created))
      ensures created == VkSuccess && viewInfo.format != Undefined && viewResult != VkSuccess ==>
                r == Err(Vulkan(viewResult))
      ensures r.Ok? <==>
                created == VkSuccess && (viewInfo.format == Undefined || viewResult == VkSuccess)
      ensures r.Ok? ==>
                fresh(r.value) &&
                r.value.handle == Some(image) &&
                r.value.layout == imageInfo.initialLayout &&
                r.value.info == ImageInfo(true, imageInfo.format, imageInfo.extent.width,
                                          imageInfo.extent.height, imageInfo.extent.depth, flags) &&
                (r.value.view.Some? <==> viewInfo.format != Undefined) &&
                (r.value.view.Some? ==> r.value.view.value == view) &&
                r.value.destroyedViews == [] && r.value.freedImages == []
    {
      if created != VkSuccess {
        return Err(Vulkan(created));
      }
      var info := ImageInfo(true, imageInfo.format, imageInfo.extent.width,
                            imageInfo.extent.height, imageInfo.extent.depth, flags);
      var img := new Image(Some(image), imageInfo.initialLayout, info, None);
      if viewInfo.format == Undefined {
        return Ok(img);
      }
      var vres := img.CreateImageView(viewResult, view);
      if vres.Err? {
        return Err(vres.error);
      }
      return Ok(img);
    }
  }

  /** A layout transition recorded into a command buffer. */
  datatype Barrier = Barrier(oldLayout: nat, newLayout: nat, range: SubresourceRange)

  class Image {
    var handle: Option<nat>
    var view: Option<nat>
    var layout: nat
    var info: ImageInfo
    /** The views and the ownsMemory images handed back to Vulkan, in order. */
    var destroyedViews: seq<nat>
    var freedImages: seq<nat>

    constructor (handle: Option<nat>, layout: nat, info: ImageInfo, view: Option<nat>)
      ensures this.handle == handle && this.layout == layout && this.info == info && this.view == view
      ensures destroyedViews == [] && freedImages == []
    {
      this.handle := handle;
      this.layout := layout;
      this.info := info;
      this.view := view;
      destroyedViews := [];
      freedImages := [];
    }

    /** `CreateImageView`: `result` and `created` are what Vulkan answered. */
    method CreateImageView(result: int, created: nat) returns (r: Result<nat, Error>)
      modifies this
      ensures result == VkSuccess ==> r == Ok(created) && view == Some(created)
      ensures result != VkSuccess ==> r == Err(Vulkan(result)) && view == old(view)
      ensures handle == old(handle) && layout == old(layout) && info == old(info)
      ensures destroyedViews == old(destroyedViews) && freedImages == old(freedImages)
    {
      if result != VkSuccess {
        return Err(Vulkan(result));
      }
      view := Some(created);
      return Ok(created);
    }

    /**
     * `TransitionLayout`: nothing is recorded when the image is already in
     * the target layout; otherwise a barrier from the current layout to the
     * target over `range` is recorded, with the aspect deduced from the
     * image's flags when the range names none, and the image is now in the
     * target layout.
     */
    method TransitionLayout(target: nat, range: SubresourceRange) returns (b: Option<Barrier>)
      modifies this
      ensures layout == target
      ensures old(layout) == target ==> b.None?
      ensures old(layout) != target ==>
                b == Some(Barrier(old(layout), target,
                                  if range.aspectMask == {} then range.(aspectMask := DeduceAspectMask(info.flags))
                                  else range))
      ensures handle == old(handle) && view == old(view) && info == old(info)
      ensures destroyedViews == old(destroyedViews) && freedImages == old(freedImages)
    {
      if layout == target {
        return None;
      }
      var r := range;
      if r.aspectMask == {} {
        r := r.(aspectMask := DeduceAspectMask(info.flags));
      }
      b := Some(Barrier(layout, target, r));
      layout := target;
    }

    /**
     * `Destroy`: the view is destroyed if there is one and the image is freed
     * when the wrapper ownsMemory it; the info is cleared and the layout is
     * undefined again. The handle itself is kept.
     */
    method Destroy()
      modifies this
      ensures view.None?
      ensures destroyedViews == old(destroyedViews) + (if old(view).Some? then [old(view).value] else [])
      ensures freedImages ==
                old(freedImages) + (if old(handle).Some? && old(info).ownsMemory then [old(handle).value] else [])
      ensures info == EmptyInfo && layout == LayoutUndefined && handle == old(handle)
    {
      if view.Some? {
        destroyedViews := destroyedViews + [view.value];
      }
      view := None;
      if handle.Some? && info.ownsMemory {
        freedImages := freedImages + [handle.value];
      }
      info := EmptyInfo;
      layout := LayoutUndefined;
    }

    /** `GetSize`: the bytes a buffer laid out with these strides must hold. */
    function GetSize(rowLength: nat, imageHeight: nat): (r: nat)
      reads this
      requires info.height >= 1 && info.depth >= 1
      ensures r == CopySize(info.width, info.height, info.depth, BytesPerPixel(info.format),
                            rowLength, imageHeight)
    {
      CopySize(info.width, info.height, info.depth, BytesPerPixel(info.format), rowLength, imageHeight)
    }
  }

  /** Transitioning twice to the same layout records a single barrier. */
  method TransitionTwice(img: Image, target: nat, range: SubresourceRange)
      returns (first: Option<Barrier>, second: Option<Barrier>)
    modifies img
    ensures second.None? && img.layout == target
    ensures first.None? <==> old(img.layout) == target
  {
    first := img.TransitionLayout(target, range);
    second := img.TransitionLayout(target, range);
  }

  /** Destroying an image twice frees its memory and its view only once. */
  method DestroyTwice(img: Image)
    modifies img
    ensures img.freedImages ==
              old(img.freedImages) + (if old(img.handle).Some? && old(img.info).ownsMemory
                                      then [old(img.handle).value] else [])
    ensures img.destroyedViews ==
              old(img.destroyedViews) + (if old(img.view).Some? then [old(img.view).value] else [])
  {
    img.Destroy();
    img.Destroy();
  }

  // ---------------------------------------------------------------------
  // Bytes per texel

  /** A texel size the wrapper knows about. */
  type PixelSize = n: nat | n == 1 || n == 2 || n == 3 || n == 4 || n == 5 || n == 6 || n == 8 || n == 12 || n == 16
    witness 1

  /** The formats grouped by texel size, in the order `GetBytesPerPixel` lists them. */
  const PixelSizes: seq<(PixelSize, seq<Format>)> := [
    (1, ["R8_UNORM", "R8_SNORM", "R8_UINT", "R8_SINT", "R8_SRGB"]),
    (2, ["R16_UNORM", "R16_SNORM", "R16_UINT", "R16_SINT", "R16_SFLOAT",
         "R8G8_UNORM", "R8G8_SNORM", "R8G8_UINT", "R8G8_SINT", "R8G8_SRGB"]),
    (3, ["R8G8B8_UNORM", "R8G8B8_SNORM", "R8G8B8_UINT", "R8G8B8_SINT", "R8G8B8_SRGB",
         "B8G8R8_UNORM", "B8G8R8_SNORM", "B8G8R8_UINT", "B8G8R8_SINT", "B8G8R8_SRGB"]),
    (4, ["R32_UINT", "R32_SINT", "R32_SFLOAT",
         "R16G16_UNORM", "R16G16_SNORM", "R16G16_UINT", "R16G16_SINT", "R16G16_SFLOAT",
         "R8G8B8A8_UNORM", "R8G8B8A8_SNORM", "R8G8B8A8_UINT", "R8G8B8A8_SINT", "R8G8B8A8_SRGB",
         "B8G8R8A8_UNORM", "B8G8R8A8_SNORM", "B8G8R8A8_UINT", "B8G8R8A8_SINT", "B8G8R8A8_SRGB"]),
    (6, ["R16G16B16_UNORM", "R16G16B16_SNORM", "R16G16B16_UINT", "R16G16B16_SINT", "R16G16B16_SFLOAT"]),
    (8, ["R64_UINT", "R64_SINT", "R64_SFLOAT", "R32G32_UINT", "R32G32_SINT", "R32G32_SFLOAT",
         "R16G16B16A16_UNORM", "R16G16B16A16_SNORM", "R16G16B16A16_UINT", "R16G16B16A16_SINT",
         "R16G16B16A16_SFLOAT"]),
    (12, ["R32G32B32_UINT", "R32G32B32_SINT", "R32G32B32_SFLOAT"]),
    (16, ["R64G64_UINT", "R64G64_SINT", "R64G64_SFLOAT",
          "R32G32B32A32_UINT", "R32G32B32A32_SINT", "R32G32B32A32_SFLOAT"]),
    (2, ["D16_UNORM"]),
    (4, ["X8_D24_UNORM_PACK32"]),
    (4, ["D32_SFLOAT"]),
    (1, ["S8_UINT"]),
    (4, ["D24_UNORM_S8_UINT"]),
    (5, ["D32_SFLOAT_S8_UINT"])
  ]

  /** The size of the first group listing `f`, or 0 when no group does. */
  function GroupSize(groups: seq<(PixelSize, seq<Format>)>, f: Format): (r: nat)
    ensures r == 0 <==> forall i :: 0 <= i < |groups| ==> f !in groups[i].1
    ensures r != 0 ==> exists i :: 0 <= i < |groups| && f in groups[i].1 && groups[i].0 == r &&
                                   forall j :: 0 <= j < i ==> f !in groups[j].1
    decreases |groups|
  {
    if groups == [] then 0
    else if f in groups[0].1 then groups[0].0
    else
      var r := GroupSize(groups[1..], f);
      if r != 0 then
        var i :| 0 <= i < |groups[1..]| && f in groups[1..][i].1 && groups[1..][i].0 == r &&
                 forall j :: 0 <= j < i ==> f !in groups[1..][j].1;
        assert groups[i + 1] == groups[1..][i];
        r
      else r
  }

  /** `GetBytesPerPixel`: 0 for a format the wrapper does not know. */
  function BytesPerPixel(f: Format): nat
  {
    GroupSize(PixelSizes, f)
  }

  /** A group table only ever answers with one of its sizes, or 0. */
  lemma GroupSizeIsListed(groups: seq<(PixelSize, seq<Format>)>, f: Format)
    ensures GroupSize(groups, f) != 0 ==> GroupSize(groups, f) in {1, 2, 3, 4, 5, 6, 8, 12, 16}
  {
    if GroupSize(groups, f) != 0 {
      var i :| 0 <= i < |groups| && f in groups[i].1 && groups[i].0 == GroupSize(groups, f);
      var s: PixelSize := groups[i].0;
    }
  }

  /** A known format has one of the listed texel sizes; an unknown one has none. */
  lemma BytesPerPixelSizes(f: Format)
    ensures BytesPerPixel(f) != 0 ==> BytesPerPixel(f) in {1, 2, 3, 4, 5, 6, 8, 12, 16}
  {
    GroupSizeIsListed(PixelSizes, f);
  }

  // ---------------------------------------------------------------------
  // Buffer-to-image copies

  /** The byte offset of texel (x, y, z) in a buffer with the given strides. */
  function TexelOffset(x: nat, y: nat, z: nat, bpp: nat, rowTexels: nat, imgTexels: nat): nat
  {
    x * bpp + y * (rowTexels * bpp) + z * (imgTexels * (rowTexels * bpp))
  }

  /** A zero row length or image height means "as wide" or "as tall as the image". */
  function Stride(given: nat, dim: nat): nat
  {
    if given == 0 then dim else given
  }

  /**
   * The formula of `Image::GetSize`: the first row of the last slice only
   * needs to be as long as the image, the other rows and slices take their
   * full stride.
   */
  function CopySize(width: nat, height: nat, depth: nat, bpp: nat, rowLength: nat, imageHeight: nat): nat
    requires height >= 1 && depth >= 1
  {
    var rowStride: nat := Stride(rowLength, width) * bpp;
    var sliceStride: nat := Stride(imageHeight, height) * rowStride;
    var rows: nat := (height - 1) * rowStride;
    var slices: nat := (depth - 1) * sliceStride;
    width * bpp + rows + slices
  }

  /** The size is exactly one past the last byte of the last texel. */
  lemma CopySizeIsLastTexelEnd(width: nat, height: nat, depth: nat, bpp: nat, rowLength: nat, imageHeight: nat)
    requires width >= 1 && height >= 1 && depth >= 1
    ensures CopySize(width, height, depth, bpp, rowLength, imageHeight) ==
              TexelOffset(width - 1, height - 1, depth - 1, bpp, Stride(rowLength, width),
                          Stride(imageHeight, height)) + bpp
  {
    assert width * bpp == (width - 1) * bpp + bpp;
  }

  /** Every texel of the image lies inside the size. */
  lemma {:induction false} TexelInside(width: nat, height: nat, depth: nat, bpp: nat, rowLength: nat,
                                       imageHeight: nat, x: nat, y: nat, z: nat)
    requires x < width && y < height && z < depth
    ensures TexelOffset(x, y, z, bpp, Stride(rowLength, width), Stride(imageHeight, height)) + bpp <=
              CopySize(width, height, depth, bpp, rowLength, imageHeight)
  {
    var rowStride := Stride(rowLength, width) * bpp;
    var sliceStride := Stride(imageHeight, height) * rowStride;
    Buffers.MulMono(x + 1, width, bpp);
    Buffers.MulMono(y, height - 1, rowStride);
    Buffers.MulMono(z, depth - 1, sliceStride);
    assert (x + 1) * bpp == x * bpp + bpp;
    CopySizeIsLastTexelEnd(width, height, depth, bpp, rowLength, imageHeight);
  }

  /** A tightly packed buffer holds width * height * depth texels. */
  lemma TightCopySize(width: nat, height: nat, depth: nat, bpp: nat)
    requires height >= 1 && depth >= 1
    ensures CopySize(width, height, depth, bpp, 0, 0) == width * height * depth * bpp
  {
    var row := width * bpp;
    var slice := height * row;
    assert row + (height - 1) * row == slice;
    assert slice + (depth - 1) * slice == depth * slice;
    assert width * height * depth * bpp == depth * slice;
  }

  /**
   * A copy extent along one axis: `U32Max` (the wrapper's "full") means up
   * to the image's edge from the offset. The `u32` dimension minus the `i32`
   * offset is unsigned arithmetic, so an offset outside the image wraps
   * around to a large extent instead of going negative.
   */
  function DefaultExtent(ext: nat, dim: nat, offset: int): (r: int)
    ensures ext != U32Max ==> r == ext
    ensures ext == U32Max ==> IsU32(r) && (r - (dim - offset)) % 0x1_0000_0000 == 0
    ensures ext == U32Max && IsU32(dim) && 0 <= offset <= dim ==> offset + r == dim
    ensures ext == U32Max && IsU32(dim) && dim < offset <= U32Max ==> r == dim - offset + 0x1_0000_0000
  {
    if ext == U32Max then U32Wrap(dim - offset) else ext
  }

  /**
   * The extent of an image-to-image copy along one axis: a "full" extent is
   * the smaller of the two images' default extents from their offsets.
   */
  function DefaultCopyExtent(ext: nat, srcDim: nat, srcOffset: int, dstDim: nat, dstOffset: int): (r: int)
    ensures ext != U32Max ==> r == ext
    ensures ext == U32Max ==> r <= DefaultExtent(ext, srcDim, srcOffset) && r <= DefaultExtent(ext, dstDim, dstOffset)
    ensures ext == U32Max ==> r == DefaultExtent(ext, srcDim, srcOffset) || r == DefaultExtent(ext, dstDim, dstOffset)
  {
    if ext == U32Max then
      var s := U32Wrap(srcDim - srcOffset);
      var d := U32Wrap(dstDim - dstOffset);
      if s <= d then s else d
    else ext
  }

  /** No extent that fits both images is larger than the default one. */
  lemma DefaultCopyExtentLargest(srcDim: nat, srcOffset: int, dstDim: nat, dstOffset: int, e: int)
    requires e <= DefaultExtent(U32Max, srcDim, srcOffset) && e <= DefaultExtent(U32Max, dstDim, dstOffset)
    ensures e <= DefaultCopyExtent(U32Max, srcDim, srcOffset, dstDim, dstOffset)
  {
  }
}

=== FILE: instance.dfy ===
/**
 * Instances: how the builder settles the API version and assembles the
 * extension and layer lists the instance is created with, the flags the
 * instance remembers, and its destruction.
 *
 * What the loader reports (`System::IsExtensionSupported`,
 * `System::IsLayerSupported`) is given as the lists of supported names; the
 * driver's answers are parameters. Names are compared by content.
 */
module Instances {
  import opened Wrappers
  import opened VkCommon

  // ---------------------------------------------------------------------
  // Versions

  /** `VK_MAKE_API_VERSION`: variant, major, minor and patch in 3, 7, 10 and 12 bits. */
  function MakeVersion(variant: nat, major: nat, minor: nat, patch: nat): (r: nat)
    requires variant < 8 && major < 128 && minor < 1024 && patch < 4096
    ensures IsU32(r)
  {
    variant * 0x2000_0000 + major * 0x40_0000 + minor * 0x1000 + patch
  }

  /** Comparing packed versions compares major, then minor, then patch. */
  lemma VersionOrder(a: nat, b: nat, c: nat, x: nat, y: nat, z: nat)
    requires a < 128 && b < 1024 && c < 4096 && x < 128 && y < 1024 && z < 4096
    ensures MakeVersion(0, a, b, c) < MakeVersion(0, x, y, z) <==>
              a < x || (a == x && (b < y || (b == y && c < z)))
  {
  }

  const Version1_0: nat := MakeVersion(0, 1, 0, 0)
  const Version1_1: nat := MakeVersion(0, 1, 1, 0)

  /**
   * The version check of `Build`: the requested version when the loader
   * reaches it; otherwise the loader's own version when it reaches the
   * required one; otherwise an incompatible driver. `loader` is the answer
   * of `vkEnumerateInstanceVersion`.
   */
  function ApiVersion(requested: nat, required: nat, loader: Result<nat, int>): (r: Result<nat, Error>)
    requires required <= requested
    ensures loader.Err? ==> r == Err(Vulkan(loader.error))
    ensures loader.Ok? && loader.value < required ==> r == Err(Vulkan(VkErrorIncompatibleDriver))
    ensures r.Ok? ==> loader.Ok? && required <= r.value <= requested && r.value <= loader.value
    ensures r.Ok? && loader.value >= requested ==> r.value == requested
    ensures loader.Ok? && loader.value >= required ==> r.Ok?
    ensures loader.Ok? && required <= loader.value < requested ==> r == Ok(loader.value)
  {
    match loader
    case Err(code) => Err(Vulkan(code))
    case Ok(v) =>
      if v >= requested then Ok(requested)
      else if v >= required then Ok(v)
      else Err(Vulkan(VkErrorIncompatibleDriver))
  }

  // ---------------------------------------------------------------------
  // Name lists

  /** No name is listed twice. */
  predicate NoDuplicates(s: seq<string>)
  {
    forall i, j :: 0 <= i < j < |s| ==> s[i] != s[j]
  }

  /** `a` is the start of `b`. */
  predicate Prefix(a: seq<string>, b: seq<string>)
  {
    |a| <= |b| && b[..|a|] == a
  }

  lemma PrefixTrans(a: seq<string>, b: seq<string>, c: seq<string>)
    requires Prefix(a, b) && Prefix(b, c)
    ensures Prefix(a, c)
  {
    assert c[..|a|] == c[..|b|][..|a|];
  }

  /** The `contains` check before `Append`. */
  function AddUnique(list: seq<string>, x: string): (r: seq<string>)
    ensures NoDuplicates(list) ==> NoDuplicates(r)
    ensures forall y :: y in r <==> y in list || y == x
    ensures Prefix(list, r)
  {
    if x in list then list else list + [x]
  }

  /** Every name of `xs` added in turn, skipping the ones already listed. */
  function AddAll(list: seq<string>, xs: seq<string>): (r: seq<string>)
    ensures NoDuplicates(list) ==> NoDuplicates(r)
    ensures forall y :: y in r <==> y in list || y in xs
    ensures Prefix(list, r)
    decreases |xs|
  {
    if xs == [] then list
    else
      var init := AddAll(list, xs[..|xs| - 1]);
      assert forall y :: y in xs <==> y in xs[..|xs| - 1] || y == xs[|xs| - 1] by {
        assert xs == xs[..|xs| - 1] + [xs[|xs| - 1]];
      }
      var r := AddUnique(init, xs[|xs| - 1]);
      PrefixTrans(list, init, r);
      r
  }

  /** The names of `xs` that are supported, in order. */
  function Supported(xs: seq<string>, supported: seq<string>): (r: seq<string>)
    ensures forall y :: y in r <==> y in xs && y in supported
    decreases |xs|
  {
    if xs == [] then []
    else
      var init := Supported(xs[..|xs| - 1], supported);
      assert forall y :: y in xs <==> y in xs[..|xs| - 1] || y == xs[|xs| - 1] by {
        assert xs == xs[..|xs| - 1] + [xs[|xs| - 1]];
      }
      if xs[|xs| - 1] in supported then init + [xs[|xs| - 1]] else init
  }

  /** Adding one more name to the list of names to add. */
  lemma AddAllNext(list: seq<string>, ys: seq<string>, y: string)
    ensures AddAll(list, ys + [y]) == AddUnique(AddAll(list, ys), y)
  {
    assert (ys + [y])[..|ys|] == ys;
  }

  /** Adding the first `i + 1` names is adding name `i` after the first `i`. */
  lemma AddAllStep(list: seq<string>, xs: seq<string>, i: nat)
    requires i < |xs|
    ensures AddAll(list, xs[..i + 1]) == AddUnique(AddAll(list, xs[..i]), xs[i])
  {
    assert xs[..i + 1] == xs[..i] + [xs[i]];
    AddAllNext(list, xs[..i], xs[i]);
  }

  /** The supported names of one more requested name. */
  lemma SupportedNext(xs: seq<string>, i: nat, supported: seq<string>)
    requires i < |xs|
    ensures Supported(xs[..i + 1], supported) ==
            if xs[i] in supported then Supported(xs[..i], supported) + [xs[i]] else Supported(xs[..i], supported)
  {
    assert xs[..i + 1][..i] == xs[..i];
  }

  /** The loop adding required names: each one once, in order of first mention. */
  method AppendUnique(list: seq<string>, xs: seq<string>) returns (r: seq<string>)
    ensures r == AddAll(list, xs)
  {
    r := list;
    var i := 0;
    while i < |xs|
      invariant 0 <= i <= |xs|
      invariant r == AddAll(list, xs[..i])
    {
      AddAllStep(list, xs, i);
      if xs[i] !in r {
        r := r + [xs[i]];
      }
      i := i + 1;
    }
    assert xs[..i] == xs;
  }

  /** The loop adding requested names: unsupported ones are skipped with a warning. */
  method AppendSupported(list: seq<string>, xs: seq<string>, supported: seq<string>) returns (r: seq<string>)
    ensures r == AddAll(list, Supported(xs, supported))
  {
    r := list;
    var i := 0;
    while i < |xs|
      invariant 0 <= i <= |xs|
      invariant r == AddAll(list, Supported(xs[..i], supported))
    {
      SupportedNext(xs, i, supported);
      AddAllNext(list, Supported(xs[..i], supported), xs[i]);
      if xs[i] in supported && xs[i] !in r {
        r := r + [xs[i]];
      }
      i := i + 1;
    }
    assert xs[..i] == xs;
  }

  /** The loop checking required names: true when every one is supported. */
  method AllSupported(xs: seq<string>, supported: seq<string>) returns (ok: bool)
    ensures ok <==> forall i :: 0 <= i < |xs| ==> xs[i] in supported
  {
    var i := 0;
    while i < |xs|
      invariant 0 <= i <= |xs|
      invariant forall k :: 0 <= k < i ==> xs[k] in supported
    {
      if xs[i] !in supported {
        return false;
      }
      i := i + 1;
    }
    return true;
  }

  /** Every name of `xs` is supported. */
  predicate AllIn(xs: seq<string>, supported: seq<string>)
  {
    forall i :: 0 <= i < |xs| ==> xs[i] in supported
  }

  /**
   * A list as `Build` assembles it: the required names, then the supported
   * requested ones, each once.
   */
  function EnabledNames(required: seq<string>, requested: seq<string>, supported: seq<string>): (r: seq<string>)
    ensures NoDuplicates(r)
    ensures forall y :: y in r <==> y in required || (y in requested && y in supported)
    ensures AllIn(required, supported) ==> forall y :: y in r ==> y in supported
    ensures Prefix(AddAll([], required), r)
  {
    AddAll(AddAll([], required), Supported(requested, supported))
  }

  /** A name added only when a condition holds. */
  function AddIf(list: seq<string>, cond: bool, x: string): (r: seq<string>)
    ensures NoDuplicates(list) ==> NoDuplicates(r)
    ensures forall y :: y in r <==> y in list || (cond && y == x)
    ensures Prefix(list, r)
  {
    if cond then AddUnique(list, x) else list
  }

  /**
   * The extension list `Build` enables: the required and supported requested
   * names, then debug utils, properties2 and portability enumeration when
   * each is turned on.
   */
  function ExtensionList(required: seq<string>, requested: seq<string>, exts: seq<string>,
                         validation: bool, properties2: bool, portability: bool): (r: seq<string>)
    ensures NoDuplicates(r)
    ensures AllIn(required, exts) && (validation ==> DebugUtils in exts) &&
            (properties2 ==> Properties2 in exts) && (portability ==> PortabilityEnumeration in exts) ==>
              forall e :: e in r ==> e in exts
    ensures forall e :: e in r <==>
              e in required || (e in requested && e in exts) || (validation && e == DebugUtils) ||
              (properties2 && e == Properties2) || (portability && e == PortabilityEnumeration)
    ensures Prefix(AddAll([], required), r)
    ensures validation ==> DebugUtils in r
    ensures properties2 ==> Properties2 in r
    ensures portability ==> PortabilityEnumeration in r
  {
    var e0 := EnabledNames(required, requested, exts);
    var e1 := AddIf(e0, validation, DebugUtils);
    var e2 := AddIf(e1, properties2, Properties2);
    var e3 := AddIf(e2, portability, PortabilityEnumeration);
    PrefixTrans(AddAll([], required), e0, e1);
    PrefixTrans(AddAll([], required), e1, e2);
    PrefixTrans(AddAll([], required), e2, e3);
    e3
  }

  /** The surface extension and the platform's surface extension `s`, each added once. */
  function WithSurface(list: seq<string>, s: string): (r: seq<string>)
    ensures NoDuplicates(list) ==> NoDuplicates(r)
    ensures forall y :: y in r <==> y in list || y == Surface || y == s
    ensures Prefix(list, r)
  {
    var e1 := AddUnique(list, Surface);
    var e2 := AddUnique(e1, s);
    PrefixTrans(list, e1, e2);
    e2
  }

  // ---------------------------------------------------------------------
  // The instance

  const DebugUtils: string := "VK_EXT_debug_utils"
  const ValidationLayer: string := "VK_LAYER_KHRONOS_validation"
  const Properties2: string := "VK_KHR_get_physical_device_properties2"
  const PortabilityEnumeration: string := "VK_KHR_portability_enumeration"
  const Surface: string := "VK_KHR_surface"

  datatype InstanceFlag = Headless | HasValidationLayers | Properties2Extension

  /** What `Build` settles before the instance is created. */
  datatype Plan = Plan(
    apiVersion: nat,
    extensions: seq<string>,
    layers: seq<string>,
    validation: bool,
    properties2: bool,
    portability: bool)

  /** `Instance::Info`, without the dispatch table and the allocation callbacks. */
  datatype InstanceInfo = InstanceInfo(
    applicationName: Option<string>,
    applicationVersion: nat,
    engineName: Option<string>,
    engineVersion: nat,
    apiVersion: nat,
    extensions: seq<string>,
    layers: seq<string>,
    flags: set<InstanceFlag>,
    messenger: Option<nat>)

  class Builder {
    var applicationName: Option<string>
    var engineName: Option<string>
    var applicationVersion: nat
    var engineVersion: nat
    var requiredApiVersion: nat
    var requestedApiVersion: nat
    var requiredExtensions: seq<string>
    var requestedExtensions: seq<string>
    var requiredLayers: seq<string>
    var requestedLayers: seq<string>
    var requireValidationLayers: bool
    var requestValidationLayers: bool
    var headless: bool

    /**
     * A required version never exceeds the requested one, and requiring
     * validation layers also requests them.
     */
    predicate Valid()
      reads this
    {
      requiredApiVersion <= requestedApiVersion &&
      (requireValidationLayers ==> requestValidationLayers)
    }

    constructor ()
      ensures Valid()
      ensures applicationName.None? && engineName.None?
      ensures applicationVersion == Version1_0 && engineVersion == Version1_0
      ensures requiredApiVersion == Version1_0 && requestedApiVersion == Version1_0
      ensures requiredExtensions == [] && requestedExtensions == []
      ensures requiredLayers == [] && requestedLayers == []
      ensures !requireValidationLayers && !requestValidationLayers && !headless
    {
      applicationName := None;
      engineName := None;
      applicationVersion := Version1_0;
      engineVersion := Version1_0;
      requiredApiVersion := Version1_0;
      requestedApiVersion := Version1_0;
      requiredExtensions := [];
      requestedExtensions := [];
      requiredLayers := [];
      requestedLayers := [];
      requireValidationLayers := false;
      requestValidationLayers := false;
      headless := false;
    }

    method SetApplicationName(name: string)
      modifies this`applicationName
      ensures applicationName == Some(name)
    {
      applicationName := Some(name);
    }

    method SetEngineName(name: string)
      modifies this`engineName
      ensures engineName == Some(name)
    {
      engineName := Some(name);
    }

    method SetApplicationVersion(v: nat)
      modifies this`applicationVersion
      ensures applicationVersion == v
    {
      applicationVersion := v;
    }

    method SetEngineVersion(v: nat)
      modifies this`engineVersion
      ensures engineVersion == v
    {
      engineVersion := v;
    }

    /** A higher requirement raises the request with it. */
    method RequireApiVersion(v: nat)
      requires Valid()
      modifies this`requiredApiVersion, this`requestedApiVersion
      ensures Valid()
      ensures requiredApiVersion == v
      ensures requestedApiVersion == if old(requestedApiVersion) < v then v else old(requestedApiVersion)
    {
      requiredApiVersion := v;
      if requestedApiVersion < requiredApiVersion {
        requestedApiVersion := requiredApiVersion;
      }
    }

    /** A lower request lowers the requirement with it. */
    method RequestApiVersion(v: nat)
      requires Valid()
      modifies this`requiredApiVersion, this`requestedApiVersion
      ensures Valid()
      ensures requestedApiVersion == v
      ensures requiredApiVersion == if v < old(requiredApiVersion) then v else old(requiredApiVersion)
    {
      requestedApiVersion := v;
      if requestedApiVersion < requiredApiVersion {
        requiredApiVersion := requestedApiVersion;
      }
    }

    method RequireExtensions(names: seq<string>)
      modifies this`requiredExtensions
      ensures requiredExtensions == old(requiredExtensions) + names
    {
      requiredExtensions := requiredExtensions + names;
    }

    method RequestExtensions(names: seq<string>)
      modifies this`requestedExtensions
      ensures requestedExtensions == old(requestedExtensions) + names
    {
      requestedExtensions := requestedExtensions + names;
    }

    method RequireLayers(names: seq<string>)
      modifies this`requiredLayers
      ensures requiredLayers == old(requiredLayers) + names
    {
      requiredLayers := requiredLayers + names;
    }

    method RequestLayers(names: seq<string>)
      modifies this`requestedLayers
      ensures requestedLayers == old(requestedLayers) + names
    {
      requestedLayers := requestedLayers + names;
    }

    method RequireValidationLayers()
      requires Valid()
      modifies this`requireValidationLayers, this`requestValidationLayers
      ensures Valid() && requireValidationLayers && requestValidationLayers
    {
      requireValidationLayers := true;
      requestValidationLayers := true;
    }

    method RequestValidationLayers()
      requires Valid()
      modifies this`requestValidationLayers
      ensures Valid() && requestValidationLayers
      ensures requireValidationLayers == old(requireValidationLayers)
    {
      requestValidationLayers := true;
    }

    method SetHeadless(h: bool)
      modifies this`headless
      ensures headless == h
    {
      headless := h;
    }

    /**
     * The part of `Build` every instance goes through once the API version
     * is settled: the required names must be supported, the lists are
     * assembled, and validation layers, the properties2 extension and
     * portability enumeration are added when available. `exts` and `layers`
     * are the supported names.
     */
    function Core(apiVersion: nat, exts: seq<string>, layers: seq<string>): (r: Result<Plan, Error>)
      reads this
      requires Valid()
      ensures (exists i :: 0 <= i < |requiredExtensions| && requiredExtensions[i] !in exts) ==>
                r == Err(Vulkan(VkErrorExtensionNotPresent))
      ensures AllIn(requiredExtensions, exts) && !AllIn(requiredLayers, layers) ==>
                r == Err(Vulkan(VkErrorLayerNotPresent))
      ensures AllIn(requiredExtensions, exts) && AllIn(requiredLayers, layers) && r.Err? ==>
                r == Err(Vulkan(VkErrorLayerNotPresent))
      ensures r.Ok? <==>
                AllIn(requiredExtensions, exts) && AllIn(requiredLayers, layers) &&
                (requestValidationLayers && requireValidationLayers ==> DebugUtils in exts && ValidationLayer in layers)
      ensures r.Ok? ==> r.value.apiVersion == apiVersion
      ensures r.Ok? ==> NoDuplicates(r.value.extensions) && NoDuplicates(r.value.layers)
      ensures r.Ok? ==> forall e :: e in r.value.extensions ==> e in exts
      ensures r.Ok? ==> forall l :: l in r.value.layers ==> l in layers
      ensures r.Ok? ==> forall e :: e in r.value.extensions <==>
                e in requiredExtensions || (e in requestedExtensions && e in exts) ||
                (r.value.validation && e == DebugUtils) || (r.value.properties2 && e == Properties2) ||
                (r.value.portability && e == PortabilityEnumeration)
      ensures r.Ok? ==> forall l :: l in r.value.layers <==>
                l in requiredLayers || (l in requestedLayers && l in layers) || (r.value.validation && l == ValidationLayer)
      ensures r.Ok? ==> Prefix(AddAll([], requiredLayers), r.value.layers)
      ensures r.Ok? ==> forall e :: e in requiredExtensions ==> e in r.value.extensions
      ensures r.Ok? ==> forall l :: l in requiredLayers ==> l in r.value.layers
      ensures r.Ok? ==> forall e :: e in requestedExtensions && e in exts ==> e in r.value.extensions
      ensures r.Ok? ==> forall l :: l in requestedLayers && l in layers ==> l in r.value.layers
      ensures r.Ok? ==> Prefix(AddAll([], requiredExtensions), r.value.extensions)
      ensures r.Ok? ==> (r.value.validation <==>
                           requestValidationLayers && DebugUtils in exts && ValidationLayer in layers)
      ensures r.Ok? && r.value.validation ==> DebugUtils in r.value.extensions && ValidationLayer in r.value.layers
      ensures r.Ok? && requireValidationLayers ==> r.value.validation
      ensures r.Ok? ==> (r.value.properties2 <==> apiVersion < Version1_1 && Properties2 in exts)
      ensures r.Ok? && r.value.properties2 ==> Properties2 in r.value.extensions
      ensures r.Ok? ==> (r.value.portability <==> PortabilityEnumeration in exts)
      ensures r.Ok? && r.value.portability ==> PortabilityEnumeration in r.value.extensions
    {
      if !AllIn(requiredExtensions, exts) then Err(Vulkan(VkErrorExtensionNotPresent))
      else if !AllIn(requiredLayers, layers) then Err(Vulkan(VkErrorLayerNotPresent))
      else
        var validation := requestValidationLayers && DebugUtils in exts && ValidationLayer in layers;
        if requestValidationLayers && !validation && requireValidationLayers then
          Err(Vulkan(VkErrorLayerNotPresent))
        else
          var properties2 := apiVersion < Version1_1 && Properties2 in exts;
          var portability := PortabilityEnumeration in exts;
          var e := ExtensionList(requiredExtensions, requestedExtensions, exts, validation, properties2, portability);
          var l0 := EnabledNames(requiredLayers, requestedLayers, layers);
          var l := AddIf(l0, validation, ValidationLayer);
          PrefixTrans(AddAll([], requiredLayers), l0, l);
          Ok(Plan(apiVersion, e, l, validation, properties2, portability))
    }

    /** The loops of `Build` that assemble the lists, with their early returns. */
    method AssembleCore(apiVersion: nat, exts: seq<string>, layers: seq<string>) returns (r: Result<Plan, Error>)
      requires Valid()
      ensures r == Core(apiVersion, exts, layers)
    {
      var ok := AllSupported(requiredExtensions, exts);
      if !ok {
        return Err(Vulkan(VkErrorExtensionNotPresent));
      }
      ok := AllSupported(requiredLayers, layers);
      if !ok {
        return Err(Vulkan(VkErrorLayerNotPresent));
      }
      var extensions := AppendUnique([], requiredExtensions);
      extensions := AppendSupported(extensions, requestedExtensions, exts);
      var enabledLayers := AppendUnique([], requiredLayers);
      enabledLayers := AppendSupported(enabledLayers, requestedLayers, layers);
      var validation := false;
      if requestValidationLayers {
        validation := DebugUtils in exts && ValidationLayer in layers;
        if !validation && requireValidationLayers {
          return Err(Vulkan(VkErrorLayerNotPresent));
        }
      }
      extensions := AddIf(extensions, validation, DebugUtils);
      enabledLayers := AddIf(enabledLayers, validation, ValidationLayer);
      var properties2 := apiVersion < Version1_1 && Properties2 in exts;
      extensions := AddIf(extensions, properties2, Properties2);
      var portability := PortabilityEnumeration in exts;
      extensions := AddIf(extensions, portability, PortabilityEnumeration);
      return Ok(Plan(apiVersion, extensions, enabledLayers, validation, properties2, portability));
    }

    /**
     * The whole of `Build` up to the creation of the instance: `loader` is
     * the loader's version query and `surfaces` the platform's windowing
     * extensions in the order they are tried.
     */
    function Decide(loader: Result<nat, int>, exts: seq<string>, layers: seq<string>, surfaces: seq<string>)
        : (r: Result<Plan, Error>)
      reads this
      requires Valid()
      ensures ApiVersion(requestedApiVersion, requiredApiVersion, loader).Err? ==>
                r == Err(ApiVersion(requestedApiVersion, requiredApiVersion, loader).error)
      ensures r.Ok? ==> Ok(r.value.apiVersion) == ApiVersion(requestedApiVersion, requiredApiVersion, loader)
      ensures r.Ok? ==> NoDuplicates(r.value.extensions)
      ensures r.Ok? ==> forall e :: e in r.value.extensions ==> e in exts
      ensures r.Ok? && !headless ==>
                Surface in r.value.extensions &&
                FirstSupported(surfaces, exts).Some? && FirstSupported(surfaces, exts).value in r.value.extensions
      ensures r.Ok? ==> ApiVersion(requestedApiVersion, requiredApiVersion, loader).Ok? &&
                        var core := Core(r.value.apiVersion, exts, layers);
                        core.Ok? && Prefix(core.value.extensions, r.value.extensions) &&
                        r.value == core.value.(extensions := r.value.extensions)
    {
      match ApiVersion(requestedApiVersion, requiredApiVersion, loader)
      case Err(e) => Err(e)
      case Ok(apiVersion) =>
        match Core(apiVersion, exts, layers)
        case Err(e) => Err(e)
        case Ok(plan) => Windowing(headless, plan, exts, surfaces)
    }

    /**
     * The windowing step of `Build`: a non-headless instance needs the
     * surface extension and the first supported platform surface extension.
     */
    static function Windowing(headless: bool, plan: Plan, exts: seq<string>, surfaces: seq<string>)
        : (r: Result<Plan, Error>)
      ensures headless ==> r == Ok(plan)
      ensures !headless ==> (r.Ok? <==> Surface in exts && FirstSupported(surfaces, exts).Some?)
      ensures r.Err? ==> r == Err(Vulkan(VkErrorExtensionNotPresent))
      ensures r.Ok? ==> r.value == plan.(extensions := r.value.extensions) && Prefix(plan.extensions, r.value.extensions)
      ensures r.Ok? && NoDuplicates(plan.extensions) ==> NoDuplicates(r.value.extensions)
      ensures r.Ok? ==> forall e :: e in r.value.extensions ==> e in plan.extensions || e in exts
      ensures r.Ok? && !headless ==>
                Surface in r.value.extensions &&
                FirstSupported(surfaces, exts).Some? && FirstSupported(surfaces, exts).value in r.value.extensions
    {
      if headless then Ok(plan)
      else if Surface !in exts then Err(Vulkan(VkErrorExtensionNotPresent))
      else
        match FirstSupported(surfaces, exts)
        case None => Err(Vulkan(VkErrorExtensionNotPresent))
        case Some(s) => Ok(plan.(extensions := WithSurface(plan.extensions, s)))
    }

    /**
     * `Build`: `created` and `handle` are the answer to `vkCreateInstance`,
     * `messengerLoaded` whether the debug messenger functions resolved and
     * `messengerResult` and `messenger` the answer to creating it.
     * `destroyed` lists the instances destroyed again on failure.
     */
    method Build(loader: Result<nat, int>, exts: seq<string>, layers: seq<string>, surfaces: seq<string>,
                 created: int, handle: nat, messengerLoaded: bool, messengerResult: int, messenger: nat)
        returns (r: Result<Instance, Error>, destroyed: seq<nat>)
      requires Valid()
      ensures Decide(loader, exts, layers, surfaces).Err? ==>
                r == Err(Decide(loader, exts, layers, surfaces).error) && destroyed == []
      ensures Decide(loader, exts, layers, surfaces).Ok? && created != VkSuccess ==>
                r == Err(Vulkan(created)) && destroyed == []
      ensures Decide(loader, exts, layers, surfaces).Ok? && created == VkSuccess && r.Err? ==>
                Decide(loader, exts, layers, surfaces).value.validation && destroyed == [handle] &&
                r.error == (if !messengerLoaded then Vulkan(VkErrorIncompatibleDriver) else Vulkan(messengerResult))
      ensures r.Ok? ==>
                Decide(loader, exts, layers, surfaces).Ok? && created == VkSuccess && destroyed == [] &&
                fresh(r.value) && r.value.handle == Some(handle) &&
                r.value.info == Info(Decide(loader, exts, layers, surfaces).value, messenger) &&
                r.value.destroyedMessengers == [] && r.value.destroyedInstances == []
    {
      destroyed := [];
      var version := ApiVersion(requestedApiVersion, requiredApiVersion, loader);
      if version.Err? {
        return Err(version.error), destroyed;
      }
      var core := AssembleCore(version.value, exts, layers);
      if core.Err? {
        return Err(core.error), destroyed;
      }
      var plan := core.value;
      if !headless {
        if Surface !in exts {
          return Err(Vulkan(VkErrorExtensionNotPresent)), destroyed;
        }
        var extensions := AddUnique(plan.extensions, Surface);
        var platform := FirstSupported(surfaces, exts);
        if platform.None? {
          return Err(Vulkan(VkErrorExtensionNotPresent)), destroyed;
        }
        plan := plan.(extensions := AddUnique(extensions, platform.value));
      }
      assert Decide(loader, exts, layers, surfaces) == Ok(plan);
      if created != VkSuccess {
        return Err(Vulkan(created)), destroyed;
      }
      if plan.validation {
        if !messengerLoaded {
          return Err(Vulkan(VkErrorIncompatibleDriver)), [handle];
        }
        if messengerResult != VkSuccess {
          return Err(Vulkan(messengerResult)), [handle];
        }
      }
      var inst := new Instance(handle, Info(plan, messenger));
      return Ok(inst), destroyed;
    }

    /** The info a built instance keeps: the builder's names and versions and the plan's outcome. */
    function Info(plan: Plan, messenger: nat): (r: InstanceInfo)
      reads this
      ensures r.extensions == plan.extensions && r.layers == plan.layers && r.apiVersion == plan.apiVersion
      ensures Headless in r.flags <==> headless
      ensures HasValidationLayers in r.flags <==> plan.validation
      ensures Properties2Extension in r.flags <==> plan.properties2
      ensures r.messenger.Some? <==> plan.validation
    {
      InstanceInfo(applicationName, applicationVersion, engineName, engineVersion,
                   plan.apiVersion, plan.extensions, plan.layers,
                   (if headless then {Headless} else {}) +
                   (if plan.validation then {HasValidationLayers} else {}) +
                   (if plan.properties2 then {Properties2Extension} else {}),
                   if plan.validation then Some(messenger) else None)
    }
  }

  class Instance {
    var handle: Option<nat>
    var info: InstanceInfo
    /** The debug messengers and instances handed back to Vulkan, in order. */
    var destroyedMessengers: seq<nat>
    var destroyedInstances: seq<nat>

    constructor (handle: nat, info: InstanceInfo)
      ensures this.handle == Some(handle) && this.info == info
      ensures destroyedMessengers == [] && destroyedInstances == []
    {
      this.handle := Some(handle);
      this.info := info;
      destroyedMessengers := [];
      destroyedInstances := [];
    }

    /** `IsExtensionEnabled`: the extension is one the instance was created with. */
    function IsExtensionEnabled(name: string): (r: bool)
      reads this
      ensures r <==> exists i :: 0 <= i < |info.extensions| && info.extensions[i] == name
    {
      name in info.extensions
    }

    /** `IsLayerEnabled`: the layer is one the instance was created with. */
    function IsLayerEnabled(name: string): (r: bool)
      reads this
      ensures r <==> exists i :: 0 <= i < |info.layers| && info.layers[i] == name
    {
      name in info.layers
    }

    /**
     * `Destroy`: the debug messenger goes first when validation layers are
     * on, then the instance, which must still be live.
     */
    method Destroy()
      requires handle.Some?
      modifies this`handle, this`destroyedMessengers, this`destroyedInstances
      ensures handle.None?
      ensures destroyedMessengers ==
                old(destroyedMessengers) +
                (if HasValidationLayers in info.flags && info.messenger.Some? then [info.messenger.value] else [])
      ensures destroyedInstances == old(destroyedInstances) + [old(handle).value]
    {
      if HasValidationLayers in info.flags && info.messenger.Some? {
        destroyedMessengers := destroyedMessengers + [info.messenger.value];
      }
      destroyedInstances := destroyedInstances + [handle.value];
      handle := None;
    }
  }
}

=== FILE: logical_device.dfy ===
/**
 * The logical device: the builder that collects queue priorities per queue
 * family, the device creation that turns them into queue create-infos and
 * per-type queue counts, the queue objects handed out per queue type, and
 * the teardown.
 *
 * Queue objects are numbered in creation order: a queue slot holds the
 * number of the object it points to, `None` once it has been nulled.
 */
module LogicalDevices {
  import opened Wrappers
  import opened VkCommon
  import Instances
  import Images
  import PhysicalDevices
  import VkQueue

  type QueueFamily = PhysicalDevices.QueueFamily

  /** The queue types that own a family index and a queue array. */
  const QueueTypeCount: nat := 4

  /** Position of a queue type in the per-type arrays. */
  function TypeIndex(t: VkQueue.QueueType): (r: nat)
    requires t != VkQueue.Count
    ensures r < QueueTypeCount
  {
    match t
    case Graphics => 0
    case Compute => 1
    case Transfer => 2
    case Present => 3
  }

  /** The physical device's family index for each queue type, in `TypeIndex` order. */
  function FamilyIndices(device: PhysicalDevices.DeviceInfo): (r: seq<int>)
    ensures |r| == QueueTypeCount
    ensures r[TypeIndex(VkQueue.Graphics)] == device.graphicsIndex
    ensures r[TypeIndex(VkQueue.Compute)] == device.computeIndex
    ensures r[TypeIndex(VkQueue.Transfer)] == device.transferIndex
    ensures r[TypeIndex(VkQueue.Present)] == device.presentIndex
  {
    [device.graphicsIndex, device.computeIndex, device.transferIndex, device.presentIndex]
  }

  /** The priorities asked for on one family; they are opaque values here. */
  datatype QueuePriorities = QueuePriorities(required: seq<real>, requested: seq<real>)

  /** `n` copies of one priority. */
  function Copies(n: nat, priority: real): (r: seq<real>)
    ensures |r| == n && forall i :: 0 <= i < n ==> r[i] == priority
  {
    seq(n, _ => priority)
  }

  /** The priorities a family is created with: the required ones, then the requested ones. */
  function Final(p: QueuePriorities): seq<real>
  {
    p.required + p.requested
  }

  function Min(a: nat, b: nat): nat
  {
    if a <= b then a else b
  }

  /** One `VkDeviceQueueCreateInfo`. */
  datatype QueueCreateInfo = QueueCreateInfo(family: nat, count: nat, priorities: seq<real>)

  /** What the family loop of `Build` produces: the create-infos and the queue count per type. */
  datatype QueuePlan = QueuePlan(infos: seq<QueueCreateInfo>, counts: seq<nat>)

  /**
   * How many queues of one type are created: the count of the family the
   * type lives on, when that family is among the first `n` and was asked
   * for any queue.
   */
  function TypeCount(families: seq<QueueFamily>, priorities: seq<QueuePriorities>, family: int, n: nat): nat
    requires n <= |priorities| <= |families|
  {
    if 0 <= family < n && Final(priorities[family]) != [] then
      Min(families[family].queueCount, |Final(priorities[family])|)
    else 0
  }

  /**
   * The family loop of `Build` over the first `n` families: a family whose
   * required count exceeds its queue count rejects the device; a family
   * with any priority gets a create-info for `min(queueCount, required +
   * requested)` queues, and that count is added to every queue type living
   * on the family.
   */
  function PlanQueues(families: seq<QueueFamily>, priorities: seq<QueuePriorities>, indices: seq<int>, n: nat): (r: Result<QueuePlan, Error>)
    requires n <= |priorities| <= |families| && |indices| == QueueTypeCount
    ensures r.Err? ==> r.error == RejectedDevice
    ensures r.Ok? ==> |r.value.counts| == QueueTypeCount
  {
    if n == 0 then Ok(QueuePlan([], [0, 0, 0, 0]))
    else
      var prev := PlanQueues(families, priorities, indices, n - 1);
      var k := n - 1;
      if prev.Err? then prev
      else if |priorities[k].required| > families[k].queueCount then Err(RejectedDevice)
      else
        var fp := Final(priorities[k]);
        if fp == [] then prev
        else
          var count := Min(families[k].queueCount, |fp|);
          Ok(QueuePlan(prev.value.infos + [QueueCreateInfo(k, count, fp)], AddCount(prev.value.counts, indices, k, count)))
  }

  /** The family loop rejects the device exactly when some family is required for more queues than it has. */
  lemma {:induction false} PlanRejects(families: seq<QueueFamily>, priorities: seq<QueuePriorities>, indices: seq<int>, n: nat)
    requires n <= |priorities| <= |families| && |indices| == QueueTypeCount
    ensures PlanQueues(families, priorities, indices, n).Err? <==>
      exists k :: 0 <= k < n && |priorities[k].required| > families[k].queueCount
  {
    if n > 0 {
      PlanRejects(families, priorities, indices, n - 1);
      if PlanQueues(families, priorities, indices, n).Err? && PlanQueues(families, priorities, indices, n - 1).Ok? {
        assert |priorities[n - 1].required| > families[n - 1].queueCount;
      }
    }
  }

  /** Each queue type is created with the count of the family it lives on, or none. */
  lemma {:induction false} PlanCounts(families: seq<QueueFamily>, priorities: seq<QueuePriorities>, indices: seq<int>, n: nat)
    requires n <= |priorities| <= |families| && |indices| == QueueTypeCount
    requires PlanQueues(families, priorities, indices, n).Ok?
    ensures forall t :: 0 <= t < QueueTypeCount ==>
      PlanQueues(families, priorities, indices, n).value.counts[t] == TypeCount(families, priorities, indices[t], n)
  {
    if n > 0 {
      PlanCounts(families, priorities, indices, n - 1);
    }
  }

  /** Each create-info names one of the first `n` families with its final priorities and its clamped count. */
  ghost predicate InfosFaithful(infos: seq<QueueCreateInfo>, families: seq<QueueFamily>, priorities: seq<QueuePriorities>, n: nat)
    requires n <= |priorities| <= |families|
  {
    forall i :: 0 <= i < |infos| ==>
      infos[i].family < n &&
      infos[i].priorities == Final(priorities[infos[i].family]) &&
      infos[i].priorities != [] &&
      infos[i].count == Min(families[infos[i].family].queueCount, |infos[i].priorities|)
  }

  /** The create-infos name their families in strictly increasing order. */
  predicate InfosIncreasing(infos: seq<QueueCreateInfo>)
  {
    forall i, j :: 0 <= i < j < |infos| ==> infos[i].family < infos[j].family
  }

  /** Every one of the first `n` families that was asked for a queue has a create-info. */
  ghost predicate InfosCover(infos: seq<QueueCreateInfo>, priorities: seq<QueuePriorities>, n: nat)
    requires n <= |priorities|
  {
    forall k :: 0 <= k < n && Final(priorities[k]) != [] ==> exists i :: 0 <= i < |infos| && infos[i].family == k
  }

  /** One more family either adds its create-info at the end or adds nothing. */
  lemma PlanStep(families: seq<QueueFamily>, priorities: seq<QueuePriorities>, indices: seq<int>, n: nat)
    requires 0 < n <= |priorities| <= |families| && |indices| == QueueTypeCount
    requires PlanQueues(families, priorities, indices, n).Ok?
    ensures PlanQueues(families, priorities, indices, n - 1).Ok?
    ensures PlanQueues(families, priorities, indices, n).value.infos ==
      PlanQueues(families, priorities, indices, n - 1).value.infos +
      (if Final(priorities[n - 1]) == [] then []
       else [QueueCreateInfo(n - 1, Min(families[n - 1].queueCount, |Final(priorities[n - 1])|), Final(priorities[n - 1]))])
  {
  }

  lemma InfosAppend(infos: seq<QueueCreateInfo>, families: seq<QueueFamily>, priorities: seq<QueuePriorities>, n: nat, x: QueueCreateInfo)
    requires n < |priorities| <= |families|
    requires InfosFaithful(infos, families, priorities, n) && InfosIncreasing(infos) && InfosCover(infos, priorities, n)
    requires x == QueueCreateInfo(n, Min(families[n].queueCount, |Final(priorities[n])|), Final(priorities[n])) && x.priorities != []
    ensures InfosFaithful(infos + [x], families, priorities, n + 1)
    ensures InfosIncreasing(infos + [x])
    ensures InfosCover(infos + [x], priorities, n + 1)
  {
    var infos' := infos + [x];
    assert forall i :: 0 <= i < |infos| ==> infos'[i] == infos[i];
    assert infos'[|infos|] == x;
    forall k | 0 <= k < n + 1 && Final(priorities[k]) != []
      ensures exists i :: 0 <= i < |infos'| && infos'[i].family == k
    {
      if k < n {
        var i :| 0 <= i < |infos| && infos[i].family == k;
        assert infos'[i].family == k;
      }
    }
  }

  lemma InfosSkip(infos: seq<QueueCreateInfo>, families: seq<QueueFamily>, priorities: seq<QueuePriorities>, n: nat)
    requires n < |priorities| <= |families|
    requires InfosFaithful(infos, families, priorities, n) && InfosCover(infos, priorities, n)
    requires Final(priorities[n]) == []
    ensures InfosFaithful(infos, families, priorities, n + 1)
    ensures InfosCover(infos, priorities, n + 1)
  {
  }

  /** What family `n - 1` does to the three properties of the create-infos. */
  lemma InfosNext(prev: seq<QueueCreateInfo>, infos: seq<QueueCreateInfo>, families: seq<QueueFamily>, priorities: seq<QueuePriorities>, n: nat)
    requires 0 < n <= |priorities| <= |families|
    requires InfosFaithful(prev, families, priorities, n - 1) && InfosIncreasing(prev) && InfosCover(prev, priorities, n - 1)
    requires infos == prev +
      (if Final(priorities[n - 1]) == [] then []
       else [QueueCreateInfo(n - 1, Min(families[n - 1].queueCount, |Final(priorities[n - 1])|), Final(priorities[n - 1]))])
    ensures InfosFaithful(infos, families, priorities, n)
    ensures InfosIncreasing(infos)
    ensures InfosCover(infos, priorities, n)
  {
    var fp := Final(priorities[n - 1]);
    if fp != [] {
      InfosAppend(prev, families, priorities, n - 1, QueueCreateInfo(n - 1, Min(families[n - 1].queueCount, |fp|), fp));
    } else {
      assert infos == prev;
      InfosSkip(prev, families, priorities, n - 1);
    }
  }

  /**
   * The create-infos name the families that were asked for any queue, in
   * increasing order, each once, with the required-then-requested
   * priorities and `min(queueCount, required + requested)` queues.
   */
  lemma {:induction false} PlanInfos(families: seq<QueueFamily>, priorities: seq<QueuePriorities>, indices: seq<int>, n: nat,
                                     infos: seq<QueueCreateInfo>)
    requires n <= |priorities| <= |families| && |indices| == QueueTypeCount
    requires PlanQueues(families, priorities, indices, n).Ok? && PlanQueues(families, priorities, indices, n).value.infos == infos
    ensures InfosFaithful(infos, families, priorities, n)
    ensures InfosIncreasing(infos)
    ensures InfosCover(infos, priorities, n)
  {
    if n > 0 {
      PlanStep(families, priorities, indices, n);
      var prev := PlanQueues(families, priorities, indices, n - 1).value.infos;
      PlanInfos(families, priorities, indices, n - 1, prev);
      InfosNext(prev, infos, families, priorities, n);
    }
  }

  /** The four `queueCounts[type] += (FamilyIndices[type] == index) * count` lines. */
  function AddCount(counts: seq<nat>, indices: seq<int>, family: nat, count: nat): (r: seq<nat>)
    requires |counts| == QueueTypeCount && |indices| == QueueTypeCount
    ensures |r| == QueueTypeCount
    ensures forall t :: 0 <= t < QueueTypeCount ==> r[t] == counts[t] + (if indices[t] == family then count else 0)
  {
    seq(QueueTypeCount, t requires 0 <= t < QueueTypeCount => counts[t] + (if indices[t] == family then count else 0))
  }

  /** How the enabled features reach the driver. */
  datatype FeatureLink =
    | Features2Chain(structs: seq<PhysicalDevices.FeatureStruct>)  // a features2 head in `pNext`, then these structures
    | CoreOnly                                                     // `pEnabledFeatures` points at the core structure

  /** The `VkDeviceCreateInfo` handed to `vkCreateDevice`. */
  datatype DeviceCreateInfo = DeviceCreateInfo(
    queues: seq<QueueCreateInfo>,
    extensions: seq<string>,
    layers: seq<string>,
    features: PhysicalDevices.DeviceFeatures,
    link: FeatureLink)

  /**
   * The feature link: from API version 1.1, or with the instance's
   * properties2 extension, the features go through a features2 chain.
   */
  function Link(apiVersion: nat, properties2: bool): (r: FeatureLink)
    ensures r.Features2Chain? <==> apiVersion >= Instances.Version1_1 || properties2
    ensures r.Features2Chain? ==> r.structs == PhysicalDevices.Chain(apiVersion)
  {
    if apiVersion >= Instances.Version1_1 || properties2 then Features2Chain(PhysicalDevices.Chain(apiVersion))
    else CoreOnly
  }

  /** The queue object behind a queue slot: the family and the index it was fetched with. */
  datatype QueueObject = QueueObject(family: int, index: nat)

  /**
   * The queue arrays per type agree with the created objects: slot `j` of
   * type `t` holds an object fetched from the type's family at index `j`,
   * every object sits in some slot, and no hardware queue was fetched
   * twice.
   */
  ghost predicate Consistent(queues: seq<seq<nat>>, objects: seq<QueueObject>, indices: seq<int>)
  {
    |queues| == |indices| &&
    (forall t, j :: 0 <= t < |queues| && 0 <= j < |queues[t]| ==>
      queues[t][j] < |objects| && objects[queues[t][j]] == QueueObject(indices[t], j)) &&
    (forall o :: 0 <= o < |objects| ==> Placed(queues, objects, o)) &&
    (forall o1, o2 :: 0 <= o1 < o2 < |objects| ==> objects[o1] != objects[o2])
  }

  ghost predicate Placed(queues: seq<seq<nat>>, objects: seq<QueueObject>, o: nat)
    requires o < |objects|
  {
    exists t :: 0 <= t < |queues| && objects[o].index < |queues[t]| && queues[t][objects[o].index] == o
  }

  /**
   * The `createQueue` lambda: a queue already handed to any type at the same
   * index and family is reused, otherwise a new object is created.
   */
  method CreateQueue(queues: seq<seq<nat>>, objects: seq<QueueObject>, family: int, index: nat)
    returns (q: nat, created: seq<QueueObject>)
    requires forall t, j :: 0 <= t < |queues| && 0 <= j < |queues[t]| ==>
      queues[t][j] < |objects| && objects[queues[t][j]].index == j
    ensures q < |created| && created[q] == QueueObject(family, index)
    ensures created == objects || created == objects + [QueueObject(family, index)]
    ensures created == objects <==> exists t :: 0 <= t < |queues| && index < |queues[t]| && objects[queues[t][index]].family == family
  {
    var t := 0;
    while t < |queues|
      invariant 0 <= t <= |queues|
      invariant forall u :: 0 <= u < t ==> !(index < |queues[u]| && objects[queues[u][index]].family == family)
    {
      if index < |queues[t]| && objects[queues[t][index]].family == family {
        q := queues[t][index];
        created := objects;
        return;
      }
      t := t + 1;
    }
    q := |objects|;
    created := objects + [QueueObject(family, index)];
  }

  /**
   * The queue loop of `Build`: `counts[t]` queues for every type `t`, each
   * from `createQueue`. No hardware queue gets two objects, so types that
   * share a family share their queue objects.
   */
  method CreateQueues(indices: seq<int>, counts: seq<nat>) returns (queues: seq<seq<nat>>, objects: seq<QueueObject>)
    requires |indices| == QueueTypeCount && |counts| == QueueTypeCount
    ensures Consistent(queues, objects, indices)
    ensures forall t :: 0 <= t < QueueTypeCount ==> |queues[t]| == counts[t]
  {
    queues := [[], [], [], []];
    objects := [];
    var t := 0;
    while t < QueueTypeCount
      invariant 0 <= t <= QueueTypeCount
      invariant Consistent(queues, objects, indices)
      invariant forall u :: 0 <= u < t ==> |queues[u]| == counts[u]
      invariant forall u :: t <= u < QueueTypeCount ==> queues[u] == []
    {
      var j := 0;
      while j < counts[t]
        invariant 0 <= j <= counts[t]
        invariant Consistent(queues, objects, indices)
        invariant |queues[t]| == j
        invariant forall u :: 0 <= u < t ==> |queues[u]| == counts[u]
        invariant forall u :: t < u < QueueTypeCount ==> queues[u] == []
      {
        var q, created := CreateQueue(queues, objects, indices[t], j);
        if created != objects {
          NewQueueIsFresh(queues, objects, indices, indices[t], j);
        }
        AppendKeepsConsistent(queues, objects, created, indices, t, q);
        queues, objects := queues[t := queues[t] + [q]], created;
        j := j + 1;
      }
      t := t + 1;
    }
  }

  /** A hardware queue that no slot of the same index and family holds was never fetched. */
  lemma NewQueueIsFresh(queues: seq<seq<nat>>, objects: seq<QueueObject>, indices: seq<int>, family: int, index: nat)
    requires Consistent(queues, objects, indices)
    requires forall t :: 0 <= t < |queues| ==> !(index < |queues[t]| && objects[queues[t][index]].family == family)
    ensures QueueObject(family, index) !in objects
  {
    forall o | 0 <= o < |objects|
      ensures objects[o] != QueueObject(family, index)
    {
      assert Placed(queues, objects, o);
    }
  }

  /** Appending the result of `createQueue` to the queues of type `t` keeps the arrays consistent. */
  lemma AppendKeepsConsistent(queues: seq<seq<nat>>, objects: seq<QueueObject>, created: seq<QueueObject>,
                              indices: seq<int>, t: nat, q: nat)
    requires Consistent(queues, objects, indices) && t < |queues|
    requires q < |created| && created[q] == QueueObject(indices[t], |queues[t]|)
    requires created == objects || (created == objects + [created[q]] && created[q] !in objects)
    ensures Consistent(queues[t := queues[t] + [q]], created, indices)
  {
    var nq := queues[t := queues[t] + [q]];
    assert forall u, j :: 0 <= u < |nq| && 0 <= j < |queues[u]| ==> nq[u][j] == queues[u][j];
    assert nq[t][|queues[t]|] == q;
    forall o | 0 <= o < |created|
      ensures Placed(nq, created, o)
    {
      if o < |objects| {
        assert Placed(queues, objects, o);
        var u :| 0 <= u < |queues| && objects[o].index < |queues[u]| && queues[u][objects[o].index] == o;
        assert nq[u][created[o].index] == o;
      } else {
        assert q == o;
      }
    }
  }

  /** Two queue types on the same family share the queue objects at each index. */
  lemma SharedFamilyShares(queues: seq<seq<nat>>, objects: seq<QueueObject>, indices: seq<int>, t1: nat, t2: nat, j: nat)
    requires Consistent(queues, objects, indices)
    requires t1 < |queues| && t2 < |queues| && indices[t1] == indices[t2]
    requires j < |queues[t1]| && j < |queues[t2]|
    ensures queues[t1][j] == queues[t2][j]
  {
  }

  /**
   * The device builder: the physical device it creates a device for, the
   * instance's enabled layers and properties2 flag, and the priorities
   * asked for per queue family.
   */
  class Builder {
    const device: PhysicalDevices.DeviceInfo
    const layers: seq<string>
    const properties2: bool
    var priorities: seq<QueuePriorities>

    ghost predicate Valid()
      reads this
    {
      |priorities| == |device.families|
    }

    /** One (empty) entry per queue family of the physical device. */
    constructor(device: PhysicalDevices.DeviceInfo, layers: seq<string>, properties2: bool)
      ensures Valid()
      ensures this.device == device && this.layers == layers && this.properties2 == properties2
      ensures priorities == seq(|device.families|, _ => QueuePriorities([], []))
    {
      this.device := device;
      this.layers := layers;
      this.properties2 := properties2;
      priorities := seq(|device.families|, _ => QueuePriorities([], []));
    }

    /** `RequireQueue(family, count, priority)`: `count` more required queues on the family. */
    method RequireQueue(family: nat, count: nat, priority: real)
      requires Valid() && family < |priorities|
      modifies this`priorities
      ensures Valid()
      ensures priorities == old(priorities)[family := QueuePriorities(old(priorities)[family].required + Copies(count, priority), old(priorities)[family].requested)]
    {
      assert old(priorities)[family].required + Copies(0, priority) == old(priorities)[family].required;
      var i := 0;
      while i < count
        invariant 0 <= i <= count
        invariant priorities == old(priorities)[family := QueuePriorities(old(priorities)[family].required + Copies(i, priority), old(priorities)[family].requested)]
      {
        assert Copies(i + 1, priority) == Copies(i, priority) + [priority];
        assert old(priorities)[family].required + Copies(i + 1, priority) == (old(priorities)[family].required + Copies(i, priority)) + [priority];
        priorities := priorities[family := priorities[family].(required := priorities[family].required + [priority])];
        i := i + 1;
      }
    }

    /** `RequestQueue(family, count, priority)`: `count` more requested queues on the family. */
    method RequestQueue(family: nat, count: nat, priority: real)
      requires Valid() && family < |priorities|
      modifies this`priorities
      ensures Valid()
      ensures priorities == old(priorities)[family := QueuePriorities(old(priorities)[family].required, old(priorities)[family].requested + Copies(count, priority))]
    {
      assert old(priorities)[family].requested + Copies(0, priority) == old(priorities)[family].requested;
      var i := 0;
      while i < count
        invariant 0 <= i <= count
        invariant priorities == old(priorities)[family := QueuePriorities(old(priorities)[family].required, old(priorities)[family].requested + Copies(i, priority))]
      {
        assert Copies(i + 1, priority) == Copies(i, priority) + [priority];
        assert old(priorities)[family].requested + Copies(i + 1, priority) == (old(priorities)[family].requested + Copies(i, priority)) + [priority];
        priorities := priorities[family := priorities[family].(requested := priorities[family].requested + [priority])];
        i := i + 1;
      }
    }

    /** `RequireQueue(type, count, priority)`: on the family the physical device chose for the type. */
    method RequireQueueOfType(t: VkQueue.QueueType, count: nat, priority: real)
      requires Valid() && t != VkQueue.Count
      requires 0 <= FamilyIndices(device)[TypeIndex(t)] < |priorities|
      modifies this`priorities
      ensures Valid()
      ensures var f := FamilyIndices(device)[TypeIndex(t)];
        priorities == old(priorities)[f := QueuePriorities(old(priorities)[f].required + Copies(count, priority), old(priorities)[f].requested)]
    {
      RequireQueue(FamilyIndices(device)[TypeIndex(t)], count, priority);
    }

    /** `RequestQueue(type, count, priority)`: on the family the physical device chose for the type. */
    method RequestQueueOfType(t: VkQueue.QueueType, count: nat, priority: real)
      requires Valid() && t != VkQueue.Count
      requires 0 <= FamilyIndices(device)[TypeIndex(t)] < |priorities|
      modifies this`priorities
      ensures Valid()
      ensures var f := FamilyIndices(device)[TypeIndex(t)];
        priorities == old(priorities)[f := QueuePriorities(old(priorities)[f].required, old(priorities)[f].requested + Copies(count, priority))]
    {
      RequestQueue(FamilyIndices(device)[TypeIndex(t)], count, priority);
    }

    /** The family loop's outcome over all families. */
    function Plan(): (r: Result<QueuePlan, Error>)
      requires Valid()
      reads this
    {
      PlanQueues(device.families, priorities, FamilyIndices(device), |priorities|)
    }

    /** What `Build` passes to `vkCreateDevice` once the family loop succeeded. */
    function CreateInfo(plan: QueuePlan): DeviceCreateInfo
      reads this
    {
      DeviceCreateInfo(plan.infos, device.enabledExtensions, layers, device.enabledFeatures,
                       Link(device.apiVersion, properties2))
    }

    /**
     * `Build`: the family loop, then `vkCreateDevice` (whose result is
     * `createResult` and whose new handle is `handle`), then the queue
     * objects per type. `submitted` is the create-info handed to the
     * driver, `None` when the family loop rejected the device.
     */
    method Build(createResult: int, handle: nat) returns (r: Result<LogicalDevice, Error>, submitted: Option<DeviceCreateInfo>)
      requires Valid()
      ensures Plan().Err? ==> r == Err(RejectedDevice) && submitted.None?
      ensures Plan().Ok? ==> submitted == Some(CreateInfo(Plan().value))
      ensures Plan().Ok? && createResult != VkSuccess ==> r == Err(Vulkan(createResult))
      ensures r.Ok? <==> Plan().Ok? && createResult == VkSuccess
      ensures r.Ok? ==> fresh(r.value) && r.value.handle == Some(handle) && r.value.deleted == []
      ensures r.Ok? ==> |r.value.queues| == QueueTypeCount && forall t :: 0 <= t < QueueTypeCount ==>
        |r.value.queues[t]| == Plan().value.counts[t] &&
        forall j :: 0 <= j < |r.value.queues[t]| ==> r.value.queues[t][j].Some?
      ensures r.Ok? ==> Consistent(Held(r.value.queues), r.value.objects, FamilyIndices(device))
    {
      var indices := FamilyIndices(device);
      var plan := RunFamilyLoop(device.families, priorities, indices);
      if plan.Err? {
        return Err(plan.error), None;
      }
      var infos, counts := plan.value.infos, plan.value.counts;
      submitted := Some(CreateInfo(QueuePlan(infos, counts)));
      if createResult != VkSuccess {
        return Err(Vulkan(createResult)), submitted;
      }
      var queues, objects := CreateQueues(indices, counts);
      HeldSlots(queues);
      var device := new LogicalDevice(handle, queues, objects);
      r := Ok(device);
    }
  }

  /** The family loop of `Build` (lines of `Build` before the device is created). */
  method RunFamilyLoop(families: seq<QueueFamily>, priorities: seq<QueuePriorities>, indices: seq<int>) returns (r: Result<QueuePlan, Error>)
    requires |priorities| <= |families| && |indices| == QueueTypeCount
    ensures r == PlanQueues(families, priorities, indices, |priorities|)
  {
    var infos: seq<QueueCreateInfo> := [];
    var counts: seq<nat> := [0, 0, 0, 0];
    var index := 0;
    while index < |priorities|
      invariant 0 <= index <= |priorities|
      invariant PlanQueues(families, priorities, indices, index) == Ok(QueuePlan(infos, counts))
    {
      var p := priorities[index];
      var family := families[index];
      if |p.required| > family.queueCount {
        PlanRejects(families, priorities, indices, |priorities|);
        return Err(RejectedDevice);
      }
      var fp := Final(p);
      var count := Min(family.queueCount, |fp|);
      if fp != [] {
        counts := AddCount(counts, indices, index, count);
        infos := infos + [QueueCreateInfo(index, count, fp)];
      }
      index := index + 1;
    }
    r := Ok(QueuePlan(infos, counts));
  }

  lemma HeldSlots(queues: seq<seq<nat>>)
    ensures Held(Slots(queues)) == queues
  {
    var h := Held(Slots(queues));
    assert forall t :: 0 <= t < |queues| ==> h[t] == queues[t];
  }

  /** The per-type queue slots of a freshly built device, all set. */
  function Slots(queues: seq<seq<nat>>): (r: seq<seq<Option<nat>>>)
    ensures |r| == |queues|
    ensures forall t :: 0 <= t < |r| ==> |r[t]| == |queues[t]| && forall j :: 0 <= j < |r[t]| ==> r[t][j] == Some(queues[t][j])
  {
    seq(|queues|, t requires 0 <= t < |queues| => seq(|queues[t]|, j requires 0 <= j < |queues[t]| => Some(queues[t][j])))
  }

  /** The objects a device's slots hold, read back as plain queue numbers (a nulled slot reads as 0). */
  function Held(slots: seq<seq<Option<nat>>>): (r: seq<seq<nat>>)
    ensures |r| == |slots|
    ensures forall t :: 0 <= t < |r| ==> (|r[t]| == |slots[t]| &&
      forall j :: 0 <= j < |r[t]| ==> r[t][j] == (if slots[t][j].Some? then slots[t][j].value else 0))
  {
    seq(|slots|, t requires 0 <= t < |slots| =>
      seq(|slots[t]|, j requires 0 <= j < |slots[t]| => if slots[t][j].Some? then slots[t][j].value else 0))
  }

  /** Some slot holds queue object `q`. */
  ghost predicate Holds(slots: seq<seq<Option<nat>>>, q: nat)
  {
    exists t, j :: 0 <= t < |slots| && 0 <= j < |slots[t]| && slots[t][j] == Some(q)
  }

  predicate NoRepeats(s: seq<nat>)
  {
    forall i, j :: 0 <= i < j < |s| ==> s[i] != s[j]
  }

  /**
   * A created device: its handle (`None` once destroyed), the queue slots
   * per type, the queue objects, and the objects deleted so far.
   */
  class LogicalDevice {
    var handle: Option<nat>
    var queues: seq<seq<Option<nat>>>
    const objects: seq<QueueObject>
    var deleted: seq<nat>
    var destroyedDevices: seq<nat>

    constructor(handle: nat, queues: seq<seq<nat>>, objects: seq<QueueObject>)
      ensures this.handle == Some(handle) && this.queues == Slots(queues) && this.objects == objects
      ensures deleted == [] && destroyedDevices == []
    {
      this.handle := Some(handle);
      this.queues := Slots(queues);
      this.objects := objects;
      deleted := [];
      destroyedDevices := [];
    }

    /**
     * `Destroy`, deleting every queue object once: each non-null slot is
     * nulled, each object it held is deleted unless a slot of another type
     * already led to its deletion, then the device is destroyed and its
     * handle nulled. A device already destroyed is left alone.
     */
    method Destroy()
      modifies this`handle, this`queues, this`deleted, this`destroyedDevices
      ensures old(handle).None? ==> (handle == old(handle) && queues == old(queues) &&
        deleted == old(deleted) && destroyedDevices == old(destroyedDevices))
      ensures old(handle).Some? ==> handle.None? && destroyedDevices == old(destroyedDevices) + [old(handle).value]
      ensures old(handle).Some? ==> (|queues| == |old(queues)| &&
        forall t :: 0 <= t < |queues| ==> |queues[t]| == |old(queues)[t]| && forall j :: 0 <= j < |queues[t]| ==> queues[t][j].None?)
      ensures old(handle).Some? ==> |deleted| >= |old(deleted)| && deleted[..|old(deleted)|] == old(deleted)
      ensures old(handle).Some? ==> NoRepeats(deleted[|old(deleted)|..])
      ensures old(handle).Some? ==> forall q :: q in deleted[|old(deleted)|..] <==> Holds(old(queues), q)
    {
      if handle.None? {
        return;
      }
      var device := handle.value;
      var before := deleted;
      var freed: seq<nat> := [];
      for t := 0 to |queues|
        invariant |queues| == |old(queues)|
        invariant deleted == before + freed && NoRepeats(freed)
        invariant handle == old(handle) && destroyedDevices == old(destroyedDevices)
        invariant forall u :: 0 <= u < |queues| ==> |queues[u]| == |old(queues)[u]|
        invariant forall u, j :: 0 <= u < t && 0 <= j < |queues[u]| ==> queues[u][j].None?
        invariant forall u :: t <= u < |queues| ==> queues[u] == old(queues)[u]
        invariant forall q :: q in freed <==> Holds(old(queues)[..t], q)
      {
        var cleared, freed' := ClearRow(queues[t], freed);
        HoldsNext(old(queues), t);
        queues := queues[t := cleared];
        freed := freed';
        deleted := before + freed;
      }
      assert old(queues)[..|queues|] == old(queues);
      assert deleted[|before|..] == freed;
      destroyedDevices := destroyedDevices + [device];
      handle := None;
    }
  }

  /**
   * The inner loop of `Destroy` over one queue type's slots: every slot is
   * nulled, and the object a slot held is deleted unless it was deleted
   * already.
   */
  method ClearRow(row: seq<Option<nat>>, freed: seq<nat>) returns (cleared: seq<Option<nat>>, freed': seq<nat>)
    requires NoRepeats(freed)
    ensures |cleared| == |row| && forall i :: 0 <= i < |cleared| ==> cleared[i].None?
    ensures NoRepeats(freed') && |freed'| >= |freed| && freed'[..|freed|] == freed
    ensures forall q :: q in freed' <==> q in freed || Some(q) in row
  {
    cleared, freed' := row, freed;
    for j := 0 to |row|
      invariant |cleared| == |row|
      invariant forall i :: 0 <= i < j ==> cleared[i].None?
      invariant forall i :: j <= i < |row| ==> cleared[i] == row[i]
      invariant NoRepeats(freed') && |freed'| >= |freed| && freed'[..|freed|] == freed
      invariant forall q :: q in freed' <==> q in freed || Some(q) in row[..j]
    {
      assert row[..j + 1] == row[..j] + [row[j]];
      var slot := cleared[j];
      if slot.Some? && slot.value !in freed' {
        freed' := freed' + [slot.value];
      }
      cleared := cleared[j := None];
    }
    assert row[..|row|] == row;
  }

  /** The rows before `t + 1` hold `q` when the rows before `t` or row `t` do. */
  lemma HoldsNext(slots: seq<seq<Option<nat>>>, t: nat)
    requires t < |slots|
    ensures forall q: nat :: Holds(slots[..t + 1], q) <==> Holds(slots[..t], q) || Some(q) in slots[t]
  {
    forall q: nat ensures Holds(slots[..t + 1], q) <==> Holds(slots[..t], q) || Some(q) in slots[t] {
      if Holds(slots[..t + 1], q) {
        var u, j :| 0 <= u < t + 1 && 0 <= j < |slots[..t + 1][u]| && slots[..t + 1][u][j] == Some(q);
        if u == t {
          assert slots[t][j] == Some(q);
        } else {
          assert slots[..t][u][j] == Some(q);
        }
      }
      if Some(q) in slots[t] {
        var j :| 0 <= j < |slots[t]| && slots[t][j] == Some(q);
        assert slots[..t + 1][t][j] == Some(q);
      }
      if Holds(slots[..t], q) {
        var u, j :| 0 <= u < t && 0 <= j < |slots[..t][u]| && slots[..t][u][j] == Some(q);
        assert slots[..t + 1][u][j] == Some(q);
      }
    }
  }

  /**
   * How often `Destroy` as written deletes queue object `q`: once for every
   * non-null slot holding it, whichever type the slot belongs to.
   */
  function DeletionsAsWritten(slots: seq<seq<Option<nat>>>, q: nat): nat
  {
    if slots == [] then 0 else RowDeletions(slots[0], q) + DeletionsAsWritten(slots[1..], q)
  }

  function RowDeletions(row: seq<Option<nat>>, q: nat): nat
  {
    if row == [] then 0 else (if row[0] == Some(q) then 1 else 0) + RowDeletions(row[1..], q)
  }

  lemma {:induction false} RowDeletionsHit(row: seq<Option<nat>>, q: nat, i: nat)
    requires i < |row| && row[i] == Some(q)
    ensures RowDeletions(row, q) >= 1
  {
    if i > 0 {
      RowDeletionsHit(row[1..], q, i - 1);
    }
  }

  /**
   * As written, `Destroy` deletes twice the first queue object of a device
   * whose graphics and compute queues live on the same family: both types'
   * slot 0 point at the same object, and only the slot is nulled.
   */
  lemma SharedQueueDeletedTwice(queues: seq<seq<nat>>, objects: seq<QueueObject>, indices: seq<int>)
    requires Consistent(queues, objects, indices) && |indices| == QueueTypeCount
    requires indices[TypeIndex(VkQueue.Graphics)] == indices[TypeIndex(VkQueue.Compute)]
    requires |queues[TypeIndex(VkQueue.Graphics)]| > 0 && |queues[TypeIndex(VkQueue.Compute)]| > 0
    ensures DeletionsAsWritten(Slots(queues), queues[TypeIndex(VkQueue.Graphics)][0]) >= 2
  {
    var slots := Slots(queues);
    var q := queues[0][0];
    SharedFamilyShares(queues, objects, indices, 0, 1, 0);
    RowDeletionsHit(slots[0], q, 0);
    RowDeletionsHit(slots[1], q, 0);
    assert slots[1..][0] == slots[1];
    assert DeletionsAsWritten(slots, q) == RowDeletions(slots[0], q) + RowDeletions(slots[1], q) + DeletionsAsWritten(slots[2..], q) by {
      assert slots[1..][1..] == slots[2..];
    }
  }

  /** The image tilings `FindSupportedFormat` tells apart; any other tiling matches nothing. */
  datatype Tiling = Linear | Optimal | OtherTiling

  /** `VkFormatProperties`: the feature bits per tiling, as sets of bit positions. */
  datatype FormatProperties = FormatProperties(linear: set<nat>, optimal: set<nat>)

  /** The format's features for the tiling contain all the wanted ones. */
  predicate Suits(props: FormatProperties, tiling: Tiling, features: set<nat>)
  {
    (tiling == Linear && features <= props.linear) || (tiling == Optimal && features <= props.optimal)
  }

  /**
   * The first candidate whose properties, as the driver reports them
   * (`query`), suit the tiling and features; `NoFormatSupported` when none
   * does.
   */
  function FirstSupportedFormat(candidates: seq<Images.Format>, query: Images.Format -> FormatProperties,
                                tiling: Tiling, features: set<nat>): (r: Result<Images.Format, Error>)
    ensures r.Err? <==> forall i :: 0 <= i < |candidates| ==> !Suits(query(candidates[i]), tiling, features)
    ensures r.Err? ==> r.error == NoFormatSupported
    ensures r.Ok? ==> exists i :: (0 <= i < |candidates| && r.value == candidates[i] &&
      Suits(query(candidates[i]), tiling, features) &&
      forall j :: 0 <= j < i ==> !Suits(query(candidates[j]), tiling, features))
    decreases |candidates|
  {
    if candidates == [] then Err(NoFormatSupported)
    else if Suits(query(candidates[0]), tiling, features) then Ok(candidates[0])
    else
      var r := FirstSupportedFormat(candidates[1..], query, tiling, features);
      assert forall i :: 1 <= i < |candidates| ==> candidates[i] == candidates[1..][i - 1];
      if r.Ok? then
        var i :| 0 <= i < |candidates[1..]| && r.value == candidates[1..][i] &&
                 Suits(query(candidates[1..][i]), tiling, features) &&
                 forall j :: 0 <= j < i ==> !Suits(query(candidates[1..][j]), tiling, features);
        assert candidates[i + 1] == r.value;
        r
      else r
  }

  /**
   * `FindSupportedFormat`: walks the candidates, asking the driver for each
   * one's properties, and returns the first that suits.
   */
  method FindSupportedFormat(candidates: seq<Images.Format>, query: Images.Format -> FormatProperties,
                             tiling: Tiling, features: set<nat>) returns (r: Result<Images.Format, Error>)
    ensures r == FirstSupportedFormat(candidates, query, tiling, features)
  {
    var i := 0;
    while i < |candidates|
      invariant 0 <= i <= |candidates|
      invariant FirstSupportedFormat(candidates[i..], query, tiling, features) == FirstSupportedFormat(candidates, query, tiling, features)
    {
      var props := query(candidates[i]);
      if tiling == Linear && features <= props.linear {
        return Ok(candidates[i]);
      }
      if tiling == Optimal && features <= props.optimal {
        return Ok(candidates[i]);
      }
      assert candidates[i..][1..] == candidates[i + 1..];
      i := i + 1;
    }
    r := Err(NoFormatSupported);
  }
}

=== FILE: ordered_dict.dfy ===
/**
 * Python's `dict` with string keys: a map together with the order in which
 * its keys were first inserted, which is the order `items()` visits them in.
 */
module OrderedDict {

  datatype Dict<V> = Dict(order: seq<string>, values: map<string, V>)
  {
    /** Every key is listed exactly once. */
    ghost predicate Valid()
    {
      (forall i, j :: 0 <= i < j < |order| ==> order[i] != order[j]) &&
      (forall k :: k in values <==> k in order)
    }

    /**
     * `d[k] = v`: a new key goes to the end of the order, an existing key
     * keeps its place and only its value changes.
     */
    function Put(k: string, v: V): (r: Dict<V>)
      requires Valid()
      ensures r.Valid()
      ensures r.values == values[k := v]
      ensures k in values ==> r.order == order
      ensures k !in values ==> r.order == order + [k]
    {
      if k in values then Dict(order, values[k := v]) else Dict(order + [k], values[k := v])
    }
  }

  /**
   * `{k: v for k, v in pairs}`: a repeated key keeps the place of its first
   * occurrence and the value of its last.
   */
  function FromPairs<V>(pairs: seq<(string, V)>): (r: Dict<V>)
    ensures r.Valid()
    ensures forall k :: k in r.values <==> exists i :: 0 <= i < |pairs| && pairs[i].0 == k
    decreases |pairs|
  {
    if pairs == [] then Dict([], map[])
    else
      var init := FromPairs(pairs[..|pairs| - 1]);
      assert forall i :: 0 <= i < |pairs| - 1 ==> pairs[..|pairs| - 1][i] == pairs[i];
      init.Put(pairs[|pairs| - 1].0, pairs[|pairs| - 1].1)
  }

  /** The value a key ends up with is the one of its last occurrence. */
  lemma {:induction false} FromPairsLast<V>(pairs: seq<(string, V)>, i: nat)
    requires i < |pairs|
    requires forall j :: i < j < |pairs| ==> pairs[j].0 != pairs[i].0
    ensures FromPairs(pairs).values[pairs[i].0] == pairs[i].1
    decreases |pairs|
  {
    if i < |pairs| - 1 {
      var init := pairs[..|pairs| - 1];
      assert init[i] == pairs[i];
      FromPairsLast(init, i);
    }
  }

  /** Keys are listed in the order of their first occurrence. */
  lemma {:induction false} FromPairsFirst<V>(pairs: seq<(string, V)>, i: nat, j: nat)
    requires i < j < |pairs| && pairs[i].0 != pairs[j].0
    requires forall k :: 0 <= k < j ==> pairs[k].0 != pairs[j].0
    ensures exists p, q ::
              0 <= p < q < |FromPairs(pairs).order| &&
              FromPairs(pairs).order[p] == pairs[i].0 && FromPairs(pairs).order[q] == pairs[j].0
    decreases |pairs|
  {
    var init := pairs[..|pairs| - 1];
    if j < |pairs| - 1 {
      assert init[i] == pairs[i] && init[j] == pairs[j];
      FromPairsFirst(init, i, j);
      var p, q :| 0 <= p < q < |FromPairs(init).order| &&
        FromPairs(init).order[p] == pairs[i].0 && FromPairs(init).order[q] == pairs[j].0;
      assert FromPairs(pairs).order[p] == pairs[i].0 && FromPairs(pairs).order[q] == pairs[j].0;
    } else {
      assert init[i] == pairs[i];
      assert pairs[j].0 !in FromPairs(init).values by {
        forall k | 0 <= k < |init| ensures init[k].0 != pairs[j].0 {
          assert init[k] == pairs[k];
        }
      }
      assert pairs[i].0 in FromPairs(init).values;
      var d := FromPairs(init);
      var p :| 0 <= p < |d.order| && d.order[p] == pairs[i].0;
      assert FromPairs(pairs).order == d.order + [pairs[j].0];
      assert FromPairs(pairs).order[p] == pairs[i].0 && FromPairs(pairs).order[|d.order|] == pairs[j].0;
    }
  }
}

=== FILE: physical_device.dfy ===
/**
 * Physical devices: the selector's requirements, how one device is judged
 * against them (extensions, queue families, surface support, features,
 * memory), the order in which the candidates come back, and what a
 * selected device lets its owner enable afterwards.
 *
 * Every answer the judgement asks the driver for is a field of a
 * `DeviceReport`. A feature structure is the sequence of its boolean
 * members, in the order of the member tables; flag words are sets of
 * their named bits.
 */
module PhysicalDevices {
  import opened Wrappers
  import opened VkCommon
  import Instances
  import SwapChains

  // ---------------------------------------------------------------------
  // Feature structures

  /** The structures a `DeviceFeatures` bundles. */
  datatype FeatureStruct = CoreFeatures | Vulkan11Features | Vulkan12Features | Vulkan13Features | Vulkan14Features

  /** The length of each member table. */
  function MemberCount(s: FeatureStruct): nat
  {
    match s
    case CoreFeatures => 55
    case Vulkan11Features => 12
    case Vulkan12Features => 47
    case Vulkan13Features => 15
    case Vulkan14Features => 21
  }

  datatype DeviceFeatures = DeviceFeatures(
    core: seq<bool>,
    vulkan11: seq<bool>,
    vulkan12: seq<bool>,
    vulkan13: seq<bool>,
    vulkan14: seq<bool>)

  function Members(f: DeviceFeatures, s: FeatureStruct): seq<bool>
  {
    match s
    case CoreFeatures => f.core
    case Vulkan11Features => f.vulkan11
    case Vulkan12Features => f.vulkan12
    case Vulkan13Features => f.vulkan13
    case Vulkan14Features => f.vulkan14
  }

  /** Each structure has one entry per member of its table. */
  predicate Shaped(f: DeviceFeatures)
  {
    |f.core| == 55 && |f.vulkan11| == 12 && |f.vulkan12| == 47 && |f.vulkan13| == 15 && |f.vulkan14| == 21
  }

  /** A zero-initialised `DeviceFeatures{}`. */
  function NoFeatures(): (r: DeviceFeatures)
    ensures Shaped(r)
    ensures forall s, i :: 0 <= i < |Members(r, s)| ==> !Members(r, s)[i]
  {
    DeviceFeatures(seq(55, _ => false), seq(12, _ => false), seq(47, _ => false),
                   seq(15, _ => false), seq(21, _ => false))
  }

  /** Every member `requested` sets is also set in `supported`. */
  predicate Covers(supported: seq<bool>, requested: seq<bool>)
  {
    |supported| == |requested| &&
    forall i :: 0 <= i < |requested| && requested[i] ==> supported[i]
  }

  lemma CoversTrans(a: seq<bool>, b: seq<bool>, c: seq<bool>)
    requires Covers(a, b) && Covers(b, c)
    ensures Covers(a, c)
  {
  }

  /** `compareFeatureStructs`: false as soon as a requested member is unsupported. */
  method CompareFeatureStructs(supported: seq<bool>, requested: seq<bool>) returns (ok: bool)
    requires |supported| == |requested|
    ensures ok <==> Covers(supported, requested)
  {
    var i := 0;
    while i < |requested|
      invariant 0 <= i <= |requested|
      invariant forall j :: 0 <= j < i && requested[j] ==> supported[j]
    {
      if !supported[i] && requested[i] {
        return false;
      }
      i := i + 1;
    }
    return true;
  }

  /** The members set in either structure: the least structure covering both. */
  function Join(a: seq<bool>, b: seq<bool>): (r: seq<bool>)
    requires |a| == |b|
    ensures Covers(r, a) && Covers(r, b)
    ensures forall i :: 0 <= i < |r| && r[i] ==> a[i] || b[i]
  {
    seq(|a|, i requires 0 <= i < |a| => a[i] || b[i])
  }

  /** Joining what is already covered changes nothing. */
  lemma {:induction false} JoinCovered(a: seq<bool>, b: seq<bool>)
    requires Covers(a, b)
    ensures Join(a, b) == a
  {
    var r := Join(a, b);
    assert forall i :: 0 <= i < |a| ==> r[i] == a[i];
  }

  /** Anything covering both parts covers their join. */
  lemma JoinBounded(s: seq<bool>, a: seq<bool>, b: seq<bool>)
    requires Covers(s, a) && Covers(s, b)
    ensures Covers(s, Join(a, b))
  {
    var r := Join(a, b);
    forall i | 0 <= i < |r| && r[i]
      ensures s[i]
    {
      assert a[i] || b[i];
    }
  }

  /** `orFeatures` on one structure: each member of `src` is or-ed into `dst`. */
  method OrFeatureStruct(dst: seq<bool>, src: seq<bool>) returns (r: seq<bool>)
    requires |dst| == |src|
    ensures r == Join(dst, src)
  {
    r := dst;
    var i := 0;
    while i < |src|
      invariant 0 <= i <= |src| && |r| == |dst|
      invariant forall j :: 0 <= j < i ==> r[j] == (dst[j] || src[j])
      invariant forall j :: i <= j < |r| ==> r[j] == dst[j]
    {
      r := r[i := r[i] || src[i]];
      i := i + 1;
    }
  }

  /** `compareFeatures`: every structure of `supported` covers its counterpart. */
  predicate FeaturesCover(supported: DeviceFeatures, requested: DeviceFeatures)
  {
    Covers(supported.core, requested.core) &&
    Covers(supported.vulkan11, requested.vulkan11) &&
    Covers(supported.vulkan12, requested.vulkan12) &&
    Covers(supported.vulkan13, requested.vulkan13) &&
    Covers(supported.vulkan14, requested.vulkan14)
  }

  function JoinFeatures(a: DeviceFeatures, b: DeviceFeatures): (r: DeviceFeatures)
    requires Shaped(a) && Shaped(b)
    ensures Shaped(r) && FeaturesCover(r, a) && FeaturesCover(r, b)
    ensures forall s :: Members(r, s) == Join(Members(a, s), Members(b, s))
  {
    DeviceFeatures(Join(a.core, b.core), Join(a.vulkan11, b.vulkan11), Join(a.vulkan12, b.vulkan12),
                   Join(a.vulkan13, b.vulkan13), Join(a.vulkan14, b.vulkan14))
  }

  /** The structures are compared in order and the first failure answers. */
  method CompareFeatures(supported: DeviceFeatures, requested: DeviceFeatures) returns (ok: bool)
    requires Shaped(supported) && Shaped(requested)
    ensures ok <==> FeaturesCover(supported, requested)
  {
    ok := CompareFeatureStructs(supported.core, requested.core);
    if !ok { return; }
    ok := CompareFeatureStructs(supported.vulkan11, requested.vulkan11);
    if !ok { return; }
    ok := CompareFeatureStructs(supported.vulkan12, requested.vulkan12);
    if !ok { return; }
    ok := CompareFeatureStructs(supported.vulkan13, requested.vulkan13);
    if !ok { return; }
    ok := CompareFeatureStructs(supported.vulkan14, requested.vulkan14);
  }

  method OrFeatures(dst: DeviceFeatures, src: DeviceFeatures) returns (r: DeviceFeatures)
    requires Shaped(dst) && Shaped(src)
    ensures r == JoinFeatures(dst, src)
  {
    var core := OrFeatureStruct(dst.core, src.core);
    var v11 := OrFeatureStruct(dst.vulkan11, src.vulkan11);
    var v12 := OrFeatureStruct(dst.vulkan12, src.vulkan12);
    var v13 := OrFeatureStruct(dst.vulkan13, src.vulkan13);
    var v14 := OrFeatureStruct(dst.vulkan14, src.vulkan14);
    r := DeviceFeatures(core, v11, v12, v13, v14);
  }

  /** Enabling features the device supports keeps the enabled set supported. */
  lemma JoinFeaturesBounded(s: DeviceFeatures, a: DeviceFeatures, b: DeviceFeatures)
    requires Shaped(a) && Shaped(b)
    requires FeaturesCover(s, a) && FeaturesCover(s, b)
    ensures FeaturesCover(s, JoinFeatures(a, b))
  {
    JoinBounded(s.core, a.core, b.core);
    JoinBounded(s.vulkan11, a.vulkan11, b.vulkan11);
    JoinBounded(s.vulkan12, a.vulkan12, b.vulkan12);
    JoinBounded(s.vulkan13, a.vulkan13, b.vulkan13);
    JoinBounded(s.vulkan14, a.vulkan14, b.vulkan14);
  }

  // ---------------------------------------------------------------------
  // The features2 chain

  // `VK_API_VERSION_1_2`, `_1_3` and `_1_4`, packed as `Instances.MakeVersion` packs them.
  const Version1_2: nat := 0x40_2000
  const Version1_3: nat := 0x40_3000
  const Version1_4: nat := 0x40_4000

  /** The per-version structures in the only order the chain links them. */
  const ChainOrder: seq<FeatureStruct> := [Vulkan11Features, Vulkan12Features, Vulkan13Features, Vulkan14Features]

  /**
   * `createChain`: the structures linked behind the features2 head, in
   * order, before the user's own `Next`. Below version 1.2 the head points
   * straight at `Next`.
   */
  function Chain(apiVersion: nat): (r: seq<FeatureStruct>)
    ensures |r| <= |ChainOrder| && r == ChainOrder[..|r|]
    ensures CoreFeatures !in r
    ensures Vulkan11Features in r <==> apiVersion >= Version1_2
    ensures Vulkan12Features in r <==> apiVersion >= Version1_2
    ensures Vulkan13Features in r <==> apiVersion >= Version1_3
    ensures Vulkan14Features in r <==> apiVersion >= Version1_4
  {
    if apiVersion < Version1_2 then []
    else if apiVersion < Version1_3 then [Vulkan11Features, Vulkan12Features]
    else if apiVersion < Version1_4 then [Vulkan11Features, Vulkan12Features, Vulkan13Features]
    else ChainOrder
  }

  /**
   * The features a judgement sees: what the driver writes through the
   * chain; a structure left out of the chain keeps its zero initialisation.
   */
  function Fetched(apiVersion: nat, driver: DeviceFeatures): (r: DeviceFeatures)
    requires Shaped(driver)
    ensures Shaped(r)
    ensures forall s :: s == CoreFeatures || s in Chain(apiVersion) ==> Members(r, s) == Members(driver, s)
    ensures forall s :: s != CoreFeatures && s !in Chain(apiVersion) ==> Members(r, s) == Members(NoFeatures(), s)
  {
    var none := NoFeatures();
    var chain := Chain(apiVersion);
    DeviceFeatures(
      driver.core,
      if Vulkan11Features in chain then driver.vulkan11 else none.vulkan11,
      if Vulkan12Features in chain then driver.vulkan12 else none.vulkan12,
      if Vulkan13Features in chain then driver.vulkan13 else none.vulkan13,
      if Vulkan14Features in chain then driver.vulkan14 else none.vulkan14)
  }

  /** A structure the chain leaves out satisfies no requirement on it. */
  lemma UnchainedFeatureMissing(apiVersion: nat, driver: DeviceFeatures, required: DeviceFeatures, s: FeatureStruct, i: nat)
    requires Shaped(driver) && Shaped(required)
    requires s != CoreFeatures && s !in Chain(apiVersion) && i < |Members(required, s)| && Members(required, s)[i]
    ensures !FeaturesCover(Fetched(apiVersion, driver), required)
  {
    var f := Fetched(apiVersion, driver);
    assert !Members(f, s)[i];
  }

  // ---------------------------------------------------------------------
  // Queue families

  datatype QueueBit = GraphicsBit | ComputeBit | TransferBit | SparseBindingBit | ProtectedBit

  datatype QueueFamily = QueueFamily(queueCount: nat, flags: set<QueueBit>)

  /** The family has queues, all the `wanted` capabilities and none of the `forbidden` ones. */
  predicate Offers(f: QueueFamily, wanted: set<QueueBit>, forbidden: set<QueueBit>)
  {
    f.queueCount > 0 && wanted <= f.flags && f.flags !! forbidden
  }

  predicate Available(families: seq<QueueFamily>, wanted: set<QueueBit>, forbidden: set<QueueBit>)
  {
    exists i :: 0 <= i < |families| && Offers(families[i], wanted, forbidden)
  }

  /** Forbidding less can only find more. */
  lemma AvailableWeaken(families: seq<QueueFamily>, wanted: set<QueueBit>, forbidden: set<QueueBit>, fewer: set<QueueBit>)
    requires fewer <= forbidden && Available(families, wanted, forbidden)
    ensures Available(families, wanted, fewer)
  {
    var i :| 0 <= i < |families| && Offers(families[i], wanted, forbidden);
    assert Offers(families[i], wanted, fewer);
  }

  /** The first family offering `wanted` without `forbidden`, or `U32Max`. */
  function FirstOffering(families: seq<QueueFamily>, wanted: set<QueueBit>, forbidden: set<QueueBit>): (r: int)
    requires |families| <= U32Max
    ensures r == U32Max <==> !Available(families, wanted, forbidden)
    ensures r != U32Max ==> 0 <= r < |families| && Offers(families[r], wanted, forbidden) &&
                            forall j :: 0 <= j < r ==> !Offers(families[j], wanted, forbidden)
    decreases |families|
  {
    if families == [] then U32Max
    else if Offers(families[0], wanted, forbidden) then 0
    else
      var k := FirstOffering(families[1..], wanted, forbidden);
      assert forall i :: 0 < i < |families| ==> families[i] == families[1..][i - 1];
      if k == U32Max then U32Max else k + 1
  }

  /** The last family offering `wanted` without `forbidden`, or `U32Max`. */
  function LastOffering(families: seq<QueueFamily>, wanted: set<QueueBit>, forbidden: set<QueueBit>): (r: int)
    requires |families| <= U32Max
    ensures r == U32Max <==> !Available(families, wanted, forbidden)
    ensures r != U32Max ==> 0 <= r < |families| && Offers(families[r], wanted, forbidden) &&
                            forall j :: r < j < |families| ==> !Offers(families[j], wanted, forbidden)
    decreases |families|
  {
    if families == [] then U32Max
    else if Offers(families[|families| - 1], wanted, forbidden) then |families| - 1
    else
      var k := LastOffering(families[..|families| - 1], wanted, forbidden);
      assert forall i :: 0 <= i < |families| - 1 ==> families[i] == families[..|families| - 1][i];
      k
  }

  /**
   * `separatedQueueIndex`: among the families without graphics that offer
   * `wanted`, the first one also free of `forbidden`; failing that, the
   * last one.
   */
  function SeparateIndex(families: seq<QueueFamily>, wanted: set<QueueBit>, forbidden: set<QueueBit>): (r: int)
    requires |families| <= U32Max
    ensures r == U32Max <==> !Available(families, wanted, {GraphicsBit})
    ensures r != U32Max ==> 0 <= r < |families| && Offers(families[r], wanted, {GraphicsBit})
    ensures Available(families, wanted, forbidden + {GraphicsBit}) ==>
              r == FirstOffering(families, wanted, forbidden + {GraphicsBit})
    ensures !Available(families, wanted, forbidden + {GraphicsBit}) ==>
              r == LastOffering(families, wanted, {GraphicsBit})
  {
    var first := FirstOffering(families, wanted, forbidden + {GraphicsBit});
    if first != U32Max then
      assert Offers(families[first], wanted, {GraphicsBit});
      first
    else LastOffering(families, wanted, {GraphicsBit})
  }

  /** `compatibleQueueIndex` (no `forbidden`) and `dedicatedQueueIndex`. */
  method QueueIndex(families: seq<QueueFamily>, wanted: set<QueueBit>, forbidden: set<QueueBit>) returns (r: int)
    requires |families| <= U32Max
    ensures r == FirstOffering(families, wanted, forbidden)
  {
    var i := 0;
    while i < |families|
      invariant 0 <= i <= |families|
      invariant forall j :: 0 <= j < i ==> !Offers(families[j], wanted, forbidden)
    {
      if families[i].queueCount > 0 && wanted <= families[i].flags && families[i].flags !! forbidden {
        return i;
      }
      i := i + 1;
    }
    return U32Max;
  }

  method SeparatedQueueIndex(families: seq<QueueFamily>, wanted: set<QueueBit>, forbidden: set<QueueBit>)
      returns (r: int)
    requires |families| <= U32Max
    ensures r == SeparateIndex(families, wanted, forbidden)
  {
    var index := U32Max;
    var i := 0;
    while i < |families|
      invariant 0 <= i <= |families|
      invariant index == LastOffering(families[..i], wanted, {GraphicsBit})
      invariant forall j :: 0 <= j < i ==> !Offers(families[j], wanted, forbidden + {GraphicsBit})
    {
      LastOfferingNext(families, i, wanted, {GraphicsBit});
      if families[i].queueCount > 0 && wanted <= families[i].flags && GraphicsBit !in families[i].flags {
        if families[i].flags !! forbidden {
          assert Offers(families[i], wanted, forbidden + {GraphicsBit});
          FirstOfferingIs(families, wanted, forbidden + {GraphicsBit}, i);
          return i;
        }
        index := i;
      }
      i := i + 1;
    }
    assert families[..i] == families;
    assert !Available(families, wanted, forbidden + {GraphicsBit});
    return index;
  }

  /** One more family for the last offering. */
  lemma LastOfferingNext(families: seq<QueueFamily>, i: nat, wanted: set<QueueBit>, forbidden: set<QueueBit>)
    requires i < |families| <= U32Max
    ensures LastOffering(families[..i + 1], wanted, forbidden) ==
            if Offers(families[i], wanted, forbidden) then i else LastOffering(families[..i], wanted, forbidden)
  {
    assert families[..i + 1][..i] == families[..i];
  }

  /** A family that offers, with none before it that does, is the first offering. */
  lemma FirstOfferingIs(families: seq<QueueFamily>, wanted: set<QueueBit>, forbidden: set<QueueBit>, i: nat)
    requires i < |families| <= U32Max && Offers(families[i], wanted, forbidden)
    requires forall j :: 0 <= j < i ==> !Offers(families[j], wanted, forbidden)
    ensures FirstOffering(families, wanted, forbidden) == i
  {
    var r := FirstOffering(families, wanted, forbidden);
    assert r != U32Max;
  }

  /**
   * `presentQueueIndex`: the first family the surface can present from;
   * `U32Max` without a surface or without the query function.
   * `presents[i]` is the answer for family `i`, true when the query
   * succeeded and said yes.
   */
  function PresentIndex(surface: Option<nat>, queryLoaded: bool, presents: seq<bool>): (r: int)
    requires |presents| <= U32Max
    ensures surface.None? || !queryLoaded ==> r == U32Max
    ensures r == U32Max <==> surface.None? || !queryLoaded || true !in presents
    ensures r != U32Max ==> 0 <= r < |presents| && presents[r] && true !in presents[..r]
    decreases |presents|
  {
    if surface.None? || !queryLoaded || presents == [] then U32Max
    else if presents[0] then 0
    else
      var k := PresentIndex(surface, queryLoaded, presents[1..]);
      assert presents == [presents[0]] + presents[1..];
      if k == U32Max then U32Max
      else
        assert presents[..k + 1] == [presents[0]] + presents[1..][..k];
        k + 1
  }

  method PresentQueueIndex(surface: Option<nat>, queryLoaded: bool, presents: seq<bool>) returns (r: int)
    requires |presents| <= U32Max
    ensures r == PresentIndex(surface, queryLoaded, presents)
  {
    if surface.None? || !queryLoaded {
      return U32Max;
    }
    var i := 0;
    while i < |presents|
      invariant 0 <= i <= |presents|
      invariant true !in presents[..i]
    {
      assert presents[..i + 1] == presents[..i] + [presents[i]];
      if presents[i] {
        return i;
      }
      i := i + 1;
    }
    assert presents[..i] == presents;
    return U32Max;
  }

  /** How well a role (compute or transfer) is served. */
  datatype Level = NoQueue | Compatible | Separate | Dedicated

  datatype Role = Role(index: int, level: Level)

  /**
   * The choice for compute (`other` is transfer) or transfer (`other` is
   * compute): a dedicated family, else a separate one, else any
   * compatible one.
   */
  function ChooseRole(families: seq<QueueFamily>, bit: QueueBit, other: QueueBit): (r: Role)
    requires |families| <= U32Max
    ensures r.level == NoQueue <==> r.index == U32Max
    ensures r.level == NoQueue <==> !Available(families, {bit}, {})
    ensures r.level in {Separate, Dedicated} <==> Available(families, {bit}, {GraphicsBit})
    ensures r.level == Dedicated <==> Available(families, {bit}, {GraphicsBit, other})
    ensures r.index != U32Max ==> 0 <= r.index < |families| && Offers(families[r.index], {bit}, {})
    ensures r.level == Separate ==> Offers(families[r.index], {bit}, {GraphicsBit})
    ensures r.level == Dedicated ==> Offers(families[r.index], {bit}, {GraphicsBit, other})
  {
    var dedicated := FirstOffering(families, {bit}, {GraphicsBit, other});
    var separate := SeparateIndex(families, {bit}, {other});
    var compatible := FirstOffering(families, {bit}, {});
    if dedicated != U32Max then
      AvailableWeaken(families, {bit}, {GraphicsBit, other}, {GraphicsBit});
      AvailableWeaken(families, {bit}, {GraphicsBit, other}, {});
      assert Offers(families[dedicated], {bit}, {});
      Role(dedicated, Dedicated)
    else if separate != U32Max then
      AvailableWeaken(families, {bit}, {GraphicsBit}, {});
      assert Offers(families[separate], {bit}, {});
      Role(separate, Separate)
    else if compatible != U32Max then
      Role(compatible, Compatible)
    else
      Role(U32Max, NoQueue)
  }

  datatype DeviceFlag =
    | Optimal
    | HasDedicatedComputeQueue
    | HasDedicatedTransferQueue
    | HasSeparateTransferQueue
    | HasSeparateComputeQueue
    | PortabilitySubsetFlag
    | HasGraphicsQueue
    | HasComputeQueue
    | HasTransferQueue
    | HasPresentQueue

  /** The flags the queue choice raises: each level implies the ones below it. */
  predicate Raised(f: DeviceFlag, graphics: int, present: int, compute: Level, transfer: Level)
  {
    match f
    case Optimal => false
    case PortabilitySubsetFlag => false
    case HasGraphicsQueue => graphics != U32Max
    case HasPresentQueue => present != U32Max
    case HasComputeQueue => compute != NoQueue
    case HasSeparateComputeQueue => compute == Separate || compute == Dedicated
    case HasDedicatedComputeQueue => compute == Dedicated
    case HasTransferQueue => transfer != NoQueue
    case HasSeparateTransferQueue => transfer == Separate || transfer == Dedicated
    case HasDedicatedTransferQueue => transfer == Dedicated
  }

  const AllDeviceFlags: set<DeviceFlag> :=
    {Optimal, HasDedicatedComputeQueue, HasDedicatedTransferQueue, HasSeparateTransferQueue,
     HasSeparateComputeQueue, PortabilitySubsetFlag, HasGraphicsQueue, HasComputeQueue,
     HasTransferQueue, HasPresentQueue}

  /** What the queue families offer: the four indices and the flags recording them. */
  datatype QueueChoice = QueueChoice(graphics: int, compute: Role, transfer: Role, present: int, flags: set<DeviceFlag>)

  /** Lines 491-553 of the judgement. */
  function ChooseQueues(families: seq<QueueFamily>, present: int): (r: QueueChoice)
    requires |families| <= U32Max
    ensures r.graphics == FirstOffering(families, {GraphicsBit}, {}) && r.present == present
    ensures r.compute == ChooseRole(families, ComputeBit, TransferBit)
    ensures r.transfer == ChooseRole(families, TransferBit, ComputeBit)
    ensures forall f :: f in r.flags <==> f in AllDeviceFlags && Raised(f, r.graphics, r.present, r.compute.level, r.transfer.level)
  {
    var graphics := FirstOffering(families, {GraphicsBit}, {});
    var compute := ChooseRole(families, ComputeBit, TransferBit);
    var transfer := ChooseRole(families, TransferBit, ComputeBit);
    QueueChoice(graphics, compute, transfer, present, RaisedFlags(graphics, present, compute.level, transfer.level))
  }

  /** The device flags a queue choice raises. */
  function RaisedFlags(graphics: int, present: int, compute: Level, transfer: Level): (r: set<DeviceFlag>)
    ensures forall f :: f in r <==> f in AllDeviceFlags && Raised(f, graphics, present, compute, transfer)
  {
    set f | f in AllDeviceFlags && Raised(f, graphics, present, compute, transfer)
  }

  /** Each flag the choice raises names a family that offers what the flag says. */
  lemma QueueFlagsMeaning(families: seq<QueueFamily>, present: int, q: QueueChoice)
    requires |families| <= U32Max && q == ChooseQueues(families, present)
    ensures HasGraphicsQueue in q.flags ==>
              0 <= q.graphics < |families| && Offers(families[q.graphics], {GraphicsBit}, {})
    ensures HasPresentQueue in q.flags ==> q.present != U32Max
    ensures HasComputeQueue in q.flags ==>
              0 <= q.compute.index < |families| && Offers(families[q.compute.index], {ComputeBit}, {})
    ensures HasSeparateComputeQueue in q.flags ==>
              0 <= q.compute.index < |families| && Offers(families[q.compute.index], {ComputeBit}, {GraphicsBit})
    ensures HasDedicatedComputeQueue in q.flags ==>
              0 <= q.compute.index < |families| &&
              Offers(families[q.compute.index], {ComputeBit}, {GraphicsBit, TransferBit})
    ensures HasTransferQueue in q.flags ==>
              0 <= q.transfer.index < |families| && Offers(families[q.transfer.index], {TransferBit}, {})
    ensures HasSeparateTransferQueue in q.flags ==>
              0 <= q.transfer.index < |families| && Offers(families[q.transfer.index], {TransferBit}, {GraphicsBit})
    ensures HasDedicatedTransferQueue in q.flags ==>
              0 <= q.transfer.index < |families| &&
              Offers(families[q.transfer.index], {TransferBit}, {GraphicsBit, ComputeBit})
  {
    RaisedMeaning(q.graphics, q.present, q.compute.level, q.transfer.level);
    RoleOffers(families, ComputeBit, TransferBit, q.compute);
    RoleOffers(families, TransferBit, ComputeBit, q.transfer);
  }

  /** Each raised flag stands for the level or index that raises it. */
  lemma RaisedMeaning(graphics: int, present: int, compute: Level, transfer: Level)
    ensures var flags := RaisedFlags(graphics, present, compute, transfer);
      (HasGraphicsQueue in flags ==> graphics != U32Max) &&
      (HasPresentQueue in flags ==> present != U32Max) &&
      (HasComputeQueue in flags ==> compute != NoQueue) &&
      (HasSeparateComputeQueue in flags ==> compute in {Separate, Dedicated}) &&
      (HasDedicatedComputeQueue in flags ==> compute == Dedicated) &&
      (HasTransferQueue in flags ==> transfer != NoQueue) &&
      (HasSeparateTransferQueue in flags ==> transfer in {Separate, Dedicated}) &&
      (HasDedicatedTransferQueue in flags ==> transfer == Dedicated)
  {
  }

  /** The family a role names offers what its level promises. */
  lemma RoleOffers(families: seq<QueueFamily>, bit: QueueBit, other: QueueBit, r: Role)
    requires |families| <= U32Max && r == ChooseRole(families, bit, other)
    ensures r.level != NoQueue ==> 0 <= r.index < |families| && Offers(families[r.index], {bit}, {})
    ensures r.level in {Separate, Dedicated} ==>
              0 <= r.index < |families| && Offers(families[r.index], {bit}, {GraphicsBit})
    ensures r.level == Dedicated ==> 0 <= r.index < |families| && Offers(families[r.index], {bit}, {GraphicsBit, other})
  {
    if r.level == Dedicated {
      assert Offers(families[r.index], {bit}, {GraphicsBit});
    }
  }

  // ---------------------------------------------------------------------
  // Selector flags

  datatype SelectorFlag =
    | AnyType
    | RequireDedicatedComputeQueue
    | RequireDedicatedTransferQueue
    | RequireSeparateComputeQueue
    | RequireSeparateTransferQueue
    | PortabilitySubset
    | RequireGraphicsQueue
    | RequireComputeQueue
    | RequireTransferQueue
    | RequirePresentQueue

  /** A dedicated or separate queue requirement implies the plain one. */
  function Effective(flags: set<SelectorFlag>): (r: set<SelectorFlag>)
    ensures flags <= r && r - flags <= {RequireComputeQueue, RequireTransferQueue}
    ensures RequireComputeQueue in r <==>
              RequireComputeQueue in flags || RequireDedicatedComputeQueue in flags || RequireSeparateComputeQueue in flags
    ensures RequireTransferQueue in r <==>
              RequireTransferQueue in flags || RequireDedicatedTransferQueue in flags || RequireSeparateTransferQueue in flags
  {
    flags +
    (if RequireDedicatedComputeQueue in flags || RequireSeparateComputeQueue in flags
     then {RequireComputeQueue} else {}) +
    (if RequireDedicatedTransferQueue in flags || RequireSeparateTransferQueue in flags
     then {RequireTransferQueue} else {})
  }

  /** Each queue the selector requires is one the device has. */
  predicate QueuesMet(flags: set<SelectorFlag>, device: set<DeviceFlag>)
  {
    (RequireGraphicsQueue in flags ==> HasGraphicsQueue in device) &&
    (RequireComputeQueue in flags ==> HasComputeQueue in device) &&
    (RequireTransferQueue in flags ==> HasTransferQueue in device) &&
    (RequirePresentQueue in flags ==> HasPresentQueue in device) &&
    (RequireDedicatedComputeQueue in flags ==> HasDedicatedComputeQueue in device) &&
    (RequireDedicatedTransferQueue in flags ==> HasDedicatedTransferQueue in device) &&
    (RequireSeparateComputeQueue in flags ==> HasSeparateComputeQueue in device) &&
    (RequireSeparateTransferQueue in flags ==> HasSeparateTransferQueue in device)
  }

  // ---------------------------------------------------------------------
  // Memory

  datatype Heap = Heap(deviceLocal: bool, size: nat)

  predicate HasLocalHeap(heaps: seq<Heap>)
  {
    exists i :: 0 <= i < |heaps| && heaps[i].deviceLocal
  }

  /** A device-local heap of at least `size` bytes; nothing is needed for zero. */
  predicate HasMemory(heaps: seq<Heap>, size: nat)
  {
    size == 0 || exists i :: 0 <= i < |heaps| && heaps[i].deviceLocal && heaps[i].size >= size
  }

  /**
   * The heap scan of the judgement. It stops at a device-local heap once
   * the requested size is found, and the answers are still exact.
   */
  method ScanHeaps(heaps: seq<Heap>, requested: nat, required: nat)
      returns (hasLocal: bool, hasRequested: bool, hasRequired: bool)
    requires required <= requested
    ensures hasLocal <==> HasLocalHeap(heaps)
    ensures hasRequested <==> HasMemory(heaps, requested)
    ensures hasRequired <==> HasMemory(heaps, required)
  {
    hasLocal := false;
    hasRequested := requested == 0;
    hasRequired := required == 0;
    var i := 0;
    while i < |heaps|
      invariant 0 <= i <= |heaps|
      invariant hasLocal <==> HasLocalHeap(heaps[..i])
      invariant hasRequested <==> HasMemory(heaps[..i], requested)
      invariant hasRequired <==> HasMemory(heaps[..i], required)
      invariant hasRequested ==> hasRequired
    {
      assert heaps[..i + 1] == heaps[..i] + [heaps[i]];
      if heaps[i].deviceLocal {
        hasLocal := true;
        if hasRequested {
          MemoryPrefix(heaps, i + 1, requested);
          MemoryPrefix(heaps, i + 1, required);
          assert heaps[..i + 1][i] == heaps[i];
          return;
        }
        if heaps[i].size >= requested {
          hasRequested := true;
        }
        if heaps[i].size >= required {
          hasRequired := true;
        }
      }
      i := i + 1;
    }
    assert heaps[..i] == heaps;
  }

  lemma MemoryPrefix(heaps: seq<Heap>, n: nat, size: nat)
    requires n <= |heaps|
    ensures HasMemory(heaps[..n], size) ==> HasMemory(heaps, size)
    ensures HasLocalHeap(heaps[..n]) ==> HasLocalHeap(heaps)
  {
    if HasMemory(heaps[..n], size) && size != 0 {
      var i :| 0 <= i < n && heaps[..n][i].deviceLocal && heaps[..n][i].size >= size;
      assert heaps[i] == heaps[..n][i];
    }
    if HasLocalHeap(heaps[..n]) {
      var i :| 0 <= i < n && heaps[..n][i].deviceLocal;
      assert heaps[i] == heaps[..n][i];
    }
  }

  // ---------------------------------------------------------------------
  // Surface support

  /**
   * `querySwapChainSupport`, from the answers of the two count queries,
   * the capabilities query and the two list queries.
   */
  function QuerySwapChainSupport(formatCount: Result<nat, int>, modeCount: Result<nat, int>,
                                 capabilities: Result<SwapChains.Capabilities, int>,
                                 formats: Result<seq<SwapChains.SurfaceFormat>, int>,
                                 modes: Result<seq<nat>, int>): (r: Result<SwapChains.SwapChainSupport, Error>)
    requires formatCount.Ok? && formats.Ok? ==> |formats.value| == formatCount.value
    requires modeCount.Ok? && modes.Ok? ==> |modes.value| == modeCount.value
    ensures formatCount.Err? ==> r == Err(Vulkan(formatCount.error))
    ensures formatCount.Ok? && modeCount.Err? ==> r == Err(Vulkan(modeCount.error))
    ensures formatCount.Ok? && modeCount.Ok? && (formatCount.value == 0 || modeCount.value == 0) ==>
              r == Err(Vulkan(VkErrorInitializationFailed))
    ensures r.Ok? ==> capabilities.Ok? && formats.Ok? && modes.Ok? &&
                      r.value == SwapChains.SwapChainSupport(capabilities.value, formats.value, modes.value)
    ensures r.Ok? ==> |r.value.formats| > 0 && |r.value.presentModes| > 0
  {
    if formatCount.Err? then Err(Vulkan(formatCount.error))
    else if modeCount.Err? then Err(Vulkan(modeCount.error))
    else if formatCount.value == 0 || modeCount.value == 0 then Err(Vulkan(VkErrorInitializationFailed))
    else if capabilities.Err? then Err(Vulkan(capabilities.error))
    else if formats.Err? then Err(Vulkan(formats.error))
    else if modes.Err? then Err(Vulkan(modes.error))
    else Ok(SwapChains.SwapChainSupport(capabilities.value, formats.value, modes.value))
  }

  // ---------------------------------------------------------------------
  // Extensions

  const PortabilitySubsetExtension: string := "VK_KHR_portability_subset"
  const SwapChainExtension: string := "VK_KHR_swapchain"

  /**
   * The loop over the requested extensions: the available ones are
   * appended in order, and `all` records whether none was missing.
   */
  method AppendAvailable(list: seq<string>, xs: seq<string>, available: seq<string>)
      returns (r: seq<string>, all: bool)
    ensures r == list + Instances.Supported(xs, available)
    ensures all <==> Instances.AllIn(xs, available)
  {
    r := list;
    all := true;
    var i := 0;
    while i < |xs|
      invariant 0 <= i <= |xs|
      invariant r == list + Instances.Supported(xs[..i], available)
      invariant all <==> forall k :: 0 <= k < i ==> xs[k] in available
    {
      assert xs[..i + 1][..i] == xs[..i];
      if xs[i] in available {
        r := r + [xs[i]];
      } else {
        all := false;
      }
      i := i + 1;
    }
    assert xs[..i] == xs;
  }

  // ---------------------------------------------------------------------
  // Judging a device

  /** `VkPhysicalDeviceType`. */
  datatype DeviceType = Discrete | Integrated | VirtualGpu | Cpu | OtherType

  /**
   * What the driver answers about one device: the properties, the
   * extension enumeration (both calls), the queue families, the surface
   * support of each family and whether that query is loaded, the result of
   * `querySwapChainSupport`, every feature structure as the driver would
   * fill it, and the memory heaps.
   */
  datatype DeviceReport = DeviceReport(
    handle: nat,
    name: string,
    apiVersion: nat,
    deviceType: DeviceType,
    extensions: Result<seq<string>, int>,
    families: seq<QueueFamily>,
    presentQueryLoaded: bool,
    presents: seq<bool>,
    surfaceSupport: Result<SwapChains.SwapChainSupport, Error>,
    features: DeviceFeatures,
    heaps: seq<Heap>)

  /** One surface answer per family, and features of the right shape. */
  predicate WellFormed(d: DeviceReport)
  {
    |d.families| <= U32Max && |d.presents| == |d.families| && Shaped(d.features)
  }

  predicate AllWellFormed(ds: seq<DeviceReport>)
  {
    forall i :: 0 <= i < |ds| ==> WellFormed(ds[i])
  }

  /** `PhysicalDevice::Info`. */
  datatype DeviceInfo = DeviceInfo(
    apiVersion: nat,
    availableExtensions: seq<string>,
    enabledExtensions: seq<string>,
    flags: set<DeviceFlag>,
    graphicsIndex: int,
    computeIndex: int,
    transferIndex: int,
    presentIndex: int,
    families: seq<QueueFamily>,
    deviceType: DeviceType,
    availableFeatures: DeviceFeatures,
    enabledFeatures: DeviceFeatures)

  datatype Candidate = Candidate(handle: nat, info: DeviceInfo)

  /** The outcome of the name, version and extension checks. */
  datatype Screened = Screened(available: seq<string>, enabled: seq<string>, suitable: bool)

  /** The record a judged device carries; `optimal` raises the `Optimal` flag. */
  function Info(report: DeviceReport, s: Screened, q: QueueChoice, available: DeviceFeatures,
                enabled: DeviceFeatures, optimal: bool): (r: DeviceInfo)
    requires Optimal !in q.flags
    ensures r.flags - {Optimal} == q.flags && (Optimal in r.flags <==> optimal)
    ensures r.availableExtensions == s.available && r.enabledExtensions == s.enabled
    ensures r.availableFeatures == available && r.enabledFeatures == enabled
    ensures r.graphicsIndex == q.graphics && r.presentIndex == q.present
    ensures r.computeIndex == q.compute.index && r.transferIndex == q.transfer.index
    ensures r.apiVersion == report.apiVersion && r.families == report.families && r.deviceType == report.deviceType
  {
    DeviceInfo(report.apiVersion, s.available, s.enabled,
               q.flags + (if optimal then {Optimal} else {}),
               q.graphics, q.compute.index, q.transfer.index, q.present,
               report.families, report.deviceType, available, enabled)
  }

  /** Devices judged optimal come first. */
  predicate IsOptimal(d: Result<Candidate, Error>)
  {
    d.Ok? && Optimal in d.value.info.flags
  }

  /** The judged devices that are (`want`) or are not optimal, in order. */
  function Keep(xs: seq<Result<Candidate, Error>>, want: bool): (r: seq<Result<Candidate, Error>>)
    ensures forall i :: 0 <= i < |r| ==> IsOptimal(r[i]) == want
    ensures forall x :: x in r <==> x in xs && IsOptimal(x) == want
    decreases |xs|
  {
    if xs == [] then []
    else
      var init := Keep(xs[..|xs| - 1], want);
      assert xs == xs[..|xs| - 1] + [xs[|xs| - 1]];
      if IsOptimal(xs[|xs| - 1]) == want then init + [xs[|xs| - 1]] else init
  }

  /** `std::stable_partition` by optimality. */
  function Partition(xs: seq<Result<Candidate, Error>>): seq<Result<Candidate, Error>>
  {
    Keep(xs, true) + Keep(xs, false)
  }

  lemma {:induction false} KeepSplits(xs: seq<Result<Candidate, Error>>)
    ensures multiset(Keep(xs, true)) + multiset(Keep(xs, false)) == multiset(xs)
    decreases |xs|
  {
    if xs != [] {
      var init := xs[..|xs| - 1];
      KeepSplits(init);
      assert xs == init + [xs[|xs| - 1]];
    }
  }

  /** The partition reorders and loses nothing. */
  lemma PartitionPermutes(xs: seq<Result<Candidate, Error>>)
    ensures multiset(Partition(xs)) == multiset(xs)
  {
    KeepSplits(xs);
  }

  /** No device that is not optimal comes before an optimal one. */
  lemma PartitionOrdered(xs: seq<Result<Candidate, Error>>)
    ensures forall i, j :: 0 <= i < j < |Partition(xs)| && IsOptimal(Partition(xs)[j]) ==> IsOptimal(Partition(xs)[i])
  {
    var a, b := Keep(xs, true), Keep(xs, false);
    assert forall j :: |a| <= j < |a| + |b| ==> (a + b)[j] == b[j - |a|];
  }

  /** When any device is optimal, the first of the partition is. */
  lemma PartitionFirst(xs: seq<Result<Candidate, Error>>, k: nat)
    requires k < |xs| && IsOptimal(xs[k])
    ensures |Partition(xs)| > 0 && IsOptimal(Partition(xs)[0])
  {
    assert xs[k] in Keep(xs, true);
  }

  /** The loop of the partition: the two halves are collected in one pass. */
  method StablePartition(xs: seq<Result<Candidate, Error>>) returns (r: seq<Result<Candidate, Error>>)
    ensures r == Partition(xs)
  {
    var optimal := [];
    var others := [];
    var i := 0;
    while i < |xs|
      invariant 0 <= i <= |xs|
      invariant optimal == Keep(xs[..i], true) && others == Keep(xs[..i], false)
    {
      assert xs[..i + 1][..i] == xs[..i];
      if IsOptimal(xs[i]) {
        optimal := optimal + [xs[i]];
      } else {
        others := others + [xs[i]];
      }
      i := i + 1;
    }
    assert xs[..i] == xs;
    r := optimal + others;
  }

  // ---------------------------------------------------------------------
  // The selector

  class Selector {
    var name: Option<string>
    var requiredApiVersion: nat
    var requestedApiVersion: nat
    var surface: Option<nat>
    var preferredType: DeviceType
    var flags: set<SelectorFlag>
    var requiredMemory: nat
    var requestedMemory: nat
    var requiredExtensions: seq<string>
    var requestedExtensions: seq<string>
    var requiredFeatures: DeviceFeatures

    /**
     * Requirements never exceed requests (API version and memory), and the
     * required features have the shape of the member tables.
     */
    predicate Valid()
      reads this
    {
      requiredApiVersion <= requestedApiVersion && requiredMemory <= requestedMemory && Shaped(requiredFeatures)
    }

    /** A selector for an instance that is not headless requires a present queue. */
    constructor (headless: bool)
      ensures Valid()
      ensures name.None? && surface.None? && preferredType == Discrete
      ensures requiredApiVersion == Instances.Version1_0 && requestedApiVersion == Instances.Version1_0
      ensures requiredMemory == 0 && requestedMemory == 0
      ensures requiredExtensions == [] && requestedExtensions == []
      ensures requiredFeatures == NoFeatures()
      ensures flags == if headless then {} else {RequirePresentQueue}
    {
      name := None;
      requiredApiVersion := Instances.Version1_0;
      requestedApiVersion := Instances.Version1_0;
      surface := None;
      preferredType := Discrete;
      flags := if headless then {} else {RequirePresentQueue};
      requiredMemory := 0;
      requestedMemory := 0;
      requiredExtensions := [];
      requestedExtensions := [];
      requiredFeatures := NoFeatures();
    }

    method SetName(n: string)
      modifies this`name
      ensures name == Some(n)
    {
      name := Some(n);
    }

    method PreferType(t: DeviceType)
      modifies this`preferredType
      ensures preferredType == t
    {
      preferredType := t;
    }

    /** A higher requirement raises the request with it. */
    method RequireApiVersion(v: nat)
      requires Valid()
      modifies this`requiredApiVersion, this`requestedApiVersion
      ensures Valid()
      ensures requiredApiVersion == v
      ensures requestedApiVersion == if old(requestedApiVersion) < v then v else old(requestedApiVersion)
    {
      requiredApiVersion := v;
      if requestedApiVersion < requiredApiVersion {
        requestedApiVersion := requiredApiVersion;
      }
    }

    /** A lower request lowers the requirement with it. */
    method RequestApiVersion(v: nat)
      requires Valid()
      modifies this`requiredApiVersion, this`requestedApiVersion
      ensures Valid()
      ensures requestedApiVersion == v
      ensures requiredApiVersion == if v < old(requiredApiVersion) then v else old(requiredApiVersion)
    {
      requestedApiVersion := v;
      if requestedApiVersion < requiredApiVersion {
        requiredApiVersion := requestedApiVersion;
      }
    }

    method RequireExtensions(names: seq<string>)
      modifies this`requiredExtensions
      ensures requiredExtensions == old(requiredExtensions) + names
    {
      requiredExtensions := requiredExtensions + names;
    }

    method RequestExtensions(names: seq<string>)
      modifies this`requestedExtensions
      ensures requestedExtensions == old(requestedExtensions) + names
    {
      requestedExtensions := requestedExtensions + names;
    }

    /** A higher memory requirement raises the request with it. */
    method RequireMemory(size: nat)
      requires Valid()
      modifies this`requiredMemory, this`requestedMemory
      ensures Valid()
      ensures requiredMemory == size
      ensures requestedMemory == if old(requestedMemory) < size then size else old(requestedMemory)
    {
      requiredMemory := size;
      if requestedMemory < requiredMemory {
        requestedMemory := requiredMemory;
      }
    }

    /** A lower memory request lowers the requirement with it. */
    method RequestMemory(size: nat)
      requires Valid()
      modifies this`requiredMemory, this`requestedMemory
      ensures Valid()
      ensures requestedMemory == size
      ensures requiredMemory == if size < old(requiredMemory) then size else old(requiredMemory)
    {
      requestedMemory := size;
      if requestedMemory < requiredMemory {
        requiredMemory := requestedMemory;
      }
    }

    method RequireFeatures(f: DeviceFeatures)
      requires Valid() && Shaped(f)
      modifies this`requiredFeatures
      ensures Valid() && requiredFeatures == f
    {
      requiredFeatures := f;
    }

    method SetFlags(fs: set<SelectorFlag>)
      modifies this`flags
      ensures flags == fs
    {
      flags := fs;
    }

    method AddFlags(fs: set<SelectorFlag>)
      modifies this`flags
      ensures flags == old(flags) + fs
    {
      flags := flags + fs;
    }

    method RemoveFlags(fs: set<SelectorFlag>)
      modifies this`flags
      ensures flags == old(flags) - fs
    {
      flags := flags - fs;
    }

    method SetSurface(s: nat)
      modifies this`surface
      ensures surface == Some(s)
    {
      surface := Some(s);
    }

    /**
     * The name, API version and extension checks: a required extension
     * must be available; the available requested ones follow the required
     * ones; the portability subset and swap chain extensions are added
     * when the flags ask for them. A device that misses the requested
     * version or a requested extension stays a candidate but is not fully
     * suitable.
     */
    function Screen(report: DeviceReport): (r: Result<Screened, Error>)
      reads this
      ensures name.Some? && name.value != report.name ==> r == Err(Vulkan(VkErrorIncompatibleDriver))
      ensures report.apiVersion < requiredApiVersion ==> r == Err(Vulkan(VkErrorIncompatibleDriver))
      ensures (name.None? || name.value == report.name) && requiredApiVersion <= report.apiVersion ==>
                (report.extensions.Err? ==> r == Err(Vulkan(report.extensions.error))) &&
                (report.extensions.Ok? && !Instances.AllIn(requiredExtensions, report.extensions.value) ==>
                   r == Err(Vulkan(VkErrorExtensionNotPresent)))
      ensures r.Ok? ==> (name.None? || name.value == report.name) && requiredApiVersion <= report.apiVersion
      ensures r.Ok? ==> report.extensions.Ok? && r.value.available == report.extensions.value
      ensures r.Ok? ==> Instances.AllIn(requiredExtensions, r.value.available)
      ensures r.Ok? ==> Instances.Prefix(requiredExtensions, r.value.enabled)
      ensures r.Ok? ==> forall e :: e in requestedExtensions && e in r.value.available ==> e in r.value.enabled
      ensures r.Ok? ==> forall e :: e in r.value.enabled ==>
                          e in r.value.available || (e == SwapChainExtension && RequirePresentQueue in flags)
      ensures r.Ok? && RequirePresentQueue in flags ==> SwapChainExtension in r.value.enabled
      ensures r.Ok? && PortabilitySubset in flags && PortabilitySubsetExtension in r.value.available ==>
                PortabilitySubsetExtension in r.value.enabled
      ensures r.Ok? ==> (r.value.suitable <==> report.apiVersion >= requestedApiVersion &&
                                               Instances.AllIn(requestedExtensions, r.value.available))
    {
      if name.Some? && name.value != report.name then Err(Vulkan(VkErrorIncompatibleDriver))
      else if report.apiVersion < requiredApiVersion then Err(Vulkan(VkErrorIncompatibleDriver))
      else if report.extensions.Err? then Err(Vulkan(report.extensions.error))
      else
        var available := report.extensions.value;
        if !Instances.AllIn(requiredExtensions, available) then Err(Vulkan(VkErrorExtensionNotPresent))
        else
          var listed := requiredExtensions + Instances.Supported(requestedExtensions, available);
          var enabled := listed +
            (if PortabilitySubset in flags && PortabilitySubsetExtension in available then [PortabilitySubsetExtension] else []) +
            (if RequirePresentQueue in flags then [SwapChainExtension] else []);
          assert enabled[..|requiredExtensions|] == requiredExtensions;
          assert forall e :: e in listed ==> e in available;
          Ok(Screened(available, enabled,
                      report.apiVersion >= requestedApiVersion && Instances.AllIn(requestedExtensions, available)))
    }

    /**
     * The queue checks: every queue the (effective) flags require must be
     * there, and a present queue also needs the surface support query to
     * succeed.
     */
    function Queues(report: DeviceReport): (r: Result<QueueChoice, Error>)
      reads this
      requires WellFormed(report)
      ensures r.Ok? ==> r.value == ChooseQueues(report.families, PresentIndex(surface, report.presentQueryLoaded, report.presents))
      ensures r.Ok? ==> QueuesMet(Effective(flags), r.value.flags)
      ensures r.Ok? && RequirePresentQueue in flags ==> report.surfaceSupport.Ok?
      ensures !QueuesMet(Effective(flags), ChooseQueues(report.families, PresentIndex(surface, report.presentQueryLoaded, report.presents)).flags) ==>
                r == Err(Vulkan(VkErrorDeviceLost))
      ensures r.Err? ==> r.error == Vulkan(VkErrorDeviceLost) ||
                         (RequirePresentQueue in flags && report.surfaceSupport.Err? && r.error == report.surfaceSupport.error)
    {
      var q := ChooseQueues(report.families, PresentIndex(surface, report.presentQueryLoaded, report.presents));
      if !QueuesMet(Effective(flags), q.flags) then Err(Vulkan(VkErrorDeviceLost))
      else if RequirePresentQueue in flags && report.surfaceSupport.Err? then Err(report.surfaceSupport.error)
      else Ok(q)
    }

    /** The required features against those the chain brings back. */
    function FeatureCheck(report: DeviceReport): (r: Result<DeviceFeatures, Error>)
      reads this
      requires Valid() && WellFormed(report)
      ensures r.Ok? ==> r.value == Fetched(report.apiVersion, report.features) && FeaturesCover(r.value, requiredFeatures)
      ensures r.Err? <==> !FeaturesCover(Fetched(report.apiVersion, report.features), requiredFeatures)
      ensures r.Err? ==> r.error == Vulkan(VkErrorFeatureNotPresent)
    {
      var available := Fetched(report.apiVersion, report.features);
      if !FeaturesCover(available, requiredFeatures) then Err(Vulkan(VkErrorFeatureNotPresent))
      else Ok(available)
    }

    /**
     * The device type and memory checks. The answer says whether the
     * device is of the preferred type and has the requested memory.
     */
    function Placement(report: DeviceReport): (r: Result<bool, Error>)
      reads this
      ensures report.deviceType != preferredType && AnyType !in flags ==> r == Err(Vulkan(VkErrorDeviceLost))
      ensures r.Ok? ==> HasLocalHeap(report.heaps) && HasMemory(report.heaps, requiredMemory)
      ensures r.Ok? ==> (r.value <==> report.deviceType == preferredType && HasMemory(report.heaps, requestedMemory))
      ensures r.Err? && (report.deviceType == preferredType || AnyType in flags) ==>
                r.error == Vulkan(VkErrorOutOfDeviceMemory) &&
                (!HasLocalHeap(report.heaps) || !HasMemory(report.heaps, requiredMemory))
    {
      if report.deviceType != preferredType && AnyType !in flags then Err(Vulkan(VkErrorDeviceLost))
      else if !HasLocalHeap(report.heaps) || !HasMemory(report.heaps, requiredMemory) then Err(Vulkan(VkErrorOutOfDeviceMemory))
      else Ok(report.deviceType == preferredType && HasMemory(report.heaps, requestedMemory))
    }

    /**
     * `judgeDevice`: the checks in order, the first failure answering.
     * A device that passes has every required extension, queue, feature
     * and amount of memory, and it is flagged optimal exactly when it
     * also meets every request.
     */
    function Judge(report: DeviceReport): (r: Result<Candidate, Error>)
      reads this
      requires Valid() && WellFormed(report)
      ensures name.Some? && name.value != report.name ==> r == Err(Vulkan(VkErrorIncompatibleDriver))
      ensures report.apiVersion < requiredApiVersion ==> r == Err(Vulkan(VkErrorIncompatibleDriver))
      ensures r.Ok? ==> r.value.handle == report.handle && report.extensions.Ok?
      ensures r.Ok? ==> requiredApiVersion <= report.apiVersion
      ensures r.Ok? ==> forall e :: e in requiredExtensions ==>
                          e in r.value.info.availableExtensions && e in r.value.info.enabledExtensions
      ensures r.Ok? ==> QueuesMet(Effective(flags), r.value.info.flags)
      ensures r.Ok? ==> Queues(report).Ok? && Queues(report).value.flags <= r.value.info.flags &&
                        r.value.info.graphicsIndex == Queues(report).value.graphics &&
                        r.value.info.computeIndex == Queues(report).value.compute.index &&
                        r.value.info.transferIndex == Queues(report).value.transfer.index &&
                        r.value.info.presentIndex == Queues(report).value.present
      ensures r.Ok? ==> Shaped(r.value.info.availableFeatures) && r.value.info.enabledFeatures == requiredFeatures
      ensures r.Ok? ==> FeaturesCover(r.value.info.availableFeatures, r.value.info.enabledFeatures)
      ensures r.Ok? ==> HasMemory(report.heaps, requiredMemory)
      ensures r.Ok? ==> (Optimal in r.value.info.flags <==>
                          report.apiVersion >= requestedApiVersion &&
                          Instances.AllIn(requestedExtensions, report.extensions.value) &&
                          report.deviceType == preferredType && HasMemory(report.heaps, requestedMemory))
    {
      var s := Screen(report);
      if s.Err? then Err(s.error)
      else
        var q := Queues(report);
        if q.Err? then Err(q.error)
        else
          var f := FeatureCheck(report);
          if f.Err? then Err(f.error)
          else
            var p := Placement(report);
            if p.Err? then Err(p.error)
            else
              assert forall e :: e in requiredExtensions ==> e in s.value.enabled by {
                assert s.value.enabled[..|requiredExtensions|] == requiredExtensions;
              }
              Ok(Candidate(report.handle, Info(report, s.value, q.value, f.value, requiredFeatures, s.value.suitable && p.value)))
    }

    /** What a passing judgement promises about each queue the selector requires. */
    lemma JudgedQueues(report: DeviceReport)
      requires Valid() && WellFormed(report) && Judge(report).Ok?
      ensures var info := Judge(report).value.info;
              var fs := report.families;
              (RequireGraphicsQueue in flags ==>
                 0 <= info.graphicsIndex < |fs| && Offers(fs[info.graphicsIndex], {GraphicsBit}, {})) &&
              (RequireComputeQueue in Effective(flags) ==>
                 0 <= info.computeIndex < |fs| && Offers(fs[info.computeIndex], {ComputeBit}, {})) &&
              (RequireSeparateComputeQueue in flags ==>
                 0 <= info.computeIndex < |fs| && Offers(fs[info.computeIndex], {ComputeBit}, {GraphicsBit})) &&
              (RequireDedicatedComputeQueue in flags ==>
                 0 <= info.computeIndex < |fs| && Offers(fs[info.computeIndex], {ComputeBit}, {GraphicsBit, TransferBit})) &&
              (RequireTransferQueue in Effective(flags) ==>
                 0 <= info.transferIndex < |fs| && Offers(fs[info.transferIndex], {TransferBit}, {})) &&
              (RequireSeparateTransferQueue in flags ==>
                 0 <= info.transferIndex < |fs| && Offers(fs[info.transferIndex], {TransferBit}, {GraphicsBit})) &&
              (RequireDedicatedTransferQueue in flags ==>
                 0 <= info.transferIndex < |fs| && Offers(fs[info.transferIndex], {TransferBit}, {GraphicsBit, ComputeBit})) &&
              (RequirePresentQueue in flags ==>
                 0 <= info.presentIndex < |report.presents| && report.presents[info.presentIndex])
    {
      var q := Queues(report).value;
      QueueFlagsMeaning(report.families, PresentIndex(surface, report.presentQueryLoaded, report.presents), q);
    }

    /** The name, version and extension checks as the judgement runs them. */
    method ScreenDevice(report: DeviceReport) returns (r: Result<Screened, Error>)
      ensures r == Screen(report)
    {
      if name.Some? && name.value != report.name {
        return Err(Vulkan(VkErrorIncompatibleDriver));
      }
      if report.apiVersion < requiredApiVersion {
        return Err(Vulkan(VkErrorIncompatibleDriver));
      }
      var suitable := report.apiVersion >= requestedApiVersion;
      if report.extensions.Err? {
        return Err(Vulkan(report.extensions.error));
      }
      var available := report.extensions.value;
      var enabled := [];
      var i := 0;
      while i < |requiredExtensions|
        invariant 0 <= i <= |requiredExtensions|
        invariant enabled == requiredExtensions[..i]
        invariant forall k :: 0 <= k < i ==> requiredExtensions[k] in available
      {
        if requiredExtensions[i] !in available {
          return Err(Vulkan(VkErrorExtensionNotPresent));
        }
        assert requiredExtensions[..i + 1] == requiredExtensions[..i] + [requiredExtensions[i]];
        enabled := enabled + [requiredExtensions[i]];
        i := i + 1;
      }
      assert requiredExtensions[..i] == requiredExtensions;
      assert Instances.AllIn(requiredExtensions, available);
      var allRequested;
      enabled, allRequested := AppendAvailable(enabled, requestedExtensions, available);
      suitable := suitable && allRequested;
      if PortabilitySubset in flags && PortabilitySubsetExtension in available {
        enabled := enabled + [PortabilitySubsetExtension];
      }
      if RequirePresentQueue in flags {
        enabled := enabled + [SwapChainExtension];
      }
      assert Screen(report).Ok?;
      assert Screen(report).value.available == available;
      assert Screen(report).value.suitable == suitable;
      assert Screen(report).value.enabled == enabled;
      return Ok(Screened(available, enabled, suitable));
    }

    /** The queue searches, the flags they raise and the checks against the selector's flags. */
    method PickQueues(report: DeviceReport) returns (r: Result<QueueChoice, Error>)
      requires WellFormed(report)
      ensures r == Queues(report)
    {
      var families := report.families;
      var dedicatedCompute := QueueIndex(families, {ComputeBit}, {GraphicsBit, TransferBit});
      var dedicatedTransfer := QueueIndex(families, {TransferBit}, {GraphicsBit, ComputeBit});
      var separateCompute := SeparatedQueueIndex(families, {ComputeBit}, {TransferBit});
      var separateTransfer := SeparatedQueueIndex(families, {TransferBit}, {ComputeBit});
      var computeCompatible := QueueIndex(families, {ComputeBit}, {});
      var transferCompatible := QueueIndex(families, {TransferBit}, {});
      var graphics := QueueIndex(families, {GraphicsBit}, {});
      var present := PresentQueueIndex(surface, report.presentQueryLoaded, report.presents);

      var compute := Role(U32Max, NoQueue);
      if dedicatedCompute != U32Max {
        compute := Role(dedicatedCompute, Dedicated);
      } else if separateCompute != U32Max {
        compute := Role(separateCompute, Separate);
      } else if computeCompatible != U32Max {
        compute := Role(computeCompatible, Compatible);
      }
      assert compute == ChooseRole(families, ComputeBit, TransferBit);

      var transfer := Role(U32Max, NoQueue);
      if dedicatedTransfer != U32Max {
        transfer := Role(dedicatedTransfer, Dedicated);
      } else if separateTransfer != U32Max {
        transfer := Role(separateTransfer, Separate);
      } else if transferCompatible != U32Max {
        transfer := Role(transferCompatible, Compatible);
      }
      assert transfer == ChooseRole(families, TransferBit, ComputeBit);

      var deviceFlags := set f | f in AllDeviceFlags && Raised(f, graphics, present, compute.level, transfer.level);
      var choice := QueueChoice(graphics, compute, transfer, present, deviceFlags);
      assert choice == ChooseQueues(families, present);
      if !QueuesMet(Effective(flags), deviceFlags) {
        return Err(Vulkan(VkErrorDeviceLost));
      }
      if RequirePresentQueue in flags && report.surfaceSupport.Err? {
        return Err(report.surfaceSupport.error);
      }
      return Ok(choice);
    }

    /** The type check and the heap scan. */
    method CheckPlacement(report: DeviceReport) returns (r: Result<bool, Error>)
      requires Valid()
      ensures r == Placement(report)
    {
      var typed := report.deviceType == preferredType;
      if !typed && AnyType !in flags {
        return Err(Vulkan(VkErrorDeviceLost));
      }
      var hasLocal, hasRequested, hasRequired := ScanHeaps(report.heaps, requestedMemory, requiredMemory);
      if !hasLocal || !hasRequired {
        return Err(Vulkan(VkErrorOutOfDeviceMemory));
      }
      return Ok(typed && hasRequested);
    }

    method JudgeDevice(report: DeviceReport) returns (r: Result<Candidate, Error>)
      requires Valid() && WellFormed(report)
      ensures r == Judge(report)
    {
      var s := ScreenDevice(report);
      if s.Err? {
        return Err(s.error);
      }
      var q := PickQueues(report);
      if q.Err? {
        return Err(q.error);
      }
      var available := Fetched(report.apiVersion, report.features);
      var supported := CompareFeatures(available, requiredFeatures);
      if !supported {
        return Err(Vulkan(VkErrorFeatureNotPresent));
      }
      var p := CheckPlacement(report);
      if p.Err? {
        return Err(p.error);
      }
      var info := Info(report, s.value, q.value, available, requiredFeatures, s.value.suitable && p.value);
      return Ok(Candidate(report.handle, info));
    }

    /** Every report judged, in enumeration order. */
    function JudgeAll(reports: seq<DeviceReport>): (r: seq<Result<Candidate, Error>>)
      reads this
      requires Valid() && AllWellFormed(reports)
      ensures |r| == |reports| && forall i :: 0 <= i < |reports| ==> r[i] == Judge(reports[i])
      decreases |reports|
    {
      if reports == [] then []
      else JudgeAll(reports[..|reports| - 1]) + [Judge(reports[|reports| - 1])]
    }

    /**
     * `Enumerate`: a present queue needs a surface; the enumeration must
     * succeed and find a device; then every device is judged and the
     * optimal ones are moved to the front, keeping the order within each
     * group. `reports` is the answer of the enumeration.
     */
    function Enumerated(reports: Result<seq<DeviceReport>, int>): (r: Result<seq<Result<Candidate, Error>>, Error>)
      reads this
      requires Valid() && (reports.Ok? ==> AllWellFormed(reports.value))
      ensures RequirePresentQueue in flags && surface.None? ==> r == Err(Vulkan(VkErrorInitializationFailed))
      ensures !(RequirePresentQueue in flags && surface.None?) && reports.Err? ==> r == Err(Vulkan(reports.error))
      ensures !(RequirePresentQueue in flags && surface.None?) && reports == Ok([]) ==> r == Err(Vulkan(VkErrorDeviceLost))
      ensures r.Ok? ==> reports.Ok? && |r.value| == |reports.value| > 0
      ensures r.Ok? ==> multiset(r.value) == multiset(JudgeAll(reports.value))
      ensures r.Ok? ==> forall i, j :: 0 <= i < j < |r.value| && IsOptimal(r.value[j]) ==> IsOptimal(r.value[i])
      ensures r.Ok? ==> r.value == Partition(JudgeAll(reports.value))
    {
      if RequirePresentQueue in flags && surface.None? then Err(Vulkan(VkErrorInitializationFailed))
      else if reports.Err? then Err(Vulkan(reports.error))
      else if reports.value == [] then Err(Vulkan(VkErrorDeviceLost))
      else
        var judged := JudgeAll(reports.value);
        PartitionPermutes(judged);
        PartitionOrdered(judged);
        assert |Partition(judged)| == |multiset(Partition(judged))|;
        Ok(Partition(judged))
    }

    method Enumerate(reports: Result<seq<DeviceReport>, int>) returns (r: Result<seq<Result<Candidate, Error>>, Error>)
      requires Valid() && (reports.Ok? ==> AllWellFormed(reports.value))
      ensures r == Enumerated(reports)
    {
      if RequirePresentQueue in flags && surface.None? {
        return Err(Vulkan(VkErrorInitializationFailed));
      }
      if reports.Err? {
        return Err(Vulkan(reports.error));
      }
      var ds := reports.value;
      if |ds| == 0 {
        return Err(Vulkan(VkErrorDeviceLost));
      }
      var devices := [];
      var i := 0;
      while i < |ds|
        invariant 0 <= i <= |ds|
        invariant devices == JudgeAll(ds[..i])
      {
        assert ds[..i + 1][..i] == ds[..i];
        var judged := JudgeDevice(ds[i]);
        devices := devices + [judged];
        i := i + 1;
      }
      assert ds[..i] == ds;
      var sorted := StablePartition(devices);
      return Ok(sorted);
    }

    /**
     * `Select`: the first device of the enumeration, which is optimal
     * whenever any device is; when every device fails, it is the first
     * device's failure.
     */
    method Select(reports: Result<seq<DeviceReport>, int>) returns (r: Result<Candidate, Error>)
      requires Valid() && (reports.Ok? ==> AllWellFormed(reports.value))
      ensures Enumerated(reports).Err? ==> r == Err(Enumerated(reports).error)
      ensures Enumerated(reports).Ok? ==> r == Enumerated(reports).value[0]
      ensures Enumerated(reports).Ok? && (exists k :: 0 <= k < |reports.value| && IsOptimal(Judge(reports.value[k]))) ==>
                r.Ok? && Optimal in r.value.info.flags
    {
      var devices := Enumerate(reports);
      if devices.Err? {
        return Err(devices.error);
      }
      if exists k :: 0 <= k < |reports.value| && IsOptimal(Judge(reports.value[k])) {
        var k :| 0 <= k < |reports.value| && IsOptimal(Judge(reports.value[k]));
        PartitionFirst(JudgeAll(reports.value), k);
      }
      return devices.value[0];
    }
  }

  // ---------------------------------------------------------------------
  // A selected device

  class PhysicalDevice {
    var handle: nat
    var info: DeviceInfo

    /** The enabled features are features the device supports. */
    predicate Valid()
      reads this
    {
      Shaped(info.availableFeatures) && Shaped(info.enabledFeatures) &&
      FeaturesCover(info.availableFeatures, info.enabledFeatures)
    }

    constructor (candidate: Candidate)
      requires Shaped(candidate.info.availableFeatures) && Shaped(candidate.info.enabledFeatures)
      requires FeaturesCover(candidate.info.availableFeatures, candidate.info.enabledFeatures)
      ensures Valid() && handle == candidate.handle && info == candidate.info
    {
      handle := candidate.handle;
      info := candidate.info;
    }

    method AreFeaturesSupported(f: DeviceFeatures) returns (ok: bool)
      requires Valid() && Shaped(f)
      ensures ok <==> FeaturesCover(info.availableFeatures, f)
    {
      ok := CompareFeatures(info.availableFeatures, f);
    }

    method AreFeaturesEnabled(f: DeviceFeatures) returns (ok: bool)
      requires Valid() && Shaped(f)
      ensures ok <==> FeaturesCover(info.enabledFeatures, f)
    {
      ok := CompareFeatures(info.enabledFeatures, f);
    }

    /** Supported features are or-ed into the enabled ones; anything else is refused whole. */
    method EnableFeatures(f: DeviceFeatures) returns (ok: bool)
      requires Valid() && Shaped(f)
      modifies this`info
      ensures Valid()
      ensures ok <==> FeaturesCover(old(info).availableFeatures, f)
      ensures ok ==> info == old(info).(enabledFeatures := JoinFeatures(old(info).enabledFeatures, f))
      ensures ok ==> FeaturesCover(info.enabledFeatures, f) && FeaturesCover(info.enabledFeatures, old(info).enabledFeatures)
      ensures !ok ==> info == old(info)
    {
      ok := AreFeaturesSupported(f);
      if !ok {
        return;
      }
      var enabled := OrFeatures(info.enabledFeatures, f);
      JoinFeaturesBounded(info.availableFeatures, info.enabledFeatures, f);
      info := info.(enabledFeatures := enabled);
    }

    predicate IsExtensionSupported(extension: string)
      reads this
    {
      extension in info.availableExtensions
    }

    predicate IsExtensionEnabled(extension: string)
      reads this
    {
      extension in info.enabledExtensions
    }

    /** An enabled extension answers true at once; an unsupported one is refused. */
    method EnableExtension(extension: string) returns (ok: bool)
      modifies this`info
      ensures ok <==> extension in old(info).enabledExtensions || extension in old(info).availableExtensions
      ensures ok ==> IsExtensionEnabled(extension)
      ensures extension in old(info).enabledExtensions || !ok ==> info == old(info)
      ensures extension !in old(info).enabledExtensions && ok ==>
                info == old(info).(enabledExtensions := old(info).enabledExtensions + [extension])
    {
      if IsExtensionEnabled(extension) {
        return true;
      }
      if !IsExtensionSupported(extension) {
        return false;
      }
      info := info.(enabledExtensions := info.enabledExtensions + [extension]);
      return true;
    }
  }
}

=== FILE: render_pass.dfy ===
/**
 * Render passes: the builder with its attachment, subpass and dependency
 * builders, the format each attachment ends up with, and the render pass
 * object.
 *
 * Load and store operations, layouts and sample counts keep their Vulkan
 * numbering; formats are named as in `Images`; format feature bits are bit
 * positions. An array a description points at is kept as the array's
 * contents (`None` for a null pointer).
 */
module RenderPasses {
  import opened Wrappers
  import opened VkCommon
  import Images
  import LogicalDevices

  type Format = Images.Format
  type ImageFlag = Images.ImageFlag

  const LoadOpLoad: nat := 0
  const LoadOpClear: nat := 1
  const LoadOpDontCare: nat := 2
  const LoadOpMaxEnum: nat := 0x7FFF_FFFF
  const StoreOpStore: nat := 0
  const StoreOpDontCare: nat := 1
  const StoreOpMaxEnum: nat := 0x7FFF_FFFF
  const LayoutUndefined: nat := 0
  const LayoutColorAttachmentOptimal: nat := 2
  const LayoutDepthStencilAttachmentOptimal: nat := 3
  const SampleCount1: nat := 1

  /** `VK_FORMAT_FEATURE_COLOR_ATTACHMENT_BIT` (0x80) and `..._DEPTH_STENCIL_ATTACHMENT_BIT` (0x200). */
  const ColorAttachmentFeature: nat := 7
  const DepthStencilAttachmentFeature: nat := 9

  datatype AttachmentDescription = AttachmentDescription(
    flags: nat,
    format: Format,
    samples: nat,
    loadOp: nat,
    storeOp: nat,
    stencilLoadOp: nat,
    stencilStoreOp: nat,
    initialLayout: nat,
    finalLayout: nat)

  /** `RenderPass::Attachment`: the description and the image flags it was begun with. */
  datatype Attachment = Attachment(description: AttachmentDescription, flags: set<ImageFlag>)

  datatype AttachmentReference = AttachmentReference(attachment: nat, layout: nat)

  /** `VkSubpassDescription`; the resolve array has no count of its own. */
  datatype SubpassDescription = SubpassDescription(
    flags: nat,
    bindPoint: nat,
    colorCount: nat,
    colors: Option<seq<AttachmentReference>>,
    inputCount: nat,
    inputs: Option<seq<AttachmentReference>>,
    preserveCount: nat,
    preserves: Option<seq<nat>>,
    resolves: Option<seq<AttachmentReference>>,
    depthStencil: Option<AttachmentReference>)

  datatype Dependency = Dependency(
    srcSubpass: nat,
    dstSubpass: nat,
    srcStageMask: nat,
    dstStageMask: nat,
    srcAccessMask: nat,
    dstAccessMask: nat,
    flags: nat)

  /** The `VkRenderPassCreateInfo` handed to `vkCreateRenderPass`. */
  datatype RenderPassCreateInfo = RenderPassCreateInfo(
    attachments: seq<AttachmentDescription>,
    subpasses: seq<SubpassDescription>,
    dependencies: seq<Dependency>,
    flags: set<nat>)

  /** What the attachment builder's constructor demands: some type flag, and colour excludes depth and stencil. */
  predicate AttachmentFlags(flags: set<ImageFlag>)
  {
    flags != {} &&
    !(Images.ColorAttachment in flags && Images.DepthAttachment in flags) &&
    !(Images.ColorAttachment in flags && Images.StencilAttachment in flags)
  }

  /**
   * The description an attachment starts from: one sample, undefined
   * layouts and format, operations that do not care, except that colour
   * is cleared and stored, depth is cleared and not stored (depth wins over
   * colour), and stencil is cleared and not stored.
   */
  function DefaultDescription(flags: set<ImageFlag>): (r: AttachmentDescription)
    ensures r.samples == SampleCount1 && r.flags == 0 && r.format == Images.Undefined
    ensures r.initialLayout == LayoutUndefined && r.finalLayout == LayoutUndefined
    ensures Images.DepthAttachment in flags ==> r.loadOp == LoadOpClear && r.storeOp == StoreOpDontCare
    ensures Images.DepthAttachment !in flags && Images.ColorAttachment in flags ==> r.loadOp == LoadOpClear && r.storeOp == StoreOpStore
    ensures Images.DepthAttachment !in flags && Images.ColorAttachment !in flags ==> r.loadOp == LoadOpDontCare && r.storeOp == StoreOpDontCare
    ensures Images.StencilAttachment in flags <==> r.stencilLoadOp == LoadOpClear
    ensures r.stencilStoreOp == StoreOpDontCare
  {
    var base := AttachmentDescription(0, Images.Undefined, SampleCount1, LoadOpDontCare, StoreOpDontCare,
                                      LoadOpDontCare, StoreOpDontCare, LayoutUndefined, LayoutUndefined);
    var color := if Images.ColorAttachment in flags then base.(loadOp := LoadOpClear, storeOp := StoreOpStore) else base;
    var depth := if Images.DepthAttachment in flags then color.(loadOp := LoadOpClear, storeOp := StoreOpDontCare) else color;
    if Images.StencilAttachment in flags then depth.(stencilLoadOp := LoadOpClear, stencilStoreOp := StoreOpDontCare) else depth
  }

  /**
   * The candidate formats of an attachment: the ones it was given, or, when
   * it was given none, the default format of its kind.
   */
  function Candidates(flags: set<ImageFlag>, formats: seq<Format>): (r: seq<Format>)
    ensures formats != [] ==> r == formats
    ensures formats == [] ==> |r| <= 1
  {
    if formats != [] then formats
    else if Images.ColorAttachment in flags then ["B8G8R8A8_SRGB"]
    else if Images.DepthAttachment in flags && Images.StencilAttachment in flags then ["D32_SFLOAT_S8_UINT"]
    else if Images.DepthAttachment in flags then ["D32_SFLOAT"]
    else if Images.StencilAttachment in flags then ["S8_UINT"]
    else []
  }

  /** The format whose aspects are exactly the given ones, among the four defaults. */
  function AspectFormat(aspects: set<Images.Aspect>): Option<Format>
  {
    if aspects == {Images.AspectColor} then Some("B8G8R8A8_SRGB")
    else if aspects == {Images.AspectDepth, Images.AspectStencil} then Some("D32_SFLOAT_S8_UINT")
    else if aspects == {Images.AspectDepth} then Some("D32_SFLOAT")
    else if aspects == {Images.AspectStencil} then Some("S8_UINT")
    else None
  }

  /**
   * The default format has exactly the aspects the attachment's image gets
   * from the same flags.
   */
  lemma {:induction false} DefaultFormatMatchesAspects(flags: set<ImageFlag>)
    ensures var aspect := AspectFormat(Images.DeduceAspectMask(flags));
      Candidates(flags, []) == (if aspect.Some? then [aspect.value] else [])
  {
    var m := Images.DeduceAspectMask(flags);
    if Images.ColorAttachment !in flags {
      if Images.DepthAttachment in flags && Images.StencilAttachment in flags {
        assert m == {Images.AspectDepth, Images.AspectStencil};
      } else if Images.DepthAttachment in flags {
        assert m == {Images.AspectDepth};
      } else if Images.StencilAttachment in flags {
        assert m == {Images.AspectStencil};
      } else {
        assert m == {};
      }
    }
  }

  /** The format features an attachment needs: colour attachment, else depth-stencil attachment, else none. */
  function Features(flags: set<ImageFlag>): (r: set<nat>)
  {
    if Images.ColorAttachment in flags then {ColorAttachmentFeature}
    else if Images.DepthAttachment in flags || Images.StencilAttachment in flags then {DepthStencilAttachmentFeature}
    else {}
  }

  /** The feature checked for a format is the attachment usage the image builder gives the same flags. */
  lemma FeaturesMatchUsage(flags: set<ImageFlag>)
    ensures ColorAttachmentFeature in Features(flags) <==> Images.ColorAttachmentUsage in Images.InitialUsage(flags)
    ensures DepthStencilAttachmentFeature in Features(flags) <==>
            Images.DepthStencilAttachmentUsage in Images.InitialUsage(flags)
    ensures |Features(flags)| <= 1
  {
  }

  /** The format an attachment is built with: the first candidate the driver supports optimally. */
  function ChooseFormat(flags: set<ImageFlag>, formats: seq<Format>, query: Format -> LogicalDevices.FormatProperties): Result<Format, Error>
  {
    LogicalDevices.FirstSupportedFormat(Candidates(flags, formats), query, LogicalDevices.Optimal, Features(flags))
  }

  /** A requested format is preferred to every other candidate whenever the driver supports it. */
  lemma RequestedFormatWins(flags: set<ImageFlag>, formats: seq<Format>, f: Format, query: Format -> LogicalDevices.FormatProperties)
    requires LogicalDevices.Suits(query(f), LogicalDevices.Optimal, Features(flags))
    ensures ChooseFormat(flags, [f] + formats, query) == Ok(f)
  {
    var r := ChooseFormat(flags, [f] + formats, query);
    assert Candidates(flags, [f] + formats)[0] == f;
  }

  /** An allowed format is chosen when no earlier candidate is supported and it is. */
  lemma AllowedFormatFallback(flags: set<ImageFlag>, formats: seq<Format>, f: Format, query: Format -> LogicalDevices.FormatProperties)
    requires formats != []
    requires ChooseFormat(flags, formats, query).Err?
    requires LogicalDevices.Suits(query(f), LogicalDevices.Optimal, Features(flags))
    ensures ChooseFormat(flags, formats + [f], query) == Ok(f)
  {
    var c := formats + [f];
    assert Candidates(flags, c) == c;
    assert forall i :: 0 <= i < |formats| ==> c[i] == formats[i];
    assert c[|formats|] == f;
    var r := ChooseFormat(flags, c, query);
    var i :| 0 <= i < |c| && r.value == c[i] && LogicalDevices.Suits(query(c[i]), LogicalDevices.Optimal, Features(flags));
    assert i == |formats|;
  }

  /** The attachment as built: its format replaced by the chosen one. */
  function Resolve(a: Attachment, formats: seq<Format>, query: Format -> LogicalDevices.FormatProperties): (r: Result<Attachment, Error>)
    ensures r.Ok? ==> r.value.flags == a.flags && r.value.description == a.description.(format := r.value.description.format)
    ensures r.Err? ==> r.error == NoFormatSupported
    ensures r.Err? <==> ChooseFormat(a.flags, formats, query).Err?
    ensures r.Ok? ==> r.value.description.format == ChooseFormat(a.flags, formats, query).value
  {
    var f := ChooseFormat(a.flags, formats, query);
    if f.Err? then Err(f.error) else Ok(a.(description := a.description.(format := f.value)))
  }

  /** One attachment builder's state, as `Build` reads it. */
  datatype AttachmentState = AttachmentState(attachment: Attachment, formats: seq<Format>)

  /** The attachment loop of `Build`: every attachment resolved in order, or the first failure. */
  function ResolveAll(states: seq<AttachmentState>, query: Format -> LogicalDevices.FormatProperties): (r: Result<seq<Attachment>, Error>)
    ensures r.Ok? ==> |r.value| == |states|
    ensures r.Err? ==> r.error == NoFormatSupported
  {
    if states == [] then Ok([])
    else
      var prev := ResolveAll(states[..|states| - 1], query);
      var last := states[|states| - 1];
      if prev.Err? then prev
      else
        var a := Resolve(last.attachment, last.formats, query);
        if a.Err? then Err(a.error) else Ok(prev.value + [a.value])
  }

  /** Each attachment is built on its own: the loop's `i`-th result is the `i`-th attachment resolved. */
  lemma {:induction false} ResolveAllContents(states: seq<AttachmentState>, query: Format -> LogicalDevices.FormatProperties)
    requires ResolveAll(states, query).Ok?
    ensures forall i :: 0 <= i < |states| ==>
      Ok(ResolveAll(states, query).value[i]) == Resolve(states[i].attachment, states[i].formats, query)
  {
    if states != [] {
      var init := states[..|states| - 1];
      var last := states[|states| - 1];
      var prev := ResolveAll(init, query);
      var a := Resolve(last.attachment, last.formats, query);
      assert ResolveAll(states, query) == Ok(prev.value + [a.value]);
      ResolveAllContents(init, query);
      forall i | 0 <= i < |states|
        ensures Ok(ResolveAll(states, query).value[i]) == Resolve(states[i].attachment, states[i].formats, query)
      {
        var v := ResolveAll(states, query).value;
        assert |prev.value| == |init|;
        if i < |init| {
          assert init[i] == states[i];
          assert v[i] == prev.value[i];
          assert Ok(prev.value[i]) == Resolve(init[i].attachment, init[i].formats, query);
        } else {
          assert i == |init| && states[i] == last;
          assert v[i] == a.value;
        }
      }
    }
  }

  /** The descriptions an attachment list hands to the driver. */
  function Descriptions(attachments: seq<Attachment>): (r: seq<AttachmentDescription>)
    ensures |r| == |attachments| && forall i :: 0 <= i < |r| ==> r[i] == attachments[i].description
  {
    seq(|attachments|, i requires 0 <= i < |attachments| => attachments[i].description)
  }

  /** `AttachmentBuilder`. */
  class AttachmentBuilder {
    var attachment: Attachment
    var formats: seq<Format>

    constructor(flags: set<ImageFlag>)
      requires AttachmentFlags(flags)
      ensures attachment == Attachment(DefaultDescription(flags), flags) && formats == []
    {
      attachment := Attachment(DefaultDescription(flags), flags);
      formats := [];
    }

    function State(): AttachmentState
      reads this
    {
      AttachmentState(attachment, formats)
    }

    /** Sets the load operation, and the stencil one unless it is `MAX_ENUM`. */
    method SetLoadOperation(operation: nat, stencilOperation: nat)
      modifies this`attachment
      ensures attachment.flags == old(attachment).flags
      ensures attachment.description == old(attachment).description.(
        loadOp := operation,
        stencilLoadOp := if stencilOperation != LoadOpMaxEnum then stencilOperation else old(attachment).description.stencilLoadOp)
    {
      attachment := attachment.(description := attachment.description.(loadOp := operation));
      if stencilOperation != LoadOpMaxEnum {
        attachment := attachment.(description := attachment.description.(stencilLoadOp := stencilOperation));
      }
    }

    /** Sets the store operation, and the stencil one unless it is `MAX_ENUM`. */
    method SetStoreOperation(operation: nat, stencilOperation: nat)
      modifies this`attachment
      ensures attachment.flags == old(attachment).flags
      ensures attachment.description == old(attachment).description.(
        storeOp := operation,
        stencilStoreOp := if stencilOperation != StoreOpMaxEnum then stencilOperation else old(attachment).description.stencilStoreOp)
    {
      attachment := attachment.(description := attachment.description.(storeOp := operation));
      if stencilOperation != StoreOpMaxEnum {
        attachment := attachment.(description := attachment.description.(stencilStoreOp := stencilOperation));
      }
    }

    method SetStencilLoadOperation(operation: nat)
      modifies this`attachment
      ensures attachment == old(attachment).(description := old(attachment).description.(stencilLoadOp := operation))
    {
      attachment := attachment.(description := attachment.description.(stencilLoadOp := operation));
    }

    method SetStencilStoreOperation(operation: nat)
      modifies this`attachment
      ensures attachment == old(attachment).(description := old(attachment).description.(stencilStoreOp := operation))
    {
      attachment := attachment.(description := attachment.description.(stencilStoreOp := operation));
    }

    /** A requested format goes in front of every candidate so far. */
    method RequestFormat(format: Format)
      modifies this`formats
      ensures formats == [format] + old(formats)
    {
      formats := [format] + formats;
    }

    /** An allowed format goes behind every candidate so far. */
    method AllowFormat(format: Format)
      modifies this`formats
      ensures formats == old(formats) + [format]
    {
      formats := formats + [format];
    }

    method SetLayouts(initialLayout: nat, finalLayout: nat)
      modifies this`attachment
      ensures attachment == old(attachment).(description := old(attachment).description.(initialLayout := initialLayout, finalLayout := finalLayout))
    {
      attachment := attachment.(description := attachment.description.(initialLayout := initialLayout, finalLayout := finalLayout));
    }

    method SetInitialLayout(layout: nat)
      modifies this`attachment
      ensures attachment == old(attachment).(description := old(attachment).description.(initialLayout := layout))
    {
      attachment := attachment.(description := attachment.description.(initialLayout := layout));
    }

    method SetFinalLayout(layout: nat)
      modifies this`attachment
      ensures attachment == old(attachment).(description := old(attachment).description.(finalLayout := layout))
    {
      attachment := attachment.(description := attachment.description.(finalLayout := layout));
    }

    method SetSampleCount(samples: nat)
      modifies this`attachment
      ensures attachment == old(attachment).(description := old(attachment).description.(samples := samples))
    {
      attachment := attachment.(description := attachment.description.(samples := samples));
    }

    method SetFlags(flags: nat)
      modifies this`attachment
      ensures attachment == old(attachment).(description := old(attachment).description.(flags := flags))
    {
      attachment := attachment.(description := attachment.description.(flags := flags));
    }
  }

  /** The pointer a description keeps for an array: null exactly when the array is empty. */
  function Pointer<T>(xs: seq<T>): (r: Option<seq<T>>)
    ensures r.None? <==> xs == []
    ensures r.Some? ==> r.value == xs
  {
    if xs == [] then None else Some(xs)
  }

  /** `SubpassBuilder`. */
  class SubpassBuilder {
    var description: SubpassDescription
    var colors: seq<AttachmentReference>
    var inputs: seq<AttachmentReference>
    var preserves: seq<nat>
    var resolves: seq<AttachmentReference>
    var depthStencil: AttachmentReference

    /** The description's counts and pointers agree with the arrays (what `EndSubpass` establishes). */
    predicate Ended()
      reads this
    {
      description.colorCount == |colors| && description.colors == Pointer(colors) &&
      description.inputCount == |inputs| && description.inputs == Pointer(inputs) &&
      description.preserveCount == |preserves| && description.preserves == Pointer(preserves) &&
      description.resolves == Pointer(resolves) &&
      description.depthStencil == (if depthStencil.attachment == U32Max then None else Some(depthStencil))
    }

    /** A new subpass: only the bind point set, no depth-stencil attachment. */
    constructor(bindPoint: nat)
      ensures description == SubpassDescription(0, bindPoint, 0, None, 0, None, 0, None, None, None)
      ensures colors == [] && inputs == [] && preserves == [] && resolves == []
      ensures depthStencil == AttachmentReference(U32Max, 0)
      ensures Ended()
    {
      description := SubpassDescription(0, bindPoint, 0, None, 0, None, 0, None, None, None);
      colors, inputs, preserves, resolves := [], [], [], [];
      depthStencil := AttachmentReference(U32Max, 0);
    }

    /**
     * A colour attachment, and its resolve attachment unless the resolve
     * index is `U32_MAX`; resolves must then keep pace with colours.
     */
    method AddColorAttachment(attachment: nat, layout: nat, resolveIndex: nat)
      requires resolveIndex != U32Max ==> |resolves| == |colors|
      modifies this`colors, this`resolves
      ensures colors == old(colors) + [AttachmentReference(attachment, layout)]
      ensures resolves == if resolveIndex != U32Max then old(resolves) + [AttachmentReference(resolveIndex, layout)] else old(resolves)
      ensures resolveIndex != U32Max ==> |resolves| == |colors|
    {
      colors := colors + [AttachmentReference(attachment, layout)];
      if resolveIndex != U32Max {
        resolves := resolves + [AttachmentReference(resolveIndex, layout)];
      }
    }

    /** The overload taking only a resolve index: the colour-attachment-optimal layout. */
    method AddResolvedColorAttachment(attachment: nat, resolveIndex: nat)
      requires resolveIndex != U32Max ==> |resolves| == |colors|
      modifies this`colors, this`resolves
      ensures colors == old(colors) + [AttachmentReference(attachment, LayoutColorAttachmentOptimal)]
      ensures resolves == if resolveIndex != U32Max then old(resolves) + [AttachmentReference(resolveIndex, LayoutColorAttachmentOptimal)] else old(resolves)
    {
      AddColorAttachment(attachment, LayoutColorAttachmentOptimal, resolveIndex);
    }

    method AddInputAttachment(attachment: nat, layout: nat)
      modifies this`inputs
      ensures inputs == old(inputs) + [AttachmentReference(attachment, layout)]
    {
      inputs := inputs + [AttachmentReference(attachment, layout)];
    }

    method AddPreserveAttachment(attachment: nat)
      modifies this`preserves
      ensures preserves == old(preserves) + [attachment]
    {
      preserves := preserves + [attachment];
    }

    method SetDepthStencilAttachment(attachment: nat, layout: nat)
      modifies this`depthStencil
      ensures depthStencil == AttachmentReference(attachment, layout)
    {
      depthStencil := AttachmentReference(attachment, layout);
    }

    method SetFlags(flags: nat)
      modifies this`description
      ensures description == old(description).(flags := flags)
    {
      description := description.(flags := flags);
    }

    /**
     * `EndSubpass`: the counts become the array sizes, each pointer is null
     * exactly when its array is empty, and the depth-stencil pointer is null
     * exactly when no depth-stencil attachment was set.
     */
    method EndSubpass()
      modifies this`description
      ensures Ended()
      ensures description.flags == old(description).flags && description.bindPoint == old(description).bindPoint
    {
      description := description.(
        colorCount := |colors|, colors := if colors == [] then None else Some(colors),
        inputCount := |inputs|, inputs := if inputs == [] then None else Some(inputs),
        preserveCount := |preserves|, preserves := if preserves == [] then None else Some(preserves),
        resolves := if resolves == [] then None else Some(resolves),
        depthStencil := if depthStencil.attachment == U32Max then None else Some(depthStencil));
    }
  }

  /** `DependencyBuilder`. */
  class DependencyBuilder {
    var dependency: Dependency

    constructor(sourceSubpass: nat, destinationSubpass: nat)
      ensures dependency == Dependency(sourceSubpass, destinationSubpass, 0, 0, 0, 0, 0)
    {
      dependency := Dependency(sourceSubpass, destinationSubpass, 0, 0, 0, 0, 0);
    }

    method SetStageMask(sourceStage: nat, destinationStage: nat)
      modifies this
      ensures dependency == old(dependency).(srcStageMask := sourceStage, dstStageMask := destinationStage)
    {
      dependency := dependency.(srcStageMask := sourceStage, dstStageMask := destinationStage);
    }

    method SetAccessMask(sourceAccess: nat, destinationAccess: nat)
      modifies this
      ensures dependency == old(dependency).(srcAccessMask := sourceAccess, dstAccessMask := destinationAccess)
    {
      dependency := dependency.(srcAccessMask := sourceAccess, dstAccessMask := destinationAccess);
    }

    method SetFlags(flags: nat)
      modifies this
      ensures dependency == old(dependency).(flags := flags)
    {
      dependency := dependency.(flags := flags);
    }
  }

  /** `RenderPass::Builder`. */
  class Builder {
    const imageCount: nat
    var allocator: nat
    var flags: set<nat>
    var attachments: seq<AttachmentBuilder>
    var subpasses: seq<SubpassBuilder>
    var dependencies: seq<DependencyBuilder>

    constructor(imageCount: nat)
      ensures this.imageCount == imageCount && allocator == 0 && flags == {}
      ensures attachments == [] && subpasses == [] && dependencies == []
    {
      this.imageCount := imageCount;
      allocator := 0;
      flags := {};
      attachments, subpasses, dependencies := [], [], [];
    }

    /** What the attachment builders hold. */
    function States(): (r: seq<AttachmentState>)
      reads this, set a | a in attachments
      ensures |r| == |attachments| && forall i :: 0 <= i < |r| ==> r[i] == attachments[i].State()
    {
      seq(|attachments|, i reads this, set a | a in attachments requires 0 <= i < |attachments| => attachments[i].State())
    }

    /** The subpass builders' descriptions, as `Build` copies them. */
    function SubpassDescriptions(): (r: seq<SubpassDescription>)
      reads this, set s | s in subpasses
      ensures |r| == |subpasses| && forall i :: 0 <= i < |r| ==> r[i] == subpasses[i].description
    {
      seq(|subpasses|, i reads this, set s | s in subpasses requires 0 <= i < |subpasses| => subpasses[i].description)
    }

    /** The dependency builders' dependencies, as `Build` copies them. */
    function Dependencies(): (r: seq<Dependency>)
      reads this, set d | d in dependencies
      ensures |r| == |dependencies| && forall i :: 0 <= i < |r| ==> r[i] == dependencies[i].dependency
    {
      seq(|dependencies|, i reads this, set d | d in dependencies requires 0 <= i < |dependencies| => dependencies[i].dependency)
    }

    method BeginAttachment(flags: set<ImageFlag>) returns (a: AttachmentBuilder)
      requires AttachmentFlags(flags)
      modifies this`attachments
      ensures fresh(a) && attachments == old(attachments) + [a]
      ensures a.attachment == Attachment(DefaultDescription(flags), flags) && a.formats == []
    {
      a := new AttachmentBuilder(flags);
      attachments := attachments + [a];
    }

    method BeginSubpass(bindPoint: nat) returns (s: SubpassBuilder)
      modifies this`subpasses
      ensures fresh(s) && subpasses == old(subpasses) + [s]
      ensures s.description.bindPoint == bindPoint && s.Ended()
    {
      s := new SubpassBuilder(bindPoint);
      subpasses := subpasses + [s];
    }

    method BeginDependency(sourceSubpass: nat, destinationSubpass: nat) returns (d: DependencyBuilder)
      modifies this`dependencies
      ensures fresh(d) && dependencies == old(dependencies) + [d]
      ensures d.dependency == Dependency(sourceSubpass, destinationSubpass, 0, 0, 0, 0, 0)
    {
      d := new DependencyBuilder(sourceSubpass, destinationSubpass);
      dependencies := dependencies + [d];
    }

    method SetFlags(flags: set<nat>)
      modifies this`flags
      ensures this.flags == flags
    {
      this.flags := flags;
    }

    method AddFlags(flags: set<nat>)
      modifies this`flags
      ensures this.flags == old(this.flags) + flags
    {
      this.flags := this.flags + flags;
    }

    method RemoveFlags(flags: set<nat>)
      modifies this`flags
      ensures this.flags == old(this.flags) - flags
    {
      this.flags := this.flags - flags;
    }

    method SetAllocator(allocator: nat)
      modifies this`allocator
      ensures this.allocator == allocator
    {
      this.allocator := allocator;
    }

    /**
     * `Build`: every attachment gets its format (`query` is what the driver
     * reports per format), the subpass and dependency descriptions are
     * copied, and `vkCreateRenderPass` answers `createResult` with `handle`.
     * `submitted` is the create-info handed to the driver.
     */
    method Build(query: Format -> LogicalDevices.FormatProperties, createResult: int, handle: nat)
      returns (r: Result<RenderPass, Error>, submitted: Option<RenderPassCreateInfo>)
      requires subpasses != []
      ensures ResolveAll(States(), query).Err? ==> r == Err(NoFormatSupported) && submitted.None?
      ensures ResolveAll(States(), query).Ok? ==> submitted == Some(RenderPassCreateInfo(
        Descriptions(ResolveAll(States(), query).value), SubpassDescriptions(), Dependencies(), flags))
      ensures ResolveAll(States(), query).Ok? && createResult != VkSuccess ==> r == Err(Vulkan(createResult))
      ensures r.Ok? <==> ResolveAll(States(), query).Ok? && createResult == VkSuccess
      ensures r.Ok? ==> (fresh(r.value) && r.value.handle == Some(handle) &&
        r.value.attachments == ResolveAll(States(), query).value &&
        r.value.imageCount == imageCount && r.value.allocator == allocator && r.value.destroyed == [])
    {
      var states := States();
      var attachmentsBuilt := ResolveAttachments(states, query);
      if attachmentsBuilt.Err? {
        return Err(attachmentsBuilt.error), None;
      }
      var resolved := attachmentsBuilt.value;
      var subpassDescriptions, dependencyList := SubpassDescriptions(), Dependencies();
      submitted := Some(RenderPassCreateInfo(Descriptions(resolved), subpassDescriptions, dependencyList, flags));
      if createResult != VkSuccess {
        return Err(Vulkan(createResult)), submitted;
      }
      var pass := new RenderPass(handle, resolved, imageCount, allocator);
      assert States() == states;
      assert SubpassDescriptions() == subpassDescriptions && Dependencies() == dependencyList;
      r := Ok(pass);
    }
  }

  /** The attachment loop of `Build`, over the builders' states. */
  method ResolveAttachments(states: seq<AttachmentState>, query: Format -> LogicalDevices.FormatProperties)
    returns (r: Result<seq<Attachment>, Error>)
    ensures r == ResolveAll(states, query)
  {
    var resolved: seq<Attachment> := [];
    var i := 0;
    while i < |states|
      invariant 0 <= i <= |states|
      invariant ResolveAll(states[..i], query) == Ok(resolved)
    {
      var a := states[i].attachment;
      var format := LogicalDevices.FindSupportedFormat(Candidates(a.flags, states[i].formats), query,
                                                       LogicalDevices.Optimal, Features(a.flags));
      assert states[..i + 1][..i] == states[..i];
      if format.Err? {
        ResolveAllFails(states, i + 1, query);
        return Err(format.error);
      }
      resolved := resolved + [a.(description := a.description.(format := format.value))];
      i := i + 1;
    }
    assert states[..i] == states;
    r := Ok(resolved);
  }

  /** A failure among the first `n` attachments fails the whole loop. */
  lemma {:induction false} ResolveAllFails(states: seq<AttachmentState>, n: nat, query: Format -> LogicalDevices.FormatProperties)
    requires n <= |states| && ResolveAll(states[..n], query).Err?
    ensures ResolveAll(states, query).Err?
    decreases |states|
  {
    if n < |states| {
      var init := states[..|states| - 1];
      assert init[..n] == states[..n];
      ResolveAllFails(init, n, query);
    } else {
      assert states[..n] == states;
    }
  }

  /** `RenderPass`: the handle (`None` once destroyed) and what it was built with. */
  class RenderPass {
    var handle: Option<nat>
    const attachments: seq<Attachment>
    const imageCount: nat
    const allocator: nat
    var destroyed: seq<nat>

    constructor(handle: nat, attachments: seq<Attachment>, imageCount: nat, allocator: nat)
      ensures this.handle == Some(handle) && this.attachments == attachments
      ensures this.imageCount == imageCount && this.allocator == allocator && destroyed == []
    {
      this.handle := Some(handle);
      this.attachments := attachments;
      this.imageCount := imageCount;
      this.allocator := allocator;
      destroyed := [];
    }

    /** Destroys a live render pass once and nulls its handle; a null handle is left alone. */
    method Destroy()
      modifies this`handle, this`destroyed
      ensures handle.None?
      ensures old(handle).Some? ==> destroyed == old(destroyed) + [old(handle).value]
      ensures old(handle).None? ==> destroyed == old(destroyed)
    {
      if handle.Some? {
        destroyed := destroyed + [handle.value];
        handle := None;
      }
    }
  }
}

=== FILE: swap_chain.dfy ===
/**
 * Swap chains: the builder's preferences, the choices `Build` makes from
 * them and from what the surface supports (format, present mode, image
 * count, extent, sharing mode), the creation of the images' views and the
 * clean-up on failure, and the destruction of a swap chain.
 *
 * The surface support and every driver answer are parameters.
 */
module SwapChains {
  import opened Wrappers
  import opened VkCommon
  import Images

  datatype SurfaceFormat = SurfaceFormat(format: Images.Format, colorSpace: nat)

  // Vulkan numbering of the enumerations the builder defaults to.
  const ColorSpaceSrgbNonlinear: nat := 0
  const PresentImmediate: nat := 0
  const PresentMailbox: nat := 1
  const PresentFifo: nat := 2
  const CompositeAlphaOpaque: nat := 1

  /** What `Build` falls back to when no format or present mode was asked for. */
  const DefaultFormats: seq<SurfaceFormat> := [SurfaceFormat("B8G8R8A8_SRGB", ColorSpaceSrgbNonlinear)]
  const DefaultPresentModes: seq<nat> := [PresentMailbox, PresentFifo]

  /** The swap chain's image array holds at most this many images. */
  const MaxImages: nat := 8

  /**
   * `selectFormat` and `selectPresentMode`: the requested values are tried
   * in order against every supported one; none supported is
   * `NoFormatSupported`, for present modes as well.
   */
  method SelectFirst<T(==)>(requested: seq<T>, supported: seq<T>) returns (r: Result<T, Error>)
    ensures r.Err? <==> FirstSupported(requested, supported).None?
    ensures r.Err? ==> r.error == NoFormatSupported
    ensures r.Ok? ==> FirstSupported(requested, supported) == Some(r.value)
  {
    var i := 0;
    while i < |requested|
      invariant 0 <= i <= |requested|
      invariant forall k :: 0 <= k < i ==> requested[k] !in supported
    {
      var j := 0;
      while j < |supported|
        invariant 0 <= j <= |supported|
        invariant forall l :: 0 <= l < j ==> supported[l] != requested[i]
      {
        if requested[i] == supported[j] {
          var f := FirstSupported(requested, supported);
          var i0 :| 0 <= i0 < |requested| && requested[i0] == f.value &&
                    forall k :: 0 <= k < i0 ==> requested[k] !in supported;
          assert i0 == i;
          return Ok(requested[i]);
        }
        j := j + 1;
      }
      i := i + 1;
    }
    return Err(NoFormatSupported);
  }

  method SelectFormat(requested: seq<SurfaceFormat>, supported: seq<SurfaceFormat>)
      returns (r: Result<SurfaceFormat, Error>)
    ensures r.Err? <==> forall i :: 0 <= i < |requested| ==> requested[i] !in supported
    ensures r.Err? ==> r.error == NoFormatSupported
    ensures r.Ok? ==> FirstSupported(requested, supported) == Some(r.value)
  {
    r := SelectFirst(requested, supported);
  }

  method SelectPresentMode(requested: seq<nat>, supported: seq<nat>) returns (r: Result<nat, Error>)
    ensures r.Err? <==> forall i :: 0 <= i < |requested| ==> requested[i] !in supported
    ensures r.Err? ==> r.error == NoFormatSupported
    ensures r.Ok? ==> FirstSupported(requested, supported) == Some(r.value)
  {
    r := SelectFirst(requested, supported);
  }

  /** An image count outside the surface's limits; a zero maximum means no maximum. */
  predicate BadCount(count: nat, minCount: nat, maxCount: nat)
  {
    count < minCount || (maxCount > 0 && count > maxCount)
  }

  /**
   * The image count `Build` asks for: the requested count when the surface
   * allows it; otherwise the required count, which must then be allowed;
   * with no requirement, one more than the minimum, capped at the maximum.
   */
  function ImageCount(requested: nat, required: nat, minCount: nat, maxCount: nat): (r: Result<nat, Error>)
    ensures !BadCount(requested, minCount, maxCount) ==> r == Ok(requested)
    ensures r.Err? <==>
              BadCount(requested, minCount, maxCount) && required != 0 && BadCount(required, minCount, maxCount)
    ensures r.Err? ==> r.error == BadImageCount
    ensures BadCount(requested, minCount, maxCount) && required == 0 && (maxCount == 0 || minCount + 1 <= maxCount) ==>
              r == Ok(minCount + 1)
    ensures BadCount(requested, minCount, maxCount) && required == 0 && 0 < maxCount < minCount + 1 ==>
              r == Ok(maxCount)
    ensures BadCount(requested, minCount, maxCount) && required != 0 && !BadCount(required, minCount, maxCount) ==>
              r == Ok(required)
    ensures r.Ok? && (maxCount == 0 || minCount <= maxCount) ==> !BadCount(r.value, minCount, maxCount)
  {
    if !BadCount(requested, minCount, maxCount) then Ok(requested)
    else if required == 0 then
      if maxCount > 0 && minCount + 1 > maxCount then Ok(maxCount) else Ok(minCount + 1)
    else if BadCount(required, minCount, maxCount) then Err(BadImageCount)
    else Ok(required)
  }

  /** `std::clamp`. */
  function Clamp(v: nat, lo: nat, hi: nat): (r: nat)
    requires lo <= hi
    ensures lo <= r <= hi
    ensures lo <= v <= hi ==> r == v
    ensures v < lo ==> r == lo
    ensures v > hi ==> r == hi
  {
    if v < lo then lo else if v > hi then hi else v
  }

  datatype Extent2 = Extent2(width: nat, height: nat)

  datatype Capabilities = Capabilities(
    minImageCount: nat,
    maxImageCount: nat,
    currentExtent: Extent2,
    minImageExtent: Extent2,
    maxImageExtent: Extent2,
    currentTransform: nat)

  /** The surface dictates the extent unless it reports the special `U32Max` size. */
  predicate FixedExtent(caps: Capabilities)
  {
    caps.currentExtent.width != U32Max && caps.currentExtent.height != U32Max
  }

  /** The extent bounds are ordered, as `std::clamp` needs them to be. */
  predicate ExtentBoundsOrdered(caps: Capabilities)
  {
    caps.minImageExtent.width <= caps.maxImageExtent.width &&
    caps.minImageExtent.height <= caps.maxImageExtent.height
  }

  /** The surface's extent, or the requested one pulled into the surface's bounds. */
  function ChooseExtent(caps: Capabilities, requested: Extent2): (r: Extent2)
    requires FixedExtent(caps) || ExtentBoundsOrdered(caps)
    ensures FixedExtent(caps) ==> r == caps.currentExtent
    ensures !FixedExtent(caps) ==>
              caps.minImageExtent.width <= r.width <= caps.maxImageExtent.width &&
              caps.minImageExtent.height <= r.height <= caps.maxImageExtent.height
    ensures !FixedExtent(caps) && caps.minImageExtent.width <= requested.width <= caps.maxImageExtent.width ==>
              r.width == requested.width
    ensures !FixedExtent(caps) && caps.minImageExtent.height <= requested.height <= caps.maxImageExtent.height ==>
              r.height == requested.height
  {
    if FixedExtent(caps) then caps.currentExtent
    else Extent2(Clamp(requested.width, caps.minImageExtent.width, caps.maxImageExtent.width),
                 Clamp(requested.height, caps.minImageExtent.height, caps.maxImageExtent.height))
  }

  /** Exclusive when graphics and presentation share a family, concurrent between the two otherwise. */
  datatype Sharing = Exclusive | Concurrent(families: seq<nat>)

  function SharingFor(graphics: nat, present: nat): (r: Sharing)
    ensures r.Exclusive? <==> graphics == present
    ensures r.Concurrent? ==> r.families == [graphics, present] && r.families[0] != r.families[1]
  {
    if graphics != present then Concurrent([graphics, present]) else Exclusive
  }

  datatype SwapChainSupport =
    SwapChainSupport(capabilities: Capabilities, formats: seq<SurfaceFormat>, presentModes: seq<nat>)

  /** What the surface must report for `Build` to be well-defined. */
  predicate SaneSupport(support: Result<SwapChainSupport, Error>)
  {
    support.Ok? ==> FixedExtent(support.value.capabilities) || ExtentBoundsOrdered(support.value.capabilities)
  }

  datatype BuilderFlag = Clipped | CreateImageViews

  /** The parts of `VkSwapchainCreateInfoKHR` the builder decides. */
  datatype CreateInfo = CreateInfo(
    minImageCount: nat,
    surfaceFormat: SurfaceFormat,
    extent: Extent2,
    arrayLayers: nat,
    usage: set<Images.ImageUsage>,
    sharing: Sharing,
    preTransform: nat,
    compositeAlpha: nat,
    presentMode: nat,
    clipped: bool,
    oldSwapChain: Option<nat>,
    createFlags: set<nat>)

  /** One image of the chain; its info is `Image::FromSwapChain` of the chain's format and extent. */
  datatype SwapImage = SwapImage(handle: nat, view: Option<nat>, info: Images.ImageInfo)

  /** What was handed back to Vulkan when `Build` failed after creating the swap chain. */
  datatype Cleanup = Cleanup(views: seq<nat>, swapChains: seq<nat>)

  class Builder {
    var surfaceFormats: seq<SurfaceFormat>
    var presentModes: seq<nat>
    var requestedImages: nat
    var requiredImages: nat
    var extent: Extent2
    var imageArrayLayers: nat
    var imageUsage: set<Images.ImageUsage>
    var flags: set<BuilderFlag>
    var createFlags: set<nat>
    var transform: nat
    var compositeAlpha: nat
    var oldSwapChain: Option<nat>

    /** A required image count never exceeds the requested one (zero: no requirement). */
    predicate Valid()
      reads this
    {
      requiredImages <= requestedImages
    }

    constructor ()
      ensures Valid()
      ensures surfaceFormats == [] && presentModes == []
      ensures requestedImages == 0 && requiredImages == 0
      ensures extent == Extent2(512, 512) && imageArrayLayers == 1
      ensures imageUsage == {Images.ColorAttachmentUsage}
      ensures flags == {} && createFlags == {} && transform == 0
      ensures compositeAlpha == CompositeAlphaOpaque && oldSwapChain.None?
    {
      surfaceFormats := [];
      presentModes := [];
      requestedImages := 0;
      requiredImages := 0;
      extent := Extent2(512, 512);
      imageArrayLayers := 1;
      imageUsage := {Images.ColorAttachmentUsage};
      flags := {};
      createFlags := {};
      transform := 0;
      compositeAlpha := CompositeAlphaOpaque;
      oldSwapChain := None;
    }

    /** A requested format goes before every other; an allowed one after. */
    method RequestSurfaceFormat(f: SurfaceFormat)
      modifies this`surfaceFormats
      ensures surfaceFormats == [f] + old(surfaceFormats)
    {
      surfaceFormats := [f] + surfaceFormats;
    }

    method AllowSurfaceFormat(f: SurfaceFormat)
      modifies this`surfaceFormats
      ensures surfaceFormats == old(surfaceFormats) + [f]
    {
      surfaceFormats := surfaceFormats + [f];
    }

    method RequestPresentMode(m: nat)
      modifies this`presentModes
      ensures presentModes == [m] + old(presentModes)
    {
      presentModes := [m] + presentModes;
    }

    method AllowPresentMode(m: nat)
      modifies this`presentModes
      ensures presentModes == old(presentModes) + [m]
    {
      presentModes := presentModes + [m];
    }

    /** A smaller request lowers the requirement with it. */
    method RequestImageCount(n: nat)
      requires Valid()
      modifies this`requestedImages, this`requiredImages
      ensures Valid()
      ensures requestedImages == n
      ensures requiredImages == if n < old(requiredImages) then n else old(requiredImages)
    {
      requestedImages := n;
      if requestedImages < requiredImages {
        requiredImages := requestedImages;
      }
    }

    /** A larger requirement raises the request with it. */
    method RequireImageCount(n: nat)
      requires Valid()
      modifies this`requestedImages, this`requiredImages
      ensures Valid()
      ensures requiredImages == n
      ensures requestedImages == if old(requestedImages) < n then n else old(requestedImages)
    {
      requiredImages := n;
      if requestedImages < requiredImages {
        requestedImages := requiredImages;
      }
    }

    method RequestExtent(e: Extent2)
      modifies this`extent
      ensures extent == e
    {
      extent := e;
    }

    method SetFlags(f: set<BuilderFlag>)
      modifies this`flags
      ensures flags == f
    {
      flags := f;
    }

    method AddFlags(f: set<BuilderFlag>)
      modifies this`flags
      ensures flags == old(flags) + f
    {
      flags := flags + f;
    }

    method RemoveFlags(f: set<BuilderFlag>)
      modifies this`flags
      ensures flags == old(flags) - f
    {
      flags := flags - f;
    }

    method SetImageArrayLayers(n: nat)
      modifies this`imageArrayLayers
      ensures imageArrayLayers == n
    {
      imageArrayLayers := n;
    }

    method SetCreateFlags(f: set<nat>)
      modifies this`createFlags
      ensures createFlags == f
    {
      createFlags := f;
    }

    method AddCreateFlags(f: set<nat>)
      modifies this`createFlags
      ensures createFlags == old(createFlags) + f
    {
      createFlags := createFlags + f;
    }

    method RemoveCreateFlags(f: set<nat>)
      modifies this`createFlags
      ensures createFlags == old(createFlags) - f
    {
      createFlags := createFlags - f;
    }

    method SetImageUsageFlags(u: set<Images.ImageUsage>)
      modifies this`imageUsage
      ensures imageUsage == u
    {
      imageUsage := u;
    }

    method AddImageUsageFlags(u: set<Images.ImageUsage>)
      modifies this`imageUsage
      ensures imageUsage == old(imageUsage) + u
    {
      imageUsage := imageUsage + u;
    }

    method RemoveImageUsageFlags(u: set<Images.ImageUsage>)
      modifies this`imageUsage
      ensures imageUsage == old(imageUsage) - u
    {
      imageUsage := imageUsage - u;
    }

    /** Zero leaves the choice to the surface's current transform. */
    method SetTransformBit(t: nat)
      modifies this`transform
      ensures transform == t
    {
      transform := t;
    }

    method SetCompositeAlphaBit(a: nat)
      modifies this`compositeAlpha
      ensures compositeAlpha == a
    {
      compositeAlpha := a;
    }

    method SetOldSwapChain(old_: Option<nat>)
      modifies this`oldSwapChain
      ensures oldSwapChain == old_
    {
      oldSwapChain := old_;
    }

    /** The formats tried in order: the builder's own, or the default one. */
    function Formats(): (r: seq<SurfaceFormat>)
      reads this
      ensures r != []
      ensures surfaceFormats != [] ==> r == surfaceFormats
    {
      if surfaceFormats == [] then DefaultFormats else surfaceFormats
    }

    function Modes(): (r: seq<nat>)
      reads this
      ensures r != []
      ensures presentModes != [] ==> r == presentModes
    {
      if presentModes == [] then DefaultPresentModes else presentModes
    }

    /**
     * Everything `Build` decides before asking the driver for the swap
     * chain. `graphics` and `present` are the device's queue families
     * (`U32Max` when it has none) and `support` what the surface reported.
     */
    function Plan(graphics: nat, present: nat, support: Result<SwapChainSupport, Error>): (r: Result<CreateInfo, Error>)
      reads this
      requires SaneSupport(support)
      ensures graphics == U32Max || present == U32Max ==> r == Err(MissingQueue)
      ensures r.Ok? ==> support.Ok?
      ensures r.Ok? ==>
                var caps := support.value.capabilities;
                r.value.surfaceFormat in support.value.formats &&
                FirstSupported(Formats(), support.value.formats) == Some(r.value.surfaceFormat) &&
                r.value.presentMode in support.value.presentModes &&
                FirstSupported(Modes(), support.value.presentModes) == Some(r.value.presentMode) &&
                ImageCount(requestedImages, requiredImages, caps.minImageCount, caps.maxImageCount) ==
                  Ok(r.value.minImageCount) &&
                r.value.extent == ChooseExtent(caps, extent) &&
                r.value.sharing == SharingFor(graphics, present) &&
                r.value.preTransform == (if transform == 0 then caps.currentTransform else transform) &&
                r.value.clipped == (Clipped in flags)
      ensures r.Ok? && (support.value.capabilities.maxImageCount == 0 ||
                        support.value.capabilities.minImageCount <= support.value.capabilities.maxImageCount) ==>
                !BadCount(r.value.minImageCount, support.value.capabilities.minImageCount,
                          support.value.capabilities.maxImageCount)
      ensures graphics != U32Max && present != U32Max && support.Err? ==> r == Err(support.error)
      ensures r.Ok? <==>
                graphics != U32Max && present != U32Max && support.Ok? &&
                ImageCount(requestedImages, requiredImages, support.value.capabilities.minImageCount,
                           support.value.capabilities.maxImageCount).Ok? &&
                FirstSupported(Formats(), support.value.formats).Some? &&
                FirstSupported(Modes(), support.value.presentModes).Some?
      ensures graphics != U32Max && present != U32Max && support.Ok? &&
              ImageCount(requestedImages, requiredImages, support.value.capabilities.minImageCount,
                         support.value.capabilities.maxImageCount).Err? ==>
                r == Err(ImageCount(requestedImages, requiredImages, support.value.capabilities.minImageCount,
                                    support.value.capabilities.maxImageCount).error)
      ensures graphics != U32Max && present != U32Max && support.Ok? &&
              ImageCount(requestedImages, requiredImages, support.value.capabilities.minImageCount,
                         support.value.capabilities.maxImageCount).Ok? &&
              (FirstSupported(Formats(), support.value.formats).None? ||
               FirstSupported(Modes(), support.value.presentModes).None?) ==>
                r == Err(NoFormatSupported)
      ensures r.Ok? ==>
                r.value.arrayLayers == imageArrayLayers && r.value.usage == imageUsage &&
                r.value.compositeAlpha == compositeAlpha && r.value.oldSwapChain == oldSwapChain &&
                r.value.createFlags == createFlags
    {
      if graphics == U32Max || present == U32Max then Err(MissingQueue)
      else if support.Err? then Err(support.error)
      else
        var caps := support.value.capabilities;
        match ImageCount(requestedImages, requiredImages, caps.minImageCount, caps.maxImageCount)
        case Err(e) => Err(e)
        case Ok(count) =>
          match FirstSupported(Formats(), support.value.formats)
          case None => Err(NoFormatSupported)
          case Some(format) =>
            match FirstSupported(Modes(), support.value.presentModes)
            case None => Err(NoFormatSupported)
            case Some(mode) =>
              Ok(CreateInfo(count, format, ChooseExtent(caps, extent), imageArrayLayers, imageUsage,
                            SharingFor(graphics, present),
                            if transform == 0 then caps.currentTransform else transform,
                            compositeAlpha, mode, Clipped in flags, oldSwapChain, createFlags))
    }

    /** The checks and selections `Build` makes before asking the driver for the swap chain. */
    method PlanInfo(graphics: nat, present: nat, support: Result<SwapChainSupport, Error>)
        returns (r: Result<CreateInfo, Error>)
      requires SaneSupport(support)
      ensures r == Plan(graphics, present, support)
    {
      if graphics == U32Max || present == U32Max {
        return Err(MissingQueue);
      }
      if support.Err? {
        return Err(support.error);
      }
      var caps := support.value.capabilities;
      var count := ImageCount(requestedImages, requiredImages, caps.minImageCount, caps.maxImageCount);
      if count.Err? {
        return Err(count.error);
      }
      var format := SelectFormat(Formats(), support.value.formats);
      if format.Err? {
        return Err(format.error);
      }
      var mode := SelectPresentMode(Modes(), support.value.presentModes);
      if mode.Err? {
        return Err(mode.error);
      }
      r := Ok(CreateInfo(count.value, format.value, ChooseExtent(caps, extent), imageArrayLayers, imageUsage,
                         SharingFor(graphics, present),
                         if transform == 0 then caps.currentTransform else transform,
                         compositeAlpha, mode.value, Clipped in flags, oldSwapChain, createFlags));
    }

    /**
     * `Build`: `created` and `chain` are the driver's answer to the creation
     * request, `countResult` and `imagesResult` its answers to the two image
     * queries, `images` the chain's images and `viewResults`/`views` its
     * answers when a view is created for each of them.
     */
    method Build(graphics: nat, present: nat, support: Result<SwapChainSupport, Error>,
                 created: int, chain: nat, countResult: int, imagesResult: int,
                 images: seq<nat>, viewResults: seq<int>, views: seq<nat>)
        returns (r: Result<SwapChain, Error>, cleanup: Cleanup)
      requires SaneSupport(support)
      requires |images| <= MaxImages && |viewResults| == |images| && |views| == |images|
      ensures Plan(graphics, present, support).Err? ==>
                r == Err(Plan(graphics, present, support).error) && cleanup == Cleanup([], [])
      ensures Plan(graphics, present, support).Ok? && created != VkSuccess ==>
                r == Err(Vulkan(created)) && cleanup == Cleanup([], [])
      ensures Plan(graphics, present, support).Ok? && created == VkSuccess && countResult != VkSuccess ==>
                r == Err(Vulkan(countResult)) && cleanup == Cleanup([], [chain])
      ensures Plan(graphics, present, support).Ok? && created == VkSuccess && countResult == VkSuccess &&
              imagesResult != VkSuccess ==>
                r == Err(Vulkan(imagesResult)) && cleanup == Cleanup([], [chain])
      ensures Plan(graphics, present, support).Ok? && created == VkSuccess && countResult == VkSuccess &&
              imagesResult == VkSuccess && CreateImageViews in flags ==>
                forall i :: 0 <= i < |images| && viewResults[i] != VkSuccess &&
                            (forall k :: 0 <= k < i ==> viewResults[k] == VkSuccess) ==>
                  r == Err(Vulkan(viewResults[i])) && cleanup == Cleanup(views[..i], [chain])
      ensures Plan(graphics, present, support).Ok? && created == VkSuccess && countResult == VkSuccess &&
              imagesResult == VkSuccess &&
              (CreateImageViews in flags ==> forall i :: 0 <= i < |images| ==> viewResults[i] == VkSuccess) ==>
                r.Ok?
      ensures r.Err? && Plan(graphics, present, support).Ok? && created == VkSuccess ==>
                cleanup.swapChains == [chain] &&
                exists i :: 0 <= i <= |images| && cleanup.views == (if CreateImageViews in flags then views[..i] else [])
      ensures r.Ok? ==>
                Plan(graphics, present, support).Ok? && created == VkSuccess &&
                countResult == VkSuccess && imagesResult == VkSuccess &&
                fresh(r.value) && r.value.Valid() &&
                r.value.handle == Some(chain) &&
                r.value.info == Plan(graphics, present, support).value &&
                |r.value.images| == |images| &&
                forall i :: 0 <= i < |images| ==>
                  r.value.images[i].handle == images[i] &&
                  r.value.images[i].view == (if CreateImageViews in flags then Some(views[i]) else None) &&
                  r.value.images[i].info ==
                    Images.FromSwapChain(r.value.info.surfaceFormat.format, r.value.info.extent.width,
                                         r.value.info.extent.height, {Images.ColorAttachment})
      ensures r.Ok? && CreateImageViews in flags ==> forall i :: 0 <= i < |images| ==> viewResults[i] == VkSuccess
    {
      cleanup := Cleanup([], []);
      var plan := PlanInfo(graphics, present, support);
      if plan.Err? {
        return Err(plan.error), cleanup;
      }
      var info := plan.value;
      if created != VkSuccess {
        return Err(Vulkan(created)), cleanup;
      }
      assert views[..0] == [];
      if countResult != VkSuccess {
        return Err(Vulkan(countResult)), Cleanup([], [chain]);
      }
      if imagesResult != VkSuccess {
        return Err(Vulkan(imagesResult)), Cleanup([], [chain]);
      }
      var imageInfo := Images.FromSwapChain(info.surfaceFormat.format, info.extent.width, info.extent.height,
                                            {Images.ColorAttachment});
      var final, failed := WrapImages(images, viewResults, views, CreateImageViews in flags, imageInfo);
      if failed.Some? {
        return Err(Vulkan(viewResults[failed.value])), Cleanup(views[..failed.value], [chain]);
      }
      var sc := new SwapChain(chain, final, info);
      assert Plan(graphics, present, support) == Ok(info);
      return Ok(sc), cleanup;
    }
  }

  /**
   * The image loop of `Build`: each image handle is wrapped with the image
   * info, and with its view when views are created. The first view that
   * fails ends the loop, and `failed` is its index.
   */
  method WrapImages(images: seq<nat>, viewResults: seq<int>, views: seq<nat>, createViews: bool, info: Images.ImageInfo)
      returns (final: seq<SwapImage>, failed: Option<nat>)
    requires |viewResults| == |images| && |views| == |images|
    ensures failed.Some? ==> createViews && failed.value < |images| && viewResults[failed.value] != VkSuccess &&
                             forall k :: 0 <= k < failed.value ==> viewResults[k] == VkSuccess
    ensures failed.None? ==> |final| == |images|
    ensures failed.None? && createViews ==> forall k :: 0 <= k < |images| ==> viewResults[k] == VkSuccess
    ensures failed.None? ==> forall k :: 0 <= k < |images| ==>
              final[k] == SwapImage(images[k], if createViews then Some(views[k]) else None, info)
  {
    final := [];
    var i := 0;
    while i < |images|
      invariant 0 <= i <= |images| && |final| == i
      invariant forall k :: 0 <= k < i ==> final[k] == SwapImage(images[k], if createViews then Some(views[k]) else None, info)
      invariant createViews ==> forall k :: 0 <= k < i ==> viewResults[k] == VkSuccess
    {
      var view: Option<nat> := None;
      if createViews {
        if viewResults[i] != VkSuccess {
          return final, Some(i);
        }
        view := Some(views[i]);
      }
      final := final + [SwapImage(images[i], view, info)];
      i := i + 1;
    }
    return final, None;
  }

  /** The views of a sequence of images, in order. */
  function Views(images: seq<SwapImage>): (r: seq<nat>)
    ensures |r| <= |images|
    ensures forall i :: 0 <= i < |images| && images[i].view.Some? ==> images[i].view.value in r
    ensures forall v :: v in r ==> exists i :: 0 <= i < |images| && images[i].view == Some(v)
  {
    if images == [] then []
    else (if images[0].view.Some? then [images[0].view.value] else []) + Views(images[1..])
  }

  lemma ViewsAppend(images: seq<SwapImage>, img: SwapImage)
    ensures Views(images + [img]) == Views(images) + (if img.view.Some? then [img.view.value] else [])
  {
    if images != [] {
      assert (images + [img])[1..] == images[1..] + [img];
      ViewsAppend(images[1..], img);
    }
  }

  class SwapChain {
    var handle: Option<nat>
    var images: seq<SwapImage>
    var info: CreateInfo
    /** The views and swap chains handed back to Vulkan, in order. */
    var destroyedViews: seq<nat>
    var destroyedSwapChains: seq<nat>

    /** A live swap chain has at most `MaxImages` images; a destroyed one has none. */
    predicate Valid()
      reads this
    {
      |images| <= MaxImages && (handle.None? ==> images == [])
    }

    constructor (chain: nat, images: seq<SwapImage>, info: CreateInfo)
      requires |images| <= MaxImages
      ensures Valid()
      ensures handle == Some(chain) && this.images == images && this.info == info
      ensures destroyedViews == [] && destroyedSwapChains == []
    {
      handle := Some(chain);
      this.images := images;
      this.info := info;
      destroyedViews := [];
      destroyedSwapChains := [];
    }

    /** `IsValid`. */
    predicate IsLive()
      reads this
    {
      handle.Some?
    }

    /**
     * `Destroy`: every image's view is destroyed, the images are dropped
     * and the swap chain itself is destroyed once.
     */
    method Destroy()
      modifies this`images, this`handle, this`destroyedViews, this`destroyedSwapChains
      ensures Valid() && !IsLive()
      ensures images == []
      ensures destroyedViews == old(destroyedViews) + Views(old(images))
      ensures destroyedSwapChains ==
                old(destroyedSwapChains) + (if old(handle).Some? then [old(handle).value] else [])
    {
      var i := 0;
      while i < |images|
        invariant 0 <= i <= |images|
        invariant destroyedViews == old(destroyedViews) + Views(images[..i])
        invariant images == old(images) && handle == old(handle)
        invariant destroyedSwapChains == old(destroyedSwapChains)
      {
        ViewsAppend(images[..i], images[i]);
        assert images[..i + 1] == images[..i] + [images[i]];
        if images[i].view.Some? {
          destroyedViews := destroyedViews + [images[i].view.value];
        }
        i := i + 1;
      }
      assert images[..i] == images;
      images := [];
      if handle.Some? {
        destroyedSwapChains := destroyedSwapChains + [handle.value];
        handle := None;
      }
    }
  }
}

=== FILE: text.dfy ===
/**
 * String operations with the semantics of the Python built-ins the generator
 * scripts use (`strip`, `split`, `join`, `replace`, `startswith`, `in`,
 * `lower`, `upper`), restricted to ASCII where Python is Unicode-aware.
 */
module Text {
  import opened Wrappers

  /** Python's default `strip` characters, restricted to ASCII. */
  predicate IsSpace(c: char)
  {
    c == ' ' || c == '\t' || c == '\n' || c == '\r' || c as int == 11 || c as int == 12
  }

  function TrimLeft(s: string): (r: string)
    ensures |r| <= |s| && r == s[|s| - |r|..]
    ensures r == [] || !IsSpace(r[0])
    ensures forall i :: 0 <= i < |s| - |r| ==> IsSpace(s[i])
  {
    if s != [] && IsSpace(s[0]) then TrimLeft(s[1..]) else s
  }

  function TrimRight(s: string): (r: string)
    ensures |r| <= |s| && r == s[..|r|]
    ensures r == [] || !IsSpace(r[|r| - 1])
    ensures forall i :: |r| <= i < |s| ==> IsSpace(s[i])
  {
    if s != [] && IsSpace(s[|s| - 1]) then TrimRight(s[..|s| - 1]) else s
  }

  /** Python `s.strip()`. */
  function Strip(s: string): string
  {
    TrimRight(TrimLeft(s))
  }

  /** No white space at either end. */
  predicate Trimmed(s: string)
  {
    s == [] || (!IsSpace(s[0]) && !IsSpace(s[|s| - 1]))
  }

  /** A string with no surrounding white space is its own `strip`. */
  lemma StripTrimmed(s: string)
    requires Trimmed(s)
    ensures Strip(s) == s
  {
  }

  /** `strip` leaves no white space at either end. */
  lemma StripIsTrimmed(s: string)
    ensures Trimmed(Strip(s))
  {
  }

  predicate StartsWith(s: string, p: string)
  {
    |p| <= |s| && s[..|p|] == p
  }

  /** Python `s.removeprefix(p)`. */
  function RemovePrefix(s: string, p: string): (r: string)
    ensures StartsWith(s, p) ==> s == p + r
    ensures !StartsWith(s, p) ==> r == s
  {
    if StartsWith(s, p) then s[|p|..] else s
  }

  /** Python `sub in s`. */
  predicate Contains(s: string, sub: string)
    decreases |s|
  {
    StartsWith(s, sub) || (s != [] && Contains(s[1..], sub))
  }

  lemma {:induction false} ContainsAt(s: string, sub: string, i: nat)
    requires i + |sub| <= |s| && s[i..i + |sub|] == sub
    ensures Contains(s, sub)
  {
    if i > 0 {
      assert s[1..][i - 1..i - 1 + |sub|] == s[i..i + |sub|];
      ContainsAt(s[1..], sub, i - 1);
    }
  }

  lemma {:induction false} ContainsWitness(s: string, sub: string) returns (i: nat)
    requires Contains(s, sub)
    ensures i + |sub| <= |s| && s[i..i + |sub|] == sub
    decreases |s|
  {
    if StartsWith(s, sub) {
      i := 0;
    } else {
      var j := ContainsWitness(s[1..], sub);
      assert s[1..][j..j + |sub|] == s[j + 1..j + 1 + |sub|];
      i := j + 1;
    }
  }

  /** Python `sep.join(parts)`. */
  function Join(parts: seq<string>, sep: string): string
    decreases |parts|
  {
    if |parts| == 0 then ""
    else if |parts| == 1 then parts[0]
    else parts[0] + sep + Join(parts[1..], sep)
  }

  /** `sub` occurs in `s` starting at index `j`. */
  predicate OccursAt(s: string, sub: string, j: int)
  {
    0 <= j && j + |sub| <= |s| && s[j..j + |sub|] == sub
  }

  lemma ShiftOccurs(s: string, sub: string, j: nat)
    requires s != []
    ensures OccursAt(s[1..], sub, j) == OccursAt(s, sub, j + 1)
  {
    if j + 1 + |sub| <= |s| {
      assert s[1..][j..j + |sub|] == s[j + 1..j + 1 + |sub|];
    }
  }

  lemma DropLastOccurs(s: string, sub: string, j: nat)
    requires s != [] && j + |sub| < |s|
    ensures OccursAt(s[..|s| - 1], sub, j) == OccursAt(s, sub, j)
  {
    assert s[..|s| - 1][j..j + |sub|] == s[j..j + |sub|];
  }

  /** The first index at which `sub` occurs in `s` (Python `s.find(sub)`). */
  function IndexOf(s: string, sub: string): (r: Option<nat>)
    ensures r.Some? ==> OccursAt(s, sub, r.value)
    ensures r.Some? ==> forall j :: 0 <= j < r.value ==> !OccursAt(s, sub, j)
    ensures r.None? ==> forall j :: !OccursAt(s, sub, j)
    decreases |s|
  {
    if |s| < |sub| then None
    else if s[..|sub|] == sub then Some(0)
    else
      var rest := IndexOf(s[1..], sub);
      assert forall j :: 1 <= j ==> OccursAt(s, sub, j) == OccursAt(s[1..], sub, j - 1) by {
        forall j | 1 <= j ensures OccursAt(s, sub, j) == OccursAt(s[1..], sub, j - 1) {
          ShiftOccurs(s, sub, j - 1);
        }
      }
      assert !OccursAt(s, sub, 0);
      match rest
      case None => None
      case Some(i) => Some(i + 1)
  }

  /** The last index at which `sub` occurs in `s` (Python `s.rfind(sub)`). */
  function LastIndexOf(s: string, sub: string): (r: Option<nat>)
    ensures r.Some? ==> OccursAt(s, sub, r.value)
    ensures r.Some? ==> forall j :: r.value < j ==> !OccursAt(s, sub, j)
    ensures r.None? ==> forall j :: !OccursAt(s, sub, j)
    decreases |s|
  {
    if |s| < |sub| then None
    else if s[|s| - |sub|..] == sub then Some(|s| - |sub|)
    else
      var t := s[..|s| - 1];
      assert forall j: nat :: j + |sub| < |s| ==> OccursAt(t, sub, j) == OccursAt(s, sub, j) by {
        forall j: nat | j + |sub| < |s| ensures OccursAt(t, sub, j) == OccursAt(s, sub, j) {
          DropLastOccurs(s, sub, j);
        }
      }
      assert !OccursAt(s, sub, |s| - |sub|);
      LastIndexOf(t, sub)
  }

  /** A one-character needle occurs exactly where that character is. */
  lemma OccursChar(s: string, c: char)
    ensures forall j :: OccursAt(s, [c], j) <==> 0 <= j < |s| && s[j] == c
  {
    forall j | 0 <= j < |s| ensures OccursAt(s, [c], j) <==> s[j] == c {
      assert s[j..j + 1] == [s[j]];
    }
  }

  /** A string that does not contain `sub` has no occurrence of it. */
  lemma AbsentNoOccurs(s: string, sub: string)
    requires !Contains(s, sub)
    ensures forall j :: !OccursAt(s, sub, j)
  {
    forall j | OccursAt(s, sub, j) ensures false {
      ContainsAt(s, sub, j);
    }
  }

  /** An occurrence with none before it is the one IndexOf finds. */
  lemma IndexOfIs(s: string, sub: string, k: nat)
    requires OccursAt(s, sub, k) && forall j :: 0 <= j < k ==> !OccursAt(s, sub, j)
    ensures IndexOf(s, sub) == Some(k)
  {
  }

  /** An occurrence with none after it is the one LastIndexOf finds. */
  lemma LastIndexOfIs(s: string, sub: string, k: nat)
    requires OccursAt(s, sub, k) && forall j :: k < j ==> !OccursAt(s, sub, j)
    ensures LastIndexOf(s, sub) == Some(k)
  {
  }

  /** Python `s.split(sep)` for a non-empty separator. */
  function Split(s: string, sep: string): (r: seq<string>)
    requires |sep| > 0
    ensures |r| >= 1
    decreases |s|
  {
    match IndexOf(s, sep)
    case None => [s]
    case Some(i) => [s[..i]] + Split(s[i + |sep|..], sep)
  }

  /** The text before the first separator holds no separator. */
  lemma BeforeFirst(s: string, sep: string, i: nat)
    requires |sep| > 0 && IndexOf(s, sep) == Some(i)
    ensures IndexOf(s[..i], sep).None?
  {
    var u := s[..i];
    forall j ensures !OccursAt(u, sep, j) {
      if 0 <= j && j + |sep| <= |u| {
        PrefixOccurs(s, sep, i, j);
      }
    }
    IndexOfNone(u, sep);
  }

  /** An occurrence that ends inside a prefix is one in the whole text. */
  lemma PrefixOccurs(s: string, sub: string, i: nat, j: nat)
    requires j + |sub| <= i <= |s|
    ensures OccursAt(s[..i], sub, j) == OccursAt(s, sub, j)
  {
    assert s[..i][j..j + |sub|] == s[j..j + |sub|];
  }

  /** With no occurrence anywhere, the search finds none. */
  lemma {:induction false} IndexOfNone(s: string, sub: string)
    requires forall j :: !OccursAt(s, sub, j)
    ensures IndexOf(s, sub).None?
    decreases |s|
  {
    if |s| >= |sub| {
      assert !OccursAt(s, sub, 0);
      if s != [] {
        forall j: nat ensures !OccursAt(s[1..], sub, j) {
          ShiftOccurs(s, sub, j);
          assert !OccursAt(s, sub, j + 1);
        }
        assert forall j :: !OccursAt(s[1..], sub, j);
        IndexOfNone(s[1..], sub);
      }
    }
  }

  /** A text is the part before its first separator, the separator and the rest. */
  lemma AroundFirst(s: string, sep: string, i: nat)
    requires |sep| > 0 && IndexOf(s, sep) == Some(i)
    ensures s == s[..i] + sep + s[i + |sep|..]
  {
    assert OccursAt(s, sep, i);
    assert s[i..i + |sep|] == sep;
    assert s == s[..i] + s[i..i + |sep|] + s[i + |sep|..];
  }

  /** Joining the pieces of a split with its separator gives back the text. */
  lemma {:induction false} SplitJoin(s: string, sep: string)
    requires |sep| > 0
    ensures Join(Split(s, sep), sep) == s
    decreases |s|
  {
    match IndexOf(s, sep)
    case None =>
    case Some(i) =>
      var rest := s[i + |sep|..];
      SplitJoin(rest, sep);
      AroundFirst(s, sep, i);
      var t := Split(rest, sep);
      assert Split(s, sep) == [s[..i]] + t;
      assert Join([s[..i]] + t, sep) == s[..i] + sep + Join(t, sep) by {
        assert ([s[..i]] + t)[1..] == t;
      }
  }

  /** No piece of a split holds the separator. */
  lemma {:induction false} SplitPiecesClean(s: string, sep: string)
    requires |sep| > 0
    ensures forall k :: 0 <= k < |Split(s, sep)| ==> IndexOf(Split(s, sep)[k], sep).None?
    decreases |s|
  {
    match IndexOf(s, sep)
    case None =>
    case Some(i) =>
      var rest := s[i + |sep|..];
      SplitPiecesClean(rest, sep);
      BeforeFirst(s, sep, i);
      var r := Split(s, sep);
      assert r == [s[..i]] + Split(rest, sep);
      assert forall k :: 1 <= k < |r| ==> r[k] == Split(rest, sep)[k - 1];
  }

  /**
   * Python `s.replace(p, r)` for a non-empty pattern: occurrences are found
   * from the left and do not overlap.
   */
  function Replace(s: string, p: string, r: string): string
    requires |p| > 0
    decreases |s|
  {
    if |s| < |p| then s
    else if s[..|p|] == p then r + Replace(s[|p|..], p, r)
    else [s[0]] + Replace(s[1..], p, r)
  }

  /** A replacement text that ends in a non-space character leaves the last character of a non-empty string non-space. */
  lemma {:induction false} ReplaceLast(s: string, p: string, r: string)
    requires |p| > 0 && r != [] && !IsSpace(r[|r| - 1])
    requires s != [] && !IsSpace(s[|s| - 1])
    ensures var t := Replace(s, p, r); t != [] && !IsSpace(t[|t| - 1])
    decreases |s|
  {
    if |s| >= |p| {
      var rest := if s[..|p|] == p then s[|p|..] else s[1..];
      if rest != [] {
        assert rest[|rest| - 1] == s[|s| - 1];
        ReplaceLast(rest, p, r);
      }
    }
  }

  /** Replacing by a trimmed text keeps a string trimmed, and empty exactly when it was. */
  lemma ReplaceTrimmed(s: string, p: string, r: string)
    requires |p| > 0 && r != [] && Trimmed(r) && Trimmed(s)
    ensures Trimmed(Replace(s, p, r))
    ensures Replace(s, p, r) == [] <==> s == []
  {
    if s != [] {
      ReplaceLast(s, p, r);
    }
  }

  /** A pattern without `c` cannot start before a `c` and run past it. */
  lemma NoStraddle(a: string, c: char, b: string, p: string)
    requires c !in p
    ensures |a| < |p| ==> !StartsWith(a + [c] + b, p)
  {
    var s := a + [c] + b;
    if |a| < |p| <= |s| {
      assert s[..|p|][|a|] == c;
    }
  }

  /** No occurrence of a pattern can straddle a character the pattern does not hold. */
  lemma {:induction false} ReplaceAround(a: string, c: char, b: string, p: string, r: string)
    requires |p| > 0 && c !in p
    ensures Replace(a + [c] + b, p, r) == Replace(a, p, r) + [c] + Replace(b, p, r)
    decreases |a|
  {
    var s := a + [c] + b;
    NoStraddle(a, c, b, p);
    if |s| < |p| {
      assert Replace(s, p, r) == s && Replace(a, p, r) == a && Replace(b, p, r) == b;
    } else if s[..|p|] == p {
      assert a[..|p|] == p;
      var a' := a[|p|..];
      assert s[|p|..] == a' + [c] + b;
      assert Replace(s, p, r) == r + Replace(a' + [c] + b, p, r);
      assert Replace(a, p, r) == r + Replace(a', p, r);
      ReplaceAround(a', c, b, p, r);
    } else if a == [] {
      assert s[1..] == b;
      assert Replace(s, p, r) == [c] + Replace(b, p, r);
    } else {
      var a' := a[1..];
      assert s[1..] == a' + [c] + b;
      assert Replace(s, p, r) == [a[0]] + Replace(a' + [c] + b, p, r);
      ReplaceAround(a', c, b, p, r);
      if |a| >= |p| {
        assert a[..|p|] == s[..|p|];
        assert Replace(a, p, r) == [a[0]] + Replace(a', p, r);
      } else {
        assert Replace(a, p, r) == a && Replace(a', p, r) == a';
      }
    }
  }

  /** A pattern of three or more characters with no space is replaced on each side of ` || ` separately. */
  lemma ReplaceAroundBars(a: string, b: string, p: string, r: string)
    requires |p| > 2 && ' ' !in p
    ensures Replace(a + " || " + b, p, r) == Replace(a, p, r) + " || " + Replace(b, p, r)
  {
    var tail := "||" + [' '] + b;
    assert a + " || " + b == a + [' '] + tail;
    ReplaceAround(a, ' ', tail, p, r);
    ReplaceAround("||", ' ', b, p, r);
    assert Replace("||", p, r) == "||";
  }

  function LowerChar(c: char): char
  {
    if 'A' <= c <= 'Z' then (c as int + 32) as char else c
  }

  function UpperChar(c: char): char
  {
    if 'a' <= c <= 'z' then (c as int - 32) as char else c
  }

  /** Python `s.lower()` on ASCII letters. */
  function Lower(s: string): (r: string)
    ensures |r| == |s|
    ensures forall i :: 0 <= i < |s| ==> r[i] == LowerChar(s[i])
  {
    seq(|s|, i requires 0 <= i < |s| => LowerChar(s[i]))
  }

  /** Python `s.upper()` on ASCII letters. */
  function Upper(s: string): (r: string)
    ensures |r| == |s|
    ensures forall i :: 0 <= i < |s| ==> r[i] == UpperChar(s[i])
  {
    seq(|s|, i requires 0 <= i < |s| => UpperChar(s[i]))
  }

  /** Lowering or raising a second time changes nothing. */
  lemma CaseIdempotent(s: string)
    ensures Lower(Lower(s)) == Lower(s)
    ensures Upper(Upper(s)) == Upper(s)
  {
  }

  function DigitChar(d: nat): char
    requires d < 10
  {
    ('0' as int + d) as char
  }

  predicate IsDigit(c: char)
  {
    '0' <= c <= '9'
  }

  /** The number a string of decimal digits spells. */
  function DigitsValue(s: string): nat
    requires forall i :: 0 <= i < |s| ==> IsDigit(s[i])
  {
    if s == [] then 0
    else
      assert IsDigit(s[|s| - 1]);
      DigitsValue(s[..|s| - 1]) * 10 + (s[|s| - 1] as int - '0' as int)
  }

  /**
   * Python `str(n)` for a natural number: decimal digits, without a leading
   * zero unless the number is zero, that spell `n`.
   */
  function NatToString(n: nat): (r: string)
    ensures |r| >= 1 && forall i :: 0 <= i < |r| ==> IsDigit(r[i])
    ensures r[0] == '0' ==> n == 0
    ensures DigitsValue(r) == n
  {
    if n < 10 then [DigitChar(n)]
    else
      var r := NatToString(n / 10) + [DigitChar(n % 10)];
      assert r[..|r| - 1] == NatToString(n / 10);
      r
  }

  /** Different numbers are spelled differently. */
  lemma NatToStringInjective(m: nat, n: nat)
    requires NatToString(m) == NatToString(n)
    ensures m == n
  {
  }

  // ---------------------------------------------------------------------
  // Occurrence reasoning for Replace.

  /** `a` and `b` agree on their common length: one is a prefix of the other. */
  predicate Compatible(a: string, b: string)
    decreases |a|
  {
    a == [] || b == [] || (a[0] == b[0] && Compatible(a[1..], b[1..]))
  }

  /** `q` does not occur anywhere in `s`. */
  predicate NoOcc(s: string, q: string)
    decreases |s|
  {
    |s| < |q| || (s[..|q|] != q && NoOcc(s[1..], q))
  }

  /** No suffix of `w` can be the start of an occurrence of `q`. */
  ghost predicate NoPartial(w: string, q: string)
  {
    forall k :: 0 <= k < |w| ==> !Compatible(w[k..], q)
  }

  /** No proper suffix of `q` can start with, or be a prefix of, `w`. */
  ghost predicate NoInner(q: string, w: string)
  {
    forall k :: 1 <= k < |q| ==> !Compatible(q[k..], w)
  }

  lemma {:induction false} DiffersAt(a: string, b: string, i: nat)
    requires i < |a| && i < |b| && a[i] != b[i]
    ensures !Compatible(a, b)
  {
    if i > 0 {
      DiffersAt(a[1..], b[1..], i - 1);
    }
  }

  /** A string that starts with `q` agrees with `q` on its own length. */
  lemma {:induction false} StartsCompatible(w: string, y: string, q: string)
    requires StartsWith(w + y, q)
    ensures Compatible(w, q)
    decreases |w|
  {
    if w != [] && q != [] {
      assert (w + y)[0] == w[0];
      assert (w + y)[1..] == w[1..] + y;
      assert (w + y)[1..][..|q| - 1] == q[1..];
      StartsCompatible(w[1..], y, q[1..]);
    }
  }

  /** A string `u + v` that starts with `q`, with `u` shorter than `q`, agrees with the rest of `q` on `v`. */
  lemma {:induction false} StartsCompatibleAfter(u: string, v: string, q: string)
    requires |u| < |q| && StartsWith(u + v, q)
    ensures Compatible(q[|u|..], v)
    decreases |u|
  {
    if u == [] {
      assert u + v == v && q[|u|..] == q;
      StartsCompatible(v, [], q);
      assert v + [] == v;
      CompatibleSym(v, q);
    } else {
      assert (u + v)[1..] == u[1..] + v;
      assert (u + v)[1..][..|q| - 1] == q[1..];
      StartsCompatibleAfter(u[1..], v, q[1..]);
      assert q[1..][|u| - 1..] == q[|u|..];
    }
  }

  lemma {:induction false} CompatiblePrefix(a: string, b: string, c: string)
    requires Compatible(a, b + c)
    ensures Compatible(a, b)
    decreases |a|
  {
    if a != [] && b != [] {
      assert (b + c)[1..] == b[1..] + c;
      CompatiblePrefix(a[1..], b[1..], c);
    }
  }

  lemma StartsOnlyIfCompatible(w: string, y: string, q: string)
    ensures StartsWith(w + y, q) ==> Compatible(w, q)
  {
    if StartsWith(w + y, q) {
      StartsCompatible(w, y, q);
    }
  }

  lemma StartsAfterOnlyIfCompatible(u: string, v: string, w: string, q: string)
    requires |u| < |q|
    ensures StartsWith(u + (v + w), q) ==> Compatible(q[|u|..], v)
  {
    if StartsWith(u + (v + w), q) {
      StartsCompatibleAfter(u, v + w, q);
      CompatiblePrefix(q[|u|..], v, w);
    }
  }

  /** Replacing does nothing when the pattern does not occur. */
  lemma {:induction false} ReplaceAbsent(s: string, p: string, r: string)
    requires |p| > 0 && NoOcc(s, p)
    ensures Replace(s, p, r) == s
    decreases |s|
  {
    if |s| >= |p| {
      ReplaceAbsent(s[1..], p, r);
      assert [s[0]] + s[1..] == s;
    }
  }

  /** A prefix none of whose suffixes can start `q` creates no occurrence of `q`. */
  lemma {:induction false} NoOccPrepend(w: string, y: string, q: string)
    requires |q| > 0 && NoPartial(w, q) && NoOcc(y, q)
    ensures NoOcc(w + y, q)
    decreases |w|
  {
    if w == [] {
      assert w + y == y;
    } else {
      assert NoPartial(w[1..], q) by {
        forall k | 0 <= k < |w[1..]| ensures !Compatible(w[1..][k..], q) {
          assert w[1..][k..] == w[k + 1..];
        }
      }
      NoOccPrepend(w[1..], y, q);
      assert (w + y)[1..] == w[1..] + y;
      assert w[0..] == w;
      StartsOnlyIfCompatible(w, y, q);
    }
  }

  lemma {:induction false} CompatibleSym(a: string, b: string)
    requires Compatible(a, b)
    ensures Compatible(b, a)
    decreases |a|
  {
    if a != [] && b != [] {
      CompatibleSym(a[1..], b[1..]);
    }
  }

  /**
   * Replacing `p` in `t` cannot make `u + t` start with `q` when no proper
   * suffix of `q` agrees with the replacement text.
   */
  lemma {:induction false} NotStartAfterReplace(u: string, t: string, p: string, r: string, q: string)
    requires |p| > 0 && |u| >= 1 && NoInner(q, r)
    requires !StartsWith(u + t, q)
    ensures !StartsWith(u + Replace(t, p, r), q)
    decreases |t|
  {
    if |t| < |p| {
    } else if t[..|p|] == p {
      var rest := Replace(t[|p|..], p, r);
      assert Replace(t, p, r) == r + rest;
      NotStartReplaced(u, t, r, rest, q);
    } else {
      assert Replace(t, p, r) == [t[0]] + Replace(t[1..], p, r);
      assert u + Replace(t, p, r) == (u + [t[0]]) + Replace(t[1..], p, r);
      assert (u + [t[0]]) + t[1..] == u + t;
      NotStartAfterReplace(u + [t[0]], t[1..], p, r, q);
    }
  }

  /** After a non-empty `u`, a replacement text no proper suffix of `q` agrees with starts no `q`. */
  lemma NotStartReplaced(u: string, t: string, r: string, rest: string, q: string)
    requires |u| >= 1 && NoInner(q, r) && !StartsWith(u + t, q)
    ensures !StartsWith(u + (r + rest), q)
  {
    if |u| < |q| {
      StartsAfterOnlyIfCompatible(u, r, rest, q);
      assert !Compatible(q[|u|..], r);
    } else {
      assert (u + (r + rest))[..|q|] == u[..|q|] == (u + t)[..|q|];
    }
  }

  /**
   * After replacing `p` by `r`, a pattern `q` occurs nowhere, provided `q`
   * is `p` itself or did not occur before, and `r` cannot overlap an
   * occurrence of `q` from either side.
   */
  lemma {:induction false} NoOccAfterReplace(s: string, p: string, r: string, q: string)
    requires |p| > 0 && |q| > 0
    requires NoPartial(r, q) && NoInner(q, r)
    requires q == p || NoOcc(s, q)
    ensures NoOcc(Replace(s, p, r), q)
    decreases |s|
  {
    if |s| < |p| {
    } else if s[..|p|] == p {
      if q != p {
        NoOccSuffix(s, q, |p|);
      }
      NoOccAfterReplace(s[|p|..], p, r, q);
      NoOccPrepend(r, Replace(s[|p|..], p, r), q);
    } else {
      var t := s[1..];
      NoOccAfterReplace(t, p, r, q);
      var x := Replace(t, p, r);
      assert Replace(s, p, r) == [s[0]] + x;
      assert ([s[0]] + x)[1..] == x;
      assert [s[0]] + t == s;
      NotStartAfterReplace([s[0]], t, p, r, q);
    }
  }

  lemma {:induction false} NoOccSuffix(s: string, q: string, n: nat)
    requires NoOcc(s, q) && n <= |s|
    ensures NoOcc(s[n..], q)
    decreases n
  {
    if n > 0 {
      if |s| >= |q| {
        NoOccSuffix(s[1..], q, n - 1);
        assert s[1..][n - 1..] == s[n..];
      }
    }
  }
  // ---------------------------------------------------------------------
  // Suffixes, single-character replacement and two-part splits.

  predicate EndsWith(s: string, p: string)
  {
    |p| <= |s| && s[|s| - |p|..] == p
  }

  /** Python `s.removesuffix(p)`. */
  function RemoveSuffix(s: string, p: string): (r: string)
    ensures EndsWith(s, p) ==> s == r + p
    ensures !EndsWith(s, p) ==> r == s
  {
    if EndsWith(s, p) then s[..|s| - |p|] else s
  }

  /** Replacing one character by another maps the string character by character. */
  lemma {:induction false} ReplaceChar(s: string, a: char, b: char)
    ensures |Replace(s, [a], [b])| == |s|
    ensures forall i :: 0 <= i < |s| ==> Replace(s, [a], [b])[i] == if s[i] == a then b else s[i]
    decreases |s|
  {
    if |s| >= 1 {
      ReplaceChar(s[1..], a, b);
    }
  }

  /** `s` with every occurrence of `a` left out, the other characters kept in order. */
  function Without(s: string, a: char): (r: string)
    ensures |r| <= |s|
    ensures forall i :: 0 <= i < |r| ==> r[i] != a
  {
    if s == [] then [] else (if s[0] == a then [] else [s[0]]) + Without(s[1..], a)
  }

  /** Leaving out `a` keeps every other character as often as it occurred and drops every `a`. */
  lemma {:induction false} WithoutCounts(s: string, a: char)
    ensures multiset(Without(s, a)) == multiset(s)[a := 0]
    decreases |s|
  {
    if s != [] {
      WithoutCounts(s[1..], a);
      assert s == [s[0]] + s[1..];
      assert multiset(s) == multiset{s[0]} + multiset(s[1..]);
    }
  }

  /** A text without `a` is left as it is. */
  lemma {:induction false} WithoutAbsent(s: string, a: char)
    requires forall i :: 0 <= i < |s| ==> s[i] != a
    ensures Without(s, a) == s
    decreases |s|
  {
    if s != [] {
      WithoutAbsent(s[1..], a);
    }
  }

  /** Replacing a character by nothing deletes exactly that character: the other ones stay, in order. */
  lemma {:induction false} ReplaceDeletes(s: string, a: char)
    ensures Replace(s, [a], "") == Without(s, a)
    decreases |s|
  {
    if |s| >= 1 {
      ReplaceDeletes(s[1..], a);
      assert s[..1] == [s[0]];
    }
  }

  /**
   * Splitting `a + sep + b` on `sep` gives back `a` and `b` when neither of
   * them holds the first character of `sep`.
   */
  lemma SplitPair(a: string, sep: string, b: string)
    requires |sep| > 0
    requires forall i :: 0 <= i < |a| ==> a[i] != sep[0]
    requires forall i :: 0 <= i < |b| ==> b[i] != sep[0]
    ensures Split(a + sep + b, sep) == [a, b]
  {
    var s := a + sep + b;
    assert OccursAt(s, sep, |a|) by {
      assert s[|a|..|a| + |sep|] == sep;
    }
    forall j | 0 <= j < |a| ensures !OccursAt(s, sep, j) {
      if j + |sep| <= |s| {
        assert s[j..j + |sep|][0] == a[j];
      }
    }
    IndexOfIs(s, sep, |a|);
    assert s[..|a|] == a;
    assert s[|a| + |sep|..] == b;
    assert Split(s, sep) == [a] + Split(b, sep);
    SplitWhole(b, sep);
  }

  /** A text without the separator's first character splits into itself alone. */
  lemma SplitWhole(b: string, sep: string)
    requires |sep| > 0
    requires forall i :: 0 <= i < |b| ==> b[i] != sep[0]
    ensures Split(b, sep) == [b]
  {
    forall j | 0 <= j ensures !OccursAt(b, sep, j) {
      if j + |sep| <= |b| {
        assert b[j..j + |sep|][0] == b[j];
      }
    }
    assert IndexOf(b, sep).None?;
  }
}

=== FILE: vk_common.dfy ===
/**
 * Vocabulary shared by the Vulkan wrapper: the error a `Result` carries,
 * the Vulkan result codes the wrapper produces itself, 32-bit limits and
 * the first-supported search its builders share.
 * Flag words are modelled as sets of their named bits.
 */
module VkCommon {
  import opened Wrappers

  /** `std::numeric_limits<u32>::max()`, the wrapper's "unset" marker. */
  const U32Max: int := 0xFFFF_FFFF

  /** An unsigned 32-bit value. */
  predicate IsU32(n: int)
  {
    0 <= n <= U32Max
  }

  /** A value reduced to 32 bits, as C++ unsigned arithmetic reduces it. */
  function U32Wrap(n: int): (r: int)
    ensures IsU32(r)
    ensures (r - n) % 0x1_0000_0000 == 0
    ensures IsU32(n) ==> r == n
  {
    n % 0x1_0000_0000
  }

  // Vulkan result codes, as numbered by the Vulkan registry.
  const VkSuccess: int := 0
  const VkErrorOutOfDeviceMemory: int := -2
  const VkErrorInitializationFailed: int := -3
  const VkErrorDeviceLost: int := -4
  const VkErrorLayerNotPresent: int := -6
  const VkErrorExtensionNotPresent: int := -7
  const VkErrorFeatureNotPresent: int := -8
  const VkErrorIncompatibleDriver: int := -9

  /** The error half of the wrapper's `Result`: a Vulkan code or one of its own. */
  datatype Error =
    | Vulkan(code: int)
    | BadSynchronization
    | MissingFeature
    | RejectedDevice
    | NoFormatSupported
    | BadImageCount
    | NoSurfaceCapabilities
    | MissingQueue

  /** The first requested value that is also supported. */
  function FirstSupported<T(==)>(requested: seq<T>, supported: seq<T>): (r: Option<T>)
    ensures r.None? <==> forall i :: 0 <= i < |requested| ==> requested[i] !in supported
    ensures r.Some? ==> r.value in supported &&
                        exists i :: 0 <= i < |requested| && requested[i] == r.value &&
                                    forall j :: 0 <= j < i ==> requested[j] !in supported
    decreases |requested|
  {
    if requested == [] then None
    else if requested[0] in supported then Some(requested[0])
    else
      var r := FirstSupported(requested[1..], supported);
      if r.Some? then
        var i :| 0 <= i < |requested[1..]| && requested[1..][i] == r.value &&
                 forall j :: 0 <= j < i ==> requested[1..][j] !in supported;
        assert requested[i + 1] == r.value;
        r
      else r
  }
}

=== FILE: vk_queue.dfy ===
/**
 * Device queues (vulkit/vkit/execution/queue.cpp): their type names and
 * the timeline-semaphore bookkeeping around submissions.
 */
module VkQueue {
  import opened Wrappers
  import opened VkCommon

  datatype QueueType = Graphics | Compute | Transfer | Present | Count

  /** `ToString(QueueType)`. */
  function ToString(t: QueueType): (r: string)
  {
    match t
    case Graphics => "Graphics"
    case Compute => "Compute"
    case Transfer => "Transfer"
    case Present => "Present"
    case Count => "Unknown"
  }

  /** Only the sentinel prints as "Unknown", and real types print apart. */
  lemma ToStringDistinct(a: QueueType, b: QueueType)
    ensures ToString(a) == "Unknown" <==> a == Count
    ensures a != b && a != Count && b != Count ==> ToString(a) != ToString(b)
  {
    assert "Graphics"[0] == 'G' && "Compute"[0] == 'C' && "Transfer"[0] == 'T';
    assert "Present"[0] == 'P' && "Unknown"[0] == 'U';
  }

  /**
   * A queue with an optional timeline semaphore. `timelineCounter` is the
   * last value handed out for signalling, `timelineSubmissions` the value
   * the last accepted submission signals, `completedTimeline` the value
   * last read back from the semaphore.
   */
  class Queue {
    var timeline: Option<nat>
    var timelineCounter: nat
    var timelineSubmissions: nat
    var completedTimeline: nat

    constructor (timeline: Option<nat>)
      ensures this.timeline == timeline
      ensures timelineCounter == 0 && timelineSubmissions == 0 && completedTimeline == 0
    {
      this.timeline := timeline;
      timelineCounter := 0;
      timelineSubmissions := 0;
      completedTimeline := 0;
    }

    /** A submission is accepted only after a new timeline value was taken. */
    predicate ReadyToSubmit()
      reads this
    {
      timelineCounter > timelineSubmissions
    }

    /**
     * `Submit` and `Submit2` (identical apart from the Vulkan entry point):
     * `submitted` is what `vkQueueSubmit` returns.
     */
    method Submit(submitted: int) returns (r: Result<(), Error>)
      modifies this
      ensures !old(ReadyToSubmit()) ==> r == Err(BadSynchronization)
      ensures old(ReadyToSubmit()) && submitted != VkSuccess ==> r == Err(Vulkan(submitted))
      ensures r.Ok? <==> old(ReadyToSubmit()) && submitted == VkSuccess
      ensures r.Ok? ==> timelineSubmissions == old(timelineCounter)
      ensures r.Err? ==> timelineSubmissions == old(timelineSubmissions)
      ensures timelineCounter == old(timelineCounter) && timeline == old(timeline)
      ensures completedTimeline == old(completedTimeline)
    {
      if timelineCounter <= timelineSubmissions {
        return Err(BadSynchronization);
      }
      if submitted != VkSuccess {
        return Err(Vulkan(submitted));
      }
      timelineSubmissions := timelineCounter;
      r := Ok(());
    }

    /**
     * `UpdateCompletedTimeline`: needs a timeline semaphore; `queried` is
     * what `vkGetSemaphoreCounterValueKHR` returns and `value` the counter
     * it writes.
     */
    method UpdateCompletedTimeline(queried: int, value: nat) returns (r: Result<nat, Error>)
      modifies this
      ensures old(timeline).None? ==> r == Err(MissingFeature) && completedTimeline == old(completedTimeline)
      ensures old(timeline).Some? && queried != VkSuccess ==> r == Err(Vulkan(queried))
      ensures old(timeline).Some? && queried == VkSuccess ==> r == Ok(value)
      ensures old(timeline).Some? ==> completedTimeline == value
      ensures timeline == old(timeline) && timelineCounter == old(timelineCounter)
      ensures timelineSubmissions == old(timelineSubmissions)
    {
      if timeline.None? {
        return Err(MissingFeature);
      }
      completedTimeline := value;
      if queried != VkSuccess {
        return Err(Vulkan(queried));
      }
      r := Ok(completedTimeline);
    }
  }

  /**
   * The submissions counter only grows: two accepted submissions in a row
   * need a new counter value in between.
   */
  method SubmitTwice(q: Queue, first: int, second: int) returns (r1: Result<(), Error>, r2: Result<(), Error>)
    modifies q
    ensures r1.Ok? ==> r2 == Err(BadSynchronization)
    ensures q.timelineSubmissions >= old(q.timelineSubmissions)
  {
    r1 := q.Submit(first);
    r2 := q.Submit(second);
  }
}

=== FILE: vk_system.dfy ===
/**
 * System-wide state of the Vulkan wrapper (vulkit/vkit/vulkan/system.cpp):
 * the loaded library, the instance extensions and layers the loader
 * reports, the deferred deletion queue and the names of result codes.
 */
module VkSystem {
  import opened Wrappers
  import opened VkCommon

  /** `VkExtensionProperties`. */
  datatype ExtensionProperties = ExtensionProperties(extensionName: string, specVersion: nat)

  /** `VkLayerProperties`. */
  datatype LayerProperties =
    LayerProperties(layerName: string, specVersion: nat, implementationVersion: nat, description: string)

  function ExtensionNames(exts: seq<ExtensionProperties>): (r: seq<string>)
    ensures |r| == |exts| && forall i :: 0 <= i < |exts| ==> r[i] == exts[i].extensionName
  {
    seq(|exts|, i requires 0 <= i < |exts| => exts[i].extensionName)
  }

  function LayerNames(layers: seq<LayerProperties>): (r: seq<string>)
    ensures |r| == |layers| && forall i :: 0 <= i < |layers| ==> r[i] == layers[i].layerName
  {
    seq(|layers|, i requires 0 <= i < |layers| => layers[i].layerName)
  }

  /**
   * The range-for with `strcmp` and early return: the position of the first
   * name equal to `p`, if any.
   */
  function FirstIndex(names: seq<string>, p: string): (r: Option<nat>)
    ensures r.None? <==> p !in names
    ensures r.Some? ==> r.value < |names| && names[r.value] == p
    ensures r.Some? ==> forall j :: 0 <= j < r.value ==> names[j] != p
    decreases |names|
  {
    if names == [] then None
    else if names[0] == p then Some(0)
    else
      match FirstIndex(names[1..], p)
      case None => None
      case Some(i) => Some(i + 1)
  }

  /** The Vulkan loader as a library handle that is either loaded or not. */
  class System {
    /** `s_Library`: the handle `dlopen`/`LoadLibraryA` returned, if any. */
    var library: Option<nat>
    /** Every handle handed to `dlclose`/`FreeLibrary`, in order. */
    var closed: seq<nat>
    var availableExtensions: seq<ExtensionProperties>
    var availableLayers: seq<LayerProperties>

    constructor (exts: seq<ExtensionProperties>, layers: seq<LayerProperties>, lib: Option<nat>)
      ensures availableExtensions == exts && availableLayers == layers
      ensures library == lib && closed == []
    {
      availableExtensions := exts;
      availableLayers := layers;
      library := lib;
      closed := [];
    }

    /** `IsExtensionSupported`: some available extension has this name. */
    function IsExtensionSupported(p: string): (r: bool)
      reads this
      ensures r <==> exists i :: 0 <= i < |availableExtensions| && availableExtensions[i].extensionName == p
    {
      FirstIndex(ExtensionNames(availableExtensions), p).Some?
    }

    /** `IsLayerSupported`: some available layer has this name. */
    function IsLayerSupported(p: string): (r: bool)
      reads this
      ensures r <==> exists i :: 0 <= i < |availableLayers| && availableLayers[i].layerName == p
    {
      FirstIndex(LayerNames(availableLayers), p).Some?
    }

    /** `GetExtension`: the first extension with this name, or null. */
    function GetExtension(p: string): (r: Option<ExtensionProperties>)
      reads this
      ensures r.None? <==> !IsExtensionSupported(p)
      ensures r.Some? ==> r.value.extensionName == p &&
                          exists i :: 0 <= i < |availableExtensions| && availableExtensions[i] == r.value &&
                                      forall j :: 0 <= j < i ==> availableExtensions[j].extensionName != p
    {
      match FirstIndex(ExtensionNames(availableExtensions), p)
      case None => None
      case Some(i) => Some(availableExtensions[i])
    }

    /** `GetLayer`: the first layer with this name, or null. */
    function GetLayer(p: string): (r: Option<LayerProperties>)
      reads this
      ensures r.None? <==> !IsLayerSupported(p)
      ensures r.Some? ==> r.value.layerName == p &&
                          exists i :: 0 <= i < |availableLayers| && availableLayers[i] == r.value &&
                                      forall j :: 0 <= j < i ==> availableLayers[j].layerName != p
    {
      match FirstIndex(LayerNames(availableLayers), p)
      case None => None
      case Some(i) => Some(availableLayers[i])
    }

    /**
     * `Terminate`: closes the library when one is loaded and forgets it;
     * with nothing loaded it does nothing.
     */
    method Terminate()
      modifies this
      ensures library.None?
      ensures closed == old(closed) + (if old(library).Some? then [old(library).value] else [])
      ensures availableExtensions == old(availableExtensions) && availableLayers == old(availableLayers)
    {
      if library.None? {
        return;
      }
      closed := closed + [library.value];
      library := None;
    }
  }

  /** `StaticArray1024`: the deletion queue holds at most this many deleters. */
  const DeletionCapacity: nat := 1024

  /** The order reversed. */
  function Reverse<T>(s: seq<T>): (r: seq<T>)
    ensures |r| == |s|
    ensures forall i :: 0 <= i < |s| ==> r[i] == s[|s| - 1 - i]
    decreases |s|
  {
    if s == [] then [] else [s[|s| - 1]] + Reverse(s[..|s| - 1])
  }

  /** Reversing a push puts the pushed element first. */
  lemma {:induction false} ReverseAppend<T>(s: seq<T>, x: T)
    ensures Reverse(s + [x]) == [x] + Reverse(s)
  {
    assert (s + [x])[..|s|] == s;
  }

  /** Reversing twice gives the original order back. */
  lemma {:induction false} ReverseReverse<T>(s: seq<T>)
    ensures Reverse(Reverse(s)) == s
    decreases |s|
  {
    if s != [] {
      var init := s[..|s| - 1];
      ReverseAppend(Reverse(init), s[|s| - 1]);
      assert Reverse(s) == [s[|s| - 1]] + Reverse(init);
      assert Reverse(Reverse(s)) == Reverse([s[|s| - 1]] + Reverse(init));
      ReversePrepend(Reverse(init), s[|s| - 1]);
      ReverseReverse(init);
      assert init + [s[|s| - 1]] == s;
    }
  }

  /** Reversing a sequence with an element in front puts that element last. */
  lemma {:induction false} ReversePrepend<T>(s: seq<T>, x: T)
    ensures Reverse([x] + s) == Reverse(s) + [x]
  {
    var t := [x] + s;
    var r := Reverse(t);
    assert |r| == |Reverse(s) + [x]|;
    forall i | 0 <= i < |r| ensures r[i] == (Reverse(s) + [x])[i] {
      if i < |s| {
        assert r[i] == t[|t| - 1 - i] == s[|s| - 1 - i];
      }
    }
  }

  /**
   * `DeletionQueue`: deleters (named by an identifier each) are pushed in
   * order and run when flushed.
   */
  class DeletionQueue {
    var deleters: seq<nat>
    /** Every deleter run so far, in the order it ran. */
    var ran: seq<nat>

    constructor ()
      ensures deleters == [] && ran == []
    {
      deleters := [];
      ran := [];
    }

    /** `Push`: appends a deleter. */
    method Push(d: nat)
      requires |deleters| < DeletionCapacity
      modifies this
      ensures deleters == old(deleters) + [d] && ran == old(ran)
    {
      deleters := deleters + [d];
    }

    /** `Flush`: runs every deleter, the last pushed first, and empties the queue. */
    method Flush()
      modifies this
      ensures ran == old(ran) + Reverse(old(deleters))
      ensures deleters == []
    {
      var i := |deleters|;
      while i > 0
        invariant 0 <= i <= |deleters|
        invariant deleters == old(deleters)
        invariant ran == old(ran) + Reverse(deleters[i..])
      {
        ReverseAppendFront(deleters, i - 1);
        ran := ran + [deleters[i - 1]];
        i := i - 1;
      }
      deleters := [];
    }
  }

  /** One turn of the reverse loop of `Flush`. */
  lemma ReverseAppendFront<T>(s: seq<T>, i: nat)
    requires i < |s|
    ensures Reverse(s[i..]) == Reverse(s[i + 1..]) + [s[i]]
  {
    assert s[i..] == [s[i]] + s[i + 1..];
    ReversePrepend(s[i + 1..], s[i]);
  }

  /**
   * The cases of the `switch` in `VkResultToString`, in order: each code
   * with its name after the common `VK_` prefix.
   */
  const ResultNames: seq<(int, string)> := [
    (0, "SUCCESS"),
    (1, "NOT_READY"),
    (2, "TIMEOUT"),
    (3, "EVENT_SET"),
    (4, "EVENT_RESET"),
    (5, "INCOMPLETE"),
    (-1, "ERROR_OUT_OF_HOST_MEMORY"),
    (-2, "ERROR_OUT_OF_DEVICE_MEMORY"),
    (-3, "ERROR_INITIALIZATION_FAILED"),
    (-4, "ERROR_DEVICE_LOST"),
    (-5, "ERROR_MEMORY_MAP_FAILED"),
    (-6, "ERROR_LAYER_NOT_PRESENT"),
    (-7, "ERROR_EXTENSION_NOT_PRESENT"),
    (-8, "ERROR_FEATURE_NOT_PRESENT"),
    (-9, "ERROR_INCOMPATIBLE_DRIVER"),
    (-10, "ERROR_TOO_MANY_OBJECTS"),
    (-11, "ERROR_FORMAT_NOT_SUPPORTED"),
    (-12, "ERROR_FRAGMENTED_POOL"),
    (-13, "ERROR_UNKNOWN"),
    (-1000069000, "ERROR_OUT_OF_POOL_MEMORY"),
    (-1000072003, "ERROR_INVALID_EXTERNAL_HANDLE"),
    (-1000161000, "ERROR_FRAGMENTATION"),
    (-1000257000, "ERROR_INVALID_OPAQUE_CAPTURE_ADDRESS"),
    (1000297000, "PIPELINE_COMPILE_REQUIRED"),
    (-1000000000, "ERROR_SURFACE_LOST_KHR"),
    (-1000000001, "ERROR_NATIVE_WINDOW_IN_USE_KHR"),
    (1000001003, "SUBOPTIMAL_KHR"),
    (-1000001004, "ERROR_OUT_OF_DATE_KHR"),
    (-1000003001, "ERROR_INCOMPATIBLE_DISPLAY_KHR"),
    (-1000011001, "ERROR_VALIDATION_FAILED_EXT"),
    (-1000012000, "ERROR_INVALID_SHADER_NV"),
    (-1000023000, "ERROR_IMAGE_USAGE_NOT_SUPPORTED_KHR"),
    (-1000023001, "ERROR_VIDEO_PICTURE_LAYOUT_NOT_SUPPORTED_KHR"),
    (-1000023002, "ERROR_VIDEO_PROFILE_OPERATION_NOT_SUPPORTED_KHR"),
    (-1000023003, "ERROR_VIDEO_PROFILE_FORMAT_NOT_SUPPORTED_KHR"),
    (-1000023004, "ERROR_VIDEO_PROFILE_CODEC_NOT_SUPPORTED_KHR"),
    (-1000023005, "ERROR_VIDEO_STD_VERSION_NOT_SUPPORTED_KHR"),
    (-1000158000, "ERROR_INVALID_DRM_FORMAT_MODIFIER_PLANE_LAYOUT_EXT"),
    (-1000174001, "ERROR_NOT_PERMITTED_KHR"),
    (-1000255000, "ERROR_FULL_SCREEN_EXCLUSIVE_MODE_LOST_EXT"),
    (1000268000, "THREAD_IDLE_KHR"),
    (1000268001, "THREAD_DONE_KHR"),
    (1000268002, "OPERATION_DEFERRED_KHR"),
    (1000268003, "OPERATION_NOT_DEFERRED_KHR"),
    (-1000338000, "ERROR_COMPRESSION_EXHAUSTED_EXT"),
    (1000482000, "ERROR_INCOMPATIBLE_SHADER_BINARY_EXT")
  ]

  /** The name of the first case whose code is `code`. */
  function CaseName(cases: seq<(int, string)>, code: int): (r: Option<string>)
    ensures r.None? <==> forall i :: 0 <= i < |cases| ==> cases[i].0 != code
    ensures r.Some? ==> exists i :: 0 <= i < |cases| && cases[i] == (code, r.value) &&
                                    forall j :: 0 <= j < i ==> cases[j].0 != code
    decreases |cases|
  {
    if cases == [] then None
    else if cases[0].0 == code then Some(cases[0].1)
    else
      var r := CaseName(cases[1..], code);
      if r.Some? then
        var i :| 0 <= i < |cases[1..]| && cases[1..][i] == (code, r.value) &&
                 forall j :: 0 <= j < i ==> cases[1..][j].0 != code;
        assert cases[i + 1] == (code, r.value);
        r
      else r
  }

  /** `VkResultToString`. */
  function VkResultToString(code: int): string
  {
    CaseText(ResultNames, code)
  }

  /** The `switch` over a table of cases, with its `default`. */
  function CaseText(cases: seq<(int, string)>, code: int): string
  {
    match CaseName(cases, code)
    case None => "Unknown VkResult"
    case Some(n) => "VK_" + n
  }

  /**
   * A code outside the `switch` is "Unknown VkResult", and a code inside it
   * never is.
   */
  lemma UnknownResult(code: int)
    ensures VkResultToString(code) == "Unknown VkResult" <==>
            forall i :: 0 <= i < |ResultNames| ==> ResultNames[i].0 != code
  {
    UnknownCase(ResultNames, code);
  }

  /** The text of a case table is the fallback exactly when the code is in no case. */
  lemma UnknownCase(cases: seq<(int, string)>, code: int)
    ensures CaseText(cases, code) == "Unknown VkResult" <==>
            forall i :: 0 <= i < |cases| ==> cases[i].0 != code
  {
    var r := CaseName(cases, code);
    if r.Some? {
      assert CaseText(cases, code)[0] == 'V';
      assert "Unknown VkResult"[0] == 'U';
    }
  }
}

=== FILE: vkloader_availability.dfy ===
/**
 * The two passes of the Vulkan loader generator (codegen/cpp/vkloader.py)
 * that record availability once every type and command is known: the
 * feature pass marks each entry a core version requires with that version,
 * and the extension pass appends the extension's guard group to each entry
 * an extension requires.
 */
module VkLoaderAvailability {
  import opened Wrappers
  import opened Text
  import opened VkLoaderGuards
  import opened VkLoaderRegistry

  /** A `<command>` or `<type>` child of a `<require>` block. */
  datatype RefElement = RefElement(attributes: map<string, string>, name: string)

  /** A `<require>` block: its API attributes, its `depends` attribute and its children in document order. */
  datatype RequireElement = RequireElement(
    attributes: map<string, string>, depends: Option<string>,
    commands: seq<RefElement>, types: seq<RefElement>)

  /** A `<feature>`, that is, a core version. */
  datatype FeatureElement = FeatureElement(attributes: map<string, string>, name: string, blocks: seq<RequireElement>)

  /** An `<extension>`. */
  datatype ExtensionElement = ExtensionElement(name: string, blocks: seq<RequireElement>)

  /** The `--guard-extension` and `--guard-version` switches. */
  datatype GuardFlags = GuardFlags(guardExtension: bool, guardVersion: bool)

  /** An entry as the dictionaries hold it before and after an update of its availability. */
  ghost predicate Untouched(functions: map<string, Function>, types: map<string, TypeEntry>,
                            functions': map<string, Function>, types': map<string, TypeEntry>, ref: EntryRef)
  {
    FindIn(functions', types', ref) == FindIn(functions, types, ref)
  }

  // --- Feature pass ------------------------------------------------------------------

  /** The admitted `<command>` (or `<type>`) children, in document order. */
  function AdmittedRefs(es: seq<RefElement>, variant: string, isType: bool): (r: seq<EntryRef>)
    ensures |r| <= |es|
  {
    if es == [] then []
    else
      (if CheckApi(es[0].attributes, variant, false)
       then [if isType then TypeRef(es[0].name) else FunctionRef(es[0].name)] else [])
      + AdmittedRefs(es[1..], variant, isType)
  }

  /** What a feature registers: for each admitted require block, its admitted commands then its admitted types. */
  function FeatureEntries(blocks: seq<RequireElement>, variant: string): seq<EntryRef>
  {
    if blocks == [] then []
    else
      var rq := blocks[0];
      (if CheckApi(rq.attributes, variant, false)
       then AdmittedRefs(rq.commands, variant, false) + AdmittedRefs(rq.types, variant, true) else [])
      + FeatureEntries(blocks[1..], variant)
  }

  /** One registration of the feature pass: an entry and the version it is marked with. */
  datatype Registration = Registration(ref: EntryRef, version: string)

  function Tagged(refs: seq<EntryRef>, version: string): (r: seq<Registration>)
    ensures |r| == |refs|
    ensures forall k :: 0 <= k < |refs| ==> r[k] == Registration(refs[k], version)
  {
    seq(|refs|, k requires 0 <= k < |refs| => Registration(refs[k], version))
  }

  lemma TaggedPrefix(refs: seq<EntryRef>, j: nat, version: string)
    requires j < |refs|
    ensures Tagged(refs[..j + 1], version) == Tagged(refs[..j], version) + [Registration(refs[j], version)]
    ensures Tagged(refs[..j + 1], version) == Tagged(refs, version)[..j + 1]
  {
  }

  /** Every registration of the feature pass, in order; a feature's version goes through `fix_version_macro`. */
  function FeatureRegistrations(features: seq<FeatureElement>, variant: string): seq<Registration>
  {
    if features == [] then []
    else
      var f := features[|features| - 1];
      FeatureRegistrations(features[..|features| - 1], variant)
      + (if CheckApi(f.attributes, variant, false)
         then Tagged(FeatureEntries(f.blocks, variant), FixVersionMacro(f.name)) else [])
  }

  lemma {:induction false} FeatureRegistrationsPrefix(features: seq<FeatureElement>, i: nat, variant: string)
    requires i <= |features|
    ensures FeatureRegistrations(features[..i], variant) <= FeatureRegistrations(features, variant)
    decreases |features|
  {
    if i < |features| {
      var n := |features| - 1;
      FeatureRegistrationsPrefix(features[..n], i, variant);
      assert features[..n][..i] == features[..i];
    } else {
      assert features[..i] == features;
    }
  }

  /** The group the feature pass adds: the version alone. */
  function VersionGroup(version: string): GuardGroup
  {
    AndGuards(GuardGroup([]), [version])
  }

  /** The availability of a registered entry: the version, and one more group holding it. */
  function Registered(a: Availability, version: string): Availability
  {
    Availability(Some(version), a.guards + [VersionGroup(version)])
  }

  /** The pass can complete: every entry exists, none is registered yet, and none is listed twice. */
  ghost predicate Admissible(functions: map<string, Function>, types: map<string, TypeEntry>, regs: seq<Registration>)
  {
    (forall k :: 0 <= k < |regs| ==>
       FindIn(functions, types, regs[k].ref).Some? && FindIn(functions, types, regs[k].ref).value.availableSince.None?)
    && (forall i, j :: 0 <= i < j < |regs| ==> regs[i].ref != regs[j].ref)
  }

  /** The listed entries are registered with their versions and every other entry is untouched. */
  ghost predicate RegisteredState(functions: map<string, Function>, types: map<string, TypeEntry>,
                                  functions': map<string, Function>, types': map<string, TypeEntry>, regs: seq<Registration>)
  {
    (forall k :: 0 <= k < |regs| ==>
       FindIn(functions, types, regs[k].ref).Some?
       && FindIn(functions', types', regs[k].ref) == Some(Registered(FindIn(functions, types, regs[k].ref).value, regs[k].version)))
    && (forall ref :: (forall k :: 0 <= k < |regs| ==> regs[k].ref != ref) ==> Untouched(functions, types, functions', types', ref))
  }

  /** A registration that finds its entry missing or already registered makes every longer list inadmissible. */
  lemma StuckIsInadmissible(functions: map<string, Function>, types: map<string, TypeEntry>,
                            functions': map<string, Function>, types': map<string, TypeEntry>,
                            done: seq<Registration>, x: Registration, all: seq<Registration>)
    requires done + [x] <= all
    requires RegisteredState(functions, types, functions', types', done)
    requires FindIn(functions', types', x.ref).None? || FindIn(functions', types', x.ref).value.availableSince.Some?
    ensures !Admissible(functions, types, all)
  {
    assert all[|done|] == x;
    if k :| 0 <= k < |done| && done[k].ref == x.ref {
      assert all[k] == done[k];
    } else {
      assert Untouched(functions, types, functions', types', x.ref);
    }
  }

  /** Registering an entry that is present and not yet registered extends both invariants. */
  lemma RegisterStep(functions: map<string, Function>, types: map<string, TypeEntry>,
                     functions': map<string, Function>, types': map<string, TypeEntry>,
                     functions'': map<string, Function>, types'': map<string, TypeEntry>,
                     done: seq<Registration>, x: Registration)
    requires Admissible(functions, types, done) && RegisteredState(functions, types, functions', types', done)
    requires FindIn(functions', types', x.ref).Some? && FindIn(functions', types', x.ref).value.availableSince.None?
    requires FindIn(functions'', types'', x.ref) == Some(Registered(FindIn(functions', types', x.ref).value, x.version))
    requires forall other :: other != x.ref ==> FindIn(functions'', types'', other) == FindIn(functions', types', other)
    ensures Admissible(functions, types, done + [x]) && RegisteredState(functions, types, functions'', types'', done + [x])
  {
    var all := done + [x];
    forall k | 0 <= k < |done| ensures done[k].ref != x.ref {
    }
    assert Untouched(functions, types, functions', types', x.ref);
    forall k | 0 <= k < |all|
      ensures FindIn(functions, types, all[k].ref).Some?
      ensures FindIn(functions'', types'', all[k].ref) == Some(Registered(FindIn(functions, types, all[k].ref).value, all[k].version))
    {
      if k < |done| {
        assert all[k] == done[k];
      }
    }
    forall ref | forall k :: 0 <= k < |all| ==> all[k].ref != ref
      ensures Untouched(functions, types, functions'', types'', ref)
    {
      assert all[|done|] == x;
      assert forall k :: 0 <= k < |done| ==> done[k].ref != ref by {
        forall k | 0 <= k < |done| ensures done[k].ref != ref {
          assert all[k] == done[k];
        }
      }
      assert Untouched(functions, types, functions', types', ref);
      assert Untouched(functions', types', functions'', types'', ref);
    }
  }

  /**
   * One registration: a missing entry is a `KeyError`, an entry that already
   * has a version is fatal, and otherwise the entry is marked with `version`.
   */
  method RegisterEntry(reg: Registry, ref: EntryRef, version: string,
                       ghost functions0: map<string, Function>, ghost types0: map<string, TypeEntry>,
                       ghost before: seq<Registration>, ghost all: seq<Registration>) returns (r: Result<(), string>)
    requires reg.Valid()
    requires reg.functions.Keys == functions0.Keys && reg.types.Keys == types0.Keys
    requires Admissible(functions0, types0, before) && RegisteredState(functions0, types0, reg.functions, reg.types, before)
    requires before + [Registration(ref, version)] <= all
    modifies reg
    ensures reg.Valid()
    ensures reg.functions.Keys == functions0.Keys && reg.types.Keys == types0.Keys
    ensures r.Ok? ==> Admissible(functions0, types0, before + [Registration(ref, version)])
    ensures r.Ok? ==> RegisteredState(functions0, types0, reg.functions, reg.types, before + [Registration(ref, version)])
    ensures r.Err? ==> !Admissible(functions0, types0, all)
  {
    var found := FindIn(reg.functions, reg.types, ref);
    if found.None? {
      StuckIsInadmissible(functions0, types0, reg.functions, reg.types, before, Registration(ref, version), all);
      return Err("KeyError: " + ref.name);
    }
    if found.value.availableSince.Some? {
      StuckIsInadmissible(functions0, types0, reg.functions, reg.types, before, Registration(ref, version), all);
      return Err("Entry " + ref.name + " is already flagged as required since " + found.value.availableSince.value);
    }
    ghost var functions1, types1 := reg.functions, reg.types;
    reg.SetAvailability(ref, Registered(found.value, version));
    RegisterStep(functions0, types0, functions1, types1, reg.functions, reg.types, before, Registration(ref, version));
    r := Ok(());
  }

  /**
   * The loop over one admitted feature's require blocks and their admitted
   * commands and types. `version` starts as the feature's name and is put
   * through `fix_version_macro` before each registration; since that
   * rewrite is idempotent, every entry gets the rewritten name.
   */
  method RegisterFeature(reg: Registry, f: FeatureElement, variant: string,
                         ghost functions0: map<string, Function>, ghost types0: map<string, TypeEntry>,
                         ghost done: seq<Registration>, ghost all: seq<Registration>) returns (r: Result<(), string>)
    requires reg.Valid()
    requires reg.functions.Keys == functions0.Keys && reg.types.Keys == types0.Keys
    requires Admissible(functions0, types0, done) && RegisteredState(functions0, types0, reg.functions, reg.types, done)
    requires done + Tagged(FeatureEntries(f.blocks, variant), FixVersionMacro(f.name)) <= all
    modifies reg
    ensures reg.Valid()
    ensures reg.functions.Keys == functions0.Keys && reg.types.Keys == types0.Keys
    ensures r.Ok? ==> Admissible(functions0, types0, done + Tagged(FeatureEntries(f.blocks, variant), FixVersionMacro(f.name)))
    ensures r.Ok? ==> RegisteredState(functions0, types0, reg.functions, reg.types, done + Tagged(FeatureEntries(f.blocks, variant), FixVersionMacro(f.name)))
    ensures r.Err? ==> !Admissible(functions0, types0, all)
  {
    var version := f.name;
    var entries := FeatureEntries(f.blocks, variant);
    ghost var v := FixVersionMacro(f.name);
    FixVersionMacroIdempotent(f.name);
    assert entries[..0] == [] && done + Tagged([], v) == done;
    ghost var before := done;
    for j := 0 to |entries|
      invariant reg.Valid()
      invariant reg.functions.Keys == functions0.Keys && reg.types.Keys == types0.Keys
      invariant version == f.name || version == v
      invariant before == done + Tagged(entries[..j], v)
      invariant Admissible(functions0, types0, before)
      invariant RegisteredState(functions0, types0, reg.functions, reg.types, before)
    {
      version := FixVersionMacro(version);
      TaggedPrefix(entries, j, v);
      ghost var after := before + [Registration(entries[j], version)];
      assert after == done + Tagged(entries[..j + 1], v);
      assert after <= done + Tagged(entries, v);
      var rr := RegisterEntry(reg, entries[j], version, functions0, types0, before, all);
      if rr.Err? {
        return rr;
      }
      before := after;
    }
    assert entries[..|entries|] == entries;
    r := Ok(());
  }

  /**
   * The feature pass. The pass succeeds exactly when its registrations are
   * admissible: a missing entry is a `KeyError`, and an entry already
   * registered, by an earlier feature or earlier in the same one, is fatal.
   * On success each listed entry carries its feature's version, as
   * `availableSince` and as one more guard group, and nothing else changes.
   */
  method FeaturePass(reg: Registry, features: seq<FeatureElement>, variant: string) returns (r: Result<(), string>)
    requires reg.Valid()
    modifies reg
    ensures reg.Valid()
    ensures reg.functions.Keys == old(reg.functions.Keys) && reg.types.Keys == old(reg.types.Keys)
    ensures r.Ok? <==> Admissible(old(reg.functions), old(reg.types), FeatureRegistrations(features, variant))
    ensures r.Ok? ==> RegisteredState(old(reg.functions), old(reg.types), reg.functions, reg.types, FeatureRegistrations(features, variant))
  {
    ghost var functions0, types0 := reg.functions, reg.types;
    ghost var all := FeatureRegistrations(features, variant);
    for i := 0 to |features|
      invariant reg.Valid()
      invariant reg.functions.Keys == functions0.Keys && reg.types.Keys == types0.Keys
      invariant Admissible(functions0, types0, FeatureRegistrations(features[..i], variant))
      invariant RegisteredState(functions0, types0, reg.functions, reg.types, FeatureRegistrations(features[..i], variant))
    {
      var f := features[i];
      ghost var done := FeatureRegistrations(features[..i], variant);
      assert features[..i + 1][..i] == features[..i];
      FeatureRegistrationsPrefix(features, i + 1, variant);
      if CheckApi(f.attributes, variant, false) {
        var rf := RegisterFeature(reg, f, variant, functions0, types0, done, all);
        if rf.Err? {
          return rf;
        }
        assert FeatureRegistrations(features[..i + 1], variant)
          == done + Tagged(FeatureEntries(f.blocks, variant), FixVersionMacro(f.name));
      } else {
        assert FeatureRegistrations(features[..i + 1], variant) == done + [];
        assert done + [] == done;
      }
    }
    assert features[..|features|] == features;
    r := Ok(());
  }

  // --- Extension pass ----------------------------------------------------------------

  /** The extensions whose later commands need a minimum `SPEC_VERSION`, with that version. */
  const SpecVersionReq: map<string, nat> := map[
    "vkCmdSetDiscardRectangleEnableEXT" := 2,
    "vkCmdSetDiscardRectangleModeEXT" := 2,
    "vkCmdSetExclusiveScissorEnableNV" := 2,
    "vkGetImageViewAddressNVX" := 2,
    "vkGetImageViewHandle64NVX" := 3,
    "vkGetDeviceSubpassShadingMaxWorkgroupSizeHUAWEI" := 2
  ]

  function SpecVersionCondition(extension: string, n: nat): string
  {
    Upper(extension) + "_SPEC_VERSION >= " + NatToString(n)
  }

  /** One group per `+`-separated part of `depends`, its alternatives separated by `,`. */
  function DependsGroup(g: GuardGroup, parts: seq<string>): (r: GuardGroup)
    ensures |r.groups| == |g.groups| + |parts| && r.groups[..|g.groups|] == g.groups
  {
    if parts == [] then g
    else
      var prev := DependsGroup(g, parts[..|parts| - 1]);
      AndGuards(prev, Split(parts[|parts| - 1], ","))
  }

  /** The group a require block starts from: the extension's name, then its dependencies. */
  lemma DependsGroupNext(g: GuardGroup, parts: seq<string>, k: nat)
    requires k < |parts|
    ensures DependsGroup(g, parts[..k + 1]) == AndGuards(DependsGroup(g, parts[..k]), Split(parts[k], ","))
  {
    assert parts[..k + 1][..k] == parts[..k];
  }

  function BaseGroup(extension: string, depends: Option<string>, flags: GuardFlags): GuardGroup
  {
    var g := if flags.guardExtension then AndGuards(GuardGroup([]), [extension]) else GuardGroup([]);
    if depends.Some? && flags.guardExtension then DependsGroup(g, Split(depends.value, "+")) else g
  }

  /** The extension's name is the first group and each dependency part adds one; without the switch the group is empty. */
  lemma BaseGroupShape(extension: string, depends: Option<string>, flags: GuardFlags)
    ensures !flags.guardExtension ==> BaseGroup(extension, depends, flags) == GuardGroup([])
    ensures flags.guardExtension ==>
      var gs := BaseGroup(extension, depends, flags).groups;
      |gs| == 1 + (if depends.Some? then |Split(depends.value, "+")| else 0)
      && gs[0] == [DefinedToken(Strip(extension))]
  {
  }

  /** The update a listed command makes to the shared group. */
  function SpecStep(g: GuardGroup, extension: string, command: string, flags: GuardFlags): GuardGroup
  {
    if command in SpecVersionReq && flags.guardVersion
    then AndGuards(g, [SpecVersionCondition(extension, SpecVersionReq[command])])
    else g
  }

  /** The shared group after the given commands of a require block. */
  function GroupAfter(base: GuardGroup, extension: string, commands: seq<RefElement>, flags: GuardFlags): (r: GuardGroup)
    ensures |base.groups| <= |r.groups| && r.groups[..|base.groups|] == base.groups
  {
    if commands == [] then base
    else SpecStep(GroupAfter(base, extension, commands[..|commands| - 1], flags), extension, commands[|commands| - 1].name, flags)
  }

  /**
   * The group is shared by the commands and types of a block: a condition
   * added for one command stays in the group handed to every later command
   * and type of the same block.
   */
  lemma {:induction false} GroupAfterGrows(base: GuardGroup, extension: string, commands: seq<RefElement>, i: nat, flags: GuardFlags)
    requires i <= |commands|
    ensures var early := GroupAfter(base, extension, commands[..i], flags).groups;
      early <= GroupAfter(base, extension, commands, flags).groups
    decreases |commands|
  {
    if i < |commands| {
      var n := |commands| - 1;
      GroupAfterGrows(base, extension, commands[..n], i, flags);
      assert commands[..n][..i] == commands[..i];
      var g := GroupAfter(base, extension, commands[..n], flags);
      assert g.groups <= SpecStep(g, extension, commands[n].name, flags).groups;
    } else {
      assert commands[..i] == commands;
    }
  }

  /** A command listed in `SpecVersionReq` adds its condition as a group of its own. */
  lemma SpecConditionAdded(base: GuardGroup, extension: string, commands: seq<RefElement>, i: nat, flags: GuardFlags)
    requires i < |commands| && commands[i].name in SpecVersionReq && flags.guardVersion
    ensures var g := GroupAfter(base, extension, commands[..i + 1], flags).groups;
      |g| > 0 && g[|g| - 1] == [DefinedToken(Strip(SpecVersionCondition(extension, SpecVersionReq[commands[i].name])))]
  {
    assert commands[..i + 1][..i] == commands[..i];
  }

  /** A guard group attached to an entry. */
  datatype Attachment = Attachment(ref: EntryRef, group: GuardGroup)

  /** What the commands of a block attach: each command the group as it stands after it. */
  function CommandAttachments(base: GuardGroup, extension: string, commands: seq<RefElement>, flags: GuardFlags): (r: seq<Attachment>)
    ensures |r| == |commands|
  {
    seq(|commands|, k requires 0 <= k < |commands| =>
      Attachment(FunctionRef(commands[k].name), GroupAfter(base, extension, commands[..k + 1], flags)))
  }

  lemma CommandAttachmentsStep(base: GuardGroup, extension: string, commands: seq<RefElement>, j: nat, flags: GuardFlags)
    requires j < |commands|
    ensures GroupAfter(base, extension, commands[..j + 1], flags)
      == SpecStep(GroupAfter(base, extension, commands[..j], flags), extension, commands[j].name, flags)
    ensures CommandAttachments(base, extension, commands, flags)[j]
      == Attachment(FunctionRef(commands[j].name), GroupAfter(base, extension, commands[..j + 1], flags))
  {
    assert commands[..j + 1][..j] == commands[..j];
  }

  /** What the types of a block attach: each type the group as the commands left it. */
  function TypeAttachments(g: GuardGroup, types: seq<RefElement>): (r: seq<Attachment>)
    ensures |r| == |types|
  {
    seq(|types|, k requires 0 <= k < |types| => Attachment(TypeRef(types[k].name), g))
  }

  /** What one require block attaches: its commands, then its types. */
  function RequireAttachments(extension: string, rq: RequireElement, flags: GuardFlags): seq<Attachment>
  {
    var base := BaseGroup(extension, rq.depends, flags);
    CommandAttachments(base, extension, rq.commands, flags)
    + TypeAttachments(GroupAfter(base, extension, rq.commands, flags), rq.types)
  }

  function RequiresAttachments(extension: string, blocks: seq<RequireElement>, flags: GuardFlags): seq<Attachment>
  {
    if blocks == [] then []
    else RequiresAttachments(extension, blocks[..|blocks| - 1], flags) + RequireAttachments(extension, blocks[|blocks| - 1], flags)
  }

  /** Every attachment of the extension pass, in document order. */
  function ExtensionAttachments(extensions: seq<ExtensionElement>, flags: GuardFlags): seq<Attachment>
  {
    if extensions == [] then []
    else
      var e := extensions[|extensions| - 1];
      ExtensionAttachments(extensions[..|extensions| - 1], flags) + RequiresAttachments(e.name, e.blocks, flags)
  }

  lemma {:induction false} RequiresAttachmentsPrefix(extension: string, blocks: seq<RequireElement>, i: nat, flags: GuardFlags)
    requires i <= |blocks|
    ensures RequiresAttachments(extension, blocks[..i], flags) <= RequiresAttachments(extension, blocks, flags)
    decreases |blocks|
  {
    if i < |blocks| {
      var n := |blocks| - 1;
      RequiresAttachmentsPrefix(extension, blocks[..n], i, flags);
      assert blocks[..n][..i] == blocks[..i];
    } else {
      assert blocks[..i] == blocks;
    }
  }

  lemma RequiresAttachmentsNext(extension: string, blocks: seq<RequireElement>, j: nat, flags: GuardFlags)
    requires j < |blocks|
    ensures RequiresAttachments(extension, blocks[..j + 1], flags)
      == RequiresAttachments(extension, blocks[..j], flags) + RequireAttachments(extension, blocks[j], flags)
  {
    assert blocks[..j + 1][..j] == blocks[..j];
  }

  lemma {:induction false} ExtensionAttachmentsPrefix(extensions: seq<ExtensionElement>, i: nat, flags: GuardFlags)
    requires i <= |extensions|
    ensures ExtensionAttachments(extensions[..i], flags) <= ExtensionAttachments(extensions, flags)
    decreases |extensions|
  {
    if i < |extensions| {
      var n := |extensions| - 1;
      ExtensionAttachmentsPrefix(extensions[..n], i, flags);
      assert extensions[..n][..i] == extensions[..i];
    } else {
      assert extensions[..i] == extensions;
    }
  }

  /** The groups attached to one entry, in order. */
  function GroupsFor(attachments: seq<Attachment>, ref: EntryRef): seq<GuardGroup>
  {
    if attachments == [] then []
    else
      var a := attachments[|attachments| - 1];
      GroupsFor(attachments[..|attachments| - 1], ref) + (if a.ref == ref then [a.group] else [])
  }

  lemma {:induction false} GroupsForAppend(a: seq<Attachment>, b: seq<Attachment>, ref: EntryRef)
    ensures GroupsFor(a + b, ref) == GroupsFor(a, ref) + GroupsFor(b, ref)
    decreases |b|
  {
    if b == [] {
      assert a + b == a;
    } else {
      var n := |b| - 1;
      GroupsForAppend(a, b[..n], ref);
      assert (a + b)[..|a + b| - 1] == a + b[..n];
    }
  }

  /** Every attached entry exists. */
  ghost predicate AllAttached(functions: map<string, Function>, types: map<string, TypeEntry>, attachments: seq<Attachment>)
  {
    forall k :: 0 <= k < |attachments| ==> FindIn(functions, types, attachments[k].ref).Some?
  }

  lemma AllAttachedStep(functions: map<string, Function>, types: map<string, TypeEntry>, a: seq<Attachment>, x: Attachment)
    requires AllAttached(functions, types, a) && FindIn(functions, types, x.ref).Some?
    ensures AllAttached(functions, types, a + [x])
  {
    forall k | 0 <= k < |a| + 1 ensures FindIn(functions, types, (a + [x])[k].ref).Some? {
      if k < |a| {
        assert (a + [x])[k] == a[k];
      }
    }
  }

  lemma NotAllAttachedPrefix(functions: map<string, Function>, types: map<string, TypeEntry>, a: seq<Attachment>, b: seq<Attachment>)
    requires !AllAttached(functions, types, a)
    ensures !AllAttached(functions, types, a + b)
  {
    var k :| 0 <= k < |a| && FindIn(functions, types, a[k].ref).None?;
    assert (a + b)[k] == a[k];
  }

  /** Presence is all `Extended` needs of the earlier state. */
  lemma AllAttachedThen(functions: map<string, Function>, types: map<string, TypeEntry>,
                        functions': map<string, Function>, types': map<string, TypeEntry>,
                        a: seq<Attachment>, b: seq<Attachment>)
    requires AllAttached(functions, types, a) && Extended(functions, types, functions', types', a)
    requires AllAttached(functions', types', b)
    ensures AllAttached(functions, types, a + b)
  {
    forall k | 0 <= k < |a + b| ensures FindIn(functions, types, (a + b)[k].ref).Some? {
      if k < |a| {
        assert (a + b)[k] == a[k];
      } else {
        assert (a + b)[k] == b[k - |a|];
        assert FindIn(functions', types', b[k - |a|].ref).Some?;
      }
    }
  }

  /** A block that finds an entry missing makes the whole list fail. */
  lemma BlockStuck(functions: map<string, Function>, types: map<string, TypeEntry>,
                   functions': map<string, Function>, types': map<string, TypeEntry>,
                   before: seq<Attachment>, block: seq<Attachment>, all: seq<Attachment>)
    requires before + block <= all
    requires Extended(functions, types, functions', types', before)
    requires !AllAttached(functions', types', block)
    ensures !AllAttached(functions, types, all)
  {
    var k :| 0 <= k < |block| && FindIn(functions', types', block[k].ref).None?;
    assert all[|before| + k] == block[k];
    NotAllAttached(functions, types, all, |before| + k);
  }

  /** Each entry keeps its version and gains, in order, the groups attached to it; no entry appears or vanishes. */
  ghost predicate Extended(functions: map<string, Function>, types: map<string, TypeEntry>,
                           functions': map<string, Function>, types': map<string, TypeEntry>, attachments: seq<Attachment>)
  {
    forall ref :: FindIn(functions', types', ref) ==
      match FindIn(functions, types, ref)
      case None => None
      case Some(a) => Some(a.(guards := a.guards + GroupsFor(attachments, ref)))
  }

  lemma ExtendedNothing(functions: map<string, Function>, types: map<string, TypeEntry>)
    ensures Extended(functions, types, functions, types, [])
  {
    forall ref ensures FindIn(functions, types, ref) == match FindIn(functions, types, ref)
      case None => None
      case Some(a) => Some(a.(guards := a.guards + GroupsFor([], ref)))
    {
      match FindIn(functions, types, ref)
      case None =>
      case Some(a) => assert a.guards + [] == a.guards;
    }
  }

  lemma ExtendedStep(functions: map<string, Function>, types: map<string, TypeEntry>,
                     functions': map<string, Function>, types': map<string, TypeEntry>,
                     functions'': map<string, Function>, types'': map<string, TypeEntry>,
                     done: seq<Attachment>, x: Attachment)
    requires Extended(functions, types, functions', types', done)
    requires FindIn(functions', types', x.ref).Some?
    requires FindIn(functions'', types'', x.ref) == Some(FindIn(functions', types', x.ref).value.(guards := FindIn(functions', types', x.ref).value.guards + [x.group]))
    requires forall other :: other != x.ref ==> FindIn(functions'', types'', other) == FindIn(functions', types', other)
    ensures Extended(functions, types, functions'', types'', done + [x])
  {
    assert (done + [x])[..|done|] == done;
    forall ref ensures FindIn(functions'', types'', ref) == match FindIn(functions, types, ref)
      case None => None
      case Some(a) => Some(a.(guards := a.guards + GroupsFor(done + [x], ref)))
    {
      assert GroupsFor(done + [x], ref) == GroupsFor(done, ref) + (if x.ref == ref then [x.group] else []);
      match FindIn(functions, types, ref)
      case None =>
      case Some(a) =>
        if x.ref == ref {
          assert a.guards + GroupsFor(done, ref) + [x.group] == a.guards + GroupsFor(done + [x], ref);
        } else {
          assert GroupsFor(done + [x], ref) == GroupsFor(done, ref);
        }
    }
  }

  lemma ExtendedThen(functions: map<string, Function>, types: map<string, TypeEntry>,
                     functions': map<string, Function>, types': map<string, TypeEntry>,
                     functions'': map<string, Function>, types'': map<string, TypeEntry>,
                     a: seq<Attachment>, b: seq<Attachment>)
    requires Extended(functions, types, functions', types', a) && Extended(functions', types', functions'', types'', b)
    ensures Extended(functions, types, functions'', types'', a + b)
  {
    forall ref ensures FindIn(functions'', types'', ref) == match FindIn(functions, types, ref)
      case None => None
      case Some(v) => Some(v.(guards := v.guards + GroupsFor(a + b, ref)))
    {
      GroupsForAppend(a, b, ref);
      match FindIn(functions, types, ref)
      case None =>
      case Some(v) =>
        assert v.guards + GroupsFor(a, ref) + GroupsFor(b, ref) == v.guards + GroupsFor(a + b, ref);
    }
  }

  /** The start of a block's group, built as the source builds it: the extension, then each dependency part. */
  method BaseGuards(extension: string, depends: Option<string>, flags: GuardFlags) returns (guards: GuardGroup)
    ensures guards == BaseGroup(extension, depends, flags)
  {
    guards := GuardGroup([]);
    if flags.guardExtension {
      guards := AndGuards(guards, [extension]);
    }
    if depends.Some? && flags.guardExtension {
      var parts := Split(depends.value, "+");
      ghost var g0 := guards;
      for k := 0 to |parts|
        invariant guards == DependsGroup(g0, parts[..k])
      {
        DependsGroupNext(g0, parts, k);
        guards := AndGuards(guards, Split(parts[k], ","));
      }
      assert parts[..|parts|] == parts;
    }
  }

  /** Appends a copy of the group to one entry's guards; a missing entry is a `KeyError`. */
  method AttachEntry(reg: Registry, x: Attachment,
                     ghost functions0: map<string, Function>, ghost types0: map<string, TypeEntry>,
                     ghost before: seq<Attachment>) returns (r: Result<(), string>)
    requires reg.Valid()
    requires AllAttached(functions0, types0, before) && Extended(functions0, types0, reg.functions, reg.types, before)
    modifies reg
    ensures reg.Valid()
    ensures r.Ok? <==> FindIn(functions0, types0, x.ref).Some?
    ensures r.Ok? ==> AllAttached(functions0, types0, before + [x])
    ensures r.Ok? ==> Extended(functions0, types0, reg.functions, reg.types, before + [x])
  {
    var found := FindIn(reg.functions, reg.types, x.ref);
    if found.None? {
      return Err("KeyError: " + x.ref.name);
    }
    ghost var functions1, types1 := reg.functions, reg.types;
    reg.SetAvailability(x.ref, found.value.(guards := found.value.guards + [x.group]));
    ExtendedStep(functions0, types0, functions1, types1, reg.functions, reg.types, before, x);
    AllAttachedStep(functions0, types0, before, x);
    r := Ok(());
  }

  lemma PrefixNext<T>(s: seq<T>, k: nat)
    requires k < |s|
    ensures s[..k + 1] == s[..k] + [s[k]]
  {
  }

  lemma NotAllAttached(functions: map<string, Function>, types: map<string, TypeEntry>, a: seq<Attachment>, k: nat)
    requires k < |a| && FindIn(functions, types, a[k].ref).None?
    ensures !AllAttached(functions, types, a)
  {
  }

  /** The command loop of a block: the shared group grows as listed commands require, and each command gets a copy. */
  method AttachCommands(reg: Registry, base: GuardGroup, extension: string, commands: seq<RefElement>, flags: GuardFlags)
    returns (r: Result<(), string>, guards: GuardGroup)
    requires reg.Valid()
    modifies reg
    ensures reg.Valid()
    ensures guards == GroupAfter(base, extension, commands, flags)
    ensures r.Ok? <==> AllAttached(old(reg.functions), old(reg.types), CommandAttachments(base, extension, commands, flags))
    ensures r.Ok? ==> Extended(old(reg.functions), old(reg.types), reg.functions, reg.types, CommandAttachments(base, extension, commands, flags))
  {
    ghost var functions0, types0 := reg.functions, reg.types;
    ghost var all := CommandAttachments(base, extension, commands, flags);
    ExtendedNothing(functions0, types0);
    guards := base;
    ghost var done: seq<Attachment> := [];
    for j := 0 to |commands|
      invariant reg.Valid()
      invariant guards == GroupAfter(base, extension, commands[..j], flags)
      invariant done == all[..j]
      invariant AllAttached(functions0, types0, done)
      invariant Extended(functions0, types0, reg.functions, reg.types, done)
    {
      CommandAttachmentsStep(base, extension, commands, j, flags);
      guards := SpecStep(guards, extension, commands[j].name, flags);
      var x := Attachment(FunctionRef(commands[j].name), guards);
      r := AttachEntry(reg, x, functions0, types0, done);
      if r.Err? {
        NotAllAttached(functions0, types0, all, j);
        guards := GroupAfter(base, extension, commands, flags);
        return;
      }
      PrefixNext(all, j);
      done := done + [x];
    }
    assert commands[..|commands|] == commands;
    assert all[..|commands|] == all;
    r := Ok(());
  }

  /** The type loop of a block: each type gets a copy of the final group. */
  method AttachTypes(reg: Registry, guards: GuardGroup, types: seq<RefElement>,
                     ghost functions0: map<string, Function>, ghost types0: map<string, TypeEntry>,
                     ghost before: seq<Attachment>) returns (r: Result<(), string>)
    requires reg.Valid()
    requires AllAttached(functions0, types0, before) && Extended(functions0, types0, reg.functions, reg.types, before)
    modifies reg
    ensures reg.Valid()
    ensures r.Ok? <==> AllAttached(functions0, types0, before + TypeAttachments(guards, types))
    ensures r.Ok? ==> Extended(functions0, types0, reg.functions, reg.types, before + TypeAttachments(guards, types))
  {
    ghost var all := before + TypeAttachments(guards, types);
    assert all[..|before|] == before;
    ghost var done := before;
    for j := 0 to |types|
      invariant reg.Valid()
      invariant done == all[..|before| + j]
      invariant AllAttached(functions0, types0, done)
      invariant Extended(functions0, types0, reg.functions, reg.types, done)
    {
      var x := Attachment(TypeRef(types[j].name), guards);
      assert all[|before| + j] == x;
      r := AttachEntry(reg, x, functions0, types0, done);
      if r.Err? {
        NotAllAttached(functions0, types0, all, |before| + j);
        return;
      }
      PrefixNext(all, |before| + j);
      done := done + [x];
    }
    assert all[..|before| + |types|] == all;
    r := Ok(());
  }

  /**
   * The body of the extension pass for one require block: the shared group
   * is built, then each command's entry and each type's entry gets a copy of
   * it as it stands. A missing entry is a `KeyError`.
   */
  method AttachRequire(reg: Registry, extension: string, rq: RequireElement, flags: GuardFlags) returns (r: Result<(), string>)
    requires reg.Valid()
    modifies reg
    ensures reg.Valid()
    ensures r.Ok? <==> AllAttached(old(reg.functions), old(reg.types), RequireAttachments(extension, rq, flags))
    ensures r.Ok? ==> Extended(old(reg.functions), old(reg.types), reg.functions, reg.types, RequireAttachments(extension, rq, flags))
  {
    ghost var functions0, types0 := reg.functions, reg.types;
    var base := BaseGuards(extension, rq.depends, flags);
    ghost var commands := CommandAttachments(base, extension, rq.commands, flags);
    var guards;
    r, guards := AttachCommands(reg, base, extension, rq.commands, flags);
    if r.Err? {
      NotAllAttachedPrefix(functions0, types0, commands, TypeAttachments(guards, rq.types));
      return;
    }
    r := AttachTypes(reg, guards, rq.types, functions0, types0, commands);
  }

  /** One require block, seen from the whole pass: what was attached before it stays attached, and a failure means the pass fails. */
  method AttachBlock(reg: Registry, extension: string, rq: RequireElement, flags: GuardFlags,
                     ghost functions0: map<string, Function>, ghost types0: map<string, TypeEntry>,
                     ghost before: seq<Attachment>, ghost all: seq<Attachment>) returns (r: Result<(), string>)
    requires reg.Valid()
    requires AllAttached(functions0, types0, before) && Extended(functions0, types0, reg.functions, reg.types, before)
    requires before + RequireAttachments(extension, rq, flags) <= all
    modifies reg
    ensures reg.Valid()
    ensures r.Ok? ==> AllAttached(functions0, types0, before + RequireAttachments(extension, rq, flags))
    ensures r.Ok? ==> Extended(functions0, types0, reg.functions, reg.types, before + RequireAttachments(extension, rq, flags))
    ensures r.Err? ==> !AllAttached(functions0, types0, all)
  {
    ghost var block := RequireAttachments(extension, rq, flags);
    ghost var functions1, types1 := reg.functions, reg.types;
    r := AttachRequire(reg, extension, rq, flags);
    if r.Err? {
      BlockStuck(functions0, types0, functions1, types1, before, block, all);
      return;
    }
    AllAttachedThen(functions0, types0, functions1, types1, before, block);
    ExtendedThen(functions0, types0, functions1, types1, reg.functions, reg.types, before, block);
  }

  /** The loop over one extension's require blocks. */
  method AttachExtension(reg: Registry, e: ExtensionElement, flags: GuardFlags) returns (r: Result<(), string>)
    requires reg.Valid()
    modifies reg
    ensures reg.Valid()
    ensures r.Ok? <==> AllAttached(old(reg.functions), old(reg.types), RequiresAttachments(e.name, e.blocks, flags))
    ensures r.Ok? ==> Extended(old(reg.functions), old(reg.types), reg.functions, reg.types, RequiresAttachments(e.name, e.blocks, flags))
  {
    ghost var functions0, types0 := reg.functions, reg.types;
    ghost var all := RequiresAttachments(e.name, e.blocks, flags);
    ExtendedNothing(functions0, types0);
    assert e.blocks[..0] == [];
    ghost var before: seq<Attachment> := [];
    for j := 0 to |e.blocks|
      invariant reg.Valid()
      invariant before == RequiresAttachments(e.name, e.blocks[..j], flags)
      invariant AllAttached(functions0, types0, before)
      invariant Extended(functions0, types0, reg.functions, reg.types, before)
    {
      ghost var block := RequireAttachments(e.name, e.blocks[j], flags);
      RequiresAttachmentsNext(e.name, e.blocks, j, flags);
      RequiresAttachmentsPrefix(e.name, e.blocks, j + 1, flags);
      r := AttachBlock(reg, e.name, e.blocks[j], flags, functions0, types0, before, all);
      if r.Err? {
        return;
      }
      before := before + block;
    }
    assert e.blocks[..|e.blocks|] == e.blocks;
    r := Ok(());
  }

  /** One extension, seen from the whole pass: what was attached before it stays attached, and a failure means the pass fails. */
  method AttachExtensionAt(reg: Registry, e: ExtensionElement, flags: GuardFlags,
                           ghost functions0: map<string, Function>, ghost types0: map<string, TypeEntry>,
                           ghost done: seq<Attachment>, ghost all: seq<Attachment>) returns (r: Result<(), string>)
    requires reg.Valid()
    requires AllAttached(functions0, types0, done) && Extended(functions0, types0, reg.functions, reg.types, done)
    requires done + RequiresAttachments(e.name, e.blocks, flags) <= all
    modifies reg
    ensures reg.Valid()
    ensures r.Ok? ==> AllAttached(functions0, types0, done + RequiresAttachments(e.name, e.blocks, flags))
    ensures r.Ok? ==> Extended(functions0, types0, reg.functions, reg.types, done + RequiresAttachments(e.name, e.blocks, flags))
    ensures r.Err? ==> !AllAttached(functions0, types0, all)
  {
    ghost var attached := RequiresAttachments(e.name, e.blocks, flags);
    ghost var functions1, types1 := reg.functions, reg.types;
    r := AttachExtension(reg, e, flags);
    if r.Err? {
      BlockStuck(functions0, types0, functions1, types1, done, attached, all);
      return;
    }
    AllAttachedThen(functions0, types0, functions1, types1, done, attached);
    ExtendedThen(functions0, types0, functions1, types1, reg.functions, reg.types, done, attached);
  }

  /**
   * The extension pass: every require block of every extension, in
   * document order, with no API filtering. It succeeds exactly when every
   * required entry exists, and then each entry has gained the groups
   * attached to it, in order, and nothing else has changed.
   */
  method ExtensionPass(reg: Registry, extensions: seq<ExtensionElement>, flags: GuardFlags) returns (r: Result<(), string>)
    requires reg.Valid()
    modifies reg
    ensures reg.Valid()
    ensures r.Ok? <==> AllAttached(old(reg.functions), old(reg.types), ExtensionAttachments(extensions, flags))
    ensures r.Ok? ==> Extended(old(reg.functions), old(reg.types), reg.functions, reg.types, ExtensionAttachments(extensions, flags))
  {
    ghost var functions0, types0 := reg.functions, reg.types;
    ghost var all := ExtensionAttachments(extensions, flags);
    ExtendedNothing(functions0, types0);
    for i := 0 to |extensions|
      invariant reg.Valid()
      invariant AllAttached(functions0, types0, ExtensionAttachments(extensions[..i], flags))
      invariant Extended(functions0, types0, reg.functions, reg.types, ExtensionAttachments(extensions[..i], flags))
    {
      ghost var done := ExtensionAttachments(extensions[..i], flags);
      assert extensions[..i + 1][..i] == extensions[..i];
      ExtensionAttachmentsPrefix(extensions, i + 1, flags);
      r := AttachExtensionAt(reg, extensions[i], flags, functions0, types0, done, all);
      if r.Err? {
        return;
      }
    }
    assert extensions[..|extensions|] == extensions;
    r := Ok(());
  }
}

=== FILE: vkloader_guards.dfy ===
/**
 * Availability guards of the Vulkan loader generator (codegen/cpp/vkloader.py):
 * the AND-of-ORs `GuardGroup`, the per-entry guard of types and functions,
 * the version-macro rewrite and the API-variant filter.
 */
module VkLoaderGuards {
  import opened Wrappers
  import opened Text

  /** A conjunction of groups; each group is a disjunction of conditions. */
  datatype GuardGroup = GuardGroup(groups: seq<seq<string>>)

  /** A condition with no surrounding white space and at least one character. */
  predicate CleanToken(t: string)
  {
    t != [] && !IsSpace(t[0]) && !IsSpace(t[|t| - 1])
  }

  /** Every group has a condition and every condition is clean. */
  predicate WellFormed(gg: GuardGroup)
  {
    forall i :: 0 <= i < |gg.groups| ==>
      gg.groups[i] != [] && forall j :: 0 <= j < |gg.groups[i]| ==> CleanToken(gg.groups[i][j])
  }

  /** A stripped token becomes `defined(token)` unless it holds a space. */
  function DefinedToken(g: string): string
  {
    if ' ' in g then g else "defined(" + g + ")"
  }

  /** Reads a condition back as the token it was made from. */
  function TokenOf(t: string): string
  {
    if ' ' !in t && |t| >= 9 && t[..8] == "defined(" && t[|t| - 1] == ')' then t[8..|t| - 1] else t
  }

  /** `and_guards`: appends one group made of the stripped, wrapped tokens. */
  function AndGuards(gg: GuardGroup, tokens: seq<string>): (r: GuardGroup)
    ensures |r.groups| == |gg.groups| + 1 && r.groups[..|gg.groups|] == gg.groups
    ensures |r.groups[|gg.groups|]| == |tokens|
    ensures forall i :: 0 <= i < |tokens| ==> r.groups[|gg.groups|][i] == DefinedToken(Strip(tokens[i]))
    ensures forall i :: 0 <= i < |tokens| ==> TokenOf(r.groups[|gg.groups|][i]) == Strip(tokens[i])
    ensures WellFormed(gg) && tokens != [] ==> WellFormed(r)
  {
    var group := seq(|tokens|, i requires 0 <= i < |tokens| => DefinedToken(Strip(tokens[i])));
    forall i | 0 <= i < |tokens| ensures TokenOf(group[i]) == Strip(tokens[i]) && CleanToken(group[i]) {
      DefinedTokenRoundTrip(Strip(tokens[i]));
    }
    WellFormedAppend(gg, group);
    GuardGroup(gg.groups + [group])
  }

  /** Appending a non-empty group of clean conditions keeps a guard well-formed. */
  lemma WellFormedAppend(gg: GuardGroup, group: seq<string>)
    requires forall j :: 0 <= j < |group| ==> CleanToken(group[j])
    ensures WellFormed(gg) && group != [] ==> WellFormed(GuardGroup(gg.groups + [group]))
  {
    var r := gg.groups + [group];
    forall i | 0 <= i < |r| && WellFormed(gg) && group != []
      ensures r[i] != [] && forall j :: 0 <= j < |r[i]| ==> CleanToken(r[i][j])
    {
      if i < |gg.groups| {
        assert r[i] == gg.groups[i];
      }
    }
  }

  /** Wrapping a stripped token is undone by TokenOf, and the result is clean. */
  lemma DefinedTokenRoundTrip(g: string)
    requires g == [] || (!IsSpace(g[0]) && !IsSpace(g[|g| - 1]))
    ensures TokenOf(DefinedToken(g)) == g
    ensures CleanToken(DefinedToken(g))
  {
    if ' ' !in g {
      var t := "defined(" + g + ")";
      assert t[..8] == "defined(" && t[8..|t| - 1] == g;
      assert ' ' !in t by {
        assert forall i :: 0 <= i < |t| ==> t[i] == ' ' ==> 8 <= i < |t| - 1 && g[i - 8] == ' ';
      }
    }
  }

  /** A group's disjunction, ` || `-joined. */
  function OrRender(group: seq<string>): string
  {
    Join(group, " || ")
  }

  /** A non-empty disjunction as a conjunct: parenthesised when it holds `||`. */
  function Conjunct(g: string): string
  {
    if Contains(g, "||") then "(" + g + ")" else g
  }

  /** The conjuncts of the non-empty group renders, in order. */
  function Conjuncts(groups: seq<seq<string>>): seq<string>
  {
    if groups == [] then []
    else
      var g := OrRender(groups[0]);
      (if g == "" then [] else [Conjunct(g)]) + Conjuncts(groups[1..])
  }

  /** `GuardGroup.parse_guards`. */
  function ParseGuards(gg: GuardGroup): (r: string)
    ensures Trimmed(r)
    ensures gg.groups == [] ==> r == ""
  {
    if gg.groups == [] then ""
    else
      StripIsTrimmed(Join(Conjuncts(gg.groups), " && "));
      Strip(Join(Conjuncts(gg.groups), " && "))
  }

  // --- Facts about joins of clean pieces ------------------------------------

  predicate AllClean(parts: seq<string>)
  {
    forall i :: 0 <= i < |parts| ==> CleanToken(parts[i])
  }

  lemma {:induction false} JoinClean(parts: seq<string>, sep: string)
    requires AllClean(parts) && parts != []
    ensures var j := Join(parts, sep); j != [] && j[0] == parts[0][0] && j[|j| - 1] == parts[|parts| - 1][|parts[|parts| - 1]| - 1]
    decreases |parts|
  {
    if |parts| > 1 {
      var rest := parts[1..];
      assert AllClean(rest) by {
        forall i | 0 <= i < |rest| ensures rest[i] == parts[i + 1] { }
      }
      assert rest[|rest| - 1] == parts[|parts| - 1];
      JoinClean(rest, sep);
      assert Join(parts, sep) == parts[0] + sep + Join(rest, sep);
    }
  }

  lemma {:induction false} JoinAppend(parts: seq<string>, x: string, sep: string)
    requires parts != []
    ensures Join(parts + [x], sep) == Join(parts, sep) + sep + x
    decreases |parts|
  {
    if |parts| > 1 {
      assert (parts + [x])[1..] == parts[1..] + [x];
      JoinAppend(parts[1..], x, sep);
    }
  }

  lemma {:induction false} ConjunctsAppend(groups: seq<seq<string>>, g: seq<string>)
    ensures Conjuncts(groups + [g]) == Conjuncts(groups) + Conjuncts([g])
    decreases |groups|
  {
    if groups != [] {
      assert (groups + [g])[1..] == groups[1..] + [g];
      ConjunctsAppend(groups[1..], g);
    } else {
      assert groups + [g] == [g];
    }
  }

  lemma {:induction false} ConjunctsClean(groups: seq<seq<string>>)
    requires WellFormed(GuardGroup(groups))
    ensures AllClean(Conjuncts(groups))
    ensures |Conjuncts(groups)| == |groups|
    decreases |groups|
  {
    if groups != [] {
      assert WellFormed(GuardGroup(groups[1..])) by {
        forall i | 0 <= i < |groups[1..]| ensures groups[1..][i] == groups[i + 1] { }
      }
      ConjunctsClean(groups[1..]);
      OrRenderClean(groups[0]);
    }
  }

  lemma OrRenderClean(group: seq<string>)
    requires group != [] && AllClean(group)
    ensures CleanToken(OrRender(group)) && CleanToken(Conjunct(OrRender(group)))
  {
    JoinClean(group, " || ");
  }

  /** A well-formed group value renders as the plain join of its conjuncts. */
  lemma ParseGuardsJoin(gg: GuardGroup)
    requires WellFormed(gg)
    ensures ParseGuards(gg) == Join(Conjuncts(gg.groups), " && ")
    ensures ParseGuards(gg) == "" <==> gg.groups == []
  {
    ConjunctsClean(gg.groups);
    var parts := Conjuncts(gg.groups);
    if parts != [] {
      JoinClean(parts, " && ");
      StripTrimmed(Join(parts, " && "));
    }
  }

  /** Appending a well-formed group appends its conjunct. */
  lemma ParseGuardsAppend(gs: seq<seq<string>>, g: seq<string>)
    requires WellFormed(GuardGroup(gs + [g]))
    ensures WellFormed(GuardGroup(gs))
    ensures var c := Conjunct(OrRender(g));
      var before := ParseGuards(GuardGroup(gs));
      ParseGuards(GuardGroup(gs + [g])) == if before == "" then c else before + " && " + c
  {
    assert WellFormed(GuardGroup(gs)) by {
      forall i | 0 <= i < |gs| ensures gs[i] == (gs + [g])[i] { }
    }
    assert g == (gs + [g])[|gs|];
    OrRenderClean(g);
    var c := Conjunct(OrRender(g));
    ConjunctsAppend(gs, g);
    assert Conjuncts([g]) == [c];
    ParseGuardsJoin(GuardGroup(gs + [g]));
    ParseGuardsJoin(GuardGroup(gs));
    var parts := Conjuncts(gs);
    if parts == [] {
      assert parts + [c] == [c];
    } else {
      JoinAppend(parts, c, " && ");
    }
  }

  /**
   * `and_guards` adds exactly one conjunct to the rendered condition: the
   * new group's disjunction, parenthesised when it has several alternatives.
   */
  lemma AndGuardsAddsConjunct(gg: GuardGroup, tokens: seq<string>)
    requires WellFormed(gg) && tokens != []
    ensures var r := AndGuards(gg, tokens);
      var c := Conjunct(OrRender(r.groups[|gg.groups|]));
      ParseGuards(r) == if ParseGuards(gg) == "" then c else ParseGuards(gg) + " && " + c
  {
    var r := AndGuards(gg, tokens);
    var g := r.groups[|gg.groups|];
    assert r.groups == gg.groups + [g];
    ParseGuardsAppend(gg.groups, g);
  }

  // --- Version macros ---------------------------------------------------------

  const ApiVersionMacro := "VKIT_API_VERSION"
  const VersionPrefixes: seq<string> := ["VK_VERSION", "VK_BASE_VERSION", "VK_COMPUTE_VERSION", "VK_GRAPHICS_VERSION"]

  /** `fix_version_macro`: the four prefixes are rewritten in list order. */
  function FixVersionMacro(version: string): string
  {
    var v1 := Replace(version, VersionPrefixes[0], ApiVersionMacro);
    var v2 := Replace(v1, VersionPrefixes[1], ApiVersionMacro);
    var v3 := Replace(v2, VersionPrefixes[2], ApiVersionMacro);
    Replace(v3, VersionPrefixes[3], ApiVersionMacro)
  }

  /** No suffix of the replacement text starts a name beginning with `VK_`. */
  lemma MacroNoPartial(q: string)
    requires |q| >= 3 && q[..3] == "VK_"
    ensures NoPartial(ApiVersionMacro, q)
  {
    var m := ApiVersionMacro;
    forall k | 0 <= k < |m| ensures !Compatible(m[k..], q) {
      if k == 0 {
        DiffersAt(m, q, 2);
      } else if k == 9 {
        DiffersAt(m[k..], q, 1);
      } else {
        DiffersAt(m[k..], q, 0);
      }
    }
  }

  /** No proper suffix of a name whose every inner `V` is followed by `E` starts the replacement text. */
  lemma MacroNoInner(q: string)
    requires forall k :: 1 <= k < |q| && q[k] == 'V' ==> k + 1 < |q| && q[k + 1] == 'E'
    ensures NoInner(q, ApiVersionMacro)
  {
    var m := ApiVersionMacro;
    forall k | 1 <= k < |q| ensures !Compatible(q[k..], m) {
      if q[k] == 'V' {
        DiffersAt(q[k..], m, 1);
      } else {
        DiffersAt(q[k..], m, 0);
      }
    }
  }

  /** The replacement text can neither end nor start an occurrence of a prefix. */
  lemma MacroCannotOverlap(i: nat)
    requires i < |VersionPrefixes|
    ensures NoPartial(ApiVersionMacro, VersionPrefixes[i])
    ensures NoInner(VersionPrefixes[i], ApiVersionMacro)
  {
    var q := VersionPrefixes[i];
    assert q[..3] == "VK_";
    MacroNoPartial(q);
    assert forall k :: 1 <= k < |q| && q[k] == 'V' ==> k + 1 < |q| && q[k + 1] == 'E' by {
      forall k | 1 <= k < |q| && q[k] == 'V' ensures k + 1 < |q| && q[k + 1] == 'E' {
        assert k == |q| - 7;
      }
    }
    MacroNoInner(q);
  }

  /** After the rewrite none of the four prefixes is left. */
  lemma FixVersionMacroRemovesPrefixes(version: string)
    ensures forall i :: 0 <= i < |VersionPrefixes| ==> NoOcc(FixVersionMacro(version), VersionPrefixes[i])
  {
    var m := ApiVersionMacro;
    var p0, p1, p2, p3 := VersionPrefixes[0], VersionPrefixes[1], VersionPrefixes[2], VersionPrefixes[3];
    MacroCannotOverlap(0);
    MacroCannotOverlap(1);
    MacroCannotOverlap(2);
    MacroCannotOverlap(3);
    var v1 := Replace(version, p0, m);
    NoOccAfterReplace(version, p0, m, p0);
    var v2 := Replace(v1, p1, m);
    NoOccAfterReplace(v1, p1, m, p1);
    NoOccAfterReplace(v1, p1, m, p0);
    var v3 := Replace(v2, p2, m);
    NoOccAfterReplace(v2, p2, m, p2);
    NoOccAfterReplace(v2, p2, m, p1);
    NoOccAfterReplace(v2, p2, m, p0);
    NoOccAfterReplace(v3, p3, m, p3);
    NoOccAfterReplace(v3, p3, m, p2);
    NoOccAfterReplace(v3, p3, m, p1);
    NoOccAfterReplace(v3, p3, m, p0);
  }

  /**
   * Rewriting twice is rewriting once, so the feature pass may re-apply the
   * rewrite to its running version name without changing it.
   */
  lemma FixVersionMacroIdempotent(version: string)
    ensures FixVersionMacro(FixVersionMacro(version)) == FixVersionMacro(version)
  {
    var v := FixVersionMacro(version);
    FixVersionMacroRemovesPrefixes(version);
    ReplaceAbsent(v, VersionPrefixes[0], ApiVersionMacro);
    ReplaceAbsent(v, VersionPrefixes[1], ApiVersionMacro);
    ReplaceAbsent(v, VersionPrefixes[2], ApiVersionMacro);
    ReplaceAbsent(v, VersionPrefixes[3], ApiVersionMacro);
  }

  // --- Entry guards ------------------------------------------------------------

  /** A non-empty group render as a disjunct: parenthesised when it holds `&&`. */
  function Disjunct(g: string): string
  {
    if Contains(g, "&&") then "(" + g + ")" else g
  }

  /** The disjunct a group contributes: none when it renders empty. */
  function DisjunctOf(gg: GuardGroup): seq<string>
  {
    var g := ParseGuards(gg);
    if g == "" then [] else [Disjunct(g)]
  }

  /** The disjuncts of the non-empty group renders of an entry, in order. */
  function Disjuncts(groups: seq<GuardGroup>): seq<string>
  {
    if groups == [] then [] else DisjunctOf(groups[0]) + Disjuncts(groups[1..])
  }

  /** `Type.parse_guards`. */
  function TypeGuard(groups: seq<GuardGroup>): string
  {
    FixVersionMacro(Strip(Join(Disjuncts(groups), " || ")))
  }

  /** The functions whose declaration changed with a header version, with that version. */
  const BrokenFunctions: map<string, nat> := map[
    "vkGetLatencyTimingsNV" := 271,
    "vkCmdSetDiscardRectangleEnableEXT" := 241,
    "vkCmdSetDiscardRectangleModeEXT" := 241,
    "vkCmdSetExclusiveScissorEnableNV" := 241,
    "vkCmdInitializeGraphScratchMemoryAMDX" := 298,
    "vkCmdDispatchGraphAMDX" := 298,
    "vkCmdDispatchGraphIndirectAMDX" := 298,
    "vkCmdDispatchGraphIndirectCountAMDX" := 298
  ]

  function HeaderVersionCondition(n: nat): string
  {
    "VK_HEADER_VERSION >= " + NatToString(n)
  }

  /** `Function.parse_guards`. */
  function FunctionGuard(name: string, groups: seq<GuardGroup>): string
  {
    var guards := FixVersionMacro(Join(Disjuncts(groups), " || "));
    if name !in BrokenFunctions then Strip(guards)
    else
      var hv := HeaderVersionCondition(BrokenFunctions[name]);
      if guards == "" then hv else Strip(hv + " && (" + guards + ")")
  }

  /** Every disjunct is a non-empty condition with no surrounding white space. */
  lemma {:induction false} DisjunctsClean(groups: seq<GuardGroup>)
    ensures AllClean(Disjuncts(groups))
    decreases |groups|
  {
    if groups != [] {
      DisjunctsClean(groups[1..]);
      DisjunctOfClean(groups[0]);
    }
  }

  lemma DisjunctOfClean(gg: GuardGroup)
    ensures AllClean(DisjunctOf(gg))
  {
    var g := ParseGuards(gg);
    if g != "" {
      var d := Disjunct(g);
      assert d[0] == g[0] || d[0] == '(';
      assert d[|d| - 1] == g[|g| - 1] || d[|d| - 1] == ')';
    }
  }

  lemma {:induction false} DisjunctsAppend(groups: seq<GuardGroup>, g: GuardGroup)
    ensures Disjuncts(groups + [g]) == Disjuncts(groups) + Disjuncts([g])
    decreases |groups|
  {
    if groups != [] {
      assert (groups + [g])[1..] == groups[1..] + [g];
      DisjunctsAppend(groups[1..], g);
    } else {
      assert groups + [g] == [g];
    }
  }

  /** The ` || `-join of an entry's disjuncts needs no `strip`. */
  lemma EntryJoinTrimmed(groups: seq<GuardGroup>)
    ensures Trimmed(Join(Disjuncts(groups), " || "))
  {
    DisjunctsClean(groups);
    if Disjuncts(groups) != [] {
      JoinClean(Disjuncts(groups), " || ");
    }
  }

  /** The version-macro rewrite keeps a trimmed condition trimmed, and empty exactly when it was. */
  lemma FixVersionMacroTrimmed(v: string)
    requires Trimmed(v)
    ensures Trimmed(FixVersionMacro(v))
    ensures FixVersionMacro(v) == "" <==> v == ""
  {
    var m := ApiVersionMacro;
    assert m[0] == 'V' && m[|m| - 1] == 'N';
    var v1 := Replace(v, VersionPrefixes[0], m);
    ReplaceTrimmed(v, VersionPrefixes[0], m);
    var v2 := Replace(v1, VersionPrefixes[1], m);
    ReplaceTrimmed(v1, VersionPrefixes[1], m);
    var v3 := Replace(v2, VersionPrefixes[2], m);
    ReplaceTrimmed(v2, VersionPrefixes[2], m);
    ReplaceTrimmed(v3, VersionPrefixes[3], m);
  }

  /** No version prefix holds a space, so the rewrite never reaches across ` || `. */
  lemma FixVersionMacroAround(a: string, b: string)
    ensures FixVersionMacro(a + " || " + b) == FixVersionMacro(a) + " || " + FixVersionMacro(b)
  {
    var m := ApiVersionMacro;
    forall i | 0 <= i < |VersionPrefixes| ensures |VersionPrefixes[i]| > 2 && ' ' !in VersionPrefixes[i] {
      var q := VersionPrefixes[i];
      assert forall k :: 0 <= k < |q| ==> q[k] != ' ';
    }
    var a1, b1 := Replace(a, VersionPrefixes[0], m), Replace(b, VersionPrefixes[0], m);
    ReplaceAroundBars(a, b, VersionPrefixes[0], m);
    var a2, b2 := Replace(a1, VersionPrefixes[1], m), Replace(b1, VersionPrefixes[1], m);
    ReplaceAroundBars(a1, b1, VersionPrefixes[1], m);
    var a3, b3 := Replace(a2, VersionPrefixes[2], m), Replace(b2, VersionPrefixes[2], m);
    ReplaceAroundBars(a2, b2, VersionPrefixes[2], m);
    ReplaceAroundBars(a3, b3, VersionPrefixes[3], m);
  }

  /**
   * Adding a guard group to an entry adds one disjunct to its guard: the
   * group's rendering, parenthesised when it holds `&&`, with its version
   * macros rewritten. A group that renders empty adds nothing.
   */
  lemma TypeGuardAppend(groups: seq<GuardGroup>, g: GuardGroup)
    ensures var d := ParseGuards(g);
      var before := TypeGuard(groups);
      var added := FixVersionMacro(Disjunct(d));
      TypeGuard(groups + [g]) == if d == "" then before else if before == "" then added else before + " || " + added
  {
    var d := ParseGuards(g);
    var parts := Disjuncts(groups);
    DisjunctsAppend(groups, g);
    assert Disjuncts([g]) == DisjunctOf(g) by {
      assert [g][1..] == [];
    }
    DisjunctsClean(groups + [g]);
    EntryJoinTrimmed(groups);
    EntryJoinTrimmed(groups + [g]);
    var j := Join(parts, " || ");
    StripTrimmed(j);
    StripTrimmed(Join(Disjuncts(groups + [g]), " || "));
    FixVersionMacroTrimmed(j);
    if d == "" {
      assert Disjuncts(groups + [g]) == parts;
    } else if parts == [] {
      assert Disjuncts(groups + [g]) == [Disjunct(d)];
    } else {
      JoinAppend(parts, Disjunct(d), " || ");
      FixVersionMacroAround(j, Disjunct(d));
    }
  }

  /** An entry with no guard groups has the empty guard. */
  lemma NoGroupsNoGuard(name: string)
    ensures TypeGuard([]) == ""
    ensures name !in BrokenFunctions ==> FunctionGuard(name, []) == ""
  {
    assert Join([], " || ") == "";
    assert FixVersionMacro("") == "";
  }

  /**
   * A function's guard is its guard as a type, except that a function listed
   * in `broken_functions` is also guarded by the header version: by that test
   * alone when its own guard is empty, and ANDed with its parenthesised guard
   * otherwise.
   */
  lemma FunctionGuardOfTypeGuard(name: string, groups: seq<GuardGroup>)
    ensures name !in BrokenFunctions ==> FunctionGuard(name, groups) == TypeGuard(groups)
    ensures name in BrokenFunctions ==>
      var g := TypeGuard(groups);
      var hv := HeaderVersionCondition(BrokenFunctions[name]);
      FunctionGuard(name, groups) == if g == "" then hv else hv + " && (" + g + ")"
  {
    var j := Join(Disjuncts(groups), " || ");
    EntryJoinTrimmed(groups);
    StripTrimmed(j);
    FixVersionMacroTrimmed(j);
    var g := FixVersionMacro(j);
    if name !in BrokenFunctions {
      StripTrimmed(g);
    } else if g != "" {
      var s := HeaderVersionCondition(BrokenFunctions[name]) + " && (" + g + ")";
      assert s[0] == 'V' && s[|s| - 1] == ')';
      StripTrimmed(s);
    }
  }

  // --- API variant filter ----------------------------------------------------------

  const ApiKeys: seq<string> := ["api", "supported", "export"]

  /** A comma-separated list names the variant. */
  predicate InList(list: string, variant: string)
  {
    variant in Split(list, ",")
  }

  /** The attribute is absent, or its list names the variant. */
  predicate ListsVariant(attributes: map<string, string>, variant: string, key: string)
  {
    key in attributes ==> InList(attributes[key], variant)
  }

  /** The loop of `check_api` from the `i`-th attribute name on. */
  function CheckApiFrom(attributes: map<string, string>, variant: string, strict: bool, i: nat): bool
    requires i <= |ApiKeys|
    decreases |ApiKeys| - i
  {
    if i == |ApiKeys| then !strict
    else if !ListsVariant(attributes, variant, ApiKeys[i]) then false
    else CheckApiFrom(attributes, variant, strict, i + 1)
  }

  /** `check_api`: an element passes unless one of its API lists lacks the variant. */
  function CheckApi(attributes: map<string, string>, variant: string, strict: bool): bool
  {
    CheckApiFrom(attributes, variant, strict, 0)
  }

  lemma {:induction false} CheckApiFromMeaning(attributes: map<string, string>, variant: string, strict: bool, i: nat)
    requires i <= |ApiKeys|
    ensures CheckApiFrom(attributes, variant, strict, i) <==>
      !strict && forall j :: i <= j < |ApiKeys| ==> ListsVariant(attributes, variant, ApiKeys[j])
    decreases |ApiKeys| - i
  {
    if i < |ApiKeys| {
      CheckApiFromMeaning(attributes, variant, strict, i + 1);
    }
  }

  /**
   * `check_api` holds exactly when the check is not strict and every present
   * `api`, `supported` and `export` list names the variant; in particular a
   * strict check never passes.
   */
  lemma CheckApiMeaning(attributes: map<string, string>, variant: string, strict: bool)
    ensures CheckApi(attributes, variant, strict) <==>
      !strict && forall key :: key in ApiKeys ==> ListsVariant(attributes, variant, key)
  {
    CheckApiFromMeaning(attributes, variant, strict, 0);
    assert forall key :: key in ApiKeys <==> exists j :: 0 <= j < |ApiKeys| && ApiKeys[j] == key;
  }
}

=== FILE: vkloader_passes.dfy ===
/**
 * The passes of the Vulkan loader generator (codegen/cpp/vkloader.py) that
 * fill the registry from the elements of the Vulkan registry: dispatchable
 * handles, type and command declarations, their alias sweeps, and the
 * feature and extension passes that record availability.
 */
module VkLoaderPasses {
  import opened Wrappers
  import opened Text
  import opened VkLoaderGuards
  import opened VkLoaderRegistry

  /** A `<type category="handle">` element: its API attributes, its name and its text. */
  datatype HandleElement = HandleElement(attributes: map<string, string>, name: string, text: string)

  /** A `<type>` or `<enum>` element. */
  datatype TypeElement = TypeElement(attributes: map<string, string>, name: string, alias: Option<string>)

  /** A `<param>` element: the text of its `<name>` and its whole text. */
  datatype ParamElement = ParamElement(attributes: map<string, string>, name: string, text: string)

  /** A `<command>` element; an alias command has only a name and an alias. */
  datatype CommandElement = CommandElement(
    attributes: map<string, string>, name: string, alias: Option<string>,
    returnType: string, params: seq<ParamElement>)

  // --- Dispatchable handles --------------------------------------------------------

  predicate IsDispatchableHandle(h: HandleElement, variant: string)
  {
    CheckApi(h.attributes, variant, false) && Contains(h.text, "VK_DEFINE_HANDLE")
  }

  /** The names of the handles defined with `VK_DEFINE_HANDLE` for the selected API. */
  method CollectDispatchables(handles: seq<HandleElement>, variant: string) returns (r: set<string>)
    ensures forall n :: n in r <==> exists i :: 0 <= i < |handles| && IsDispatchableHandle(handles[i], variant) && handles[i].name == n
  {
    r := {};
    for k := 0 to |handles|
      invariant forall n :: n in r <==> exists i :: 0 <= i < k && IsDispatchableHandle(handles[i], variant) && handles[i].name == n
    {
      if CheckApi(handles[k].attributes, variant, false) && Contains(handles[k].text, "VK_DEFINE_HANDLE") {
        r := r + {handles[k].name};
      }
    }
  }

  // --- Types ---------------------------------------------------------------------

  predicate DeclaresType(e: TypeElement, variant: string)
  {
    CheckApi(e.attributes, variant, false) && e.alias.None?
  }

  predicate DeclaresTypeAlias(e: TypeElement, variant: string)
  {
    CheckApi(e.attributes, variant, false) && e.alias.Some?
  }

  /** `parse_types` without the alias sweep: every declared type gets a fresh entry. */
  method ParseTypes(reg: Registry, elements: seq<TypeElement>, variant: string)
    requires reg.Valid()
    modifies reg
    ensures reg.Valid()
    ensures reg.functions == old(reg.functions) && reg.functionOrder == old(reg.functionOrder)
    ensures reg.typeAliases == old(reg.typeAliases)
    ensures forall e :: e in elements && DeclaresType(e, variant) ==>
      e.name in reg.types && reg.types[e.name] == TypeEntry(e.name, Unregistered)
    ensures forall n :: n in reg.types ==>
      (n in old(reg.types) && reg.types[n] == old(reg.types[n]))
      || exists e :: e in elements && DeclaresType(e, variant) && e.name == n
  {
    for i := 0 to |elements|
      invariant reg.Valid()
      invariant reg.functions == old(reg.functions) && reg.functionOrder == old(reg.functionOrder)
      invariant reg.typeAliases == old(reg.typeAliases)
      invariant forall e :: e in elements[..i] && DeclaresType(e, variant) ==>
        e.name in reg.types && reg.types[e.name] == TypeEntry(e.name, Unregistered)
      invariant forall n :: n in reg.types ==>
        (n in old(reg.types) && reg.types[n] == old(reg.types[n]))
        || exists e :: e in elements[..i] && DeclaresType(e, variant) && e.name == n
    {
      var e := elements[i];
      assert elements[..i + 1] == elements[..i] + [e];
      if CheckApi(e.attributes, variant, false) && e.alias.None? {
        reg.SetType(TypeEntry(e.name, Unregistered));
      }
    }
  }

  /**
   * `n` is the renamed copy an alias element of `es` made of the type it
   * aliases, and is recorded among that type's aliases.
   */
  ghost predicate AliasCopy(types: map<string, TypeEntry>, typeAliases: map<string, seq<string>>,
                            es: seq<TypeElement>, variant: string, n: string)
    requires n in types
  {
    exists e :: e in es && DeclaresTypeAlias(e, variant) && e.name == n
      && e.alias.value in types && types[n] == types[e.alias.value].(name := n)
      && e.alias.value in typeAliases && n in typeAliases[e.alias.value]
  }

  /** An alias copy stays one while types are only added and alias lists only grow. */
  lemma AliasCopyGrows(types: map<string, TypeEntry>, typeAliases: map<string, seq<string>>, es: seq<TypeElement>,
                       types': map<string, TypeEntry>, typeAliases': map<string, seq<string>>, es': seq<TypeElement>,
                       variant: string, n: string)
    requires n in types && AliasCopy(types, typeAliases, es, variant, n)
    requires forall k :: k in types ==> k in types' && types'[k] == types[k]
    requires forall k :: k in typeAliases ==> k in typeAliases' && forall x :: x in typeAliases[k] ==> x in typeAliases'[k]
    requires forall e :: e in es ==> e in es'
    ensures n in types' && AliasCopy(types', typeAliases', es', variant, n)
  {
    var e :| e in es && DeclaresTypeAlias(e, variant) && e.name == n
      && e.alias.value in types && types[n] == types[e.alias.value].(name := n)
      && e.alias.value in typeAliases && n in typeAliases[e.alias.value];
    assert e in es';
  }

  /**
   * One element of the alias sweep: an alias not yet known is recorded in
   * `type_aliases`, then becomes a renamed copy of the type it aliases, or
   * fails when that type is unknown.
   */
  method SweepTypeAlias(reg: Registry, e: TypeElement, variant: string) returns (ok: bool)
    requires reg.Valid()
    modifies reg
    ensures reg.Valid()
    ensures reg.functions == old(reg.functions) && reg.functionOrder == old(reg.functionOrder)
    ensures forall n :: n in old(reg.types) ==> n in reg.types && reg.types[n] == old(reg.types[n])
    ensures forall k :: k in old(reg.typeAliases) ==>
      k in reg.typeAliases && forall x :: x in old(reg.typeAliases[k]) ==> x in reg.typeAliases[k]
    ensures forall n :: n in reg.types && n !in old(reg.types) ==>
      n == e.name && DeclaresTypeAlias(e, variant) && e.alias.value in reg.types
      && reg.types[n] == reg.types[e.alias.value].(name := n)
      && e.alias.value in reg.typeAliases && n in reg.typeAliases[e.alias.value]
    ensures ok ==> (DeclaresTypeAlias(e, variant) ==> e.name in reg.types)
    ensures !ok ==> DeclaresTypeAlias(e, variant) && e.alias.value !in reg.types
  {
    ok := true;
    if CheckApi(e.attributes, variant, false) && e.alias.Some? && e.name !in reg.types {
      var alias := e.alias.value;
      var known := if alias in reg.typeAliases then reg.typeAliases[alias] else [];
      reg.typeAliases := reg.typeAliases[alias := known + [e.name]];
      if alias !in reg.types {
        return false;
      }
      reg.SetType(reg.types[alias].(name := e.name));
    }
  }

  /**
   * The alias sweep of `parse_types`: an alias not yet known is recorded in
   * `type_aliases` and becomes a renamed copy of the type it aliases; an
   * alias of an unknown type is an error.
   */
  method SweepTypeAliases(reg: Registry, elements: seq<TypeElement>, variant: string) returns (r: Result<(), string>)
    requires reg.Valid()
    modifies reg
    ensures reg.Valid()
    ensures reg.functions == old(reg.functions) && reg.functionOrder == old(reg.functionOrder)
    ensures forall n :: n in old(reg.types) ==> n in reg.types && reg.types[n] == old(reg.types[n])
    ensures forall n :: n in reg.types && n !in old(reg.types) ==> AliasCopy(reg.types, reg.typeAliases, elements, variant, n)
    ensures r.Ok? ==> forall e :: e in elements && DeclaresTypeAlias(e, variant) ==> e.name in reg.types
    ensures r.Err? ==> exists e :: e in elements && DeclaresTypeAlias(e, variant) && e.alias.value !in reg.types
  {
    for i := 0 to |elements|
      invariant reg.Valid()
      invariant reg.functions == old(reg.functions) && reg.functionOrder == old(reg.functionOrder)
      invariant forall n :: n in old(reg.types) ==> n in reg.types && reg.types[n] == old(reg.types[n])
      invariant forall n :: n in reg.types && n !in old(reg.types) ==>
        AliasCopy(reg.types, reg.typeAliases, elements[..i], variant, n)
      invariant forall e :: e in elements[..i] && DeclaresTypeAlias(e, variant) ==> e.name in reg.types
    {
      var e := elements[i];
      assert elements[..i + 1] == elements[..i] + [e];
      ghost var types, aliases := reg.types, reg.typeAliases;
      var ok := SweepTypeAlias(reg, e, variant);
      forall n | n in reg.types && n !in old(reg.types)
        ensures AliasCopy(reg.types, reg.typeAliases, elements[..i + 1], variant, n)
      {
        if n in types {
          AliasCopyGrows(types, aliases, elements[..i], reg.types, reg.typeAliases, elements[..i + 1], variant, n);
        } else {
          assert e in elements[..i + 1];
        }
      }
      if !ok {
        assert e in elements;
        return Err("KeyError: " + e.alias.value);
      }
    }
    r := Ok(());
  }

  // --- Commands ----------------------------------------------------------------------

  predicate DeclaresCommand(e: CommandElement, variant: string)
  {
    CheckApi(e.attributes, variant, false) && e.alias.None?
  }

  predicate DeclaresCommandAlias(e: CommandElement, variant: string)
  {
    CheckApi(e.attributes, variant, false) && e.alias.Some?
  }

  /** The `<param>` elements kept for the selected API. */
  function KeptParams(params: seq<ParamElement>, variant: string): (r: seq<ParamElement>)
    ensures |r| <= |params|
  {
    if params == [] then []
    else (if CheckApi(params[0].attributes, variant, false) then [params[0]] else []) + KeptParams(params[1..], variant)
  }

  /** The split of every kept parameter; the first one that cannot be split is the error. */
  function ParseParameters(params: seq<ParamElement>, variant: string): Result<seq<Parameter>, string>
  {
    if params == [] then Ok([])
    else if !CheckApi(params[0].attributes, variant, false) then ParseParameters(params[1..], variant)
    else
      match ParseParameter(params[0].name, params[0].text)
      case Err(e) => Err(e)
      case Ok(p) => After([p], ParseParameters(params[1..], variant))
  }

  /** Splitting fails exactly when a kept parameter has an empty name. */
  lemma {:induction false} ParseParametersFails(params: seq<ParamElement>, variant: string)
    ensures ParseParameters(params, variant).Err? <==> exists p :: p in KeptParams(params, variant) && p.name == []
  {
    if params != [] {
      ParseParametersFails(params[1..], variant);
      if CheckApi(params[0].attributes, variant, false) {
        assert KeptParams(params, variant) == [params[0]] + KeptParams(params[1..], variant);
      } else {
        assert KeptParams(params, variant) == KeptParams(params[1..], variant);
      }
    }
  }

  function ParameterNames(ps: seq<Parameter>): seq<string>
  {
    if ps == [] then [] else [ps[0].name] + ParameterNames(ps[1..])
  }

  function ElementNames(es: seq<ParamElement>): seq<string>
  {
    if es == [] then [] else [es[0].name] + ElementNames(es[1..])
  }

  /** A successful split has one parameter per kept element, with its name, in order. */
  lemma {:induction false} ParseParametersNames(params: seq<ParamElement>, variant: string)
    requires ParseParameters(params, variant).Ok?
    ensures ParameterNames(ParseParameters(params, variant).value) == ElementNames(KeptParams(params, variant))
  {
    if params != [] {
      var tail := KeptParams(params[1..], variant);
      ParseParametersNames(params[1..], variant);
      var rest := ParseParameters(params[1..], variant).value;
      if CheckApi(params[0].attributes, variant, false) {
        var kept := [params[0]] + tail;
        assert KeptParams(params, variant) == kept;
        var p := ParseParameter(params[0].name, params[0].text).value;
        var ps := [p] + rest;
        assert ParseParameters(params, variant).value == ps;
        assert ps[1..] == rest && kept[1..] == tail;
      } else {
        assert KeptParams(params, variant) == tail;
      }
    }
  }

  /** The parameters split so far followed by the split of the rest. */
  function After(parsed: seq<Parameter>, rest: Result<seq<Parameter>, string>): Result<seq<Parameter>, string>
  {
    match rest
    case Ok(ps) => Ok(parsed + ps)
    case Err(e) => Err(e)
  }

  lemma AfterAppend(parsed: seq<Parameter>, p: Parameter, rest: Result<seq<Parameter>, string>)
    ensures After(parsed, After([p], rest)) == After(parsed + [p], rest)
  {
    match rest {
      case Ok(ps) => assert parsed + ([p] + ps) == parsed + [p] + ps;
      case Err(_) =>
    }
  }

  /** The parameter loop of `parse_commands`. */
  method ParseCommandParameters(params: seq<ParamElement>, variant: string) returns (r: Result<seq<Parameter>, string>)
    ensures r == ParseParameters(params, variant)
  {
    var parsed: seq<Parameter> := [];
    assert params[0..] == params;
    match ParseParameters(params, variant) {
      case Ok(ps) => assert [] + ps == ps;
      case Err(_) =>
    }
    for i := 0 to |params|
      invariant ParseParameters(params, variant) == After(parsed, ParseParameters(params[i..], variant))
    {
      assert params[i..][1..] == params[i + 1..] && params[i..][0] == params[i];
      var p := params[i];
      if CheckApi(p.attributes, variant, false) {
        var split := ParseParameter(p.name, p.text);
        if split.Err? {
          return Err(split.error);
        }
        AfterAppend(parsed, split.value, ParseParameters(params[i + 1..], variant));
        parsed := parsed + [split.value];
      }
    }
    assert params[|params|..] == [] && parsed + [] == parsed;
    r := Ok(parsed);
  }

  /** The entry `parse_commands` builds for a declared command. */
  function CommandEntry(e: CommandElement, params: seq<Parameter>, dispatchables: set<string>): (fn: Function)
    ensures fn.name == e.name && fn.returnType == e.returnType && fn.params == params
    ensures DispatchRule(fn, dispatchables) && Shaped(fn)
    ensures fn.availability == Unregistered
  {
    Function(e.name, e.returnType, params, params != [] && params[0].tp in dispatchables, Unregistered)
  }

  /**
   * `parse_commands` without the alias sweep: every declared command gets an
   * entry whose parameters are its kept, split parameters and which is
   * dispatchable iff its first parameter is a dispatchable handle.
   */
  method ParseCommands(reg: Registry, elements: seq<CommandElement>, dispatchables: set<string>, variant: string)
    returns (r: Result<(), string>)
    requires reg.Valid()
    modifies reg
    ensures reg.Valid()
    ensures reg.types == old(reg.types) && reg.typeOrder == old(reg.typeOrder) && reg.typeAliases == old(reg.typeAliases)
    ensures forall n :: n in reg.functions ==>
      (n in old(reg.functions) && reg.functions[n] == old(reg.functions[n]))
      || exists e :: e in elements && DeclaresCommand(e, variant) && e.name == n
           && ParseParameters(e.params, variant) == Ok(reg.functions[n].params)
           && reg.functions[n] == CommandEntry(e, reg.functions[n].params, dispatchables)
    ensures r.Ok? <==> forall e :: e in elements && DeclaresCommand(e, variant) ==> ParseParameters(e.params, variant).Ok?
    ensures r.Ok? ==> forall e :: e in elements && DeclaresCommand(e, variant) ==>
      e.name in reg.functions && DispatchRule(reg.functions[e.name], dispatchables)
  {
    for i := 0 to |elements|
      invariant reg.Valid()
      invariant reg.types == old(reg.types) && reg.typeOrder == old(reg.typeOrder) && reg.typeAliases == old(reg.typeAliases)
      invariant forall n :: n in reg.functions ==>
        (n in old(reg.functions) && reg.functions[n] == old(reg.functions[n]))
        || exists e :: e in elements[..i] && DeclaresCommand(e, variant) && e.name == n
             && ParseParameters(e.params, variant) == Ok(reg.functions[n].params)
             && reg.functions[n] == CommandEntry(e, reg.functions[n].params, dispatchables)
      invariant forall e :: e in elements[..i] && DeclaresCommand(e, variant) ==>
        ParseParameters(e.params, variant).Ok? && e.name in reg.functions && DispatchRule(reg.functions[e.name], dispatchables)
    {
      var e := elements[i];
      assert elements[..i + 1] == elements[..i] + [e];
      if CheckApi(e.attributes, variant, false) && e.alias.None? {
        var params := ParseCommandParameters(e.params, variant);
        if params.Err? {
          return Err(params.error);
        }
        ghost var before := reg.functions;
        reg.SetFunction(CommandEntry(e, params.value, dispatchables));
        forall e' | e' in elements[..i + 1] && DeclaresCommand(e', variant)
          ensures ParseParameters(e'.params, variant).Ok? && e'.name in reg.functions && DispatchRule(reg.functions[e'.name], dispatchables)
        {
          if e'.name != e.name {
            assert e' in elements[..i];
          }
        }
      }
    }
    r := Ok(());
  }

  // --- Command aliases ---------------------------------------------------------------

  /** Python `s.replace(p, r)`; an empty pattern puts `r` before, between and after the characters. */
  function PyReplace(s: string, p: string, r: string): string
  {
    if p == [] then InsertAround(s, r) else Replace(s, p, r)
  }

  function InsertAround(s: string, r: string): string
  {
    if s == [] then r else r + [s[0]] + InsertAround(s[1..], r)
  }

  /** The type name inside a parameter type: without `const`, `*` and `struct`, stripped. */
  function CleanTypeName(tp: string): string
  {
    Strip(Replace(Replace(Replace(tp, "const", ""), "*", ""), "struct", ""))
  }

  /**
   * A parameter of an alias command: same name and bounds; a type naming an
   * aliased type names one of that type's aliases instead.
   */
  ghost predicate Retyped(before: Parameter, after: Parameter, aliases: map<string, seq<string>>)
  {
    after.name == before.name && after.bounds == before.bounds
    && var c := CleanTypeName(before.tp);
    if c in aliases then exists m :: m in aliases[c] && after.tp == PyReplace(before.tp, c, m)
    else after.tp == before.tp
  }

  /** One step of the parameter loop of the command alias sweep. */
  method RetypeParameter(p: Parameter, aliases: map<string, seq<string>>) returns (q: Parameter)
    requires forall a :: a in aliases ==> aliases[a] != []
    ensures Retyped(p, q, aliases)
  {
    var c := CleanTypeName(p.tp);
    if c !in aliases {
      return p;
    }
    NonEmptyHasMember(aliases[c]);
    var closest :| closest in aliases[c];
    q := p.(tp := PyReplace(p.tp, c, closest));
    RetypedWith(p, aliases, c, closest);
  }

  /** Appending the retyped next parameter keeps every earlier one retyped. */
  lemma RetypedAppend(params: seq<Parameter>, ps: seq<Parameter>, q: Parameter, aliases: map<string, seq<string>>)
    requires |ps| < |params| && Retyped(params[|ps|], q, aliases)
    requires forall k :: 0 <= k < |ps| ==> Retyped(params[k], ps[k], aliases)
    ensures forall k :: 0 <= k < |ps| + 1 ==> Retyped(params[k], (ps + [q])[k], aliases)
  {
    forall k | 0 <= k < |ps| + 1
      ensures Retyped(params[k], (ps + [q])[k], aliases)
    {
      if k < |ps| {
        assert (ps + [q])[k] == ps[k];
      } else {
        assert (ps + [q])[k] == q;
      }
    }
  }

  lemma NonEmptyHasMember(xs: seq<string>)
    requires xs != []
    ensures exists x :: x in xs
  {
    assert xs[0] in xs;
  }

  /** Replacing the cleaned type name by one of its aliases retypes the parameter. */
  lemma RetypedWith(p: Parameter, aliases: map<string, seq<string>>, c: string, m: string)
    requires c == CleanTypeName(p.tp) && c in aliases && m in aliases[c]
    ensures Retyped(p, p.(tp := PyReplace(p.tp, c, m)), aliases)
  {
  }

  /**
   * The parameter loop of the command alias sweep. Which alias the closest
   * match picks is left open: any member of the alias list.
   */
  method RetypeParameters(params: seq<Parameter>, aliases: map<string, seq<string>>) returns (ps: seq<Parameter>)
    requires forall a :: a in aliases ==> aliases[a] != []
    ensures |ps| == |params|
    ensures forall i :: 0 <= i < |params| ==> Retyped(params[i], ps[i], aliases)
  {
    ps := [];
    for i := 0 to |params|
      invariant |ps| == i
      invariant forall k :: 0 <= k < i ==> Retyped(params[k], ps[k], aliases)
    {
      var q := RetypeParameter(params[i], aliases);
      RetypedAppend(params, ps, q, aliases);
      ps := ps + [q];
    }
  }

  /** An alias command's entry: a renamed copy of the aliased function with retyped parameters. */
  ghost predicate AliasOf(fn: Function, original: Function, aliases: map<string, seq<string>>)
  {
    fn.returnType == original.returnType && fn.dispatchable == original.dispatchable
    && fn.availability == original.availability && |fn.params| == |original.params|
    && forall i :: 0 <= i < |fn.params| ==> Retyped(original.params[i], fn.params[i], aliases)
  }

  /** `n` is the renamed, retyped copy an alias element of `es` made of the command it aliases. */
  ghost predicate CommandCopy(functions: map<string, Function>, typeAliases: map<string, seq<string>>,
                              es: seq<CommandElement>, variant: string, n: string)
    requires n in functions
  {
    exists e :: e in es && DeclaresCommandAlias(e, variant) && e.name == n
      && e.alias.value in functions && AliasOf(functions[n], functions[e.alias.value], typeAliases)
  }

  /** A command copy stays one while functions are only added. */
  lemma CommandCopyGrows(functions: map<string, Function>, es: seq<CommandElement>,
                         functions': map<string, Function>, es': seq<CommandElement>,
                         typeAliases: map<string, seq<string>>, variant: string, n: string)
    requires n in functions && CommandCopy(functions, typeAliases, es, variant, n)
    requires forall k :: k in functions ==> k in functions' && functions'[k] == functions[k]
    requires forall e :: e in es ==> e in es'
    ensures n in functions' && CommandCopy(functions', typeAliases, es', variant, n)
  {
    var e :| e in es && DeclaresCommandAlias(e, variant) && e.name == n
      && e.alias.value in functions && AliasOf(functions[n], functions[e.alias.value], typeAliases);
    assert e in es';
  }

  /** One element of the command alias sweep. */
  method SweepCommandAlias(reg: Registry, e: CommandElement, variant: string) returns (ok: bool)
    requires reg.Valid()
    modifies reg
    ensures reg.Valid()
    ensures reg.types == old(reg.types) && reg.typeOrder == old(reg.typeOrder) && reg.typeAliases == old(reg.typeAliases)
    ensures forall n :: n in old(reg.functions) ==> n in reg.functions && reg.functions[n] == old(reg.functions[n])
    ensures forall n :: n in reg.functions && n !in old(reg.functions) ==>
      n == e.name && DeclaresCommandAlias(e, variant)
      && e.alias.value in reg.functions && AliasOf(reg.functions[n], reg.functions[e.alias.value], reg.typeAliases)
    ensures ok ==> (DeclaresCommandAlias(e, variant) ==> e.name in reg.functions)
    ensures !ok ==> DeclaresCommandAlias(e, variant) && e.alias.value !in reg.functions
  {
    ok := true;
    if CheckApi(e.attributes, variant, false) && e.alias.Some? && e.name !in reg.functions {
      var alias := e.alias.value;
      if alias !in reg.functions {
        return false;
      }
      var original := reg.functions[alias];
      var params := RetypeParameters(original.params, reg.typeAliases);
      reg.SetFunction(original.(name := e.name, params := params));
    }
  }

  /**
   * The alias sweep of `parse_commands`: an alias command not yet known
   * becomes a renamed copy of the command it aliases, with retyped
   * parameters; an alias of an unknown command is an error.
   */
  method SweepCommandAliases(reg: Registry, elements: seq<CommandElement>, variant: string) returns (r: Result<(), string>)
    requires reg.Valid()
    modifies reg
    ensures reg.Valid()
    ensures reg.types == old(reg.types) && reg.typeOrder == old(reg.typeOrder) && reg.typeAliases == old(reg.typeAliases)
    ensures forall n :: n in old(reg.functions) ==> n in reg.functions && reg.functions[n] == old(reg.functions[n])
    ensures forall n :: n in reg.functions && n !in old(reg.functions) ==>
      CommandCopy(reg.functions, reg.typeAliases, elements, variant, n)
    ensures r.Ok? ==> forall e :: e in elements && DeclaresCommandAlias(e, variant) ==> e.name in reg.functions
    ensures r.Err? ==> exists e :: e in elements && DeclaresCommandAlias(e, variant) && e.alias.value !in reg.functions
  {
    for i := 0 to |elements|
      invariant reg.Valid()
      invariant reg.types == old(reg.types) && reg.typeOrder == old(reg.typeOrder) && reg.typeAliases == old(reg.typeAliases)
      invariant forall n :: n in old(reg.functions) ==> n in reg.functions && reg.functions[n] == old(reg.functions[n])
      invariant forall n :: n in reg.functions && n !in old(reg.functions) ==>
        CommandCopy(reg.functions, reg.typeAliases, elements[..i], variant, n)
      invariant forall e :: e in elements[..i] && DeclaresCommandAlias(e, variant) ==> e.name in reg.functions
    {
      var e := elements[i];
      assert elements[..i + 1] == elements[..i] + [e];
      ghost var functions := reg.functions;
      var ok := SweepCommandAlias(reg, e, variant);
      forall n | n in reg.functions && n !in old(reg.functions)
        ensures CommandCopy(reg.functions, reg.typeAliases, elements[..i + 1], variant, n)
      {
        if n in functions {
          CommandCopyGrows(functions, elements[..i], reg.functions, elements[..i + 1], reg.typeAliases, variant, n);
        } else {
          assert e in elements[..i + 1];
        }
      }
      if !ok {
        assert e in elements;
        return Err("KeyError: " + e.alias.value);
      }
    }
    r := Ok(());
  }
}

=== FILE: vkloader_registry.dfy ===
/**
 * The entries of the Vulkan loader generator (codegen/cpp/vkloader.py):
 * parameters, functions and types, how a parameter declaration is split,
 * how functions are sorted into the global, instance and device tables,
 * the timeline text, and the registry dictionaries the passes fill.
 */
module VkLoaderRegistry {
  import opened Wrappers
  import opened Text
  import opened VkLoaderGuards

  /** One function parameter: its name, its type text and its optional `[N]` bounds. */
  datatype Parameter = Parameter(name: string, tp: string, bounds: Option<string>)

  /** What the feature and extension passes record about an entry. */
  datatype Availability = Availability(availableSince: Option<string>, guards: seq<GuardGroup>)

  const Unregistered := Availability(None, [])

  datatype Function = Function(name: string, returnType: string, params: seq<Parameter>, dispatchable: bool, availability: Availability)

  datatype TypeEntry = TypeEntry(name: string, availability: Availability)

  // --- Parameters -------------------------------------------------------------------

  /** `Parameter.as_string`. */
  function ParameterText(p: Parameter): string
  {
    match p.bounds
    case Some(a) => p.tp + " " + p.name + a
    case None => p.tp + " " + p.name
  }

  /** The stripped text from the first `[` to the first `]`, when the declaration has both. */
  function ArraySuffix(full: string): Option<string>
  {
    var open, close := IndexOf(full, "["), IndexOf(full, "]");
    if open.Some? && close.Some? then
      // Python's slice is empty when the `]` comes before the `[`.
      if open.value <= close.value + 1 then Some(Strip(full[open.value..close.value + 1])) else Some("")
    else None
  }

  /**
   * Splits the text of a `<param>` element: the type is the stripped text
   * before the last occurrence of the name.
   */
  function SplitParameter(name: string, text: string): (p: Parameter)
    ensures p.name == name
  {
    var full := Strip(text);
    var before := match LastIndexOf(full, name) case Some(i) => full[..i] case None => full;
    Parameter(name, Strip(before), ArraySuffix(full))
  }

  /** Splitting on an empty name is an error. */
  function ParseParameter(name: string, text: string): (r: Result<Parameter, string>)
    ensures r.Err? <==> name == []
    ensures r.Ok? ==> r.value.name == name
  {
    if name == [] then Err("empty separator") else Ok(SplitParameter(name, text))
  }

  predicate NoBrackets(s: string)
  {
    '[' !in s && ']' !in s
  }

  /** A `[...]` suffix with no bracket inside. */
  predicate ArrayText(a: string)
  {
    |a| >= 2 && a[0] == '[' && a[|a| - 1] == ']' && NoBrackets(a[1..|a| - 1])
  }

  /** The first index of a one-character needle is the first index holding it. */
  lemma IndexOfChar(s: string, c: char, k: nat)
    requires k < |s| && s[k] == c && forall i :: 0 <= i < k ==> s[i] != c
    ensures IndexOf(s, [c]) == Some(k)
  {
    OccursChar(s, c);
    IndexOfIs(s, [c], k);
  }

  /** In `u + name + a`, no occurrence of the name starts after `|u|`. */
  lemma NoLaterName(u: string, name: string, a: string)
    requires name != [] && '[' !in name
    requires a == [] || (a[0] == '[' && !Contains(a, name))
    ensures forall j :: |u| < j ==> !OccursAt(u + name + a, name, j)
  {
    var full := u + name + a;
    var e := |u| + |name|;
    if a != [] {
      AbsentNoOccurs(a, name);
    }
    forall j | |u| < j ensures !OccursAt(full, name, j) {
      if j + |name| <= |full| {
        if j < e {
          assert full[j..j + |name|][e - j] == a[0];
        } else {
          assert full[j..j + |name|] == a[j - e..j - e + |name|];
          assert !OccursAt(a, name, j - e);
        }
      }
    }
  }

  /** In `tp + " " + name + a`, the last occurrence of the name is the one after the space. */
  lemma LastOccurrenceOfName(tp: string, name: string, a: string)
    requires name != [] && '[' !in name
    requires a == [] || (a[0] == '[' && !Contains(a, name))
    ensures LastIndexOf(tp + " " + name + a, name) == Some(|tp| + 1)
  {
    var u := tp + " ";
    assert tp + " " + name + a == u + name + a;
    assert (u + name + a)[|u|..|u| + |name|] == name;
    NoLaterName(u, name, a);
    LastIndexOfIs(u + name + a, name, |u|);
  }

  /** Stripping a clean type followed by a space gives the type back. */
  lemma StripSpaceAfter(tp: string)
    requires CleanToken(tp)
    ensures Strip(tp + " ") == tp
  {
    var s := tp + " ";
    assert TrimLeft(s) == s;
    assert TrimRight(s) == s[..|TrimRight(s)|];
  }

  /** In `u + a` for a bracket-free `u` and a bracketed `a`, `[` first occurs where `a` starts. */
  lemma OpenBracketOf(u: string, a: string)
    requires NoBrackets(u) && ArrayText(a)
    ensures IndexOf(u + a, "[") == Some(|u|)
  {
    var full := u + a;
    assert forall i :: 0 <= i < |u| ==> full[i] == u[i];
    IndexOfChar(full, '[', |u|);
  }

  /** In `u + a` for a bracket-free `u` and a bracketed `a`, `]` first occurs at the end. */
  lemma CloseBracketOf(u: string, a: string)
    requires NoBrackets(u) && ArrayText(a)
    ensures IndexOf(u + a, "]") == Some(|u + a| - 1)
  {
    var full := u + a;
    var inner := a[1..|a| - 1];
    forall i | 0 <= i < |full| - 1 ensures full[i] != ']' {
      if i < |u| {
        assert full[i] == u[i];
      } else if i > |u| {
        assert full[i] == inner[i - |u| - 1];
      }
    }
    IndexOfChar(full, ']', |full| - 1);
  }

  /** A bracket-free declaration has no bounds. */
  lemma NoBounds(u: string)
    requires NoBrackets(u)
    ensures ArraySuffix(u) == None
  {
    OccursChar(u, '[');
  }

  /** The bounds of `u + a`, for a bracket-free `u` and a bracketed `a`, are `a`. */
  lemma BoundsOfDeclaration(u: string, a: string)
    requires NoBrackets(u) && ArrayText(a)
    ensures ArraySuffix(u + a) == Some(a)
  {
    assert a[0] == '[' && a[|a| - 1] == ']';
    StripTrimmed(a);
    BracketsOf(u, a);
    assert (u + a)[|u|..] == a;
  }

  /** In `u + a` the bounds are the stripped text from where `a` starts. */
  lemma BracketsOf(u: string, a: string)
    requires NoBrackets(u) && ArrayText(a)
    ensures ArraySuffix(u + a) == Some(Strip((u + a)[|u|..]))
  {
    OpenBracketOf(u, a);
    CloseBracketOf(u, a);
    ArraySuffixToEnd(u + a, |u|);
  }

  /** When the first `]` is the last character, the bounds run from the first `[` to the end. */
  lemma ArraySuffixToEnd(full: string, i: nat)
    requires i < |full| && IndexOf(full, "[") == Some(i) && IndexOf(full, "]") == Some(|full| - 1)
    ensures ArraySuffix(full) == Some(Strip(full[i..]))
  {
    ArraySuffixAt(full, i, |full| - 1);
    SliceToEnd(full, i);
  }

  lemma SliceToEnd<T>(s: seq<T>, i: nat)
    requires i < |s|
    ensures s[i..|s| - 1 + 1] == s[i..]
  {
  }

  lemma ArraySuffixAt(full: string, i: nat, j: nat)
    requires IndexOf(full, "[") == Some(i) && IndexOf(full, "]") == Some(j) && i <= j + 1
    ensures ArraySuffix(full) == Some(Strip(full[i..j + 1]))
  {
    var open, close := IndexOf(full, "["), IndexOf(full, "]");
    assert open.value == i && close.value == j;
  }

  /**
   * A declaration written by `Parameter.as_string` from a clean type, a clean
   * name and a bracketed suffix that does not repeat the name splits back
   * into the same parameter.
   */
  lemma ParseParameterText(p: Parameter)
    requires CleanToken(p.name) && NoBrackets(p.name)
    requires CleanToken(p.tp) && NoBrackets(p.tp)
    requires p.bounds.Some? ==> ArrayText(p.bounds.value) && !Contains(p.bounds.value, p.name)
    ensures ParseParameter(p.name, ParameterText(p)) == Ok(p)
  {
    var a := if p.bounds.Some? then p.bounds.value else "";
    assert ParameterText(p) == p.tp + " " + p.name + a;
    DeclarationIsStripped(p.tp, p.name, a);
    LastOccurrenceOfName(p.tp, p.name, a);
    TypePartOf(p.tp, p.name, a);
    BoundsPartOf(p.tp, p.name, a);
    SplitDeclaration(p.name, p.tp + " " + p.name + a, |p.tp| + 1);
  }

  /** The text before the name, stripped, is the type. */
  lemma TypePartOf(tp: string, name: string, a: string)
    requires CleanToken(tp)
    ensures Strip((tp + " " + name + a)[..|tp| + 1]) == tp
  {
    assert (tp + " " + name + a)[..|tp| + 1] == tp + " ";
    StripSpaceAfter(tp);
  }

  /** The bounds of a declaration are its bracketed suffix, if any. */
  lemma BoundsPartOf(tp: string, name: string, a: string)
    requires NoBrackets(tp) && NoBrackets(name)
    requires a == [] || ArrayText(a)
    ensures ArraySuffix(tp + " " + name + a) == if a == [] then None else Some(a)
  {
    var u := tp + " " + name;
    if a == [] {
      assert u + a == u;
      NoBounds(u);
    } else {
      BoundsOfDeclaration(u, a);
    }
  }

  /** A stripped declaration whose name last occurs at `k` splits at `k`. */
  lemma SplitDeclaration(name: string, full: string, k: nat)
    requires name != [] && Strip(full) == full && LastIndexOf(full, name) == Some(k)
    ensures k <= |full|
    ensures ParseParameter(name, full) == Ok(Parameter(name, Strip(full[..k]), ArraySuffix(full)))
  {
    assert SplitParameter(name, full) == Parameter(name, Strip(full[..k]), ArraySuffix(full));
  }

  /** A declaration built from clean parts has no surrounding white space. */
  lemma DeclarationIsStripped(tp: string, name: string, a: string)
    requires CleanToken(tp) && CleanToken(name)
    requires a == [] || ArrayText(a)
    ensures Strip(tp + " " + name + a) == tp + " " + name + a
  {
    var full := tp + " " + name + a;
    assert full[0] == tp[0];
    assert full[|full| - 1] == if a == [] then name[|name| - 1] else ']';
    StripTrimmed(full);
  }

  // --- Functions ----------------------------------------------------------------------

  /** A function is dispatchable iff it has parameters and the first one's type is a dispatchable handle. */
  predicate DispatchRule(fn: Function, dispatchables: set<string>)
  {
    fn.dispatchable <==> fn.params != [] && fn.params[0].tp in dispatchables
  }

  /** Reading `params[0]` of a dispatchable function is safe. */
  predicate Shaped(fn: Function)
  {
    fn.dispatchable ==> fn.params != []
  }

  /**
   * `is_instance_function`. The source reads the name of the loop variable
   * `fn` rather than of `self`, so the name is a separate argument.
   */
  predicate IsInstanceFunction(self: Function, current: string)
    requires Shaped(self)
  {
    current != "vkGetInstanceProcAddr" && current != "vkCreateInstance"
    && self.dispatchable
    && (self.params[0].tp == "VkInstance" || self.params[0].tp == "VkPhysicalDevice" || current == "vkGetDeviceProcAddr")
  }

  /** `is_device_function`, with the same reading of the loop variable. */
  predicate IsDeviceFunction(self: Function, current: string)
    requires Shaped(self)
  {
    current != "vkGetDeviceProcAddr"
    && self.dispatchable
    && self.params[0].tp != "VkInstance" && self.params[0].tp != "VkPhysicalDevice"
  }

  /**
   * No function is both an instance and a device function: the instance test
   * wants an instance or physical-device first parameter or the name
   * `vkGetDeviceProcAddr`, and the device test excludes all three.
   */
  lemma InstanceNotDevice(self: Function, current: string)
    requires Shaped(self)
    ensures !(IsInstanceFunction(self, current) && IsDeviceFunction(self, current))
    ensures self.dispatchable && current != "vkGetInstanceProcAddr" && current != "vkCreateInstance" ==>
              IsInstanceFunction(self, current) || IsDeviceFunction(self, current)
  {
  }

  datatype Table = GlobalTable | InstanceTable | DeviceTable

  /** The table a function is emitted into: instance, device, or global when neither. */
  function TableOf(fn: Function): (t: Table)
    requires Shaped(fn)
    ensures t == InstanceTable <==> IsInstanceFunction(fn, fn.name)
    ensures t == DeviceTable <==> IsDeviceFunction(fn, fn.name)
    ensures t == GlobalTable <==> !IsInstanceFunction(fn, fn.name) && !IsDeviceFunction(fn, fn.name)
  {
    if IsInstanceFunction(fn, fn.name) then InstanceTable
    else if IsDeviceFunction(fn, fn.name) then DeviceTable
    else GlobalTable
  }

  /** The names, in order, whose function goes to table `t`. */
  function Section(fns: seq<Function>, t: Table): (r: seq<string>)
    requires forall i :: 0 <= i < |fns| ==> Shaped(fns[i])
    ensures |r| <= |fns|
  {
    if fns == [] then []
    else (if TableOf(fns[0]) == t then [fns[0].name] else []) + Section(fns[1..], t)
  }

  function Names(fns: seq<Function>): seq<string>
  {
    if fns == [] then [] else [fns[0].name] + Names(fns[1..])
  }

  /**
   * The three emission filters partition the functions: every function is
   * emitted in exactly one of the global section, the instance table and the
   * device table.
   */
  lemma {:induction false} SectionsPartition(fns: seq<Function>)
    requires forall i :: 0 <= i < |fns| ==> Shaped(fns[i])
    ensures multiset(Section(fns, GlobalTable)) + multiset(Section(fns, InstanceTable)) + multiset(Section(fns, DeviceTable))
      == multiset(Names(fns))
    ensures |Section(fns, GlobalTable)| + |Section(fns, InstanceTable)| + |Section(fns, DeviceTable)| == |fns|
  {
    if fns != [] {
      SectionsPartition(fns[1..]);
    }
  }

  // --- Timeline ---------------------------------------------------------------------

  /** One line of the exported timeline. */
  function TimelineLine(name: string, guard: string): string
  {
    if guard != "" then name + " -> " + guard + "\n" else name + " - No requirements\n"
  }

  /** Reads a timeline line back as the entry name and its guard. */
  function ReadTimelineLine(line: string): Option<(string, string)>
  {
    match IndexOf(line, " ")
    case None => None
    case Some(i) =>
      var rest := line[i..];
      if rest == " - No requirements\n" then Some((line[..i], ""))
      else if |rest| >= 5 && rest[..4] == " -> " && rest[|rest| - 1] == '\n' then Some((line[..i], rest[4..|rest| - 1]))
      else None
  }

  /** A timeline line names its entry and its guard unambiguously. */
  lemma TimelineRoundTrip(name: string, guard: string)
    requires name != [] && ' ' !in name
    ensures ReadTimelineLine(TimelineLine(name, guard)) == Some((name, guard))
  {
    var line := TimelineLine(name, guard);
    IndexOfChar(line, ' ', |name|);
    assert line[..|name|] == name;
    if guard != "" {
      var rest := line[|name|..];
      assert line == name + (" -> " + guard + "\n");
      assert rest == " -> " + guard + "\n";
      assert rest[2] == '>';
      assert rest[..4] == " -> " && rest[4..|rest| - 1] == guard;
    } else {
      assert line[|name|..] == " - No requirements\n";
    }
  }

  // --- The registry ---------------------------------------------------------------------

  /** The functions stored under the given keys, in key order. */
  function FunctionsIn(order: seq<string>, fns: map<string, Function>): (r: seq<Function>)
    requires forall n :: n in order ==> n in fns
    ensures |r| == |order|
    ensures forall i :: 0 <= i < |r| ==> r[i] == fns[order[i]]
  {
    if order == [] then [] else [fns[order[0]]] + FunctionsIn(order[1..], fns)
  }

  /** Entries are addressed by kind and name. */
  datatype EntryRef = FunctionRef(name: string) | TypeRef(name: string)

  /** What the dictionaries record about an entry, if it exists. */
  function FindIn(functions: map<string, Function>, types: map<string, TypeEntry>, ref: EntryRef): Option<Availability>
  {
    match ref
    case FunctionRef(n) => if n in functions then Some(functions[n].availability) else None
    case TypeRef(n) => if n in types then Some(types[n].availability) else None
  }

  predicate Distinct<T(==)>(s: seq<T>)
  {
    forall i, j :: 0 <= i < j < |s| ==> s[i] != s[j]
  }

  /** The `functions`, `types` and `type_aliases` dictionaries, with their insertion order. */
  class Registry {
    var functions: map<string, Function>
    var functionOrder: seq<string>
    var types: map<string, TypeEntry>
    var typeOrder: seq<string>
    var typeAliases: map<string, seq<string>>

    /** Keys are the entries' own names, the order lists each key once, alias lists are not empty. */
    ghost predicate Valid()
      reads this
    {
      (forall n :: n in functions <==> n in functionOrder) && Distinct(functionOrder)
      && (forall n :: n in types <==> n in typeOrder) && Distinct(typeOrder)
      && (forall n :: n in functions ==> functions[n].name == n && Shaped(functions[n]))
      && (forall n :: n in types ==> types[n].name == n)
      && (forall a :: a in typeAliases ==> typeAliases[a] != [])
    }

    constructor()
      ensures Valid()
      ensures functions == map[] && types == map[] && typeAliases == map[]
      ensures functionOrder == [] && typeOrder == []
    {
      functions, functionOrder := map[], [];
      types, typeOrder := map[], [];
      typeAliases := map[];
    }

    /** The functions in dictionary order. */
    function FunctionList(): (r: seq<Function>)
      reads this
      requires Valid()
      ensures |r| == |functionOrder|
      ensures forall i :: 0 <= i < |r| ==> r[i] == functions[functionOrder[i]] && Shaped(r[i])
    {
      FunctionsIn(functionOrder, functions)
    }

    /** `functions[fn.name] = fn`: a new key goes to the end of the order, an old one keeps its place. */
    method SetFunction(fn: Function)
      requires Valid() && Shaped(fn)
      modifies this
      ensures Valid()
      ensures functions == old(functions)[fn.name := fn]
      ensures functionOrder == if fn.name in old(functions) then old(functionOrder) else old(functionOrder) + [fn.name]
      ensures types == old(types) && typeOrder == old(typeOrder) && typeAliases == old(typeAliases)
    {
      if fn.name !in functions {
        functionOrder := functionOrder + [fn.name];
      }
      functions := functions[fn.name := fn];
    }

    /** `types[t.name] = t`, with the same ordering rule. */
    method SetType(t: TypeEntry)
      requires Valid()
      modifies this
      ensures Valid()
      ensures types == old(types)[t.name := t]
      ensures typeOrder == if t.name in old(types) then old(typeOrder) else old(typeOrder) + [t.name]
      ensures functions == old(functions) && functionOrder == old(functionOrder) && typeAliases == old(typeAliases)
    {
      if t.name !in types {
        typeOrder := typeOrder + [t.name];
      }
      types := types[t.name := t];
    }

    /** Replaces what is recorded about a present entry; nothing else changes. */
    method SetAvailability(ref: EntryRef, a: Availability)
      requires Valid() && FindIn(functions, types, ref).Some?
      modifies this
      ensures Valid()
      ensures FindIn(functions, types, ref) == Some(a)
      ensures forall other :: other != ref ==> FindIn(functions, types, other) == old(FindIn(functions, types, other))
      ensures functions.Keys == old(functions.Keys) && types.Keys == old(types.Keys)
      ensures functionOrder == old(functionOrder) && typeOrder == old(typeOrder) && typeAliases == old(typeAliases)
      ensures forall n :: n in functions ==> functions[n].(availability := Unregistered) == old(functions[n]).(availability := Unregistered)
    {
      match ref
      case FunctionRef(n) =>
        functions := functions[n := functions[n].(availability := a)];
      case TypeRef(n) =>
        types := types[n := types[n].(availability := a)];
    }
  }
}

=== FILE: wrappers.dfy ===
/** Option and Result values shared by every module of the model. */
module Wrappers {
  datatype Option<T> = None | Some(value: T)

  /** A computation that either produced a value or failed with an error. */
  datatype Result<T, E> = Ok(value: T) | Err(error: E)
}
